=== FILE: README.md ===
# DICOM routing console — a Dafny model of its decision logic

The console lets a signed-in user upload DICOM files, see them grouped as
patients and series, pick a destination (a DICOM peer: AE title, host,
port) for each series, and send them. Every send is written to an audit log.
It has two halves:

- a React client (`frontend/src`): the credential store and the
  authenticated request wrapper, the upload channel, the authentication
  context, the dashboard that builds send batches and polls their status,
  the patient/series list and the transfer-volume chart;
- a Django API (`backend/`):
  - the import, send and status endpoints over a process-wide series cache;
  - the grouping of file metadata into patients and series;
  - the storescu/echoscu outcome mapping;
  - the transfer-log record and its list endpoint;
  - destination validation and access;
  - the authentication endpoints.

The model is functional. Rows, trees, tokens and logs are immutable
datatypes. Every handler is a pure function from the state it reads to the
state it leaves and the reply it gives. Whatever the code cannot see is a
parameter:

- the server's replies, as a sequence consumed in order;
- the clock;
- the UUID of an import session;
- the files that exist;
- the outcome of running a DCMTK tool;
- the date parser and the calendar day of a timestamp;
- the token checker;
- the username/e-mail format checks.

One Dafny module stands for one source file, or for one concern of a file.
Four shared modules support them:

- `Wrappers`: Option and Result;
- `JsonValue`: JSON values with JavaScript and Python truthiness;
- `Text`: strip, split/join, integer printing and parsing, ordering, case
  folding;
- `Sorting`: a stable insertion sort by key, filtering, keys and sums.

## Model

| member | source | states |
|---|---|---|
| TokenStore.Load | frontend/src/api.js:11-12 | the pair read at load is the stored copy of each token, or empty when none is stored; the storage is kept as it is |
| TokenStore.SetTokens | frontend/src/api.js:14-23 | only a non-empty token replaces the held one and its stored copy; an empty or omitted one leaves it as it was; no other stored key changes |
| TokenStore.ClearTokens | frontend/src/api.js:25-30 | both tokens end empty and both stored copies are removed; every other stored key is kept |
| TokenStore.MutationsArePersisted | frontend/src/api.js:14-30 | every set and clear writes through, so the pair held always equals what a reload would read |
| TokenStore.ClearAfterSet | frontend/src/api.js:14-30 | clearing after any set leaves the same state as clearing alone |
| AuthClient.PrepareHeaders | frontend/src/api.js:33-42 | JSON content type added only when the body is not form data and the caller set none; the bearer header iff the access token is non-empty; no other header touched |
| AuthClient.FetchWithAuth | frontend/src/api.js:32-70 | the request goes first with the current credential; a 401 with the retry flag and a refresh token triggers exactly one refresh call; a refused refresh clears the store and returns the original 401; a refresh that gets no answer, whose ok body does not parse, or whose body is `null` rejects (transport, parse and type error respectively) without re-sending and leaves the store; any other reply is returned as it came |
| AuthClient.RetryIsBounded | frontend/src/api.js:49-69 | per logical call at most one refresh and at most two sends; with the retry flag off, one send and no refresh |
| AuthClient.RefreshThenRetry | frontend/src/api.js:59-63 | a successful refresh stores the new access token and re-issues the request once with it; the re-issued reply, a second 401 included, is the result |
| AuthClient.CheckedJson | frontend/src/api.js:78-79 | a reply succeeds iff its status is ok and it has a JSON body; an error status throws its body |
| AuthClient.Login | frontend/src/api.js:73-82 | the login goes through the authenticated fetch; a successful reply stores both tokens it carries, except that a `null` body rejects; a failure leaves the store as the fetch left it |
| AuthClient.Logout | frontend/src/api.js:94-101 | without a refresh token nothing is sent and nothing changes; otherwise exactly the calls of one authenticated logout fetch carrying the refresh token are made, the result succeeds iff that fetch did not reject, the tokens end cleared when it succeeds whatever the reply status, and a rejection passes the fetch's error and store through |
| AuthClient.LogoutAnswered | frontend/src/api.js:94-101 | a logout answered with any status but 401 is one request and ends with the store cleared; a lost connection rejects and leaves the store as it was |
| AuthClient.NormalizeList | frontend/src/api.js:112-114 | a bare array is returned as it is; otherwise the truthy `results` member, else an empty array; a `null` body throws |
| AuthClient.GetDestinations | frontend/src/api.js:109-115 | the outcome is the normalised body exactly when the authenticated fetch succeeds with a body, and that fetch's error otherwise; tokens and calls are the fetch's |
| AuthClient.DestinationsAtOnce | frontend/src/api.js:109-115 | a list the server sends at once costs one request with the current credential: an array as it is, a paginated body as its `results`, and a `null` body refused |
| AuthClient.Register | frontend/src/api.js:84-92 | one plain request with the JSON content type and no token, consuming one reply; the store never changes; success iff the reply is ok with a body, and the result is that body; a refusal with a body throws that body |
| UploadChannel.Settle | frontend/src/api.js:202-238 | a 2xx reply resolves with its parsed body, or fails with "Failed to parse response"; any other status rejects with its parsed body, or with "Upload failed with status N" |
| UploadChannel.ImportDicom | frontend/src/api.js:179-269 | the first attempt carries the current credential; abort and network error give distinct failures and leave the tokens; a non-401 load settles at once; a 401 with a refresh token whose refresh fails or is refused ends as an authentication failure with the store cleared after exactly the upload and the failed refresh; a granted refresh is followed by the upload again carrying the new access token; an authentication failure leaves both tokens empty |
| UploadChannel.ImportDicomRetries | frontend/src/api.js:209-221 | every attempt after the first follows exactly one successful refresh; a successful upload has made one attempt more than it refreshed |
| UploadChannel.EveryRefusalIsReuploaded | frontend/src/api.js:209-221 | a server that refuses n times while refreshes succeed gets n + 1 full uploads and n refreshes, for every n |
| UploadChannel.NullRefreshRejects | frontend/src/api.js:216-230 | a refresh that succeeds with a `null` body is not followed by a new upload: the tokens are cleared and the upload rejects as an authentication failure |
| UploadChannel.ImportDicomOnce | frontend/src/api.js:49-69 | the upload under the one-retry contract of the request wrapper: the first attempt carries the current credential; without the retry flag there is only that attempt |
| UploadChannel.ImportDicomOnceIsBounded | frontend/src/api.js:49-69 | under that contract an upload refreshes at most once and is sent at most twice |
| AuthContext.Mount | frontend/src/context/AuthContext.jsx:11-29 | the current user is fetched only when an access token is stored; a failed fetch clears the tokens and the user; loading ends either way |
| AuthContext.MountOutcomes | frontend/src/context/AuthContext.jsx:11-29 | a user is shown after mounting only if a token was stored and the fetch succeeded; after a failed fetch nothing is left for a reload to find |
| AuthContext.Login | frontend/src/context/AuthContext.jsx:31-35 | on success the user becomes the reply's `user` member and the whole reply is returned; on failure the user is untouched |
| AuthContext.Register | frontend/src/context/AuthContext.jsx:37-41 | the registration request carrying the payload comes first; only if it succeeded, a login with the payload's own `username` and `password` follows on the remaining replies and decides the session and the result; a refused registration changes nothing; a `null` payload that the server accepted throws on reading its credentials |
| AuthContext.RegisterSignsIn | frontend/src/context/AuthContext.jsx:31-41 | a registration and a login the server both accept make exactly two requests, the second the login for the payload's credentials, and sign the user in with the login reply's user and tokens |
| AuthContext.RegisterIsBounded | frontend/src/context/AuthContext.jsx:37-41 | a registration sends at most three requests and refreshes at most once |
| AuthContext.Logout | frontend/src/context/AuthContext.jsx:43-52 | the tokens and the user end cleared even when the server call fails; other stored keys are kept |
| AuthContext.LogoutTwice | frontend/src/context/AuthContext.jsx:43-52 | a second logout sends nothing and changes nothing |
| SeriesModel.Merge | frontend/src/pages/DashboardPage.jsx:47 | a spread never changes a series' id or its server-given fields; an empty update leaves the series as it was |
| SeriesModel.MergeIdempotent | frontend/src/pages/DashboardPage.jsx:47 | spreading the same update twice is spreading it once; two spreads compose into one, the later keys winning |
| SeriesModel.UpdateSeries | frontend/src/pages/DashboardPage.jsx:40-53 | the update reaches every series with the given id under a patient with the given id and nothing else; the tree keeps its shape |
| SeriesModel.ApplyPointwise | frontend/src/pages/DashboardPage.jsx:40-53 | a batch of queued updates changes each series by exactly the updates addressed to it, in issue order |
| SeriesModel.ApplyUniform | frontend/src/pages/DashboardPage.jsx:40-53 | a batch whose calls all carry one update merges it once into every addressed series and leaves the rest untouched |
| SeriesModel.MergeAllLastWins | frontend/src/pages/DashboardPage.jsx:47 | after several spreads a series shows the status of the last update that carried one |
| SeriesModel.AllCalls | frontend/src/components/PatientList.jsx:62 | walking the tree issues calls only for kept series under their own patient, and one for every kept series |
| SeriesModel.AllCallsEffect | frontend/src/components/PatientList.jsx:62 | on a tree with unique ids the walk changes exactly the kept series, each by one merge |
| PatientList.TogglePatient | frontend/src/components/PatientList.jsx:7-15 | the clicked patient flips between expanded and collapsed; no other patient changes |
| PatientList.ToggleTwice | frontend/src/components/PatientList.jsx:7-15 | two clicks on the same patient restore the expanded set |
| PatientList.FindPatient | frontend/src/components/PatientList.jsx:18 | the first patient with the id, or none exactly when no patient has it |
| PatientList.ToggleAllSeries | frontend/src/components/PatientList.jsx:17-24 | one selection update per series of the first matching patient, update k naming its k-th series; nothing for an unknown id |
| PatientList.ToggleAllSeriesEffect | frontend/src/components/PatientList.jsx:17-24 | afterwards every series of that patient carries the new selection, so its box shows it, and nothing else changed |
| PatientList.SelectedCount | frontend/src/components/PatientList.jsx:26-30 | the count is at most the number of series; zero iff nothing is ticked; all iff everything is ticked |
| PatientList.SelectAllEffect | frontend/src/components/PatientList.jsx:56-63 | ticking the global box ticks every series (sending ones too), so the box shows checked and the count is the total; clearing it disables the send button |
| PatientList.GlobalDestinationEffect | frontend/src/components/PatientList.jsx:72-80 | a chosen destination goes to the ticked series only; the empty choice clears the destination of every series |
| SeriesItem.StatusRendering | frontend/src/components/SeriesItem.jsx:2-46 | colour and text are defined for every status; an unknown one renders as `ready`; the known statuses have distinct texts |
| SeriesItem.OnCheck | frontend/src/components/SeriesItem.jsx:54-58 | the checkbox issues an update iff it is enabled, that is unless the series is sending |
| SeriesItem.OnSelectDestination | frontend/src/components/SeriesItem.jsx:88-91 | the select issues an update iff the series is neither sending nor sent |
| SeriesItem.InputRules | frontend/src/components/SeriesItem.jsx:54-91 | a ready or failed series can be re-ticked and re-routed; a sending one neither; a sent one can be ticked but keeps its destination; only the touched field changes |
| SeriesItem.Title | frontend/src/components/SeriesItem.jsx:63 | the title is never empty; it is the description iff there is one, else the modality, " Series " and the series number, in that order |
| DicomImport.PatientsOf | frontend/src/components/DICOMImport.jsx:60-63 | the list converts iff every entry is an object with a `series` array, position by position |
| DicomImport.ReplyPatients | frontend/src/components/DICOMImport.jsx:60 | a tree is read only from a reply with a `patients` array, one patient per entry |
| DicomImport.InitSeries | frontend/src/components/DICOMImport.jsx:62 | every imported series starts unticked, with no destination and status `ready`; the server's fields are kept |
| DicomImport.FreshTree | frontend/src/components/DICOMImport.jsx:60-63 | a fresh tree has nothing ticked, so the send button is disabled and the batch empty, every series is ready, and re-initialising it changes nothing |
| DicomImport.HandleFiles | frontend/src/components/DICOMImport.jsx:37-76 | all files go in the form under `files`; the tree reaches the dashboard iff the upload succeeded with a patient list; an alert is shown otherwise; the busy flag and progress end reset |
| DicomImport.OnFiles | frontend/src/components/DICOMImport.jsx:20-35 | an upload starts iff at least one file was dropped or chosen |
| VolumeChart.AddTo | frontend/src/components/TransferVolumeChart.jsx:21 | the day's total grows by the bytes, or the day is appended; other days and their distinctness are kept; the sum grows by the bytes |
| VolumeChart.Aggregate | frontend/src/components/TransferVolumeChart.jsx:17-22 | one entry per day that has a counted log, holding that day's sum; the entries add up to the total of counted logs |
| VolumeChart.SortKeepsTotals | frontend/src/components/TransferVolumeChart.jsx:23-24 | sorting the day entries keeps each day's total |
| VolumeChart.Chart | frontend/src/components/TransferVolumeChart.jsx:16-28 | days strictly increasing and each shown once; a day is shown iff a counted log falls on it, with its sum; the points add up to all counted bytes; the chart is empty iff no log counts |
| Dashboard.BuildBatch | frontend/src/pages/DashboardPage.jsx:57-62 | the batch holds exactly the ticked series that have a destination; it is never longer than the ticked count, and as long iff every ticked series has one |
| Dashboard.BatchInTreeOrder | frontend/src/pages/DashboardPage.jsx:57-62 | the batch is in tree order, patient by patient and series by series: entry k is the id and destination of the k-th ticked series with a destination |
| Dashboard.SendButtonAndBatch | frontend/src/pages/DashboardPage.jsx:64-67 | a disabled send button means an empty batch; an empty batch with every ticked series routed means a disabled button |
| Dashboard.MarkCalls | frontend/src/pages/DashboardPage.jsx:71-77 | every call sets `sending` on a series whose id is in the batch, and every such series, under any patient, gets one |
| Dashboard.MarkedEffect | frontend/src/pages/DashboardPage.jsx:71-77 | marking sets `sending` on every chosen series and on any series sharing an id with one; nothing else changes |
| Dashboard.SendSelected | frontend/src/pages/DashboardPage.jsx:55-113 | an empty batch alerts and sends nothing; otherwise the batch is sent and marked, marks stay if the dispatch fails (with an alert), and a poll over the unmarked tree starts only if none runs |
| Dashboard.PendingIds | frontend/src/pages/DashboardPage.jsx:85-90 | the pending list holds exactly the ids of the series with a pending status |
| Dashboard.PendingInTreeOrder | frontend/src/pages/DashboardPage.jsx:85-90 | the pending list is in tree order: patient by patient, each patient's series in turn, one id per pending series |
| Dashboard.LastReport | frontend/src/pages/DashboardPage.jsx:98-103 | the report applied to a series is the last one about its id: it names the id and no later report does; none iff no report names it |
| Dashboard.ApplyReports | frontend/src/pages/DashboardPage.jsx:98-103 | a series takes status and message of the last report about its id, if the polled snapshot holds it under the same patient; every other series is kept |
| Dashboard.TickWith | frontend/src/pages/DashboardPage.jsx:83-107 | no pending id stops the poll and changes nothing; otherwise the pending ids are queried comma-joined and a failed query changes nothing |
| Dashboard.TickQuery | frontend/src/pages/DashboardPage.jsx:97 | the query splits back into the pending ids when no id has a comma |
| Dashboard.PollNeverStops | frontend/src/pages/DashboardPage.jsx:83-107 | once the snapshot holds a pending series the poll never stops, whatever the server reports |
| Dashboard.FirstSendPollsForever | frontend/src/pages/DashboardPage.jsx:55-107 | the first send from a freshly imported tree starts such a poll |
| Dashboard.CorrectedPollStops | frontend/src/pages/DashboardPage.jsx:83-107 | with the pending list read from the current tree, a final status reported for every pending series stops the poll at the next tick |
| DicomParser.FormatDate | backend/dicom_api/services.py:55-71 | an eight-character date gets dashes after year and month, giving ten characters; any other length is kept |
| DicomParser.FormatDateRoundTrip | backend/dicom_api/services.py:55-71 | removing the dashes gives back the eight characters; a formatted date is left alone by formatting again |
| DicomParser.ParseDates | backend/dicom_api/services.py:55-73 | only the birth date and the study date change; an eight-character date gets dashes after the year and the month and removing them gives it back; any other date is kept |
| DicomParser.PatientKey | backend/dicom_api/services.py:95 | the key is never empty: the patient id, else the name, else `Unknown` |
| DicomParser.SeriesKey | backend/dicom_api/services.py:96 | the key is never empty: the series instance UID when there is one |
| DicomParser.AddToSeries | backend/dicom_api/services.py:109-128 | one instance more; the keys are the old ones plus the file's series key; distinct keys stay distinct |
| DicomParser.GroupStep | backend/dicom_api/services.py:94-128 | adding a file keeps the grouping well formed: unique patient and series keys, each series holding exactly the files with its keys, in input order |
| DicomParser.GroupIsWellFormed | backend/dicom_api/services.py:82-128 | the grouping of all files is well formed: one patient per patient key, one series per series key within a patient, each file under the entries its keys name |
| DicomParser.GroupCountsFiles | backend/dicom_api/services.py:82-128 | the instance counts of the grouping add up to the number of files parsed |
| DicomParser.Placed | backend/dicom_api/services.py:94-128 | every file lands in the series of its patient key and series key |
| DicomParser.SeriesStart | backend/dicom_api/services.py:100-124 | a series takes its fields from the first file with its keys |
| DicomParser.BadSeries | backend/dicom_api/services.py:143 | empty iff every series number of every patient is one `int()` accepts |
| DicomParser.SortSeries | backend/dicom_api/services.py:143 | a stable sort by number: same series, same patient fields, sorted, equal numbers in their old order |
| DicomParser.SortAllSeries | backend/dicom_api/services.py:141-143 | succeeds iff no series number is rejected; otherwise fails with the first rejected number; on success each patient's series are sorted |
| DicomParser.RejectedNumberIsInput | backend/dicom_api/services.py:100-143 | the rejected number belongs to a file that starts a series |
| DicomParser.SortedPatients | backend/dicom_api/services.py:139 | sorting by name keeps the grouping well formed and every instance |
| DicomParser.GroupAndSort | backend/dicom_api/services.py:82-145 | fails iff some series starts with a file whose number `int()` rejects, naming that number; otherwise the files are grouped, all of them counted, patients sorted by name and series by number |
| TransferService.Existing | backend/dicom_api/services.py:176-181 | exactly the given paths that exist, in order; all of them when all exist |
| TransferService.StoreCommand | backend/dicom_api/services.py:191-201 | the tool, the calling title `TELEPOST`, the peer's title, host and port (which parses back to the port), then every file |
| TransferService.Started | backend/dicom_api/services.py:171-173 | the log is marked `sending`, not completed, and otherwise unchanged |
| TransferService.TransferSeries | backend/dicom_api/services.py:155-244 | the log ends completed at the given time; with no existing file it fails without a run; otherwise storescu runs on the existing files; true iff it exits with 0, recording the file count and output; each failure kind records its own message |
| TransferService.FailureIsExplained | backend/dicom_api/services.py:183-244 | a transfer that does not return true leaves the log `failed` with a non-empty message |
| TransferService.EchoCommand | backend/dicom_api/services.py:278-284 | echoscu with the calling title and the peer's title, host and port |
| TransferService.TestDestination | backend/dicom_api/services.py:266-315 | success iff echoscu exits with 0; output or error output as details; fixed texts for a timeout and a raised error; no response time |
| TransferLog.Created | backend/dicom_api/models.py:26-117 | a new row is pending (a declared status), not completed, stamped with the clock, with no message and no details |
| TransferLog.MarkCompleted | backend/dicom_api/models.py:138-148 | status and completion time set; the message replaced only by a non-empty one; details merged with the new ones winning; nothing else changes |
| TransferLog.MarkCompletedSettles | backend/dicom_api/models.py:138-158 | completion with `success` or `failed` makes the log completed; completing again with the same arguments only moves the time |
| TransferLog.Duration | backend/dicom_api/models.py:150-154 | a duration iff both times are recorded, and then the start plus it is the completion |
| TransferLog.DurationSeconds | backend/dicom_api/serializers.py:27-32 | the duration in seconds, and none for a zero duration, which is falsy |
| TransferLog.CompletedDuration | backend/dicom_api/models.py:138-154 | completing a stamped log reports a duration iff the clock moved, and then the elapsed time |
| TransferLog.ActionDisplay | backend/dicom_api/models.py:20-24 | a known action shows a different, non-empty label; an unknown one shows itself |
| TransferLog.StatusDisplay | backend/dicom_api/models.py:13-18 | a known status shows itself with its first letter capitalised; an unknown one shows itself |
| TransferLog.Describe | backend/dicom_api/models.py:129-136 | the action label, then the series description, else the patient name, else "by" the username, then the status in parentheses |
| ApiState.Store | backend/dicom_api/views.py:83-90 | the keys are the old ones plus the written ones; a key nobody wrote keeps its entry |
| ApiState.StoreWritten | backend/dicom_api/views.py:83-90 | every written key ends holding one of the entries written to it |
| ApiState.StoreLastWriteWins | backend/dicom_api/views.py:83-90 | the last write to a key is what the key holds afterwards |
| ApiState.StoreReadsBack | backend/dicom_api/views.py:83-90 | when the writes never give one key two entries, every write reads back |
| ImportView.Prepared | backend/dicom_api/views.py:53-66 | a parsed upload is kept with its dates formatted and the path it was saved under, nothing else changed |
| ImportView.ErrorLine | backend/dicom_api/views.py:67-71 | an unparsable file and a raised error each give their own line naming the file |
| ImportView.Processed | backend/dicom_api/views.py:50-71 | never more records than uploads; none iff no upload parsed; each record is made from a parsed upload |
| ImportView.ProcessedInOrder | backend/dicom_api/views.py:50-71 | one record per parsed upload, in upload order: record k is made from the k-th parsed upload |
| ImportView.Errors | backend/dicom_api/views.py:50-71 | at most one line per upload; none iff every upload parsed |
| ImportView.ErrorsCount | backend/dicom_api/views.py:50-71 | every upload is either processed or reported, never both |
| ImportView.RelabelPatients | backend/dicom_api/views.py:91-92 | the client's patients differ from the grouping only in the series ids, each replaced by its cache key |
| ImportView.SeriesWrites | backend/dicom_api/views.py:83-90 | one cache write per series, patient by patient |
| ImportView.SeriesWritesCover | backend/dicom_api/views.py:83-90 | every series is written under its key with its files, uploader and session |
| ImportView.SeriesWritesAreOf | backend/dicom_api/views.py:83-90 | nothing else is written |
| ImportView.WritesArePrefixed | backend/dicom_api/views.py:85 | every key written carries the session prefix |
| ImportView.WrittenEntryIsOwned | backend/dicom_api/views.py:83-90 | every key written ends owned by the uploader and the session |
| ImportView.ImportLog | backend/dicom_api/views.py:95-105 | a successful import by the user, stamped with the clock, with exactly the four detail keys |
| ImportView.Grouping | backend/dicom_api/services.py:82-145 | grouping succeeds iff every series starts with an integer number, and then counts every file |
| ImportView.Accepted | backend/dicom_api/views.py:80-115 | a 200 whose patients, summary, cache and log agree with the uploads; cache entries outside the session are kept |
| ImportView.ImportUploads | backend/dicom_api/views.py:50-120 | no parsed upload gives a 400 with one line per upload; it is imported iff some upload parsed and every series number is an integer; a 500 otherwise, naming the rejected number; nothing changes unless imported |
| ImportView.ImportFiles | backend/dicom_api/views.py:26-120 | no `files` field and an empty list give their own 400s; otherwise as for the uploads |
| ImportView.ImportedFacts | backend/dicom_api/views.py:80-115 | the relabelled tree keeps the series and instance counts, each id is session-prefixed and cached for the uploader, other entries are kept |
| ImportView.RegisteredSeriesReadBack | backend/dicom_api/views.py:83-92 | when no two series share an id with different files, every id the client gets reads back its own files |
| ImportView.SharedIdLosesFiles | backend/dicom_api/views.py:83-92 | two series sharing an id but not their files leave some client id reading back another series' files |
| ImportView.TwoPatientsOneKey | backend/dicom_api/services.py:94-128 | two files of different patients with one series key make two series with that key and different files |
| ImportView.UnknownSeriesCollide | backend/dicom_api/views.py:83-92 | importing files of two patients that lack a series instance UID succeeds, and one series the client receives is sent with the other patient's files |
| ImportView.IndexedKeyInjective | backend/dicom_api/views.py:85 | keys built from a patient's and a series' positions never collide |
| ImportView.IndexPatients | backend/dicom_api/views.py:91-92 | as the relabelling, with each series keyed by its position |
| ImportView.RegisterIndexed | backend/dicom_api/views.py:83-92 | with positional keys every id the client gets reads back its own files, uploader and session, and entries outside the session are kept |
| ImportView.IndexedConsistent | backend/dicom_api/views.py:83-90 | no positional key is written twice with different entries |
| SendView.FindEnabled | backend/dicom_api/views.py:159-163 | the row with the id, found iff it exists and is enabled |
| SendView.DestinationKey | backend/dicom_api/views.py:161 | a number is used as it is, a string only when `int()` reads it, a list, dict or null never |
| SendView.Decide | backend/dicom_api/views.py:142-167 | an entry raises, is skipped or is taken exactly as the loop's checks say; a taken entry carries its cached files and the enabled row its destination names |
| SendView.Paths | backend/dicom_api/views.py:195 | the path of every cached file, in order |
| SendView.SendLog | backend/dicom_api/views.py:166-189 | a pending send by the user to the destination, described by the first file (patient, study, series UID, description and modality), counting the files, naming the series and paths |
| SendView.SendAll | backend/dicom_api/views.py:142-196 | one log per task, numbered in order, each a pending send by the user stamped with the clock |
| SendView.SendAllRaises | backend/dicom_api/views.py:142-196 | the loop raises iff some entry raises |
| SendView.SendAllTasks | backend/dicom_api/views.py:142-196 | without a raising entry the tasks are those of the eligible entries, in request order |
| SendView.RaisedKeepsEarlierLogs | backend/dicom_api/views.py:142-221 | when the loop raises, the logs of the entries before the first raising one stay created |
| SendView.SendSeries | backend/dicom_api/views.py:122-221 | a falsy field is a 400; a truthy non-list fails with a 500; a raising entry is a 500 with no task; no task is a 400; otherwise a 200 counting the tasks, each with its own log |
| SendView.SendStartsWanted | backend/dicom_api/views.py:142-216 | without a raising entry one task per eligible entry, refused with a 400 iff none is eligible |
| SendView.TasksAreOwned | backend/dicom_api/views.py:149-196 | every task sends a series cached for the requesting user, with its files, to an enabled destination |
| Destinations.WithDefaults | backend/destinations/models.py:22-33 | a row given only its required fields gets port 104 (a valid port), enabled, no description and no creator |
| Destinations.Clean | backend/destinations/models.py:55-65 | refuses an AE title over 16 characters, and a port outside 1..65535 unless it is 0 |
| Destinations.Label | backend/destinations/models.py:49-50 | the name, " (", the AE title, "@", the host, ":", the port and ")", in that order and nothing else |
| Destinations.Unseparated | backend/destinations/serializers.py:35 | exactly the characters of the value that are not a space, `_` or `-` |
| Destinations.ValidateAeTitle | backend/destinations/serializers.py:29-40 | accepts exactly titles of at most 16 characters whose separators removed leave a non-empty alphanumeric string, and returns them stripped |
| Destinations.AeTitleSettles | backend/destinations/serializers.py:29-40 | an accepted title is accepted again unchanged |
| Destinations.AeTitleField | backend/destinations/serializers.py:29-40 | with the framework's blank check, trimming and the model's 16-character limit first, a title is accepted iff its trimmed form is acceptable, is returned trimmed, and the validator's own length message never appears |
| Destinations.ValidatePort | backend/destinations/serializers.py:42-46 | accepts exactly the ports 1..65535, unchanged |
| Destinations.PortChecksAgree | backend/destinations/models.py:63-65 | the model's and the serializer's port checks agree on every port but 0, which only the model accepts |
| Destinations.ValidateName | backend/destinations/serializers.py:48-59 | refused iff another row has the name (any row on create); an accepted name is returned stripped |
| Destinations.OwnNameIsFree | backend/destinations/serializers.py:48-59 | keeping its own name on update is accepted, while a new row with that name is refused |
| Destinations.Reachability | backend/destinations/serializers.py:20-27 | the reachability field is always null |
| DestinationAccess.PermissionRule | backend/destinations/permissions.py:9-27 | nobody signed out is allowed; a signed-in user may read; only an admin may write; the object answer is the view answer |
| DestinationAccess.SerializerFor | backend/destinations/views.py:21-28 | the list serializer iff listing, the create serializer iff creating |
| DestinationAccess.VisibleTo | backend/destinations/views.py:34-36 | a row is shown iff it exists and the user is an admin or it is enabled; an admin sees all |
| DestinationAccess.VisibleKeepsOrder | backend/destinations/views.py:32-36 | filtering a list ordered by name keeps it ordered |
| DestinationAccess.Queryset | backend/destinations/views.py:30-38 | a destination is listed iff it exists and is enabled or the user is an admin; the list is ordered by name; an admin sees every row |
| DestinationAccess.PerformCreate | backend/destinations/views.py:40-42 | the saved row records its creator and nothing else of it changes |
| StatusView.Kept | backend/dicom_api/views.py:232 | never more ids than parts |
| StatusView.KeptIsClean | backend/dicom_api/views.py:232 | only non-blank parts survive, each stripped |
| StatusView.ParseIds | backend/dicom_api/views.py:231-232 | every id read from the parameter is non-empty, stripped and free of commas |
| StatusView.ParseIdsJoin | backend/dicom_api/views.py:231-232 | stripped, non-empty, comma-free ids joined with commas (as the dashboard sends them) read back as the same list |
| StatusView.Newest | backend/dicom_api/views.py:235-250 | exactly the user's matching sends, newest first |
| StatusView.TakeNewest | backend/dicom_api/views.py:253 | a matching log left out of the first 50 is no newer than the 50th |
| StatusView.Selection | backend/dicom_api/views.py:235-253 | at most 50 logs, all the user's sends of the asked series (or of the last 24 hours when none is asked), newest first, as many as match up to 50, and none newer left out |
| StatusView.Report | backend/dicom_api/views.py:258-272 | never more entries than logs, as many as the logs that name a series, each the entry of such a log |
| StatusView.ReportInOrder | backend/dicom_api/views.py:258-272 | one entry per log that names a series, in log order: entry k is that of the k-th such log |
| StatusView.TransferStatus | backend/dicom_api/views.py:223-276 | at most 50 entries, each from a selected send of the requesting user that names a series |
| StatusView.ReportsAskedSeries | backend/dicom_api/views.py:241-244 | when ids are asked, every entry is about one of them |
| StatusView.ReportsLastDay | backend/dicom_api/views.py:245-250 | with no ids every entry was started within the last 24 hours |
| LogQuery.DayParam | backend/dicom_api/views.py:316-322 | a date parameter fails iff it is given and does not parse; it bounds the listing iff it is given and parses |
| LogQuery.Filtered | backend/dicom_api/views.py:297-322 | a log is kept iff it passes every filter, as often as it occurs in the table; a failing log never |
| LogQuery.ListLogs | backend/dicom_api/views.py:293-324 | fails iff a date parameter does not parse; otherwise exactly the passing logs, each as often as in the table, newest first |
| LogQuery.OwnLogsOnly | backend/dicom_api/views.py:300-301 | a non-admin sees only their own logs, whatever the parameters |
| LogQuery.UserFilterOnlyForAdmins | backend/dicom_api/views.py:312-314 | for a non-admin the `user` parameter changes nothing |
| LogQuery.StatusFilterNarrows | backend/dicom_api/views.py:304-306 | a status filter keeps exactly the rows of that status |
| LogQuery.AdminSeesAll | backend/dicom_api/views.py:297-301 | with no parameters an admin sees every log |
| LogQuery.FieldsFor | backend/dicom_api/views.py:326-330 | only a single log shows details and duration; every key listed is one of the detailed serializer's |
| LogQuery.RowKeys | backend/dicom_api/serializers.py:9-49 | a row carries `destination_name` iff its log has a destination, and otherwise exactly its serializer's keys |
| SendRequest.ValidateSeries | backend/dicom_api/serializers.py:68-79 | accepted iff the list is non-empty and every entry has both keys, and then returned unchanged; an empty list and the first incomplete entry each give their message |
| SendRequest.Validate | backend/dicom_api/serializers.py:58-79 | accepted iff the field is present, a list of dictionaries, non-empty, each with both keys; a missing field is `required`; a non-dictionary is reported at its position |
| SendRequest.ValidButSkipped | backend/dicom_api/views.py:143-147 | an entry with an empty series id passes the serializer yet is skipped by the send view |
| SendRequest.EligibleIsValid | backend/dicom_api/serializers.py:68-79 | a non-empty request the send view acts on in full is one the serializer accepts |
| Accounts.SetPassword | backend/authentication/views.py:127 | no password gives an unusable one; a given password is what it checks against |
| Accounts.FullName | backend/authentication/serializers.py:24-27 | the username or a non-empty name without surrounding white space |
| Accounts.FullNameOfNames | backend/authentication/serializers.py:24-27 | two names without surrounding white space are shown joined by one space |
| Accounts.FullNameOfBlanks | backend/authentication/serializers.py:24-27 | blank names fall back to the username |
| Accounts.Serialize | backend/authentication/serializers.py:14-22 | the user data carry the row's id, username, e-mail, first and last names and flags, the admin flag iff the row is staff or superuser, and the full name of the row |
| Accounts.TokenClaims | backend/authentication/serializers.py:35-44 | the token names the row's id, username and e-mail |
| Accounts.ClaimsAgree | backend/authentication/serializers.py:20-44 | the token's admin flag and display name are the user data's |
| Accounts.CharField | backend/authentication/serializers.py:54-60 | missing is `required`; blank after trimming is `blank`; otherwise the trimmed value |
| Accounts.ValidateLogin | backend/authentication/serializers.py:54-68 | valid iff both fields are present and non-blank, giving the trimmed pair; errors name one or both fields, a missing one as required, and never the message of `validate` |
| AuthViews.Authenticate | backend/authentication/views.py:33 | a found row has the username and a matching password (and is active when inactive rows are refused); with unique usernames, nothing found means no such row or an inactive one refused |
| AuthViews.Login | backend/authentication/views.py:19-57 | a missing field is a 400; credentials that do not authenticate are a 401 "Invalid credentials"; an authenticated inactive row is a 401 "User account is disabled"; a 200 iff the credentials authenticate an active row, which then alone gets its last login set and is returned with the tokens; nothing changes otherwise |
| AuthViews.DisabledNeedsLenientBackend | backend/authentication/views.py:40-43 | with the default backend the "account is disabled" reply never happens |
| AuthViews.LogoutFunction | backend/authentication/views.py:59-78 | an anonymous request is a 401 that changes nothing; otherwise a 400 iff a given token is refused, and an accepted token is blacklisted |
| AuthViews.LogoutClass | backend/authentication/views.py:133-144 | an anonymous request is a 401 that changes nothing; otherwise always a 200; at most the given token is blacklisted |
| AuthViews.LogoutViewsAgree | backend/authentication/views.py:59-144 | both views refuse the same anonymous requests and blacklist the same tokens; their replies differ iff a signed-in request gives a token that is refused |
| AuthViews.Register | backend/authentication/views.py:116-130 | a 201 iff the formats pass and the trimmed username is non-blank and free; then exactly one active non-admin row is appended with that username, no names and the given password; otherwise a 400 and nothing changes |
| AuthViews.ResetPassword | backend/authentication/views.py:159-172 | non-staff refused; a missing password a 400 before the lookup; a 404 iff no row has the id; on success only that row's password changes |
| AuthViews.CreateUser | backend/authentication/views.py:175-190 | non-staff refused; missing fields and a taken username give their 400s; a 201 iff none applies, appending one active row with the password, staff and superuser iff `is_admin` is truthy |
| AuthViews.SuperuserAloneRefused | backend/authentication/views.py:175-176 | a superuser who is not staff is called an admin but refused by the admin endpoints |
| AuthViews.CreateKeepsUnique | backend/authentication/views.py:185-189 | creating a user keeps usernames unique |
| AuthViews.RegisterKeepsUnique | backend/authentication/views.py:120-128 | registering keeps usernames unique |
| AuthViews.UpdatesKeepUnique | backend/authentication/views.py:159-172 | a password reset and a login rename nobody |
| AuthViews.AuthenticatesRow | backend/authentication/views.py:33 | with unique usernames, an active row with a matching password is the one found |
| AuthViews.CreatedUserCanLogIn | backend/authentication/views.py:175-190 | an account an admin creates logs in at once with those credentials, shown as admin iff the flag was truthy |
| AuthViews.ResetPasswordLogsIn | backend/authentication/views.py:159-172 | after a reset the row's user logs in with the new password, when the row is active and has a username |
| JsonValue.PyTruthyImpliesJsTruthy | backend/dicom_api/views.py:131 | whatever Python finds truthy JavaScript does too; they differ exactly on the empty list and the empty dictionary |
| Text.Strip | backend/dicom_api/views.py:232 | the result is no longer than the input and has no (ASCII) white space at either end |
| Text.StripIsSlice | backend/dicom_api/views.py:232 | the result is a slice of the input |
| Text.StripBlank | backend/dicom_api/views.py:232 | the result is empty exactly when the input is all white space |
| Text.StripIdempotent | backend/dicom_api/views.py:232 | stripping twice is stripping once |
| Text.Split | backend/dicom_api/views.py:231 | at least one part, none holding the separator |
| Text.JoinSplit | backend/dicom_api/views.py:231 | joining the parts back gives the input |
| Text.SplitJoin | frontend/src/pages/DashboardPage.jsx:97 | separator-free parts joined and split again give the parts back |
| Text.ParsePyIntOfIntToString | backend/dicom_api/services.py:197 | a printed integer reads back as itself |

## Left out

- Transport: `fetch`, `XMLHttpRequest`, `localStorage` and `setInterval` timing are not modelled. The server's replies, the stored key/value map and single ticks of the poll stand in for them.
- `api.sendSeries` and `api.getTransferStatus` (frontend/src/api.js:271-285) are plain authenticated fetches, and `AuthClient.FetchWithAuth` covers that path. The dashboard sees their outcome as `dispatched` and as an optional status reply.
- Upload progress percentages and their rounding are left out because they use floating point. So is `humanSize`, which uses `Math.log` and `toFixed`. `DicomImport.HandleFiles` states only that progress ends at 0.
- Taking the calendar day of a log's timestamp in the chart (`new Date(...).toISOString()`) is left out. Each log carries its day key already.
- pydicom's file reading is left out. An upload is given as its parse outcome: tags, not DICOM, or a raised error. Only the date formatting of `parse_file` is modelled.
- Writing temporary files and creating directories are left out. So are running storescu/echoscu, the timeout values, the existence check and the clean-up of temporary files. The files that exist and the tool's outcome are parameters.
- The `ThreadPoolExecutor` dispatch of the send view is left out. The model returns the tasks it would submit. `TransferService.TransferSeries` models what one task does.
- The Django ORM is left out. Tables are sequences of rows, and a new row's id is a parameter (or `AuthViews.NextId`).
- `authenticate`/`login` are modelled by `AuthViews.Authenticate`. The backend's treatment of inactive rows is the `rejectsInactive` flag.
- simplejwt's token creation, verification and blacklisting are left out. Tokens are opaque strings, and a token checker is a parameter.
- Password hashing is left out. A usable password is kept as the text it matches.
- The serializer's format checks on username and e-mail (characters, length, e-mail syntax) are one `wellFormed` verdict. The text of its error messages is not modelled.
- `Accounts.LoginError` and `SendRequest.Problem` name the failing field or check, not the REST framework's message text.
- `Destination.is_reachable` (backend/destinations/models.py:67-80) is left out because it opens a socket. The serializer never calls it.
- The `test_connection` action (backend/destinations/views.py:44-64) only wraps `TransferService.TestDestination`. Its 500 branch covers a failing import of the service, which is not modelled.
- `current_user_view` and `update_user_view`, `UserListView` and `UserDetailView` (backend/authentication/views.py:80-108, 147-156) are left out. They are single ORM or serializer calls with no decision logic of their own.
- `CustomTokenObtainPairView` and `CustomTokenObtainPairSerializer.validate` are left out. Only the claims of `get_token` are modelled.
- The URL tables are not part of this model. backend/authentication/urls.py imports a `CurrentUserView` that backend/authentication/views.py does not define.
- The `search` and `ordering` query parameters of the log listing (views.py:290-292) are left out. So is pagination. Only the default `-timestamp` order is modelled.
- Ties in timestamp keep their table order, as the stable sort does. The database gives no such promise.
- For ordering, a log without a timestamp counts as time 0. `auto_now_add` always sets one.
- The date fields of the user row (`date_joined`) and of the destination row (`created_at`, `updated_at`) are left out.
- The rendering of timestamps and durations as JSON text is left out. Times are integers in microseconds.
- The 500 replies' `str(e)` texts are left out. The import's 500 names the rejected series number rather than Python's message.
- `Text.Strip`: white space is the ASCII white space `str.strip()` removes (space, tab, line feed, vertical tab, form feed, carriage return and U+001C to U+001F). Python's `str.strip()` also removes Unicode white space such as U+00A0, which the model keeps. This carries over to every trimmed value: the REST framework's field trimming, `StatusView.ParseIds` and `Accounts.FullName`.
- `Destinations.ValidateAeTitle`: letters and digits are ASCII only. Python's `str.isalnum()` also accepts non-ASCII letters and digits, so a title such as "ÄBC" passes the source's check but is refused by the model. Such titles lie outside the default character repertoire that the AE value representation uses (DICOM PS3.5 section 6.2).
- The REST framework's field-level checks are modelled for the AE title only (`Destinations.AeTitleField`). For `name` and `host` the blank check, trimming and `max_length` are left out, and so is the `UniqueValidator` that runs before `validate_name`. `Destinations.ValidateName` is stated on the value it is given.
- `SendView.DestinationKey`: JSON numbers are integers only (`JsonValue.JNum`), so a fractional destination id in a send request cannot be expressed.
- `AuthClient.AccessOf` and `AuthClient.StringField` read a field that is not a string as the empty string. frontend/src/api.js stores whatever truthy value it gets, for example a number.
- `AuthContext.Register`: the credentials of the payload are read as strings, so a missing or non-string `username` or `password` is logged in with as the empty string. The client's `JSON.stringify` would leave an `undefined` member out and write a number unquoted, which the server may read as text. The registration body itself is not part of the call log.
- `Text.IContains` folds ASCII case only. Django's `icontains` follows the database's collation.
- `DestinationAccess.Queryset` orders names by code point. `order_by('name')` follows the database's collation.
- `DicomParser.Metadata` leaves out `instance_number`, `sop_instance_uid`, `manufacturer`, `rows` and `columns` (backend/dicom_api/services.py:46-52). No grouping, sorting or sending step reads them.
- `Text.ParsePyInt` accepts an optional sign and ASCII digits between white space. It does not accept Python's underscores or non-ASCII digits.
- Markup, styling, the icons of `SeriesItem` and the pages that only render forms are left out: LoginPage, SignUpPage, AdminDestinationsPage, AdminUsersPage, AuditLogsPage and App routing.
- `StatusView.TransferStatus` states only the bound of 50 and that each entry comes from a selected send of the requesting user that names a series. `StatusView.Selection` states which logs are chosen and in what order, and `StatusView.ReportInOrder` that the entries follow them one for one.
- `DicomParser.SeriesKey` states the key for a file with a series instance UID. The `Unknown` fallback is exercised by `ImportView.UnknownSeriesCollide` rather than stated.
- `TransferLog.DurationSeconds` is stated on a real-valued duration. It does not model the floating-point division of `total_seconds()`.

## Findings

| source | as written | input that shows it | evidently intended | confidence | as-written member | corrected member |
|---|---|---|---|---|---|---|
| frontend/src/api.js:209-221 | after a 401 the upload refreshes the token and calls `importDicom` again, with no bound on how often | a server that refuses every upload with 401 while every refresh succeeds: the files are uploaded again after each refresh, without end | one refresh and one re-upload, as the request wrapper does (api.js:49-69) | not executed | UploadChannel.EveryRefusalIsReuploaded | UploadChannel.ImportDicomOnceIsBounded |
| frontend/src/pages/DashboardPage.jsx:82-107 | the interval callback reads the `patients` captured when the send started, and counts `ready` as pending | the first send from a freshly imported tree: the captured tree holds `ready` series, so the pending list never empties and the poll never stops, whatever the server reports | read the current tree and count only `sending`/`pending`, so the poll stops once every send has a final status | not executed | Dashboard.FirstSendPollsForever | Dashboard.CorrectedPollStops |
| backend/dicom_api/views.py:83-92 | the cache key is the session id and the series key, which is the series instance UID or `Unknown` and is unique only within one patient | one import of two files from different patients, neither carrying a series instance UID: both series get the key `<session>_Unknown`, the second write replaces the first, and sending the first patient's series sends the second patient's files | a key unique across the whole import, e.g. one built from the patient's and the series' positions | not executed | ImportView.UnknownSeriesCollide | ImportView.RegisterIndexed |

## Notes on the code and its description

- The send view reads `seriesToSend` from the request itself and never runs `DICOMSendRequestSerializer`. Its validator applies to no request. `SendRequest.ValidButSkipped` and `SendRequest.EligibleIsValid` relate the two readings.
- `LoginSerializer.validate` cannot produce its message, because its required, non-blank fields already refuse what it tests.
- The "User account is disabled" reply of `login_view` cannot happen with Django's default model backend. That backend already refuses an inactive user, so the model treats the backend's choice as a parameter.
- A series' destination is locked only while it is `sending` or after `success`. A `failed` series can be re-routed.
- A log row without a destination omits the `destination_name` key rather than carrying an empty one. So the status endpoint reports `""` for such a send.

=== FILE: accounts.dfy ===
/** The accounts of the API (backend/authentication/serializers.py): a user
    row, the data the user serializer shows of it, the extra claims the
    token serializer adds, and the login serializer's checks. Password
    hashing is not modelled: a usable password is kept as the text it
    checks against. */
module Accounts {
  import opened Wrappers
  import Text

  /** A password as `set_password` leaves it: `None` gives an unusable one
      that no text matches. */
  datatype Password = Unusable | Secret(raw: string)

  /** `set_password(raw)`. */
  function SetPassword(raw: Option<string>): (r: Password)
    ensures r.Unusable? <==> raw.None?
    ensures raw.Some? ==> r == Secret(raw.value)
  {
    match raw
    case None => Unusable
    case Some(p) => Secret(p)
  }

  /** `check_password(raw)`. */
  predicate Matches(p: Password, raw: string) {
    p == Secret(raw)
  }

  /** One row of the user table; `lastLogin` is set by a successful login. */
  datatype Account = Account(
    id: int,
    username: string,
    email: string,
    firstName: string,
    lastName: string,
    password: Password,
    isActive: bool,
    isStaff: bool,
    isSuperuser: bool,
    lastLogin: Option<int>)

  function Username(a: Account): string {
    a.username
  }

  function AccountId(a: Account): int {
    a.id
  }

  /** `get_is_admin` (serializers.py:20-22). */
  predicate IsAdmin(a: Account) {
    a.isStaff || a.isSuperuser
  }

  /** `"first last".strip()`. */
  function JoinedName(a: Account): string {
    Text.Strip(a.firstName + " " + a.lastName)
  }

  /** `get_full_name` (serializers.py:24-27): the joined name when it is
      not blank, else the username. What it returns is either the username
      or a non-empty name without surrounding white space. */
  function FullName(a: Account): (r: string)
    ensures r == a.username || (r != "" && Text.Strip(r) == r)
  {
    var full := JoinedName(a);
    Text.StripIdempotent(a.firstName + " " + a.lastName);
    if full != "" then full else a.username
  }

  /** Two names without surrounding white space are shown joined by one
      space. */
  lemma FullNameOfNames(a: Account)
    requires a.firstName != "" && !Text.IsSpace(a.firstName[0])
    requires a.lastName != "" && !Text.IsSpace(a.lastName[|a.lastName| - 1])
    ensures FullName(a) == a.firstName + " " + a.lastName
  {
    var s := a.firstName + " " + a.lastName;
    assert s[0] == a.firstName[0] && s[|s| - 1] == a.lastName[|a.lastName| - 1];
    Text.StripOfTrimmed(s);
  }

  /** Blank names fall back to the username. */
  lemma FullNameOfBlanks(a: Account)
    requires forall k :: 0 <= k < |a.firstName| ==> Text.IsSpace(a.firstName[k])
    requires forall k :: 0 <= k < |a.lastName| ==> Text.IsSpace(a.lastName[k])
    ensures FullName(a) == a.username
  {
    var s := a.firstName + " " + a.lastName;
    assert Text.IsSpace(' ');
    forall k | 0 <= k < |s| ensures Text.IsSpace(s[k]) {
      if k < |a.firstName| {
        assert s[k] == a.firstName[k];
      } else if k > |a.firstName| {
        assert s[k] == a.lastName[k - |a.firstName| - 1];
      }
    }
  }

  /** What `UserSerializer` shows of a row (serializers.py:14-17); the
      joining date is not modelled. */
  datatype UserData = UserData(
    id: int,
    username: string,
    email: string,
    firstName: string,
    lastName: string,
    isActive: bool,
    isStaff: bool,
    isAdmin: bool,
    fullName: string)

  function Serialize(a: Account): (r: UserData)
    ensures r.id == a.id && r.username == a.username && r.email == a.email
    ensures r.isStaff == a.isStaff && r.isActive == a.isActive
    ensures r.isAdmin <==> IsAdmin(a)
    ensures r.firstName == a.firstName && r.lastName == a.lastName
    ensures r.fullName == a.username || (r.fullName != "" && Text.Strip(r.fullName) == r.fullName)
    ensures r.fullName == FullName(a)
  {
    UserData(a.id, a.username, a.email, a.firstName, a.lastName, a.isActive, a.isStaff, IsAdmin(a), FullName(a))
  }

  /** The claims `CustomTokenObtainPairSerializer.get_token` adds to a
      token (serializers.py:35-44). */
  datatype Claims = Claims(userId: int, username: string, email: string, isAdmin: bool, fullName: string)

  /** Python's `a or b` on strings. */
  function Or(a: string, b: string): string {
    if a != "" then a else b
  }

  function TokenClaims(a: Account): (c: Claims)
    ensures c.userId == a.id && c.username == a.username && c.email == a.email
  {
    Claims(a.id, a.username, a.email, a.isStaff || a.isSuperuser, Or(JoinedName(a), a.username))
  }

  /** The token tells a client the same admin flag and display name as the
      user serializer does. */
  lemma ClaimsAgree(a: Account)
    ensures TokenClaims(a).isAdmin == Serialize(a).isAdmin
    ensures TokenClaims(a).fullName == Serialize(a).fullName
  {
  }

  // ---------------------------------------------------------------------
  // The login serializer

  /** The errors `LoginSerializer` can report: a field that is missing or
      blank, and the message of its own `validate`. */
  datatype LoginError = Required(field: string) | Blank(field: string) | BothRequired

  /** A required `CharField`: missing is refused, blank after trimming is
      refused, and the value is kept trimmed. */
  function CharField(name: string, v: Option<string>): (r: Result<string, LoginError>)
    ensures v.None? ==> r == Err(Required(name))
    ensures v.Some? ==> (r.Ok? <==> Text.Strip(v.value) != "")
    ensures r.Ok? ==> r.value != "" && r.value == Text.Strip(v.value)
    ensures r.Err? && v.Some? ==> r == Err(Blank(name))
  {
    match v
    case None => Err(Required(name))
    case Some(s) => if Text.Strip(s) == "" then Err(Blank(name)) else Ok(Text.Strip(s))
  }

  /** The errors of the fields that failed, in declaration order. */
  function FieldErrors(u: Result<string, LoginError>, p: Result<string, LoginError>): (r: seq<LoginError>)
    ensures |r| <= 2 && (|r| == 0 <==> u.Ok? && p.Ok?)
    ensures u.Err? ==> u.error in r
    ensures p.Err? ==> p.error in r
    ensures forall e :: e in r ==> (u.Err? && e == u.error) || (p.Err? && e == p.error)
  {
    (if u.Err? then [u.error] else []) + (if p.Err? then [p.error] else [])
  }

  /** `LoginSerializer.is_valid` (serializers.py:54-68): the field checks,
      then `validate`. The fields already refuse what `validate` tests, so
      its message is never produced; valid data is the trimmed pair. */
  function ValidateLogin(username: Option<string>, password: Option<string>): (r: Result<(string, string), seq<LoginError>>)
    ensures r.Ok? <==> && username.Some? && Text.Strip(username.value) != ""
                       && password.Some? && Text.Strip(password.value) != ""
    ensures r.Ok? ==> r.value == (Text.Strip(username.value), Text.Strip(password.value))
    ensures r.Err? ==> 0 < |r.error| <= 2 && forall e :: e in r.error ==> e != BothRequired
    ensures r.Err? && username.None? ==> Required("username") in r.error
    ensures r.Err? && password.None? ==> Required("password") in r.error
  {
    var u := CharField("username", username);
    var p := CharField("password", password);
    if u.Err? || p.Err? then Err(FieldErrors(u, p))
    else if u.value == "" || p.value == "" then Err([BothRequired])
    else Ok((u.value, p.value))
  }
}

=== FILE: api_state.dfy ===
/** The state the DICOM API views share (backend/dicom_api/views.py): the
    signed-in user a request carries, and the process-wide series cache
    (`SERIES_FILE_CACHE`, views.py:17) that maps the id of an imported
    series to its files, its uploader and its import session. */
module ApiState {
  import DicomParser

  /** The signed-in user of a request; every DICOM endpoint requires one. */
  datatype Requester = Requester(id: int, username: string, isStaff: bool, isSuperuser: bool)

  predicate IsAdmin(u: Requester) {
    u.isStaff || u.isSuperuser
  }

  /** One cache entry (views.py:86-90). */
  datatype CacheEntry = CacheEntry(files: seq<DicomParser.Metadata>, userId: int, sessionId: string)

  type Cache = map<string, CacheEntry>

  /** Some write of `writes` goes to key `k`. */
  predicate Writes(writes: seq<(string, CacheEntry)>, k: string) {
    exists i :: 0 <= i < |writes| && writes[i].0 == k
  }

  /** The cache after the writes, in order: a later write to a key replaces
      an earlier one, as item assignment on a Python dict does. */
  function Store(cache: Cache, writes: seq<(string, CacheEntry)>): (r: Cache)
    ensures forall k :: k in r <==> k in cache || Writes(writes, k)
    ensures forall k :: k in cache && !Writes(writes, k) ==> r[k] == cache[k]
    decreases |writes|
  {
    if |writes| == 0 then cache
    else
      var n := |writes| - 1;
      var r := Store(cache, writes[..n])[writes[n].0 := writes[n].1];
      assert forall k :: Writes(writes, k) <==> Writes(writes[..n], k) || k == writes[n].0 by {
        forall k ensures Writes(writes, k) ==> Writes(writes[..n], k) || k == writes[n].0 {
          if Writes(writes, k) {
            var i :| 0 <= i < |writes| && writes[i].0 == k;
            if i < n { assert writes[..n][i] == writes[i]; }
          }
        }
        forall k ensures Writes(writes[..n], k) ==> Writes(writes, k) {
          if Writes(writes[..n], k) {
            var i :| 0 <= i < n && writes[..n][i].0 == k;
            assert writes[i] == writes[..n][i];
          }
        }
      }
      r
  }

  /** Every stored value is one of the values written to its key. */
  lemma {:induction false} StoreWritten(cache: Cache, writes: seq<(string, CacheEntry)>, k: string)
    requires Writes(writes, k)
    ensures exists i :: 0 <= i < |writes| && writes[i].0 == k && Store(cache, writes)[k] == writes[i].1
    decreases |writes|
  {
    var n := |writes| - 1;
    if writes[n].0 != k {
      var i :| 0 <= i < |writes| && writes[i].0 == k;
      assert writes[..n][i] == writes[i];
      StoreWritten(cache, writes[..n], k);
      var j :| 0 <= j < n && writes[..n][j].0 == k && Store(cache, writes[..n])[k] == writes[..n][j].1;
      assert writes[j] == writes[..n][j];
    }
  }

  /** One more write on top of the earlier ones. */
  lemma StoreLast(cache: Cache, writes: seq<(string, CacheEntry)>)
    requires |writes| > 0
    ensures Store(cache, writes) == Store(cache, writes[..|writes| - 1])[writes[|writes| - 1].0 := writes[|writes| - 1].1]
  {
  }

  /** The last write to a key is what the key holds afterwards. */
  lemma {:induction false} StoreLastWriteWins(cache: Cache, writes: seq<(string, CacheEntry)>, i: nat)
    requires i < |writes|
    requires forall j :: i < j < |writes| ==> writes[j].0 != writes[i].0
    ensures writes[i].0 in Store(cache, writes) && Store(cache, writes)[writes[i].0] == writes[i].1
    decreases |writes|
  {
    var n := |writes| - 1;
    var k := writes[i].0;
    StoreLast(cache, writes);
    if i < n {
      var init := writes[..n];
      assert init[i] == writes[i];
      forall j | i < j < n ensures init[j].0 != k {
        assert init[j] == writes[j];
      }
      StoreLastWriteWins(cache, init, i);
      assert writes[n].0 != k;
    }
  }

  /** No two writes give one key two different values. */
  predicate Consistent(writes: seq<(string, CacheEntry)>) {
    forall i, j :: 0 <= i < |writes| && 0 <= j < |writes| && writes[i].0 == writes[j].0 ==> writes[i].1 == writes[j].1
  }

  /** When the writes agree on every key, each write can be read back. */
  lemma StoreReadsBack(cache: Cache, writes: seq<(string, CacheEntry)>, i: nat)
    requires Consistent(writes) && i < |writes|
    ensures writes[i].0 in Store(cache, writes) && Store(cache, writes)[writes[i].0] == writes[i].1
  {
    StoreWritten(cache, writes, writes[i].0);
  }
}

=== FILE: auth_client.dfy ===
/** The authenticated request client of `frontend/src/api.js`:
    `fetchWithAuth` with its one-shot refresh-and-retry, and the `api`
    wrappers built on it. The network is an oracle: a sequence of replies
    consumed in call order. */
module AuthClient {
  import opened Wrappers
  import opened JsonValue
  import opened TokenStore

  const ContentType := "Content-Type"
  const Authorization := "Authorization"
  const JsonMime := "application/json"

  /** What a request carries as its body: nothing, serialized JSON text, or a
      browser `FormData` (multipart) payload. */
  datatype Body = NoBody | JsonText(text: string) | FormBody

  datatype Request = Request(path: string, verb: string, headers: map<string, string>, body: Body)

  /** One reply of the server oracle. `payload` is the body parsed as JSON,
      None when the body does not parse. `NoResponse` is a rejected `fetch`
      (the connection failed). */
  datatype Reply = Response(status: nat, payload: Option<Json>) | NoResponse

  predicate IsOk(status: nat) {
    200 <= status < 300
  }

  /** The calls the client puts on the wire. */
  datatype Call = Send(path: string, headers: map<string, string>) | RefreshCall(refresh: string)

  /** The ways an `api` call rejects. */
  datatype ClientError =
    | TransportError                 // fetch rejected: no response
    | MalformedBody                  // `res.json()` threw
    | ServerError(payload: Json)     // `throw await res.json()` on a non-2xx reply
    | NotAnObject                    // property read on null, a TypeError

  /** The next reply of the oracle, and the rest. An exhausted oracle
      answers as a failed connection. */
  function Take(server: seq<Reply>): (r: (Reply, seq<Reply>))
    ensures |server| > 0 ==> r == (server[0], server[1..])
    ensures |server| == 0 ==> r == (NoResponse, [])
  {
    if |server| == 0 then (NoResponse, []) else (server[0], server[1..])
  }

  /** The headers `fetchWithAuth` sends (api.js:33-42). */
  function PrepareHeaders(req: Request, access: string): (h: map<string, string>)
    // JSON content type only when the body is not FormData and the caller
    // set no (non-empty) Content-Type
    ensures !req.body.FormBody? && (ContentType !in req.headers || req.headers[ContentType] == "")
            ==> ContentType in h && h[ContentType] == JsonMime
    ensures req.body.FormBody? || (ContentType in req.headers && req.headers[ContentType] != "")
            ==> (ContentType in h <==> ContentType in req.headers)
                && (ContentType in h ==> h[ContentType] == req.headers[ContentType])
    // the bearer credential iff there is an access token
    ensures access != "" ==> Authorization in h && h[Authorization] == "Bearer " + access
    ensures access == "" ==> (Authorization in h <==> Authorization in req.headers)
                             && (Authorization in h ==> h[Authorization] == req.headers[Authorization])
    // nothing else is touched
    ensures h.Keys <= req.headers.Keys + {ContentType, Authorization}
    ensures forall k :: k in req.headers && k != ContentType && k != Authorization ==> k in h && h[k] == req.headers[k]
  {
    var h0 := req.headers;
    var h1 := if !req.body.FormBody? && (ContentType !in h0 || h0[ContentType] == "") then h0[ContentType := JsonMime] else h0;
    if access != "" then h1[Authorization := "Bearer " + access] else h1
  }

  /** `data.access` of a refresh reply; a missing, empty or non-string value
      leaves the token as it is. Reading it from `null` throws, which the
      callers check first. */
  function AccessOf(data: Json): string {
    match Field(data, "access")
    case Some(JStr(s)) => s
    case _ => ""
  }

  /** What one logical `fetchWithAuth` call produces: the response (or the
      rejection), the token store afterwards, the calls made and the unread
      rest of the oracle. */
  datatype FetchOutcome = FetchOutcome(result: Result<Reply, ClientError>, tokens: Tokens, calls: seq<Call>, rest: seq<Reply>)

  function CountSends(calls: seq<Call>): nat {
    if |calls| == 0 then 0 else (if calls[0].Send? then 1 else 0) + CountSends(calls[1..])
  }

  function CountRefreshes(calls: seq<Call>): nat {
    if |calls| == 0 then 0 else (if calls[0].RefreshCall? then 1 else 0) + CountRefreshes(calls[1..])
  }

  /** `fetchWithAuth(url, options, retry)` (api.js:32-70). */
  function FetchWithAuth(t: Tokens, req: Request, retry: bool, server: seq<Reply>): (o: FetchOutcome)
    // the first call is the request itself, with the current credential
    ensures |o.calls| >= 1 && o.calls[0] == Send(req.path, PrepareHeaders(req, t.access))
    // a refusal without the retry flag, or with no refresh token, or any
    // other reply, is returned as it came and nothing else happens
    ensures var (first, rest) := Take(server);
            !(first.Response? && first.status == 401 && retry && t.refresh != "")
            ==> o == FetchOutcome(if first.NoResponse? then Err(TransportError) else Ok(first), t, [o.calls[0]], rest)
    // a 401 that may be retried triggers exactly one refresh call
    ensures var (first, rest) := Take(server);
            first.Response? && first.status == 401 && retry && t.refresh != ""
            ==> |o.calls| >= 2 && o.calls[1] == RefreshCall(t.refresh)
    // a refresh the server refuses clears the store; the original 401 is returned
    ensures var (first, rest) := Take(server);
            var (refreshReply, _) := Take(rest);
            first.Response? && first.status == 401 && retry && t.refresh != ""
            && refreshReply.Response? && !IsOk(refreshReply.status)
            ==> o.result == Ok(first) && o.tokens == ClearTokens(t) && |o.calls| == 2
    // reading `data.access` of a `null` body throws: the call rejects
    // without re-sending and the store is left as it was
    ensures var (first, rest) := Take(server);
            var (refreshReply, _) := Take(rest);
            first.Response? && first.status == 401 && retry && t.refresh != ""
            && refreshReply.Response? && IsOk(refreshReply.status) && refreshReply.payload == Some(JNull)
            ==> o.result == Err(NotAnObject) && o.tokens == t && |o.calls| == 2
    // a refresh that gets no answer, or an ok answer whose body does not
    // parse, rejects the call without re-sending; the store is untouched
    ensures var (first, rest) := Take(server);
            var (refreshReply, _) := Take(rest);
            first.Response? && first.status == 401 && retry && t.refresh != "" && refreshReply.NoResponse?
            ==> o.result == Err(TransportError) && o.tokens == t && |o.calls| == 2
    ensures var (first, rest) := Take(server);
            var (refreshReply, _) := Take(rest);
            first.Response? && first.status == 401 && retry && t.refresh != ""
            && refreshReply.Response? && IsOk(refreshReply.status) && refreshReply.payload.None?
            ==> o.result == Err(MalformedBody) && o.tokens == t && |o.calls| == 2
    decreases if retry then 1 else 0
  {
    var call := Send(req.path, PrepareHeaders(req, t.access));
    var (first, rest) := Take(server);
    if first.Response? && first.status == 401 && retry && t.refresh != "" then
      var refreshCall := RefreshCall(t.refresh);
      var (refreshReply, rest2) := Take(rest);
      match refreshReply
      case NoResponse => FetchOutcome(Err(TransportError), t, [call, refreshCall], rest2)
      case Response(status, payload) =>
        if IsOk(status) then
          match payload
          case None => FetchOutcome(Err(MalformedBody), t, [call, refreshCall], rest2)
          case Some(JNull) => FetchOutcome(Err(NotAnObject), t, [call, refreshCall], rest2)
          case Some(data) =>
            var again := FetchWithAuth(SetTokens(t, AccessOf(data), ""), req, false, rest2);
            again.(calls := [call, refreshCall] + again.calls)
        else FetchOutcome(Ok(first), ClearTokens(t), [call, refreshCall], rest2)
    else
      FetchOutcome(if first.NoResponse? then Err(TransportError) else Ok(first), t, [call], rest)
  }

  lemma CountsOfConcat(a: seq<Call>, b: seq<Call>)
    ensures CountSends(a + b) == CountSends(a) + CountSends(b)
    ensures CountRefreshes(a + b) == CountRefreshes(a) + CountRefreshes(b)
  {
    if |a| == 0 {
      assert a + b == b;
    } else {
      assert (a + b)[1..] == a[1..] + b;
      CountsOfConcat(a[1..], b);
    }
  }

  /** The bound of the retry protocol: per logical call at most one refresh
      and at most two sends, and with the retry flag off exactly one send
      and no refresh. */
  lemma {:induction false} RetryIsBounded(t: Tokens, req: Request, retry: bool, server: seq<Reply>)
    ensures var o := FetchWithAuth(t, req, retry, server);
            CountRefreshes(o.calls) <= 1 && CountSends(o.calls) <= 2
    ensures !retry ==> var o := FetchWithAuth(t, req, retry, server);
            CountRefreshes(o.calls) == 0 && CountSends(o.calls) == 1
    decreases if retry then 1 else 0
  {
    var o := FetchWithAuth(t, req, retry, server);
    var (first, rest) := Take(server);
    if first.Response? && first.status == 401 && retry && t.refresh != "" {
      var (refreshReply, rest2) := Take(rest);
      var call := Send(req.path, PrepareHeaders(req, t.access));
      if refreshReply.Response? && IsOk(refreshReply.status) && refreshReply.payload.Some? && refreshReply.payload.value != JNull {
        var t2 := SetTokens(t, AccessOf(refreshReply.payload.value), "");
        var again := FetchWithAuth(t2, req, false, rest2);
        RetryIsBounded(t2, req, false, rest2);
        assert o.calls == [call, RefreshCall(t.refresh)] + again.calls;
        CountsOfConcat([call, RefreshCall(t.refresh)], again.calls);
      } else {
        var two := [call, RefreshCall(t.refresh)];
        assert o.calls == two;
        assert two[1..][1..] == [];
        assert CountSends(two[1..]) == 0 && CountRefreshes(two[1..]) == 1;
      }
    } else {
      assert o.calls == [Send(req.path, PrepareHeaders(req, t.access))];
    }
  }

  /** When the refresh succeeds, the new access token is stored and the
      request is re-issued once, carrying it; whatever the re-issued request
      gets back (a second 401 included) is the result. */
  lemma RefreshThenRetry(t: Tokens, req: Request, server: seq<Reply>, first: Reply, refreshed: Json)
    requires |server| >= 2 && server[0] == first && first.Response? && first.status == 401
    requires t.refresh != ""
    requires server[1].Response? && IsOk(server[1].status) && server[1].payload == Some(refreshed)
    requires AccessOf(refreshed) != ""
    ensures var o := FetchWithAuth(t, req, true, server);
            && |o.calls| == 3
            && o.calls[2] == Send(req.path, PrepareHeaders(req, AccessOf(refreshed)))
            && o.tokens.access == AccessOf(refreshed)
            && o.tokens.refresh == t.refresh
            && o.result == (if |server| > 2 && server[2].Response? then Ok(server[2]) else Err(TransportError))
  {
    var t2 := SetTokens(t, AccessOf(refreshed), "");
    assert server[1..][0] == server[1];
    assert server[1..][1..] == server[2..];
    var again := FetchWithAuth(t2, req, false, server[2..]);
    assert Take(server) == (first, server[1..]);
    assert Take(server[1..]) == (server[1], server[2..]);
    var o := FetchWithAuth(t, req, true, server);
    assert o == again.(calls := [Send(req.path, PrepareHeaders(req, t.access)), RefreshCall(t.refresh)] + again.calls);
    if |server| > 2 {
      assert Take(server[2..]).0 == server[2];
    }
  }

  // ---------------------------------------------------------------------
  // The `api` wrappers

  /** The pattern shared by the JSON endpoints:
      `if (!res.ok) throw await res.json(); return res.json()`. */
  function CheckedJson(result: Result<Reply, ClientError>): (r: Result<Json, ClientError>)
    ensures r.Ok? <==> result.Ok? && result.value.Response? && IsOk(result.value.status) && result.value.payload.Some?
    ensures r.Ok? ==> r.value == result.value.payload.value
    ensures result.Ok? && result.value.Response? && !IsOk(result.value.status) && result.value.payload.Some?
            ==> r == Err(ServerError(result.value.payload.value))
  {
    match result
    case Err(e) => Err(e)
    case Ok(NoResponse) => Err(TransportError)
    case Ok(Response(status, payload)) =>
      match payload
      case None => Err(MalformedBody)
      case Some(data) => if IsOk(status) then Ok(data) else Err(ServerError(data))
  }

  /** The outcome of an `api` call that may also change the token store. */
  datatype ApiOutcome = ApiOutcome(result: Result<Json, ClientError>, tokens: Tokens, calls: seq<Call>, rest: seq<Reply>)

  /** `data.k` read as a token: a missing or non-string value is "". */
  function StringField(data: Json, k: string): string {
    match Field(data, k)
    case Some(JStr(s)) => s
    case _ => ""
  }

  /** `api.login` (api.js:73-82): the login request goes through
      `fetchWithAuth`, and a successful reply stores both tokens; reading
      them from a `null` body throws. */
  function Login(t: Tokens, body: string, server: seq<Reply>): (o: ApiOutcome)
    ensures var f := FetchWithAuth(t, Request("/auth/login/", "POST", map[], JsonText(body)), true, server);
            o.calls == f.calls && o.rest == f.rest
            && (o.result.Ok? <==> CheckedJson(f.result).Ok? && CheckedJson(f.result).value != JNull)
            && (CheckedJson(f.result) == Ok(JNull) ==> o.result == Err(NotAnObject))
            && (o.result.Ok? ==> o.tokens == SetTokens(f.tokens, StringField(o.result.value, "access"), StringField(o.result.value, "refresh")))
            && (o.result.Err? ==> o.tokens == f.tokens)
  {
    var f := FetchWithAuth(t, Request("/auth/login/", "POST", map[], JsonText(body)), true, server);
    match CheckedJson(f.result)
    case Ok(JNull) => ApiOutcome(Err(NotAnObject), f.tokens, f.calls, f.rest)
    case Ok(data) =>
      ApiOutcome(Ok(data), SetTokens(f.tokens, StringField(data, "access"), StringField(data, "refresh")), f.calls, f.rest)
    case Err(e) => ApiOutcome(Err(e), f.tokens, f.calls, f.rest)
  }

  /** The request `api.logout` sends: the refresh token as a JSON body. */
  function LogoutRequest(refresh: string): Request {
    Request("/auth/logout/", "POST", map[], JsonText("{\"refresh\":\"" + refresh + "\"}"))
  }

  /** `api.logout` (api.js:94-101). */
  function Logout(t: Tokens, server: seq<Reply>): (o: ApiOutcome)
    // without a refresh token nothing is sent and nothing changes
    ensures t.refresh == "" ==> o.calls == [] && o.tokens == t && o.rest == server && o.result.Ok?
    // otherwise one `fetchWithAuth` call carries the refresh token; the
    // tokens end cleared exactly when that call did not reject, whatever
    // the reply's status, and a rejection leaves the store as the call did
    ensures t.refresh != "" ==>
              var f := FetchWithAuth(t, LogoutRequest(t.refresh), true, server);
              && o.calls == f.calls && o.rest == f.rest
              && (o.result.Ok? <==> f.result.Ok?)
              && (o.result.Ok? ==> o.tokens == ClearTokens(f.tokens))
              && (o.result.Err? ==> o.tokens == f.tokens && o.result.error == f.result.error)
    ensures t.refresh != "" && o.result.Ok? ==> o.tokens.access == "" && o.tokens.refresh == ""
    ensures t.refresh != "" ==> |o.calls| >= 1 && o.calls[0] == Send("/auth/logout/", PrepareHeaders(LogoutRequest(t.refresh), t.access))
  {
    if t.refresh == "" then ApiOutcome(Ok(JNull), t, [], server)
    else
      var f := FetchWithAuth(t, LogoutRequest(t.refresh), true, server);
      match f.result
      case Err(e) => ApiOutcome(Err(e), f.tokens, f.calls, f.rest)
      case Ok(_) => ApiOutcome(Ok(JNull), ClearTokens(f.tokens), f.calls, f.rest)
  }

  /** A logout the server answers with anything but a 401 is one request,
      and it leaves the store empty; a lost connection leaves it as it was. */
  lemma LogoutAnswered(t: Tokens, status: nat, payload: Option<Json>, server: seq<Reply>)
    requires t.refresh != "" && status != 401
    ensures var o := Logout(t, [Response(status, payload)] + server);
            o == ApiOutcome(Ok(JNull), ClearTokens(t), [Send("/auth/logout/", PrepareHeaders(LogoutRequest(t.refresh), t.access))], server)
    ensures var o := Logout(t, [NoResponse] + server);
            o == ApiOutcome(Err(TransportError), t, [Send("/auth/logout/", PrepareHeaders(LogoutRequest(t.refresh), t.access))], server)
  {
    var all := [Response(status, payload)] + server;
    assert Take(all) == (all[0], all[1..]);
    var lost := [NoResponse] + server;
    assert Take(lost) == (lost[0], lost[1..]);
  }

  /** The list `api.getDestinations` returns (api.js:112-114): a bare array
      as it is, else the `results` member of a paginated object when truthy,
      else an empty array. Reading `.results` of `null` throws. */
  function NormalizeList(data: Json): (r: Result<Json, ClientError>)
    ensures data.JArr? ==> r == Ok(data)
    ensures data.JNull? <==> r.Err?
    ensures r.Ok? && !data.JArr? ==> (r.value == JArr([]) <==> !JsTruthyField(data, "results") || Field(data, "results") == Some(JArr([])))
    ensures r.Ok? && !data.JArr? && JsTruthyField(data, "results") ==> r.value == Field(data, "results").value
  {
    if data.JArr? then Ok(data)
    else if data.JNull? then Err(NotAnObject)
    else if JsTruthyField(data, "results") then Ok(Field(data, "results").value)
    else Ok(JArr([]))
  }

  /** `api.getDestinations`. */
  function GetDestinations(t: Tokens, server: seq<Reply>): (o: ApiOutcome)
    ensures var f := FetchWithAuth(t, Request("/destinations/", "GET", map[], NoBody), true, server);
            o.tokens == f.tokens && o.calls == f.calls
            && (o.result.Ok? ==> CheckedJson(f.result).Ok? && o.result == NormalizeList(CheckedJson(f.result).value))
            && (CheckedJson(f.result).Ok? ==> o.result == NormalizeList(CheckedJson(f.result).value))
            && (CheckedJson(f.result).Err? ==> o.result == Err(CheckedJson(f.result).error))
  {
    var f := FetchWithAuth(t, Request("/destinations/", "GET", map[], NoBody), true, server);
    var r := match CheckedJson(f.result)
      case Ok(data) => NormalizeList(data)
      case Err(e) => Err(e);
    ApiOutcome(r, f.tokens, f.calls, f.rest)
  }
  /** A destination list the server sends at once is read in one
      authenticated request: a plain array as it is, a paginated body as
      its `results`, and a `null` body is refused. */
  lemma DestinationsAtOnce(t: Tokens, status: nat, data: Json, server: seq<Reply>)
    requires IsOk(status)
    ensures var o := GetDestinations(t, [Response(status, Some(data))] + server);
            && o.calls == [Send("/destinations/", PrepareHeaders(Request("/destinations/", "GET", map[], NoBody), t.access))]
            && o.tokens == t
            && (data.JArr? ==> o.result == Ok(data))
            && (data.JNull? ==> o.result == Err(NotAnObject))
            && (data.JObj? && JsTruthyField(data, "results") ==> o.result == Ok(Field(data, "results").value))
  {
    var all := [Response(status, Some(data))] + server;
    assert Take(all) == (all[0], all[1..]);
  }

  /** `api.getCurrentUser` (api.js:103-107). */
  function GetCurrentUser(t: Tokens, server: seq<Reply>): ApiOutcome
  {
    var f := FetchWithAuth(t, Request("/auth/user/", "GET", map[], NoBody), true, server);
    ApiOutcome(CheckedJson(f.result), f.tokens, f.calls, f.rest)
  }

  /** `api.register(payload)` (api.js:84-92): a plain request, outside
      `fetchWithAuth`, so it never carries a token and never refreshes.
      The payload travels as the request body, which the call log does not
      record. */
  function Register(t: Tokens, payload: Json, server: seq<Reply>): (o: ApiOutcome)
    ensures o.tokens == t
    ensures o.calls == [Send("/auth/register/", map[ContentType := JsonMime])]
    ensures |server| == 0 ==> o.result == Err(TransportError) && o.rest == []
    ensures |server| > 0 ==> o.rest == server[1..]
    // the parsed body of an ok reply is the result; a refusal throws its body
    ensures o.result.Ok? <==> |server| > 0 && server[0].Response? && IsOk(server[0].status) && server[0].payload.Some?
    ensures o.result.Ok? ==> o.result.value == server[0].payload.value
    ensures |server| > 0 && server[0].Response? && !IsOk(server[0].status) && server[0].payload.Some?
            ==> o.result == Err(ServerError(server[0].payload.value))
  {
    var (reply, rest) := Take(server);
    ApiOutcome(CheckedJson(Ok(reply)), t, [Send("/auth/register/", map[ContentType := JsonMime])], rest)
  }
}

=== FILE: auth_context.dfy ===
/** The authentication context (frontend/src/context/AuthContext.jsx): the
    signed-in user, the loading flag, and the login, register and logout
    actions built on the client calls of `AuthClient`. */
module AuthContext {
  import opened Wrappers
  import opened JsonValue
  import opened TokenStore
  import AuthClient

  /** The provider's state. `JNull` stands for both `null` and
      `undefined`: the user is "absent" either way. */
  datatype Session = Session(tokens: Tokens, user: Json, loading: bool)

  /** The state before the mount effect ran (AuthContext.jsx:7-8). */
  function Initial(t: Tokens): Session {
    Session(t, JNull, true)
  }

  /** One action: the new state, what the action returns or throws, the
      calls it made and the replies left over. */
  datatype Step = Step(session: Session, result: Result<Json, AuthClient.ClientError>, calls: seq<AuthClient.Call>, rest: seq<AuthClient.Reply>)

  /** `localStorage.getItem('access')` is truthy. */
  predicate HasStoredAccess(t: Tokens) {
    StoredOr(t.storage, AccessKey) != ""
  }

  /** The mount effect (AuthContext.jsx:11-29): the current user is fetched
      only when an access token is stored; a failed fetch clears the tokens
      and the user; loading ends either way. */
  function Mount(t: Tokens, server: seq<AuthClient.Reply>): (o: Step)
    ensures !o.session.loading
    ensures !HasStoredAccess(t) ==> o.calls == [] && o.rest == server && o.session == Session(t, JNull, false)
    ensures var g := AuthClient.GetCurrentUser(t, server);
            HasStoredAccess(t) ==>
              && o.calls == g.calls && o.result == g.result
              && (g.result.Ok? ==> o.session == Session(g.tokens, g.result.value, false))
              && (g.result.Err? ==> o.session == Session(ClearTokens(g.tokens), JNull, false))
  {
    if !HasStoredAccess(t) then Step(Session(t, JNull, false), Ok(JNull), [], server)
    else
      var g := AuthClient.GetCurrentUser(t, server);
      match g.result
      case Ok(data) => Step(Session(g.tokens, data, false), g.result, g.calls, g.rest)
      case Err(_) => Step(Session(ClearTokens(g.tokens), JNull, false), g.result, g.calls, g.rest)
  }

  /** A user is shown after mounting only when a token was stored and the
      server accepted the request; a user shown after mounting never comes
      with cleared credentials from the failure branch, and a failed fetch
      leaves nothing for a reload to find. */
  lemma MountOutcomes(t: Tokens, server: seq<AuthClient.Reply>)
    ensures var o := Mount(t, server);
            o.session.user != JNull ==> HasStoredAccess(t) && o.result.Ok?
    ensures var o := Mount(t, server);
            HasStoredAccess(t) && o.result.Err? ==>
              o.session.tokens.access == "" && o.session.tokens.refresh == "" && !HasStoredAccess(o.session.tokens)
  {
  }

  /** `JSON.stringify({ username, password })`, without escaping. */
  function CredentialsText(username: string, password: string): string {
    "{\"username\":\"" + username + "\",\"password\":\"" + password + "\"}"
  }

  /** `login` (AuthContext.jsx:31-35): on success the user becomes the
      reply's `user` member and the whole reply is returned; a failure
      propagates and the user is untouched. */
  function Login(s: Session, username: string, password: string, server: seq<AuthClient.Reply>): (o: Step)
    ensures var a := AuthClient.Login(s.tokens, CredentialsText(username, password), server);
            o.result == a.result && o.calls == a.calls && o.rest == a.rest && o.session.tokens == a.tokens
            && o.session.loading == s.loading
            && (a.result.Ok? ==> o.session.user == Field(a.result.value, "user").GetOr(JNull))
            && (a.result.Err? ==> o.session.user == s.user)
  {
    var a := AuthClient.Login(s.tokens, CredentialsText(username, password), server);
    match a.result
    case Ok(data) => Step(s.(tokens := a.tokens, user := Field(data, "user").GetOr(JNull)), a.result, a.calls, a.rest)
    case Err(_) => Step(s.(tokens := a.tokens), a.result, a.calls, a.rest)
  }

  /** `payload.username` and `payload.password` as `login` receives them. */
  function Username(payload: Json): string {
    AuthClient.StringField(payload, "username")
  }

  function Password(payload: Json): string {
    AuthClient.StringField(payload, "password")
  }

  /** `register(payload)` (AuthContext.jsx:37-41): the registration request
      carrying the payload, then, only if it succeeded, a login with the
      payload's username and password on the replies that follow. A refused
      registration changes nothing; reading the credentials of a `null`
      payload throws. */
  function Register(s: Session, payload: Json, server: seq<AuthClient.Reply>): (o: Step)
    ensures |o.calls| >= 1 && o.calls[0] == AuthClient.Send("/auth/register/", map[AuthClient.ContentType := AuthClient.JsonMime])
    ensures var r := AuthClient.Register(s.tokens, payload, server);
            r.result.Err? ==> o == Step(s, r.result, r.calls, r.rest)
    ensures var r := AuthClient.Register(s.tokens, payload, server);
            r.result.Ok? && payload.JNull? ==> o == Step(s, Err(AuthClient.NotAnObject), r.calls, r.rest)
    // the login that follows is the one for the payload's own credentials
    ensures var r := AuthClient.Register(s.tokens, payload, server);
            r.result.Ok? && !payload.JNull? ==>
              var l := Login(s, Username(payload), Password(payload), r.rest);
              o.session == l.session && o.result == l.result && o.calls == r.calls + l.calls && o.rest == l.rest
  {
    var r := AuthClient.Register(s.tokens, payload, server);
    match r.result
    case Err(_) => Step(s, r.result, r.calls, r.rest)
    case Ok(_) =>
      if payload.JNull? then Step(s, Err(AuthClient.NotAnObject), r.calls, r.rest)
      else
        var l := Login(s, Username(payload), Password(payload), r.rest);
        Step(l.session, l.result, r.calls + l.calls, l.rest)
  }

  /** Whatever the server does, a registration makes at most one
      registration request and the login behind it sends at most twice
      and refreshes at most once. */
  lemma RegisterIsBounded(s: Session, payload: Json, server: seq<AuthClient.Reply>)
    ensures var o := Register(s, payload, server);
            AuthClient.CountSends(o.calls) <= 3 && AuthClient.CountRefreshes(o.calls) <= 1
  {
    var r := AuthClient.Register(s.tokens, payload, server);
    var o := Register(s, payload, server);
    if r.result.Ok? && !payload.JNull? {
      var l := Login(s, Username(payload), Password(payload), r.rest);
      AuthClient.RetryIsBounded(s.tokens, AuthClient.Request("/auth/login/", "POST", map[], AuthClient.JsonText(CredentialsText(Username(payload), Password(payload)))), true, r.rest);
      AuthClient.CountsOfConcat(r.calls, l.calls);
    }
  }

  /** A registration the server accepts, followed by a login it accepts,
      signs the new user in: two requests, the second the login for the
      payload's credentials, and the user and tokens come from the login
      reply. */
  lemma RegisterSignsIn(s: Session, payload: Json, created: nat, made: Json, status: nat, data: Json, server: seq<AuthClient.Reply>)
    requires payload.JObj? && AuthClient.IsOk(created) && AuthClient.IsOk(status) && data != JNull
    ensures var o := Register(s, payload, [AuthClient.Response(created, Some(made)), AuthClient.Response(status, Some(data))] + server);
            var login := AuthClient.Request("/auth/login/", "POST", map[], AuthClient.JsonText(CredentialsText(Username(payload), Password(payload))));
            && o.result == Ok(data)
            && o.session == s.(tokens := SetTokens(s.tokens, AuthClient.StringField(data, "access"), AuthClient.StringField(data, "refresh")),
                               user := Field(data, "user").GetOr(JNull))
            && o.calls == [AuthClient.Send("/auth/register/", map[AuthClient.ContentType := AuthClient.JsonMime]),
                           AuthClient.Send("/auth/login/", AuthClient.PrepareHeaders(login, s.tokens.access))]
            && o.rest == server
  {
    var all := [AuthClient.Response(created, Some(made)), AuthClient.Response(status, Some(data))] + server;
    assert all[1..] == [AuthClient.Response(status, Some(data))] + server;
    var r := AuthClient.Register(s.tokens, payload, all);
    assert AuthClient.Take(r.rest) == (r.rest[0], r.rest[1..]);
    assert r.rest[1..] == server;
  }

  /** `logout` (AuthContext.jsx:43-52): the server call's failure is
      swallowed, and the tokens and the user are cleared in every case. */
  function Logout(s: Session, server: seq<AuthClient.Reply>): (o: Step)
    ensures o.session.user == JNull && o.result.Ok?
    ensures o.session.tokens.access == "" && o.session.tokens.refresh == ""
    ensures !HasStoredAccess(o.session.tokens) && RefreshKey !in o.session.tokens.storage
    ensures forall k :: k in s.tokens.storage && k != AccessKey && k != RefreshKey ==> k in o.session.tokens.storage
    ensures s.tokens.refresh == "" ==> o.calls == []
    ensures o.session.loading == s.loading
  {
    var a := AuthClient.Logout(s.tokens, server);
    Step(s.(tokens := ClearTokens(a.tokens), user := JNull), Ok(JNull), a.calls, a.rest)
  }

  /** Logging out twice is logging out once: the second call finds no
      refresh token, sends nothing and changes nothing. */
  lemma LogoutTwice(s: Session, server: seq<AuthClient.Reply>)
    ensures var o := Logout(s, server);
            Logout(o.session, o.rest) == Step(o.session, Ok(JNull), [], o.rest)
  {
    var o := Logout(s, server);
    var a := AuthClient.Logout(o.session.tokens, o.rest);
    assert a.tokens == o.session.tokens;
    assert ClearTokens(o.session.tokens) == o.session.tokens by {
      assert ClearTokens(o.session.tokens).storage == o.session.tokens.storage;
    }
  }
}

=== FILE: auth_views.dfy ===
/** The authentication endpoints (backend/authentication/views.py): login,
    the two logout views, registration, and the admin-only password reset
    and account creation. The user table is a sequence of rows; token
    issuing, token checking and the registration serializer's format
    checks are parameters. */
module AuthViews {
  import opened Wrappers
  import opened JsonValue
  import Text
  import Sorting
  import Accounts

  type Store = seq<Accounts.Account>

  /** No two rows share a username, as the table's unique constraint keeps it. */
  predicate UniqueNames(store: Store) {
    Sorting.DistinctKeys(store, Accounts.Username)
  }

  /** A row has this username. */
  predicate NameTaken(store: Store, username: string) {
    Sorting.HasKey(store, Accounts.Username, username)
  }

  /** A value `if not value:` lets through: present and not empty. */
  predicate Given(v: Option<string>) {
    v.Some? && v.value != ""
  }

  /** The body of a reply. */
  datatype Body =
    | Message(message: string)
    | Failure(error: string)
    | UserBody(user: Accounts.UserData)
    | TokenBody(access: string, refresh: string, user: Accounts.UserData)
    | FieldErrors

  datatype Reply = Reply(status: int, body: Body)

  /** The table after a request, and the reply. */
  datatype Outcome = Outcome(store: Store, reply: Reply)

  /** The id the next saved row gets: above every id in use. */
  function NextId(store: Store): (r: int)
    ensures forall i :: 0 <= i < |store| ==> store[i].id < r
  {
    if |store| == 0 then 1
    else
      var rest := NextId(store[1..]);
      assert forall i :: 1 <= i < |store| ==> store[i] == store[1..][i - 1];
      if store[0].id < rest then rest else store[0].id + 1
  }

  // ---------------------------------------------------------------------
  // Login

  /** `authenticate` with Django's model backend: the row with the username,
      if its password matches; with `rejectsInactive` (the backend's
      default) an inactive row is refused too. The position of the row is
      returned. */
  function Authenticate(store: Store, username: string, password: string, rejectsInactive: bool): (r: Option<nat>)
    ensures r.Some? ==> && r.value < |store| && store[r.value].username == username
                        && Accounts.Matches(store[r.value].password, password)
                        && (rejectsInactive ==> store[r.value].isActive)
    ensures UniqueNames(store) && r.None? ==>
              forall i :: 0 <= i < |store| && store[i].username == username && Accounts.Matches(store[i].password, password) ==>
                rejectsInactive && !store[i].isActive
  {
    match Sorting.FirstIndex(store, Accounts.Username, username)
    case None => None
    case Some(i) =>
      if Accounts.Matches(store[i].password, password) && (!rejectsInactive || store[i].isActive) then Some(i) else None
  }

  const MissingCredentials: string := "Username and password are required"
  const InvalidCredentials: string := "Invalid credentials"
  const AccountDisabled: string := "User account is disabled"

  /** `login_view` (views.py:19-57): both fields are required; the
      credentials must authenticate and the row must be active; then fresh
      tokens (`access`, `refresh`) are returned with the user's data, and
      the row's last login becomes `now`, nothing else changing. */
  function Login(store: Store, username: Option<string>, password: Option<string>, rejectsInactive: bool,
                 access: string, refresh: string, now: int): (o: Outcome)
    ensures !Given(username) || !Given(password) ==> o == Outcome(store, Reply(400, Failure(MissingCredentials)))
    ensures o.reply.status == 200 <==>
              Given(username) && Given(password) && Authenticate(store, username.value, password.value, rejectsInactive).Some?
              && store[Authenticate(store, username.value, password.value, rejectsInactive).value].isActive
    ensures Given(username) && Given(password) && Authenticate(store, username.value, password.value, rejectsInactive).None?
            ==> o == Outcome(store, Reply(401, Failure(InvalidCredentials)))
    ensures Given(username) && Given(password) && Authenticate(store, username.value, password.value, rejectsInactive).Some?
            && !store[Authenticate(store, username.value, password.value, rejectsInactive).value].isActive
            ==> o == Outcome(store, Reply(401, Failure(AccountDisabled)))
    ensures o.reply.status != 200 ==> o.store == store
    ensures o.reply.status == 200 ==>
              var i := Authenticate(store, username.value, password.value, rejectsInactive).value;
              && |o.store| == |store| && o.store[i] == store[i].(lastLogin := Some(now))
              && (forall j :: 0 <= j < |store| && j != i ==> o.store[j] == store[j])
              && o.reply.body == TokenBody(access, refresh, Accounts.Serialize(o.store[i]))
              && o.store[i].username == username.value && o.store[i].isActive
  {
    if !Given(username) || !Given(password) then Outcome(store, Reply(400, Failure(MissingCredentials)))
    else match Authenticate(store, username.value, password.value, rejectsInactive)
      case None => Outcome(store, Reply(401, Failure(InvalidCredentials)))
      case Some(i) =>
        if !store[i].isActive then Outcome(store, Reply(401, Failure(AccountDisabled)))
        else
          var row := store[i].(lastLogin := Some(now));
          Outcome(store[i := row], Reply(200, TokenBody(access, refresh, Accounts.Serialize(row))))
  }

  /** With the model backend's default the "disabled" reply never happens:
      an inactive row already fails to authenticate. */
  lemma DisabledNeedsLenientBackend(store: Store, username: Option<string>, password: Option<string>,
                                    access: string, refresh: string, now: int)
    ensures Login(store, username, password, true, access, refresh, now).reply.body != Failure(AccountDisabled)
  {
  }

  // ---------------------------------------------------------------------
  // Logout

  /** A refresh token the server accepts: well formed by `valid` and not
      yet on the blacklist. */
  predicate Accepted(t: string, valid: string -> bool, blacklist: set<string>) {
    valid(t) && t !in blacklist
  }

  /** The reply of `IsAuthenticated` to an anonymous request. */
  const NotSignedIn: Reply := Reply(401, Failure("Authentication credentials were not provided."))

  /** `logout_view` (views.py:59-78): an anonymous request is a 401; a
      given token that is not accepted is a 400; otherwise 200, with an
      accepted token blacklisted. */
  function LogoutFunction(requester: Option<Accounts.Account>, refresh: Option<string>, valid: string -> bool,
                          blacklist: set<string>): (r: (Reply, set<string>))
    ensures requester.None? ==> r == (NotSignedIn, blacklist)
    ensures r.0.status == 400 <==> requester.Some? && Given(refresh) && !Accepted(refresh.value, valid, blacklist)
    ensures r.0.status == 200 <==> requester.Some? && !(Given(refresh) && !Accepted(refresh.value, valid, blacklist))
    ensures r.1 == if requester.Some? && Given(refresh) && Accepted(refresh.value, valid, blacklist)
                   then blacklist + {refresh.value} else blacklist
  {
    if requester.None? then (NotSignedIn, blacklist)
    else if !Given(refresh) then (Reply(200, Message("Successfully logged out")), blacklist)
    else if !Accepted(refresh.value, valid, blacklist) then (Reply(400, Failure("Invalid token")), blacklist)
    else (Reply(200, Message("Successfully logged out")), blacklist + {refresh.value})
  }

  /** `LogoutView.post` (views.py:133-144): an anonymous request is a 401;
      otherwise always 200, an accepted token is blacklisted and any error
      is swallowed. */
  function LogoutClass(requester: Option<Accounts.Account>, refresh: Option<string>, valid: string -> bool,
                       blacklist: set<string>): (r: (Reply, set<string>))
    ensures requester.None? ==> r == (NotSignedIn, blacklist)
    ensures requester.Some? ==> r.0 == Reply(200, Message("Successfully logged out"))
    ensures blacklist <= r.1 && r.1 <= blacklist + (if Given(refresh) then {refresh.value} else {})
  {
    if requester.None? then (NotSignedIn, blacklist)
    else if Given(refresh) && Accepted(refresh.value, valid, blacklist) then
      (Reply(200, Message("Successfully logged out")), blacklist + {refresh.value})
    else (Reply(200, Message("Successfully logged out")), blacklist)
  }

  /** The two logout views refuse the same requests, blacklist the same
      tokens and reply alike, except that only the function view reports a
      refused token. */
  lemma LogoutViewsAgree(requester: Option<Accounts.Account>, refresh: Option<string>, valid: string -> bool,
                         blacklist: set<string>)
    ensures LogoutFunction(requester, refresh, valid, blacklist).1 == LogoutClass(requester, refresh, valid, blacklist).1
    ensures LogoutFunction(requester, refresh, valid, blacklist).0 != LogoutClass(requester, refresh, valid, blacklist).0 <==>
              requester.Some? && Given(refresh) && !Accepted(refresh.value, valid, blacklist)
  {
  }

  // ---------------------------------------------------------------------
  // Registration and administration

  /** `RegisterView.post` (views.py:116-130). `wellFormed` is the user
      serializer's verdict on the formats (username characters and length,
      e-mail syntax); a blank or taken username fails it as well. A valid
      request saves a new active, non-admin row with the trimmed username,
      the e-mail and the password, and no first or last name even when
      given; a missing password leaves an unusable one. */
  function Register(store: Store, username: Option<string>, email: Option<string>, password: Option<string>,
                    wellFormed: bool): (o: Outcome)
    ensures o.reply.status == 201 <==>
              wellFormed && username.Some? && Text.Strip(username.value) != "" && !NameTaken(store, Text.Strip(username.value))
    ensures o.reply.status != 201 ==> o == Outcome(store, Reply(400, FieldErrors))
    ensures o.reply.status == 201 ==>
              && |o.store| == |store| + 1 && o.store[..|store|] == store
              && var a := o.store[|store|];
              && a.username == Text.Strip(username.value) && a.firstName == "" && a.lastName == ""
              && a.password == Accounts.SetPassword(password)
              && a.isActive && !Accounts.IsAdmin(a)
              && o.reply.body == Message("User created successfully")
  {
    if !wellFormed || username.None? || Text.Strip(username.value) == "" || NameTaken(store, Text.Strip(username.value)) then
      Outcome(store, Reply(400, FieldErrors))
    else
      var a := Accounts.Account(NextId(store), Text.Strip(username.value), Text.Strip(email.GetOr("")), "", "",
                                Accounts.SetPassword(password), true, false, false, None);
      Outcome(store + [a], Reply(201, Message("User created successfully")))
  }

  /** `IsAdminUser`: signed in and staff; being a superuser alone does not
      pass. */
  predicate AdminUser(requester: Option<Accounts.Account>) {
    requester.Some? && requester.value.isStaff
  }

  /** The reply of `IsAdminUser` to a request it refuses. */
  function Refusal(requester: Option<Accounts.Account>): (r: Reply)
    requires !AdminUser(requester)
  {
    if requester.None? then Reply(401, Failure("Authentication credentials were not provided."))
    else Reply(403, Failure("You do not have permission to perform this action."))
  }

  /** `UserPasswordResetView.post` (views.py:159-172): staff only; the
      password is checked before the row is looked up; on success only that
      row's password changes. */
  function ResetPassword(store: Store, requester: Option<Accounts.Account>, pk: int, password: Option<string>): (o: Outcome)
    ensures !AdminUser(requester) ==> o == Outcome(store, Refusal(requester))
    ensures AdminUser(requester) && !Given(password) ==> o == Outcome(store, Reply(400, Failure("Password is required")))
    ensures AdminUser(requester) && Given(password) ==>
              (o.reply.status == 404 <==> !Sorting.HasKey(store, Accounts.AccountId, pk))
    ensures o.reply.status != 200 ==> o.store == store
    ensures o.reply.status == 200 ==>
              && AdminUser(requester) && Given(password) && |o.store| == |store|
              && (forall j :: 0 <= j < |store| ==>
                    o.store[j] == if store[j].id == pk && Sorting.FirstIndex(store, Accounts.AccountId, pk) == Some(j)
                                  then store[j].(password := Accounts.Secret(password.value)) else store[j])
              && o.reply.body == Message("Password reset successfully")
  {
    if !AdminUser(requester) then Outcome(store, Refusal(requester))
    else if !Given(password) then Outcome(store, Reply(400, Failure("Password is required")))
    else match Sorting.FirstIndex(store, Accounts.AccountId, pk)
      case None => Outcome(store, Reply(404, Failure("User not found")))
      case Some(i) =>
        Outcome(store[i := store[i].(password := Accounts.Secret(password.value))], Reply(200, Message("Password reset successfully")))
  }

  /** `bool(request.data.get('is_admin'))`. */
  predicate AdminFlag(isAdmin: Option<Json>) {
    isAdmin.Some? && PyTruthy(isAdmin.value)
  }

  /** `AdminCreateUserView.post` (views.py:175-190): staff only; the
      username and password are required and the username must be free;
      the new active row is staff and superuser exactly when `is_admin` is
      truthy, and its data are returned. */
  function CreateUser(store: Store, requester: Option<Accounts.Account>, username: Option<string>, email: Option<string>,
                      password: Option<string>, isAdmin: Option<Json>): (o: Outcome)
    ensures !AdminUser(requester) ==> o == Outcome(store, Refusal(requester))
    ensures AdminUser(requester) && (!Given(username) || !Given(password)) ==>
              o == Outcome(store, Reply(400, Failure("username and password required")))
    ensures AdminUser(requester) && Given(username) && Given(password) && NameTaken(store, username.value) ==>
              o == Outcome(store, Reply(400, Failure("username taken")))
    ensures o.reply.status == 201 <==>
              AdminUser(requester) && Given(username) && Given(password) && !NameTaken(store, username.value)
    ensures o.reply.status != 201 ==> o.store == store
    ensures o.reply.status == 201 ==>
              && |o.store| == |store| + 1 && o.store[..|store|] == store
              && var a := o.store[|store|];
              && a.username == username.value && Accounts.Matches(a.password, password.value)
              && a.email == email.GetOr("") && a.isActive
              && a.isStaff == AdminFlag(isAdmin) && a.isSuperuser == AdminFlag(isAdmin)
              && o.reply.body == UserBody(Accounts.Serialize(a))
  {
    if !AdminUser(requester) then Outcome(store, Refusal(requester))
    else if !Given(username) || !Given(password) then Outcome(store, Reply(400, Failure("username and password required")))
    else if NameTaken(store, username.value) then Outcome(store, Reply(400, Failure("username taken")))
    else
      var admin := AdminFlag(isAdmin);
      var a := Accounts.Account(NextId(store), username.value, email.GetOr(""), "", "",
                                Accounts.Secret(password.value), true, admin, admin, None);
      Outcome(store + [a], Reply(201, UserBody(Accounts.Serialize(a))))
  }

  /** A superuser who is not staff is refused by the admin endpoints, though
      the user serializer calls them an admin. */
  lemma SuperuserAloneRefused(store: Store, requester: Accounts.Account, username: Option<string>, email: Option<string>,
                              password: Option<string>, isAdmin: Option<Json>)
    requires requester.isSuperuser && !requester.isStaff
    ensures Accounts.IsAdmin(requester)
    ensures CreateUser(store, Some(requester), username, email, password, isAdmin).reply.status == 403
  {
  }

  // ---------------------------------------------------------------------
  // Invariants and round trips

  /** Appending a row with a fresh username keeps usernames unique. */
  lemma AppendKeepsUnique(store: Store, a: Accounts.Account)
    requires UniqueNames(store) && !NameTaken(store, a.username)
    ensures UniqueNames(store + [a])
  {
    var s := store + [a];
    forall i, j | 0 <= i < j < |s| ensures s[i].username != s[j].username {
      if j == |store| {
        assert s[i] == store[i];
        assert !(Accounts.Username(store[i]) == a.username);
      } else {
        assert s[i] == store[i] && s[j] == store[j];
      }
    }
  }

  /** Creating an account keeps usernames unique. */
  lemma CreateKeepsUnique(store: Store, requester: Option<Accounts.Account>, username: Option<string>,
                          email: Option<string>, password: Option<string>, isAdmin: Option<Json>)
    requires UniqueNames(store)
    ensures UniqueNames(CreateUser(store, requester, username, email, password, isAdmin).store)
  {
    var c := CreateUser(store, requester, username, email, password, isAdmin);
    if c.reply.status == 201 {
      assert c.store == store + [c.store[|store|]];
      AppendKeepsUnique(store, c.store[|store|]);
    }
  }

  /** Registering keeps usernames unique. */
  lemma RegisterKeepsUnique(store: Store, username: Option<string>, email: Option<string>, password: Option<string>,
                            wellFormed: bool)
    requires UniqueNames(store)
    ensures UniqueNames(Register(store, username, email, password, wellFormed).store)
  {
    var g := Register(store, username, email, password, wellFormed);
    if g.reply.status == 201 {
      assert g.store == store + [g.store[|store|]];
      AppendKeepsUnique(store, g.store[|store|]);
    }
  }

  /** Rows whose usernames are those of a table with unique usernames have
      unique usernames too. */
  lemma SameNamesUnique(store: Store, s: Store)
    requires UniqueNames(store) && |s| == |store|
    requires forall j :: 0 <= j < |store| ==> s[j].username == store[j].username
    ensures UniqueNames(s)
  {
    forall i, j | 0 <= i < j < |s| ensures Accounts.Username(s[i]) != Accounts.Username(s[j]) {
      assert Accounts.Username(store[i]) != Accounts.Username(store[j]);
    }
  }

  /** A password reset and a login change no username, so they keep them
      unique. */
  lemma UpdatesKeepUnique(store: Store, requester: Option<Accounts.Account>, username: Option<string>,
                          password: Option<string>, pk: int, rejectsInactive: bool, access: string, refresh: string, now: int)
    requires UniqueNames(store)
    ensures UniqueNames(ResetPassword(store, requester, pk, password).store)
    ensures UniqueNames(Login(store, username, password, rejectsInactive, access, refresh, now).store)
  {
    ResetKeepsUnique(store, requester, pk, password);
    LoginKeepsUnique(store, username, password, rejectsInactive, access, refresh, now);
  }

  /** Resetting a password leaves every username where it was. */
  lemma ResetKeepsUnique(store: Store, requester: Option<Accounts.Account>, pk: int, password: Option<string>)
    requires UniqueNames(store)
    ensures UniqueNames(ResetPassword(store, requester, pk, password).store)
  {
    var r := ResetPassword(store, requester, pk, password);
    if r.reply.status == 200 {
      SameNamesUnique(store, r.store);
    }
  }

  /** Recording a login leaves every username where it was. */
  lemma LoginKeepsUnique(store: Store, username: Option<string>, password: Option<string>, rejectsInactive: bool,
                         access: string, refresh: string, now: int)
    requires UniqueNames(store)
    ensures UniqueNames(Login(store, username, password, rejectsInactive, access, refresh, now).store)
  {
    var l := Login(store, username, password, rejectsInactive, access, refresh, now);
    if l.reply.status == 200 {
      SameNamesUnique(store, l.store);
    }
  }

  /** A row that is the only one with its username is what authentication
      finds. */
  lemma AuthenticatesRow(store: Store, i: nat, password: string, rejectsInactive: bool)
    requires UniqueNames(store) && i < |store|
    requires Accounts.Matches(store[i].password, password) && store[i].isActive
    ensures Authenticate(store, store[i].username, password, rejectsInactive) == Some(i)
  {
    var f := Sorting.FirstIndex(store, Accounts.Username, store[i].username);
    assert Sorting.HasKey(store, Accounts.Username, store[i].username) by {
      assert Accounts.Username(store[i]) == store[i].username;
    }
  }

  /** An account an admin creates can log in at once with the same
      username and password, and is shown as an admin exactly when the
      flag was truthy. */
  lemma CreatedUserCanLogIn(store: Store, requester: Option<Accounts.Account>, username: string, email: Option<string>,
                            password: string, isAdmin: Option<Json>, rejectsInactive: bool,
                            access: string, refresh: string, now: int)
    requires UniqueNames(store)
    requires CreateUser(store, requester, Some(username), email, Some(password), isAdmin).reply.status == 201
    ensures var s := CreateUser(store, requester, Some(username), email, Some(password), isAdmin).store;
            var o := Login(s, Some(username), Some(password), rejectsInactive, access, refresh, now);
            && o.reply.status == 200
            && o.reply.body.TokenBody? && o.reply.body.user.username == username
            && (o.reply.body.user.isAdmin <==> AdminFlag(isAdmin))
  {
    var s := CreateUser(store, requester, Some(username), email, Some(password), isAdmin).store;
    CreateKeepsUnique(store, requester, Some(username), email, Some(password), isAdmin);
    AuthenticatesRow(s, |store|, password, rejectsInactive);
  }

  /** After a reset, the user of that row logs in with the new password
      when the row is active (and has a username to type). */
  lemma ResetPasswordLogsIn(store: Store, requester: Option<Accounts.Account>, pk: int, password: string,
                            rejectsInactive: bool, access: string, refresh: string, now: int)
    requires UniqueNames(store)
    requires ResetPassword(store, requester, pk, Some(password)).reply.status == 200
    ensures var i := Sorting.FirstIndex(store, Accounts.AccountId, pk).value;
            var s := ResetPassword(store, requester, pk, Some(password)).store;
            store[i].isActive && store[i].username != "" ==>
              Login(s, Some(store[i].username), Some(password), rejectsInactive, access, refresh, now).reply.status == 200
  {
    var i := Sorting.FirstIndex(store, Accounts.AccountId, pk).value;
    var s := ResetPassword(store, requester, pk, Some(password)).store;
    UpdatesKeepUnique(store, requester, None, Some(password), pk, rejectsInactive, access, refresh, now);
    if store[i].isActive && store[i].username != "" {
      assert s[i] == store[i].(password := Accounts.Secret(password));
      AuthenticatesRow(s, i, password, rejectsInactive);
      assert s[i].username == store[i].username && s[i].isActive;
    }
  }
}

=== FILE: dashboard.dfy ===
/** The dashboard's transfer orchestration
    (frontend/src/pages/DashboardPage.jsx): building the send batch from the
    tree, marking it `sending`, dispatching it, and the status poll.

    The poll interval's closure reads the `patients` captured when the send
    handler was created, so the poll state carries that snapshot, while its
    updates go through `setPatients(prev => ...)` and reach the current
    tree. Timing is left out: a tick is one explicit step. */
module Dashboard {
  import opened Wrappers
  import opened Text
  import opened SeriesModel
  import PatientList
  import Sorting

  const Sending := "sending"

  // ---------------------------------------------------------------------
  // The batch

  /** One `{ seriesId, destination }` of the send request. */
  datatype BatchEntry = BatchEntry(seriesId: string, destination: string)

  /** A series goes into the batch when it is ticked and has a destination. */
  predicate Chosen(s: Series) {
    s.selectedForSend && s.selectedDestination != ""
  }

  function EntryOf(s: Series): BatchEntry {
    BatchEntry(s.id, s.selectedDestination)
  }

  /** `e` is the entry of a chosen series of `ss`. */
  predicate ChosenIn(ss: seq<Series>, e: BatchEntry) {
    exists j :: 0 <= j < |ss| && Chosen(ss[j]) && e == EntryOf(ss[j])
  }

  /** Every ticked series has a destination. */
  predicate AllRouted(ss: seq<Series>) {
    forall j :: 0 <= j < |ss| && ss[j].selectedForSend ==> ss[j].selectedDestination != ""
  }

  function BatchOf(ss: seq<Series>): (r: seq<BatchEntry>)
    ensures forall e :: e in r <==> ChosenIn(ss, e)
    ensures |r| <= PatientList.SelectedIn(ss)
    ensures |r| == PatientList.SelectedIn(ss) <==> AllRouted(ss)
    decreases |ss|
  {
    if |ss| == 0 then []
    else
      var rest := BatchOf(ss[1..]);
      var r := (if Chosen(ss[0]) then [EntryOf(ss[0])] else []) + rest;
      assert forall j :: 1 <= j < |ss| ==> ss[j] == ss[1..][j - 1];
      assert forall e :: ChosenIn(ss[1..], e) ==> ChosenIn(ss, e);
      assert AllRouted(ss) <==> (ss[0].selectedForSend ==> ss[0].selectedDestination != "") && AllRouted(ss[1..]);
      r
  }

  /** Some chosen series of the tree has entry `e`. */
  predicate ChosenInTree(ps: seq<Patient>, e: BatchEntry) {
    exists i :: 0 <= i < |ps| && ChosenIn(ps[i].series, e)
  }

  /** The batch (DashboardPage.jsx:57-62): the entries of the chosen series,
      patient by patient, series by series. It is never longer than the
      ticked count the send button shows, and as long exactly when every
      ticked series has a destination. */
  function BuildBatch(ps: seq<Patient>): (r: seq<BatchEntry>)
    ensures forall e :: e in r <==> ChosenInTree(ps, e)
    ensures |r| <= PatientList.SelectedCount(ps)
    ensures |r| == PatientList.SelectedCount(ps) <==> forall i :: 0 <= i < |ps| ==> AllRouted(ps[i].series)
    decreases |ps|
  {
    if |ps| == 0 then []
    else
      var rest := BuildBatch(ps[1..]);
      var r := BatchOf(ps[0].series) + rest;
      TreeCons(ps);
      r
  }

  /** The chosen entries and the routing of a tree are those of its first
      patient together with those of the rest. */
  lemma TreeCons(ps: seq<Patient>)
    requires |ps| > 0
    ensures forall e :: ChosenInTree(ps, e) <==> ChosenIn(ps[0].series, e) || ChosenInTree(ps[1..], e)
    ensures (forall i :: 0 <= i < |ps| ==> AllRouted(ps[i].series))
            <==> AllRouted(ps[0].series) && forall i :: 0 <= i < |ps[1..]| ==> AllRouted(ps[1..][i].series)
    ensures PatientList.SelectedCount(ps) == PatientList.SelectedIn(ps[0].series) + PatientList.SelectedCount(ps[1..])
  {
    assert forall i :: 1 <= i < |ps| ==> ps[i] == ps[1..][i - 1];
    assert forall e :: ChosenInTree(ps[1..], e) ==> ChosenInTree(ps, e);
  }

  /** A disabled send button means an empty batch, but an enabled one does
      not mean a non-empty batch: ticked series without a destination are
      counted by the button and left out of the batch. */
  lemma SendButtonAndBatch(ps: seq<Patient>)
    ensures PatientList.SendDisabled(ps) ==> BuildBatch(ps) == []
    ensures BuildBatch(ps) == [] && (forall i :: 0 <= i < |ps| ==> AllRouted(ps[i].series)) ==> PatientList.SendDisabled(ps)
  {
  }

  // ---------------------------------------------------------------------
  // Marking the batch `sending`

  /** Some entry of the batch names series `sid`. */
  predicate InBatch(batch: seq<BatchEntry>, sid: string) {
    exists m :: 0 <= m < |batch| && batch[m].seriesId == sid
  }

  /** The updates of DashboardPage.jsx:71-77: for each entry, every series
      of the tree with that id, under whichever patient, is set to
      `sending`. */
  function MarkCalls(ps: seq<Patient>, batch: seq<BatchEntry>): (r: seq<UpdateCall>)
    ensures forall k :: 0 <= k < |r| ==> r[k].update == StatusUpdate(Sending) && InBatch(batch, r[k].seriesId)
    ensures forall i, j :: 0 <= i < |ps| && 0 <= j < |ps[i].series| && InBatch(batch, ps[i].series[j].id)
              ==> Addressed(r, ps[i].id, ps[i].series[j].id)
    decreases |batch|
  {
    if |batch| == 0 then []
    else
      var sid := batch[0].seriesId;
      var head := AllCalls(ps, (s: Series) => s.id == sid, StatusUpdate(Sending));
      var rest := MarkCalls(ps, batch[1..]);
      MarkCallsStep(ps, batch, head, rest);
      head + rest
  }

  lemma MarkCallsStep(ps: seq<Patient>, batch: seq<BatchEntry>, head: seq<UpdateCall>, rest: seq<UpdateCall>)
    requires |batch| > 0
    requires forall k :: 0 <= k < |head| ==>
               head[k].update == StatusUpdate(Sending) && KeptInTree(ps, (s: Series) => s.id == batch[0].seriesId, head[k].patientId, head[k].seriesId)
    requires forall i, j :: 0 <= i < |ps| && 0 <= j < |ps[i].series| && ps[i].series[j].id == batch[0].seriesId
               ==> Addressed(head, ps[i].id, ps[i].series[j].id)
    requires forall k :: 0 <= k < |rest| ==> rest[k].update == StatusUpdate(Sending) && InBatch(batch[1..], rest[k].seriesId)
    requires forall i, j :: 0 <= i < |ps| && 0 <= j < |ps[i].series| && InBatch(batch[1..], ps[i].series[j].id)
               ==> Addressed(rest, ps[i].id, ps[i].series[j].id)
    ensures forall k :: 0 <= k < |head + rest| ==> (head + rest)[k].update == StatusUpdate(Sending) && InBatch(batch, (head + rest)[k].seriesId)
    ensures forall i, j :: 0 <= i < |ps| && 0 <= j < |ps[i].series| && InBatch(batch, ps[i].series[j].id)
              ==> Addressed(head + rest, ps[i].id, ps[i].series[j].id)
  {
    var keep := (s: Series) => s.id == batch[0].seriesId;
    var r := head + rest;
    forall k | 0 <= k < |r|
      ensures r[k].update == StatusUpdate(Sending) && InBatch(batch, r[k].seriesId)
    {
      if k < |head| {
        assert r[k] == head[k];
        assert KeptInTree(ps, keep, r[k].patientId, r[k].seriesId);
        var i :| 0 <= i < |ps| && ps[i].id == r[k].patientId && KeptIn(ps[i].series, keep, r[k].seriesId);
        var j :| 0 <= j < |ps[i].series| && ps[i].series[j].id == r[k].seriesId && keep(ps[i].series[j]);
      } else {
        assert r[k] == rest[k - |head|];
        var m :| 0 <= m < |batch[1..]| && batch[1..][m].seriesId == r[k].seriesId;
        assert batch[m + 1] == batch[1..][m];
      }
    }
    forall i, j | 0 <= i < |ps| && 0 <= j < |ps[i].series| && InBatch(batch, ps[i].series[j].id)
      ensures Addressed(r, ps[i].id, ps[i].series[j].id)
    {
      var m :| 0 <= m < |batch| && batch[m].seriesId == ps[i].series[j].id;
      if m == 0 {
        var k :| 0 <= k < |head| && head[k].patientId == ps[i].id && head[k].seriesId == ps[i].series[j].id;
        assert r[k] == head[k];
      } else {
        assert batch[1..][m - 1] == batch[m];
        var k :| 0 <= k < |rest| && rest[k].patientId == ps[i].id && rest[k].seriesId == ps[i].series[j].id;
        assert r[k + |head|] == rest[k];
      }
    }
  }

  /** The tree right after the batch is marked. */
  function Marked(ps: seq<Patient>): seq<Patient> {
    Apply(ps, MarkCalls(ps, BuildBatch(ps)))
  }

  /** Marking sets `sending` on every chosen series and on every other
      series that shares an id with one, and changes nothing else. */
  lemma MarkedEffect(ps: seq<Patient>)
    ensures SameShape(ps, Marked(ps))
    ensures forall i, j :: 0 <= i < |ps| && 0 <= j < |ps[i].series| ==>
              Marked(ps)[i].series[j]
              == if InBatch(BuildBatch(ps), ps[i].series[j].id) then ps[i].series[j].(status := Sending) else ps[i].series[j]
    ensures forall i, j :: 0 <= i < |ps| && 0 <= j < |ps[i].series| && Chosen(ps[i].series[j]) ==>
              Marked(ps)[i].series[j].status == Sending
  {
    var batch := BuildBatch(ps);
    var calls := MarkCalls(ps, batch);
    ApplyUniform(ps, calls, StatusUpdate(Sending));
    MarkedAddressed(ps);
    ChosenInBatch(ps);
  }

  /** The marking calls address exactly the series whose id is in the batch. */
  lemma MarkedAddressed(ps: seq<Patient>)
    ensures forall i, j :: 0 <= i < |ps| && 0 <= j < |ps[i].series| ==>
              (Addressed(MarkCalls(ps, BuildBatch(ps)), ps[i].id, ps[i].series[j].id) <==> InBatch(BuildBatch(ps), ps[i].series[j].id))
  {
    var batch := BuildBatch(ps);
    var calls := MarkCalls(ps, batch);
    forall i, j | 0 <= i < |ps| && 0 <= j < |ps[i].series|
      ensures Addressed(calls, ps[i].id, ps[i].series[j].id) <==> InBatch(batch, ps[i].series[j].id)
    {
      if Addressed(calls, ps[i].id, ps[i].series[j].id) {
        var k :| 0 <= k < |calls| && calls[k].patientId == ps[i].id && calls[k].seriesId == ps[i].series[j].id;
      }
    }
  }

  /** Every chosen series has its id in the batch. */
  lemma ChosenInBatch(ps: seq<Patient>)
    ensures forall i, j :: 0 <= i < |ps| && 0 <= j < |ps[i].series| && Chosen(ps[i].series[j]) ==>
              InBatch(BuildBatch(ps), ps[i].series[j].id)
  {
    var batch := BuildBatch(ps);
    forall i, j | 0 <= i < |ps| && 0 <= j < |ps[i].series| && Chosen(ps[i].series[j])
      ensures InBatch(batch, ps[i].series[j].id)
    {
      var e := EntryOf(ps[i].series[j]);
      assert ChosenIn(ps[i].series, e);
      assert ChosenInTree(ps, e);
      var m :| 0 <= m < |batch| && batch[m] == e;
    }
  }

  // ---------------------------------------------------------------------
  // Sending

  /** No interval, or one whose closure holds the tree it was created with. */
  datatype Poll = Idle | Polling(snapshot: seq<Patient>)

  datatype Dash = Dash(patients: seq<Patient>, poll: Poll)

  datatype SendOutcome = SendOutcome(dash: Dash, request: Option<seq<BatchEntry>>, alert: Option<string>)

  const NothingSelected := "Select at least one series and destination"
  const DispatchFailed := "Failed to start transfer"

  /** `handleSendSelected` (DashboardPage.jsx:55-113); `dispatched` says
      whether `api.sendSeries` resolved. */
  function SendSelected(d: Dash, dispatched: bool): (o: SendOutcome)
    // an empty batch: an alert, no request, nothing changes
    ensures BuildBatch(d.patients) == [] <==> o.request.None?
    ensures o.request.None? ==> o.dash == d && o.alert == Some(NothingSelected)
    // otherwise the batch is sent and marked, and the marks stay even if
    // the dispatch fails
    ensures o.request.Some? ==> o.request.value == BuildBatch(d.patients) && o.dash.patients == Marked(d.patients)
    ensures o.request.Some? && !dispatched ==> o.dash.poll == d.poll && o.alert == Some(DispatchFailed)
    // a poll is started only when none is running, with the tree as it
    // was before marking
    ensures o.request.Some? && dispatched ==> o.alert.None? && o.dash.poll == (if d.poll.Idle? then Polling(d.patients) else d.poll)
    ensures d.poll.Polling? ==> o.dash.poll == d.poll
  {
    var batch := BuildBatch(d.patients);
    if |batch| == 0 then SendOutcome(d, None, Some(NothingSelected))
    else
      var marked := Marked(d.patients);
      if !dispatched then SendOutcome(Dash(marked, d.poll), Some(batch), Some(DispatchFailed))
      else SendOutcome(Dash(marked, if d.poll.Idle? then Polling(d.patients) else d.poll), Some(batch), None)
  }

  // ---------------------------------------------------------------------
  // The poll tick

  /** One `{ id, status, message }` of the status reply. */
  datatype StatusReport = StatusReport(id: string, status: string, message: string)

  /** Some series of `ss` with id `id` is pending. */
  predicate PendingIn(ss: seq<Series>, isPending: string -> bool, id: string) {
    exists j :: 0 <= j < |ss| && ss[j].id == id && isPending(ss[j].status)
  }

  function PendingOf(ss: seq<Series>, isPending: string -> bool): (r: seq<string>)
    ensures forall k :: 0 <= k < |r| ==> PendingIn(ss, isPending, r[k])
    ensures forall j :: 0 <= j < |ss| && isPending(ss[j].status) ==> ss[j].id in r
    decreases |ss|
  {
    if |ss| == 0 then []
    else
      var rest := PendingOf(ss[1..], isPending);
      var r := (if isPending(ss[0].status) then [ss[0].id] else []) + rest;
      assert forall j :: 1 <= j < |ss| ==> ss[j] == ss[1..][j - 1];
      assert forall k :: 0 <= k < |rest| ==> rest[k] == r[k + |r| - |rest|];
      assert forall id :: PendingIn(ss[1..], isPending, id) ==> PendingIn(ss, isPending, id);
      r
  }

  /** The ids of the pending series of a tree (DashboardPage.jsx:85-90). */
  function PendingIds(ps: seq<Patient>, isPending: string -> bool): (r: seq<string>)
    ensures forall k :: 0 <= k < |r| ==> exists i :: 0 <= i < |ps| && PendingIn(ps[i].series, isPending, r[k])
    ensures forall i, j :: 0 <= i < |ps| && 0 <= j < |ps[i].series| && isPending(ps[i].series[j].status) ==> ps[i].series[j].id in r
    decreases |ps|
  {
    if |ps| == 0 then []
    else
      var head := PendingOf(ps[0].series, isPending);
      var rest := PendingIds(ps[1..], isPending);
      var r := head + rest;
      assert forall i :: 1 <= i < |ps| ==> ps[i] == ps[1..][i - 1];
      assert forall k :: 0 <= k < |rest| ==> rest[k] == r[k + |head|];
      assert forall k :: 0 <= k < |head| ==> head[k] == r[k];
      r
  }

  /** The series of a tree, patient by patient, each in its own order. */
  function TreeSeries(ps: seq<Patient>): seq<Series> {
    if |ps| == 0 then [] else ps[0].series + TreeSeries(ps[1..])
  }

  lemma {:induction false} PendingOfIsKeepMap(ss: seq<Series>, isPending: string -> bool,
                                              ok: Series -> bool, id: Series -> string)
    requires forall s :: ok(s) == isPending(s.status)
    requires forall s :: id(s) == s.id
    ensures PendingOf(ss, isPending) == Sorting.KeepMap(ss, ok, id)
    decreases |ss|
  {
    if |ss| > 0 {
      PendingOfIsKeepMap(ss[1..], isPending, ok, id);
    }
  }

  lemma {:induction false} PendingIdsIsKeepMap(ps: seq<Patient>, isPending: string -> bool,
                                               ok: Series -> bool, id: Series -> string)
    requires forall s :: ok(s) == isPending(s.status)
    requires forall s :: id(s) == s.id
    ensures PendingIds(ps, isPending) == Sorting.KeepMap(TreeSeries(ps), ok, id)
    decreases |ps|
  {
    if |ps| > 0 {
      PendingIdsIsKeepMap(ps[1..], isPending, ok, id);
      PendingOfIsKeepMap(ps[0].series, isPending, ok, id);
      Sorting.KeepMapAppend(ps[0].series, TreeSeries(ps[1..]), ok, id);
    }
  }

  /** The pending list is in tree order: patient by patient, each patient's
      series in turn, one id per pending series. `ok` and `id` name the
      test and the id of a series. */
  lemma PendingInTreeOrder(ps: seq<Patient>, isPending: string -> bool, ok: Series -> bool, id: Series -> string)
    requires forall s :: ok(s) == isPending(s.status)
    requires forall s :: id(s) == s.id
    ensures var all := TreeSeries(ps);
            var idx := Sorting.Positions(all, ok, 0);
            var r := PendingIds(ps, isPending);
            |r| == |idx| && forall k :: 0 <= k < |r| ==> r[k] == all[idx[k]].id
  {
    PendingIdsIsKeepMap(ps, isPending, ok, id);
    Sorting.KeepMapInOrder(TreeSeries(ps), ok, id);
  }

  lemma {:induction false} BatchOfIsKeepMap(ss: seq<Series>)
    ensures BatchOf(ss) == Sorting.KeepMap(ss, Chosen, EntryOf)
    decreases |ss|
  {
    if |ss| > 0 {
      BatchOfIsKeepMap(ss[1..]);
    }
  }

  lemma {:induction false} BuildBatchIsKeepMap(ps: seq<Patient>)
    ensures BuildBatch(ps) == Sorting.KeepMap(TreeSeries(ps), Chosen, EntryOf)
    decreases |ps|
  {
    if |ps| > 0 {
      BuildBatchIsKeepMap(ps[1..]);
      BatchOfIsKeepMap(ps[0].series);
      Sorting.KeepMapAppend(ps[0].series, TreeSeries(ps[1..]), Chosen, EntryOf);
    }
  }

  /** The batch is in tree order: patient by patient, each patient's
      series in turn, one entry per ticked series with a destination,
      holding its id and destination. */
  lemma BatchInTreeOrder(ps: seq<Patient>)
    ensures var all := TreeSeries(ps);
            var idx := Sorting.Positions(all, Chosen, 0);
            var r := BuildBatch(ps);
            |r| == |idx|
            && forall k :: 0 <= k < |r| ==>
                 r[k] == BatchEntry(all[idx[k]].id, all[idx[k]].selectedDestination)
  {
    BuildBatchIsKeepMap(ps);
    Sorting.KeepMapInOrder(TreeSeries(ps), Chosen, EntryOf);
  }

  /** The updates of DashboardPage.jsx:98-103, report by report: each
      report goes to every series of the tree read by the closure that has
      the reported id. */
  function ReportCalls(view: seq<Patient>, rs: seq<StatusReport>): seq<UpdateCall>
    decreases |rs|
  {
    if |rs| == 0 then []
    else
      var last := rs[|rs| - 1];
      ReportCalls(view, rs[..|rs| - 1]) + AllCalls(view, (s: Series) => s.id == last.id, ReportUpdate(last.status, last.message))
  }

  /** The last report about series `sid`. */
  function LastReport(rs: seq<StatusReport>, sid: string): (r: Option<StatusReport>)
    ensures r.Some? ==> r.value in rs && r.value.id == sid
    ensures r.None? <==> forall k :: 0 <= k < |rs| ==> rs[k].id != sid
    ensures r.Some? ==> exists k :: 0 <= k < |rs| && rs[k] == r.value && forall m :: k < m < |rs| ==> rs[m].id != sid
    decreases |rs|
  {
    if |rs| == 0 then None
    else if rs[|rs| - 1].id == sid then Some(rs[|rs| - 1])
    else
      var init := rs[..|rs| - 1];
      var r := LastReport(init, sid);
      assert forall k :: 0 <= k < |rs| - 1 ==> rs[k] == init[k];
      if r.Some? then
        var k :| 0 <= k < |init| && init[k] == r.value && forall m :: k < m < |init| ==> init[m].id != sid;
        assert rs[k] == r.value && forall m :: k < m < |rs| ==> rs[m].id != sid;
        r
      else r
  }

  /** The tree holds a series with id `sid` under a patient with id `pid`. */
  predicate InTree(ps: seq<Patient>, pid: string, sid: string) {
    exists i :: 0 <= i < |ps| && ps[i].id == pid && KeptIn(ps[i].series, (s: Series) => true, sid)
  }

  lemma {:induction false} ApplyConcat(ps: seq<Patient>, a: seq<UpdateCall>, b: seq<UpdateCall>)
    ensures Apply(ps, a + b) == Apply(Apply(ps, a), b)
    decreases |a|
  {
    if |a| == 0 {
      assert a + b == b;
    } else {
      var next := UpdateSeries(ps, a[0].patientId, a[0].seriesId, a[0].update);
      assert (a + b)[0] == a[0] && (a + b)[1..] == a[1..] + b;
      assert Apply(ps, a + b) == Apply(next, a[1..] + b);
      assert Apply(ps, a) == Apply(next, a[1..]);
      ApplyConcat(next, a[1..], b);
    }
  }

  /** The calls for one report address a series of the current tree exactly
      when the series has the reported id and the tree read by the closure
      holds it under the same patient id. */
  lemma ReportAddresses(view: seq<Patient>, r: StatusReport, pid: string, sid: string)
    ensures var calls := AllCalls(view, (s: Series) => s.id == r.id, ReportUpdate(r.status, r.message));
            Addressed(calls, pid, sid) <==> r.id == sid && InTree(view, pid, sid)
  {
    var keep := (s: Series) => s.id == r.id;
    var calls := AllCalls(view, keep, ReportUpdate(r.status, r.message));
    if Addressed(calls, pid, sid) {
      var k :| 0 <= k < |calls| && calls[k].patientId == pid && calls[k].seriesId == sid;
      assert KeptInTree(view, keep, pid, sid);
      var i :| 0 <= i < |view| && view[i].id == pid && KeptIn(view[i].series, keep, sid);
      var j :| 0 <= j < |view[i].series| && view[i].series[j].id == sid && keep(view[i].series[j]);
      assert KeptIn(view[i].series, (s: Series) => true, sid);
    }
    if r.id == sid && InTree(view, pid, sid) {
      var i :| 0 <= i < |view| && view[i].id == pid && KeptIn(view[i].series, (s: Series) => true, sid);
      var j :| 0 <= j < |view[i].series| && view[i].series[j].id == sid;
      assert keep(view[i].series[j]);
    }
  }

  /** Applying the reports: a series of the current tree takes the status
      and message of the last report about its id, provided the tree read by
      the closure holds it under the same patient; every other series is
      left as it is. */
  lemma {:induction false} ApplyReports(view: seq<Patient>, cur: seq<Patient>, rs: seq<StatusReport>)
    ensures forall i, j :: 0 <= i < |cur| && 0 <= j < |cur[i].series| ==>
              var s := cur[i].series[j];
              var last := LastReport(rs, s.id);
              Apply(cur, ReportCalls(view, rs))[i].series[j]
              == if last.Some? && InTree(view, cur[i].id, s.id) then s.(status := last.value.status, errorMessage := last.value.message) else s
    decreases |rs|
  {
    if |rs| > 0 {
      var init := rs[..|rs| - 1];
      var last := rs[|rs| - 1];
      var u := ReportUpdate(last.status, last.message);
      var a := ReportCalls(view, init);
      var b := AllCalls(view, (s: Series) => s.id == last.id, u);
      ApplyReports(view, cur, init);
      ApplyConcat(cur, a, b);
      var mid := Apply(cur, a);
      ApplyUniform(mid, b, u);
      forall i, j | 0 <= i < |cur| && 0 <= j < |cur[i].series|
        ensures var s := cur[i].series[j];
                var lr := LastReport(rs, s.id);
                Apply(cur, ReportCalls(view, rs))[i].series[j]
                == if lr.Some? && InTree(view, cur[i].id, s.id) then s.(status := lr.value.status, errorMessage := lr.value.message) else s
      {
        var s := cur[i].series[j];
        assert mid[i].id == cur[i].id;
        assert mid[i].series[j].id == s.id;
        ReportAddresses(view, last, cur[i].id, s.id);
      }
    }
  }

  datatype TickOutcome = TickOutcome(patients: seq<Patient>, poll: Poll, query: Option<string>)

  /** One run of the interval callback (DashboardPage.jsx:83-107): the
      pending ids are read from `view` with `isPending`; none pending stops
      the poll; otherwise the ids are sent comma-joined and a reply, when
      there is one, is applied to the current tree. A failed request (None)
      is only logged. */
  function TickWith(isPending: string -> bool, view: seq<Patient>, cur: seq<Patient>, poll: Poll, reply: Option<seq<StatusReport>>): (o: TickOutcome)
    ensures var pending := PendingIds(view, isPending);
            && (pending == [] ==> o == TickOutcome(cur, Idle, None))
            && (pending != [] ==> o.poll == poll && o.query == Some(Join(pending, ',')))
            && (pending != [] && reply.None? ==> o.patients == cur)
  {
    var pending := PendingIds(view, isPending);
    if pending == [] then TickOutcome(cur, Idle, None)
    else
      var query := Some(Join(pending, ','));
      match reply
      case None => TickOutcome(cur, poll, query)
      case Some(rs) => TickOutcome(Apply(cur, ReportCalls(view, rs)), poll, query)
  }

  /** The statuses the tick treats as pending, as written (DashboardPage.jsx:87). */
  predicate AsWrittenPending(status: string) {
    status == "sending" || status == "pending" || status == "ready"
  }

  /** The tick as written: pending read from the snapshot, `ready` included. */
  function Tick(snapshot: seq<Patient>, cur: seq<Patient>, reply: Option<seq<StatusReport>>): TickOutcome {
    TickWith(AsWrittenPending, snapshot, cur, Polling(snapshot), reply)
  }

  /** A series holds the poll open as written. */
  predicate HoldsPoll(ps: seq<Patient>) {
    exists i, j :: 0 <= i < |ps| && 0 <= j < |ps[i].series| && AsWrittenPending(ps[i].series[j].status)
  }

  /** Ticks in a row, one reply each, while the poll runs. */
  function RunTicks(poll: Poll, cur: seq<Patient>, replies: seq<Option<seq<StatusReport>>>): (o: (Poll, seq<Patient>))
    decreases |replies|
  {
    if |replies| == 0 || poll.Idle? then (poll, cur)
    else
      var t := Tick(poll.snapshot, cur, replies[0]);
      RunTicks(t.poll, t.patients, replies[1..])
  }

  /** As written the poll can never stop once its snapshot holds a series
      that is sending, pending or ready, whatever the server reports: the
      snapshot is never refreshed, so the pending list computed from it
      never shrinks. */
  lemma {:induction false} PollNeverStops(snapshot: seq<Patient>, cur: seq<Patient>, replies: seq<Option<seq<StatusReport>>>)
    requires HoldsPoll(snapshot)
    ensures RunTicks(Polling(snapshot), cur, replies).0 == Polling(snapshot)
    decreases |replies|
  {
    if |replies| > 0 {
      var i, j :| 0 <= i < |snapshot| && 0 <= j < |snapshot[i].series| && AsWrittenPending(snapshot[i].series[j].status);
      assert snapshot[i].series[j].id in PendingIds(snapshot, AsWrittenPending);
      var t := Tick(snapshot, cur, replies[0]);
      assert t.poll == Polling(snapshot);
      PollNeverStops(snapshot, t.patients, replies[1..]);
    }
  }

  /** The first send from a freshly imported tree starts such a poll: the
      snapshot holds the chosen series with status `ready`. */
  lemma FirstSendPollsForever(d: Dash, replies: seq<Option<seq<StatusReport>>>)
    requires d.poll.Idle?
    requires forall i, j :: 0 <= i < |d.patients| && 0 <= j < |d.patients[i].series| ==> d.patients[i].series[j].status == "ready"
    requires BuildBatch(d.patients) != []
    ensures var o := SendSelected(d, true);
            o.dash.poll == Polling(d.patients) && RunTicks(o.dash.poll, o.dash.patients, replies).0 == Polling(d.patients)
  {
    var e := BuildBatch(d.patients)[0];
    assert ChosenInTree(d.patients, e);
    var i :| 0 <= i < |d.patients| && ChosenIn(d.patients[i].series, e);
    var j :| 0 <= j < |d.patients[i].series| && Chosen(d.patients[i].series[j]) && e == EntryOf(d.patients[i].series[j]);
    assert AsWrittenPending(d.patients[i].series[j].status);
    PollNeverStops(d.patients, Marked(d.patients), replies);
  }

  /** The statuses a corrected tick treats as pending: those the server may
      still change. */
  predicate StillRunning(status: string) {
    status == "sending" || status == "pending"
  }

  /** The corrected tick: pending read from the current tree. */
  function TickCorrected(cur: seq<Patient>, poll: Poll, reply: Option<seq<StatusReport>>): TickOutcome {
    TickWith(StillRunning, cur, cur, poll, reply)
  }

  /** Once the server reports a final status for every pending series, the
      corrected poll stops at the next tick, whatever that tick's reply. */
  lemma CorrectedPollStops(cur: seq<Patient>, poll: Poll, rs: seq<StatusReport>, next: Option<seq<StatusReport>>)
    requires forall k :: 0 <= k < |rs| ==> !StillRunning(rs[k].status)
    requires forall id :: id in PendingIds(cur, StillRunning) ==> exists k :: 0 <= k < |rs| && rs[k].id == id
    ensures var t := TickCorrected(cur, poll, Some(rs));
            TickCorrected(t.patients, t.poll, next).poll == Idle
  {
    var t := TickCorrected(cur, poll, Some(rs));
    var after := t.patients;
    if PendingIds(cur, StillRunning) != [] {
      ApplyReports(cur, cur, rs);
      assert after == Apply(cur, ReportCalls(cur, rs));
      forall i, j | 0 <= i < |after| && 0 <= j < |after[i].series|
        ensures !StillRunning(after[i].series[j].status)
      {
        SeriesSettles(cur, rs, i, j);
      }
    }
    NoPendingIds(after, StillRunning);
  }

  lemma SeriesSettles(cur: seq<Patient>, rs: seq<StatusReport>, i: nat, j: nat)
    requires i < |cur| && j < |cur[i].series|
    requires forall k :: 0 <= k < |rs| ==> !StillRunning(rs[k].status)
    requires forall id :: id in PendingIds(cur, StillRunning) ==> exists k :: 0 <= k < |rs| && rs[k].id == id
    requires forall i, j :: 0 <= i < |cur| && 0 <= j < |cur[i].series| ==>
               var s := cur[i].series[j];
               var last := LastReport(rs, s.id);
               Apply(cur, ReportCalls(cur, rs))[i].series[j]
               == if last.Some? && InTree(cur, cur[i].id, s.id) then s.(status := last.value.status, errorMessage := last.value.message) else s
    ensures !StillRunning(Apply(cur, ReportCalls(cur, rs))[i].series[j].status)
  {
    var s := cur[i].series[j];
    assert KeptIn(cur[i].series, (x: Series) => true, s.id);
    assert InTree(cur, cur[i].id, s.id);
    var lr := LastReport(rs, s.id);
    if StillRunning(s.status) {
      assert s.id in PendingIds(cur, StillRunning);
      assert lr.Some?;
    }
    if lr.Some? {
      var k :| 0 <= k < |rs| && rs[k] == lr.value;
    }
  }

  lemma {:induction false} NoPendingOf(ss: seq<Series>, isPending: string -> bool)
    requires forall j :: 0 <= j < |ss| ==> !isPending(ss[j].status)
    ensures PendingOf(ss, isPending) == []
    decreases |ss|
  {
    if |ss| > 0 {
      assert forall j :: 0 <= j < |ss[1..]| ==> ss[1..][j] == ss[j + 1];
      NoPendingOf(ss[1..], isPending);
    }
  }

  /** A tree with no pending series has no pending ids. */
  lemma {:induction false} NoPendingIds(ps: seq<Patient>, isPending: string -> bool)
    requires forall i, j :: 0 <= i < |ps| && 0 <= j < |ps[i].series| ==> !isPending(ps[i].series[j].status)
    ensures PendingIds(ps, isPending) == []
    decreases |ps|
  {
    if |ps| > 0 {
      NoPendingOf(ps[0].series, isPending);
      assert forall i :: 0 <= i < |ps[1..]| ==> ps[1..][i] == ps[i + 1];
      NoPendingIds(ps[1..], isPending);
    }
  }

  /** The query the tick sends lists the pending ids, and reads back as
      them when split on commas, provided no id holds a comma. */
  lemma TickQuery(isPending: string -> bool, view: seq<Patient>, cur: seq<Patient>, poll: Poll, reply: Option<seq<StatusReport>>)
    requires forall i, j :: 0 <= i < |view| && 0 <= j < |view[i].series| ==> ',' !in view[i].series[j].id
    ensures var o := TickWith(isPending, view, cur, poll, reply);
            o.query.Some? ==> Split(o.query.value, ',') == PendingIds(view, isPending)
  {
    var pending := PendingIds(view, isPending);
    if pending != [] {
      forall k | 0 <= k < |pending|
        ensures ',' !in pending[k]
      {
        var i :| 0 <= i < |view| && PendingIn(view[i].series, isPending, pending[k]);
      }
      SplitJoin(pending, ',');
    }
  }
}

=== FILE: destination_access.dfy ===
/** Who may do what with destinations (backend/destinations/permissions.py)
    and the destination endpoint's choices (backend/destinations/views.py):
    the serializer per action, the rows a user sees, and the creator stamp. */
module DestinationAccess {
  import opened Wrappers
  import Sorting
  import opened Destinations

  /** The requesting user as the permission checks read it; `None` is a
      request without a user object. */
  datatype User = User(id: int, authenticated: bool, isStaff: bool, isSuperuser: bool)

  /** The methods the REST framework treats as read-only. */
  const SafeMethods: set<string> := {"GET", "HEAD", "OPTIONS"}

  predicate IsAdmin(u: User) {
    u.isStaff || u.isSuperuser
  }

  /** `IsAdminOrReadOnly.has_permission` (permissions.py:9-17): reading
      needs a signed-in user, writing a signed-in admin. */
  predicate HasPermission(verb: string, user: Option<User>) {
    if verb in SafeMethods then user.Some? && user.value.authenticated
    else user.Some? && user.value.authenticated && IsAdmin(user.value)
  }

  /** `has_object_permission` (permissions.py:19-27): the same rule, for
      any object. */
  predicate HasObjectPermission(verb: string, user: Option<User>, obj: Destination) {
    if verb in SafeMethods then user.Some? && user.value.authenticated
    else user.Some? && user.value.authenticated && IsAdmin(user.value)
  }

  /** The permission rule in the system's own words: nobody signed out is
      ever allowed, a signed-in user may read, only an admin may write, and
      the object-level answer is the view-level answer. */
  lemma PermissionRule(verb: string, user: Option<User>, obj: Destination)
    ensures user.None? || !user.value.authenticated ==> !HasPermission(verb, user)
    ensures user.Some? && user.value.authenticated ==>
              (HasPermission(verb, user) <==> verb in SafeMethods || IsAdmin(user.value))
    ensures HasObjectPermission(verb, user, obj) == HasPermission(verb, user)
  {
  }

  /** The serializers of the destination endpoint. */
  datatype SerializerKind = ListSerializer | CreateSerializer | FullSerializer

  /** `get_serializer_class` (views.py:21-28). */
  function SerializerFor(action: string): (r: SerializerKind)
    ensures r == ListSerializer <==> action == "list"
    ensures r == CreateSerializer <==> action == "create"
  {
    if action == "list" then ListSerializer
    else if action == "create" then CreateSerializer
    else FullSerializer
  }

  function NameOf(d: Destination): string {
    d.name
  }

  /** The rows a user sees, keeping their order: every row for an admin
      (`admin`), only the enabled ones for anyone else. */
  function VisibleTo(rows: seq<Destination>, admin: bool): (r: seq<Destination>)
    ensures forall d :: d in r <==> d in rows && (admin || d.enabled)
    ensures admin ==> r == rows
    ensures |r| <= |rows|
  {
    if |rows| == 0 then []
    else
      var rest := VisibleTo(rows[1..], admin);
      assert forall d :: d in rows <==> d == rows[0] || d in rows[1..];
      if admin || rows[0].enabled then [rows[0]] + rest else rest
  }

  lemma {:induction false} VisibleKeepsOrder(rows: seq<Destination>, admin: bool)
    requires Sorting.SortedBy(rows, NameOf, Sorting.StringLess())
    ensures Sorting.SortedBy(VisibleTo(rows, admin), NameOf, Sorting.StringLess())
  {
    if |rows| > 0 {
      var rest := VisibleTo(rows[1..], admin);
      Sorting.SortedTail(rows, NameOf, Sorting.StringLess());
      VisibleKeepsOrder(rows[1..], admin);
      if admin || rows[0].enabled {
        forall j | 0 <= j < |rest| ensures !Sorting.StringLess()(NameOf(rest[j]), NameOf(rows[0])) {
          assert rest[j] in rows[1..];
          var k :| 0 <= k < |rows[1..]| && rows[1..][k] == rest[j];
          assert rows[k + 1] == rest[j];
        }
        Sorting.SortedCons(rows[0], rest, NameOf, Sorting.StringLess());
      }
    }
  }

  /** `get_queryset` (views.py:30-38): every destination ordered by name,
      the disabled ones hidden from non-admins. A user sees a destination
      exactly when it exists and is enabled or the user is an admin; the
      list is ordered by name; an admin sees every row. */
  function Queryset(table: seq<Destination>, user: User): (r: seq<Destination>)
    ensures forall d :: d in r <==> d in table && (IsAdmin(user) || d.enabled)
    ensures Sorting.SortedBy(r, NameOf, Sorting.StringLess())
    ensures IsAdmin(user) ==> |r| == |table|
  {
    var ordered := Sorting.SortBy(table, NameOf, Sorting.StringLess());
    Sorting.StringLessIsTotal();
    Sorting.SortBySorted(table, NameOf, Sorting.StringLess());
    VisibleKeepsOrder(ordered, IsAdmin(user));
    assert forall d :: d in ordered <==> d in table by {
      assert multiset(ordered) == multiset(table);
      forall d ensures d in ordered <==> d in table {
        assert d in ordered <==> d in multiset(ordered);
        assert d in table <==> d in multiset(table);
      }
    }
    VisibleTo(ordered, IsAdmin(user))
  }

  /** `perform_create` (views.py:40-42): the saved row records its creator;
      nothing else of the validated row changes. */
  function PerformCreate(validated: Destination, user: User): (r: Destination)
    ensures r.createdBy == Some(user.id)
    ensures r.(createdBy := validated.createdBy) == validated
  {
    validated.(createdBy := Some(user.id))
  }
}

=== FILE: destinations.dfy ===
/** A DICOM destination (backend/destinations/models.py) and the checks
    the destination serializer applies to its fields
    (backend/destinations/serializers.py). The destination table is a
    sequence of rows. Each validator is modelled on the value it is
    given; `AeTitleField` adds the field-level steps the REST framework
    runs before `validate_ae_title` (blank check, trimming, the model's
    maximum length). */
module Destinations {
  import opened Wrappers
  import Text

  /** The application-entity title limit of the AE value representation
      (DICOM PS3.5 section 6.2). */
  const MaxAeTitle: nat := 16

  const DefaultPort: int := 104

  datatype Destination = Destination(
    id: int,
    name: string,
    aeTitle: string,
    host: string,
    port: int,
    description: string,
    enabled: bool,
    createdBy: Option<int>)

  /** A destination given only its required fields: the model's defaults
      (models.py:22-33) fill the rest. */
  function WithDefaults(id: int, name: string, aeTitle: string, host: string): (d: Destination)
    ensures d.port == DefaultPort && d.enabled && d.description == "" && d.createdBy.None?
    ensures ValidatePort(d.port).Ok? && (Clean(d).Ok? <==> |aeTitle| <= MaxAeTitle)
  {
    Destination(id, name, aeTitle, host, DefaultPort, "", true, None)
  }

  // ---------------------------------------------------------------------
  // Destination.clean and __str__

  /** `clean` (models.py:55-65): an AE title over 16 characters is refused;
      a port outside 1..65535 is refused only when it is truthy, so port 0
      passes. */
  function Clean(d: Destination): (r: Result<(), string>)
    ensures r.Ok? <==> |d.aeTitle| <= MaxAeTitle && (d.port == 0 || 1 <= d.port <= 65535)
    ensures |d.aeTitle| > MaxAeTitle ==> r == Err("AE Title cannot exceed 16 characters")
  {
    if d.aeTitle != "" && |d.aeTitle| > MaxAeTitle then Err("AE Title cannot exceed 16 characters")
    else if d.port != 0 && !(1 <= d.port <= 65535) then Err("Port must be between 1 and 65535")
    else Ok(())
  }

  /** `__str__` (models.py:49-50): `name (ae@host:port)`. */
  function Label(d: Destination): (r: string)
    ensures var p := Text.IntToString(d.port);
            && |r| == |d.name| + |d.aeTitle| + |d.host| + |p| + 5
            && r[..|d.name| + 2] == d.name + " ("
            && r[|d.name| + 2..|d.name| + 2 + |d.aeTitle|] == d.aeTitle
            && r[|d.name| + 2 + |d.aeTitle|] == '@'
            && r[|d.name| + 3 + |d.aeTitle|..|r| - |p| - 2] == d.host
            && r[|r| - |p| - 2..] == ":" + p + ")"
  {
    var p := Text.IntToString(d.port);
    var r := d.name + " (" + d.aeTitle + "@" + d.host + ":" + p + ")";
    assert r[..|d.name| + 2] == d.name + " (";
    assert r[|d.name| + 2..|d.name| + 2 + |d.aeTitle|] == d.aeTitle;
    assert r[|d.name| + 3 + |d.aeTitle|..|r| - |p| - 2] == d.host;
    assert r[|r| - |p| - 2..] == ":" + p + ")";
    r
  }

  // ---------------------------------------------------------------------
  // The serializer's validators

  /** The characters `validate_ae_title` removes before its `isalnum` test. */
  predicate Separator(c: char) {
    c == ' ' || c == '_' || c == '-'
  }

  /** `value.replace(' ', '').replace('_', '').replace('-', '')`. */
  function Unseparated(v: string): (r: string)
    ensures forall c :: c in r <==> c in v && !Separator(c)
  {
    if |v| == 0 then ""
    else
      var rest := Unseparated(v[1..]);
      assert forall c :: c in v <==> c == v[0] || c in v[1..];
      if Separator(v[0]) then rest else [v[0]] + rest
  }

  /** Python's `str.isalnum()`, for ASCII: not empty, and letters and
      digits only. */
  predicate IsAlnum(s: string) {
    |s| > 0 && forall k :: 0 <= k < |s| ==> Text.IsAlnum(s[k])
  }

  /** What `validate_ae_title` accepts, read off the title itself: at most
      16 characters, only letters, digits and separators, and at least one
      letter or digit. */
  predicate AcceptableTitle(v: string) {
    && |v| <= MaxAeTitle
    && (forall k :: 0 <= k < |v| ==> Text.IsAlnum(v[k]) || Separator(v[k]))
    && exists k :: 0 <= k < |v| && Text.IsAlnum(v[k])
  }

  /** `validate_ae_title` (serializers.py:29-40): the length is checked
      on the value as given, then the separators are removed and what is
      left must be alphanumeric; an accepted title is returned stripped.
      It accepts exactly the acceptable titles. */
  function ValidateAeTitle(v: string): (r: Result<string, string>)
    ensures r.Ok? <==> AcceptableTitle(v)
    ensures |v| > MaxAeTitle ==> r == Err("AE Title cannot exceed 16 characters")
    ensures r.Ok? ==> r.value == Text.Strip(v)
  {
    UnseparatedAlnum(v);
    UnseparatedOfTitle(v);
    var u := Unseparated(v);
    if |v| > MaxAeTitle then Err("AE Title cannot exceed 16 characters")
    else if !IsAlnum(u) then Err("AE Title should contain only alphanumeric characters, spaces, hyphens, and underscores")
    else Ok(Text.Strip(v))
  }

  /** Only letters, digits and separators, with one letter or digit. */
  predicate TitleChars(v: string) {
    && (forall k :: 0 <= k < |v| ==> Text.IsAlnum(v[k]) || Separator(v[k]))
    && exists k :: 0 <= k < |v| && Text.IsAlnum(v[k])
  }

  /** What is left after removing the separators is alphanumeric only if
      the title has the characters of an acceptable one. */
  lemma UnseparatedAlnum(v: string)
    ensures IsAlnum(Unseparated(v)) ==> TitleChars(v)
  {
    var u := Unseparated(v);
    if IsAlnum(u) {
      assert u[0] in u;
      var k :| 0 <= k < |v| && v[k] == u[0];
      forall k | 0 <= k < |v| ensures Text.IsAlnum(v[k]) || Separator(v[k]) {
        if !Separator(v[k]) {
          assert v[k] in u;
        }
      }
    }
  }

  /** A title with the characters of an acceptable one is alphanumeric once
      the separators are removed. */
  lemma UnseparatedOfTitle(v: string)
    ensures TitleChars(v) ==> IsAlnum(Unseparated(v))
  {
    var u := Unseparated(v);
    if TitleChars(v) {
      var k :| 0 <= k < |v| && Text.IsAlnum(v[k]);
      assert v[k] in u;
      forall j | 0 <= j < |u| ensures Text.IsAlnum(u[j]) {
        assert u[j] in u;
      }
    }
  }

  /** An accepted title is accepted again unchanged: stripping removes only
      spaces from it and keeps its letters and digits. */
  lemma AeTitleSettles(v: string)
    requires ValidateAeTitle(v).Ok?
    ensures ValidateAeTitle(ValidateAeTitle(v).value) == ValidateAeTitle(v)
  {
    var r := Text.Strip(v);
    StrippedTitle(v);
    Text.StripIdempotent(v);
    assert ValidateAeTitle(r) == Ok(Text.Strip(r));
  }

  /** The `ae_title` field as the serializer runs it: the REST framework
      refuses a blank value, trims white space, applies the model's
      `max_length` of 16 (models.py:14-17), and only then calls
      `validate_ae_title` on the trimmed value, so that validator's own
      length message is never produced. */
  function AeTitleField(raw: string): (r: Result<string, string>)
    ensures r.Ok? <==> AcceptableTitle(Text.Strip(raw))
    ensures r.Ok? ==> r.value == Text.Strip(raw)
    ensures Text.Strip(raw) == "" ==> r == Err("This field may not be blank.")
    ensures r != Err("AE Title cannot exceed 16 characters")
  {
    var v := Text.Strip(raw);
    Text.StripIdempotent(raw);
    if v == "" then Err("This field may not be blank.")
    else if |v| > MaxAeTitle then Err("Ensure this field has no more than 16 characters.")
    else ValidateAeTitle(v)
  }

  lemma StrippedTitle(v: string)
    requires AcceptableTitle(v)
    ensures AcceptableTitle(Text.Strip(v))
  {
    var r := Text.Strip(v);
    Text.StripKeeps(v);
    Text.StripIsSlice(v);
    var i :| Text.SliceAt(v, r, i);
    forall k | 0 <= k < |v| && Text.IsAlnum(v[k]) ensures v[k] in r {
      AlnumIsNotSpace(v[k]);
    }
    SliceOfTitle(v, r, i);
  }

  lemma AlnumIsNotSpace(c: char)
    requires Text.IsAlnum(c)
    ensures !Text.IsSpace(c)
  {
  }

  /** A slice of an acceptable title that keeps one of its letters or
      digits is acceptable. */
  lemma SliceOfTitle(v: string, r: string, i: int)
    requires AcceptableTitle(v) && Text.SliceAt(v, r, i)
    requires forall k :: 0 <= k < |v| && Text.IsAlnum(v[k]) ==> v[k] in r
    ensures AcceptableTitle(r)
  {
    assert forall j :: 0 <= j < |r| ==> r[j] == v[i + j];
    var k :| 0 <= k < |v| && Text.IsAlnum(v[k]);
    assert v[k] in r;
    var j :| 0 <= j < |r| && r[j] == v[k];
  }

  /** `validate_port` (serializers.py:42-46). */
  function ValidatePort(p: int): (r: Result<int, string>)
    ensures r.Ok? <==> 1 <= p <= 65535
    ensures r.Ok? ==> r.value == p
  {
    if 1 <= p <= 65535 then Ok(p) else Err("Port must be between 1 and 65535")
  }

  /** The model's check and the serializer's check agree on every port but
      0, which only the model lets through. */
  lemma PortChecksAgree(d: Destination)
    requires |d.aeTitle| <= MaxAeTitle
    ensures d.port != 0 ==> (Clean(d).Ok? <==> ValidatePort(d.port).Ok?)
    ensures d.port == 0 ==> Clean(d).Ok? && ValidatePort(d.port).Err?
  {
  }

  /** Some row other than `instance` is called `name`. */
  predicate NameTaken(table: seq<Destination>, name: string, instance: Option<int>) {
    exists i :: 0 <= i < |table| && table[i].name == name && (instance.None? || table[i].id != instance.value)
  }

  /** `validate_name` (serializers.py:48-59): on create any row with the
      name clashes, on update every row but the one being edited; an
      accepted name is returned stripped. */
  function ValidateName(table: seq<Destination>, name: string, instance: Option<int>): (r: Result<string, string>)
    ensures r.Err? <==> NameTaken(table, name, instance)
    ensures r.Ok? ==> r.value == Text.Strip(name)
  {
    if exists i :: 0 <= i < |table| && table[i].name == name && (instance.None? || table[i].id != instance.value) then
      Err("A destination with this name already exists")
    else Ok(Text.Strip(name))
  }

  /** Renaming a destination to its own name is never a clash on update,
      whereas creating a second row with that name is. */
  lemma OwnNameIsFree(table: seq<Destination>, i: nat)
    requires i < |table|
    requires forall j :: 0 <= j < |table| && j != i ==> table[j].name != table[i].name
    ensures ValidateName(table, table[i].name, Some(table[i].id)).Ok?
    ensures ValidateName(table, table[i].name, None).Err?
  {
  }

  /** `get_is_reachable` (serializers.py:20-27): the check is skipped and
      the field is always null. */
  function Reachability(d: Destination): (r: Option<bool>)
    ensures r.None?
  {
    None
  }
}

=== FILE: dicom_import.dfy ===
/** The import component (frontend/src/components/DICOMImport.jsx): the
    drop and file-select guards, the multipart form, and turning the
    server's reply into the client's patient tree. The upload itself is
    `UploadChannel.ImportDicom`. */
module DicomImport {
  import opened Wrappers
  import opened JsonValue
  import opened TokenStore
  import opened SeriesModel
  import UploadChannel
  import AuthClient
  import PatientList
  import Dashboard

  // ---------------------------------------------------------------------
  // Reading the reply

  /** A string member, with a missing or non-string value read as "". */
  function Str(j: Json, k: string): string {
    match Field(j, k)
    case Some(JStr(s)) => s
    case _ => ""
  }

  /** A count member, with a missing or non-count value read as 0. */
  function Count(j: Json, k: string): nat {
    match Field(j, k)
    case Some(JNum(n)) => if n >= 0 then n else 0
    case _ => 0
  }

  /** `{ ...s }` of one element of `p.series`: any value can be spread. */
  function SeriesOf(j: Json): Series {
    Series(Str(j, "id"), Str(j, "description"), Str(j, "modality"), Str(j, "series_number"), Count(j, "instance_count"),
           Str(j, "body_part"), Str(j, "study_description"), Str(j, "study_date"),
           JsTruthyField(j, "selectedForSend"), Str(j, "selectedDestination"), Str(j, "status"), Str(j, "errorMessage"))
  }

  /** `{ ...p, series: p.series.map(...) }`: reading `.series` of null
      throws, and `.map` exists only on an array. */
  function PatientOf(j: Json): (r: Option<Patient>)
    ensures r.Some? <==> j.JObj? && Field(j, "series").Some? && Field(j, "series").value.JArr?
    ensures r.Some? ==> |r.value.series| == |Field(j, "series").value.items|
  {
    match Field(j, "series")
    case Some(JArr(items)) =>
      Some(Patient(Str(j, "id"), Str(j, "name"), Str(j, "patient_id"), Str(j, "birth_date"), Str(j, "sex"),
                   seq(|items|, k requires 0 <= k < |items| => SeriesOf(items[k]))))
    case _ => None
  }

  function PatientsOf(items: seq<Json>): (r: Option<seq<Patient>>)
    ensures r.Some? <==> forall k :: 0 <= k < |items| ==> PatientOf(items[k]).Some?
    ensures r.Some? ==> |r.value| == |items| && forall k :: 0 <= k < |items| ==> r.value[k] == PatientOf(items[k]).value
    decreases |items|
  {
    if |items| == 0 then Some([])
    else match (PatientOf(items[0]), PatientsOf(items[1..]))
      case (Some(p), Some(rest)) =>
        assert forall k :: 1 <= k < |items| ==> items[k] == items[1..][k - 1];
        Some([p] + rest)
      case (None, _) => None
      case (_, None) =>
        assert forall k :: 1 <= k < |items| ==> items[k] == items[1..][k - 1];
        None
  }

  /** `res.patients.map(...)`: a reply without a `patients` array throws. */
  function ReplyPatients(res: Json): (r: Option<seq<Patient>>)
    ensures r.Some? ==> Field(res, "patients").Some? && Field(res, "patients").value.JArr?
    ensures r.Some? ==> |r.value| == |Field(res, "patients").value.items|
  {
    match Field(res, "patients")
    case Some(JArr(items)) => PatientsOf(items)
    case _ => None
  }

  // ---------------------------------------------------------------------
  // Initialising the tree

  /** The client-owned fields every imported series starts with
      (DICOMImport.jsx:62), whatever the server sent for them. */
  function InitSeries(s: Series): (r: Series)
    ensures Info(r) == Info(s) && r.errorMessage == s.errorMessage
    ensures !r.selectedForSend && r.selectedDestination == "" && r.status == "ready"
  {
    s.(selectedForSend := false, selectedDestination := "", status := "ready")
  }

  function InitPatients(ps: seq<Patient>): (r: seq<Patient>)
    ensures SameShape(ps, r)
    ensures forall i, j :: 0 <= i < |ps| && 0 <= j < |ps[i].series| ==> r[i].series[j] == InitSeries(ps[i].series[j])
  {
    seq(|ps|, i requires 0 <= i < |ps| =>
      ps[i].(series := seq(|ps[i].series|, j requires 0 <= j < |ps[i].series| => InitSeries(ps[i].series[j]))))
  }

  /** A freshly imported tree keeps the server's patients and series, in
      order, has nothing ticked (so the send button is disabled and the
      batch is empty), shows every series as ready, and importing the same
      reply again gives the same tree. */
  lemma FreshTree(ps: seq<Patient>)
    ensures var r := InitPatients(ps);
            && PatientList.SendDisabled(r)
            && Dashboard.BuildBatch(r) == []
            && (forall i, j :: 0 <= i < |r| && 0 <= j < |r[i].series| ==> r[i].series[j].status == "ready")
            && InitPatients(r) == r
  {
    var r := InitPatients(ps);
    assert forall i, j :: 0 <= i < |r| && 0 <= j < |r[i].series| ==> !r[i].series[j].selectedForSend;
    Dashboard.SendButtonAndBatch(r);
    var rr := InitPatients(r);
    assert |rr| == |r|;
    forall i | 0 <= i < |r|
      ensures rr[i] == r[i]
    {
      assert rr[i].series == r[i].series;
    }
  }

  // ---------------------------------------------------------------------
  // handleFiles

  /** A file handed to the component. */
  datatype FileRef = FileRef(name: string, size: nat)

  /** What the user is told when an upload fails: the error, or the
      TypeError of a reply without a patient list. */
  datatype Alert = UploadFailed(reason: UploadChannel.UploadError) | UnreadableReply

  datatype ImportOutcome = ImportOutcome(
    form: seq<(string, FileRef)>,
    imported: Option<seq<Patient>>,
    alert: Option<Alert>,
    uploading: bool,
    progress: nat,
    tokens: Tokens)

  /** `handleFiles` (DICOMImport.jsx:37-76): every file goes into the form
      under `files`; the tree is handed to the dashboard only when the
      upload succeeded and the reply holds a patient list, and an alert is
      shown otherwise; the uploading flag and the progress are reset
      whatever happened. */
  function HandleFiles(t: Tokens, files: seq<FileRef>, xhrs: seq<UploadChannel.XhrEvent>, refreshes: seq<AuthClient.Reply>): (o: ImportOutcome)
    ensures |o.form| == |files| && forall k :: 0 <= k < |files| ==> o.form[k] == ("files", files[k])
    ensures var up := UploadChannel.ImportDicom(t, xhrs, refreshes);
            && o.tokens == up.tokens
            && (o.imported.Some? <==> up.result.Ok? && ReplyPatients(up.result.value).Some?)
            && (o.imported.Some? ==> o.imported.value == InitPatients(ReplyPatients(up.result.value).value))
            && (up.result.Err? ==> o.alert == Some(UploadFailed(up.result.error)))
    ensures o.alert.Some? <==> o.imported.None?
    ensures !o.uploading && o.progress == 0
  {
    var form := seq(|files|, k requires 0 <= k < |files| => ("files", files[k]));
    var up := UploadChannel.ImportDicom(t, xhrs, refreshes);
    match up.result
    case Err(e) => ImportOutcome(form, None, Some(UploadFailed(e)), false, 0, up.tokens)
    case Ok(res) =>
      match ReplyPatients(res)
      case None => ImportOutcome(form, None, Some(UnreadableReply), false, 0, up.tokens)
      case Some(ps) => ImportOutcome(form, Some(InitPatients(ps)), None, false, 0, up.tokens)
  }

  /** `handleDrop` and `handleFileSelect` (DICOMImport.jsx:20-35): an
      upload starts only when at least one file was given. */
  function OnFiles(t: Tokens, files: seq<FileRef>, xhrs: seq<UploadChannel.XhrEvent>, refreshes: seq<AuthClient.Reply>): (r: Option<ImportOutcome>)
    ensures r.Some? <==> |files| > 0
    ensures r.Some? ==> |r.value.form| == |files|
  {
    if |files| > 0 then Some(HandleFiles(t, files, xhrs, refreshes)) else None
  }
}

=== FILE: dicom_parser.dfy ===
/** The server's DICOM parser (backend/dicom_api/services.py,
    `DICOMParser`): the date formatting applied to a parsed file, and the
    grouping of parsed files into patients and series with their two
    sorts. Reading the file itself (pydicom) is not modelled: a parsed
    file is given as its metadata record. */
module DicomParser {
  import opened Wrappers
  import Text
  import Sorting

  /** The metadata of one parsed file (services.py:33-53); every tag is
      read as a string, the empty string when absent. */
  datatype Metadata = Metadata(
    filePath: string,
    patientName: string,
    patientId: string,
    patientBirthDate: string,
    patientSex: string,
    studyInstanceUid: string,
    studyDescription: string,
    studyDate: string,
    seriesInstanceUid: string,
    seriesDescription: string,
    seriesNumber: string,
    modality: string,
    bodyPart: string,
    institution: string)

  // ---------------------------------------------------------------------
  // Dates: the DA value representation of DICOM PS3.5 section 6.2 is
  // YYYYMMDD; the parser shows it as YYYY-MM-DD.

  /** An eight-character date gets dashes after the year and the month;
      any other length is left as it is (services.py:56-71). */
  function FormatDate(s: string): (r: string)
    ensures |s| != 8 ==> r == s
    ensures |s| == 8 ==> |r| == 10 && r[4] == '-' && r[7] == '-'
  {
    if |s| == 8 then s[..4] + "-" + s[4..6] + "-" + s[6..] else s
  }

  /** The DA form back from the dashed form. */
  function UnformatDate(r: string): string
    requires |r| == 10
  {
    r[..4] + r[5..7] + r[8..]
  }

  /** Formatting loses nothing, and a formatted date is left alone by a
      second formatting. */
  lemma FormatDateRoundTrip(s: string)
    ensures |s| == 8 ==> UnformatDate(FormatDate(s)) == s
    ensures FormatDate(FormatDate(s)) == FormatDate(s)
  {
    if |s| == 8 {
      var r := FormatDate(s);
      assert r[..4] == s[..4] && r[5..7] == s[4..6] && r[8..] == s[6..];
      assert s == s[..4] + s[4..6] + s[6..];
    }
  }

  /** `parse_file`'s post-processing: the birth date and the study date are
      formatted, nothing else changes. */
  function ParseDates(m: Metadata): (r: Metadata)
    ensures r.(patientBirthDate := m.patientBirthDate, studyDate := m.studyDate) == m
    ensures Dashed(m.patientBirthDate, r.patientBirthDate)
    ensures Dashed(m.studyDate, r.studyDate)
  {
    FormatDateRoundTrip(m.patientBirthDate);
    FormatDateRoundTrip(m.studyDate);
    m.(patientBirthDate := FormatDate(m.patientBirthDate), studyDate := FormatDate(m.studyDate))
  }

  /** `r` is the eight-character date `s` with dashes after the year and
      the month, or `s` itself when it is not eight characters long. */
  predicate Dashed(s: string, r: string) {
    if |s| == 8 then |r| == 10 && r[4] == '-' && r[7] == '-' && UnformatDate(r) == s else r == s
  }

  // ---------------------------------------------------------------------
  // Grouping keys

  /** `patient_id or patient_name or 'Unknown'` (services.py:95). */
  function PatientKey(m: Metadata): (k: string)
    ensures k != ""
    ensures m.patientId != "" ==> k == m.patientId
    ensures m.patientId == "" && m.patientName != "" ==> k == m.patientName
  {
    if m.patientId != "" then m.patientId
    else if m.patientName != "" then m.patientName
    else "Unknown"
  }

  /** `series_instance_uid or 'Unknown'` (services.py:96). */
  function SeriesKey(m: Metadata): (k: string)
    ensures k != ""
    ensures m.seriesInstanceUid != "" ==> k == m.seriesInstanceUid
  {
    if m.seriesInstanceUid != "" then m.seriesInstanceUid else "Unknown"
  }

  // ---------------------------------------------------------------------
  // Groups

  datatype SeriesGroup = SeriesGroup(
    id: string,
    seriesInstanceUid: string,
    description: string,
    modality: string,
    seriesNumber: string,
    studyInstanceUid: string,
    studyDescription: string,
    studyDate: string,
    bodyPart: string,
    institution: string,
    files: seq<Metadata>,
    instanceCount: nat)

  datatype PatientGroup = PatientGroup(
    id: string,
    name: string,
    patientId: string,
    birthDate: string,
    sex: string,
    series: seq<SeriesGroup>)

  function PatientIdOf(p: PatientGroup): string {
    p.id
  }

  function SeriesIdOf(s: SeriesGroup): string {
    s.id
  }

  function CountOf(s: SeriesGroup): int {
    s.instanceCount
  }

  /** The series entry created for the first file of a series
      (services.py:111-124). */
  function NewSeries(m: Metadata): SeriesGroup {
    SeriesGroup(SeriesKey(m), m.seriesInstanceUid, m.seriesDescription, m.modality, m.seriesNumber,
                m.studyInstanceUid, m.studyDescription, m.studyDate, m.bodyPart, m.institution, [], 0)
  }

  /** The patient entry created for the first file of a patient
      (services.py:100-107). */
  function NewPatient(m: Metadata): PatientGroup {
    PatientGroup(PatientKey(m), m.patientName, m.patientId, m.patientBirthDate, m.patientSex, [])
  }

  /** Appending a file to a series (services.py:127-128). */
  function Grow(s: SeriesGroup, m: Metadata): SeriesGroup {
    s.(files := s.files + [m], instanceCount := s.instanceCount + 1)
  }

  /** Adds one file to a patient's series: the series with its key grows,
      or a new series is created at the end (services.py:110-128). */
  function AddToSeries(ss: seq<SeriesGroup>, m: Metadata): (r: seq<SeriesGroup>)
    ensures Sorting.SumBy(r, CountOf) == Sorting.SumBy(ss, CountOf) + 1
    ensures forall k :: Sorting.HasKey(r, SeriesIdOf, k) <==> Sorting.HasKey(ss, SeriesIdOf, k) || k == SeriesKey(m)
    ensures Sorting.DistinctKeys(ss, SeriesIdOf) ==> Sorting.DistinctKeys(r, SeriesIdOf)
  {
    match Sorting.FirstIndex(ss, SeriesIdOf, SeriesKey(m))
    case Some(j) =>
      Sorting.SumByUpdate(ss, j, Grow(ss[j], m), CountOf);
      Sorting.SameKeysUpdate(ss, j, Grow(ss[j], m), SeriesIdOf);
      ss[j := Grow(ss[j], m)]
    case None =>
      var x := Grow(NewSeries(m), m);
      Sorting.SumByAppend(ss, x, CountOf);
      Sorting.HasKeyAppend(ss, x, SeriesIdOf);
      assert Sorting.DistinctKeys(ss, SeriesIdOf) ==> Sorting.DistinctKeys(ss + [x], SeriesIdOf) by {
        if Sorting.DistinctKeys(ss, SeriesIdOf) {
          Sorting.DistinctKeysAppend(ss, x, SeriesIdOf);
        }
      }
      ss + [x]
  }

  /** Adds one file to the patients: its patient's series grow, or a new
      patient is created at the end (services.py:94-128). */
  function AddToPatients(ps: seq<PatientGroup>, m: Metadata): (r: seq<PatientGroup>)
  {
    match Sorting.FirstIndex(ps, PatientIdOf, PatientKey(m))
    case Some(i) => ps[i := ps[i].(series := AddToSeries(ps[i].series, m))]
    case None => ps + [NewPatient(m).(series := AddToSeries([], m))]
  }

  /** The loop over the parsed files (services.py:94-128), in order. */
  function Group(ms: seq<Metadata>): seq<PatientGroup> {
    if |ms| == 0 then [] else AddToPatients(Group(ms[..|ms| - 1]), ms[|ms| - 1])
  }

  // ---------------------------------------------------------------------
  // What the grouping means, read off the input

  /** The files of patient `pk`, in input order. */
  function OfPatient(ms: seq<Metadata>, pk: string): seq<Metadata> {
    if |ms| == 0 then []
    else OfPatient(ms[..|ms| - 1], pk) + (if PatientKey(ms[|ms| - 1]) == pk then [ms[|ms| - 1]] else [])
  }

  /** The files of series `sk` of patient `pk`, in input order. */
  function Matching(ms: seq<Metadata>, pk: string, sk: string): seq<Metadata> {
    if |ms| == 0 then []
    else
      var m := ms[|ms| - 1];
      Matching(ms[..|ms| - 1], pk, sk) + (if PatientKey(m) == pk && SeriesKey(m) == sk then [m] else [])
  }

  /** A series holds exactly the files of its patient and series key, in
      input order, counts them, and takes its descriptive fields from the
      first of them. */
  ghost predicate SeriesOK(s: SeriesGroup, pk: string, ms: seq<Metadata>) {
    && |s.files| > 0
    && s.files == Matching(ms, pk, s.id)
    && s.instanceCount == |s.files|
    && s.(files := [], instanceCount := 0) == NewSeries(s.files[0])
  }

  /** A patient takes its fields from its first file, has one series per
      series key among its files, and each of them is well formed. */
  ghost predicate PatientOK(p: PatientGroup, ms: seq<Metadata>) {
    && |OfPatient(ms, p.id)| > 0
    && p.(series := []) == NewPatient(OfPatient(ms, p.id)[0])
    && Sorting.DistinctKeys(p.series, SeriesIdOf)
    && (forall j :: 0 <= j < |p.series| ==> SeriesOK(p.series[j], p.id, ms))
    && (forall k :: 0 <= k < |ms| && PatientKey(ms[k]) == p.id ==> Sorting.HasKey(p.series, SeriesIdOf, SeriesKey(ms[k])))
  }

  /** One patient per patient key of the input, each well formed. */
  ghost predicate WellGrouped(ps: seq<PatientGroup>, ms: seq<Metadata>) {
    && Sorting.DistinctKeys(ps, PatientIdOf)
    && (forall i :: 0 <= i < |ps| ==> PatientOK(ps[i], ms))
    && (forall k :: 0 <= k < |ms| ==> Sorting.HasKey(ps, PatientIdOf, PatientKey(ms[k])))
  }

  function PatientCount(p: PatientGroup): int {
    Sorting.SumBy(p.series, CountOf)
  }

  /** The `instance_count`s of all series, added up. */
  function TotalInstances(ps: seq<PatientGroup>): int {
    Sorting.SumBy(ps, PatientCount)
  }

  lemma Unsnoc(ms: seq<Metadata>, m: Metadata, pk: string, sk: string)
    ensures OfPatient(ms + [m], pk) == OfPatient(ms, pk) + (if PatientKey(m) == pk then [m] else [])
    ensures Matching(ms + [m], pk, sk) == Matching(ms, pk, sk) + (if PatientKey(m) == pk && SeriesKey(m) == sk then [m] else [])
  {
    assert (ms + [m])[..|ms|] == ms;
  }

  lemma {:induction false} MatchingEmpty(ms: seq<Metadata>, pk: string, sk: string)
    requires forall k :: 0 <= k < |ms| ==> !(PatientKey(ms[k]) == pk && SeriesKey(ms[k]) == sk)
    ensures Matching(ms, pk, sk) == []
  {
    if |ms| > 0 {
      MatchingEmpty(ms[..|ms| - 1], pk, sk);
    }
  }

  lemma {:induction false} OfPatientEmpty(ms: seq<Metadata>, pk: string)
    requires forall k :: 0 <= k < |ms| ==> PatientKey(ms[k]) != pk
    ensures OfPatient(ms, pk) == []
  {
    if |ms| > 0 {
      OfPatientEmpty(ms[..|ms| - 1], pk);
    }
  }

  lemma KeepSeries(s: SeriesGroup, pk: string, ms: seq<Metadata>, m: Metadata)
    requires SeriesOK(s, pk, ms)
    requires !(PatientKey(m) == pk && SeriesKey(m) == s.id)
    ensures SeriesOK(s, pk, ms + [m])
  {
    Unsnoc(ms, m, pk, s.id);
  }

  lemma GrowSeries(s: SeriesGroup, pk: string, ms: seq<Metadata>, m: Metadata)
    requires SeriesOK(s, pk, ms)
    requires PatientKey(m) == pk && SeriesKey(m) == s.id
    ensures SeriesOK(Grow(s, m), pk, ms + [m])
  {
    Unsnoc(ms, m, pk, s.id);
    assert Grow(s, m).files[0] == s.files[0];
  }

  lemma StartSeries(ms: seq<Metadata>, m: Metadata)
    requires Matching(ms, PatientKey(m), SeriesKey(m)) == []
    ensures SeriesOK(Grow(NewSeries(m), m), PatientKey(m), ms + [m])
  {
    Unsnoc(ms, m, PatientKey(m), SeriesKey(m));
  }

  lemma KeepPatient(p: PatientGroup, ms: seq<Metadata>, m: Metadata)
    requires PatientOK(p, ms) && p.id != PatientKey(m)
    ensures PatientOK(p, ms + [m])
  {
    Unsnoc(ms, m, p.id, "");
    forall j | 0 <= j < |p.series| ensures SeriesOK(p.series[j], p.id, ms + [m]) {
      KeepSeries(p.series[j], p.id, ms, m);
    }
    var ms' := ms + [m];
    assert forall k :: 0 <= k < |ms| ==> ms'[k] == ms[k];
  }

  lemma ExtendPatient(p: PatientGroup, ms: seq<Metadata>, m: Metadata)
    requires PatientOK(p, ms) && p.id == PatientKey(m)
    ensures PatientOK(p.(series := AddToSeries(p.series, m)), ms + [m])
  {
    var ms' := ms + [m];
    Unsnoc(ms, m, p.id, "");
    assert OfPatient(ms', p.id)[0] == OfPatient(ms, p.id)[0];
    assert forall k :: 0 <= k < |ms| ==> ms'[k] == ms[k];
    match Sorting.FirstIndex(p.series, SeriesIdOf, SeriesKey(m))
    case Some(j) => ExtendSeriesFound(p, ms, m, j);
    case None => ExtendSeriesNew(p, ms, m);
    assert ms'[|ms|] == m;
  }

  /** The file's series exists: it grows, and the others still hold their
      files. */
  lemma ExtendSeriesFound(p: PatientGroup, ms: seq<Metadata>, m: Metadata, j: nat)
    requires PatientOK(p, ms) && p.id == PatientKey(m)
    requires Sorting.FirstIndex(p.series, SeriesIdOf, SeriesKey(m)) == Some(j)
    ensures forall i :: 0 <= i < |AddToSeries(p.series, m)| ==> SeriesOK(AddToSeries(p.series, m)[i], p.id, ms + [m])
  {
    var ss := p.series;
    var r := AddToSeries(ss, m);
    assert r == ss[j := Grow(ss[j], m)];
    forall i | 0 <= i < |r| ensures SeriesOK(r[i], p.id, ms + [m]) {
      if i == j {
        GrowSeries(ss[j], p.id, ms, m);
      } else {
        assert SeriesIdOf(ss[i]) != SeriesIdOf(ss[j]);
        KeepSeries(ss[i], p.id, ms, m);
      }
    }
  }

  /** The file starts a new series at the end, and the others still hold
      their files. */
  lemma ExtendSeriesNew(p: PatientGroup, ms: seq<Metadata>, m: Metadata)
    requires PatientOK(p, ms) && p.id == PatientKey(m)
    requires Sorting.FirstIndex(p.series, SeriesIdOf, SeriesKey(m)) == None
    ensures forall i :: 0 <= i < |AddToSeries(p.series, m)| ==> SeriesOK(AddToSeries(p.series, m)[i], p.id, ms + [m])
  {
    var pk := p.id;
    var ss := p.series;
    var r := AddToSeries(ss, m);
    assert r == ss + [Grow(NewSeries(m), m)];
    forall k | 0 <= k < |ms| ensures !(PatientKey(ms[k]) == pk && SeriesKey(ms[k]) == SeriesKey(m)) {
      if PatientKey(ms[k]) == pk {
        assert Sorting.HasKey(ss, SeriesIdOf, SeriesKey(ms[k]));
      }
    }
    MatchingEmpty(ms, pk, SeriesKey(m));
    StartSeries(ms, m);
    forall i | 0 <= i < |r| ensures SeriesOK(r[i], pk, ms + [m]) {
      if i < |ss| {
        assert r[i] == ss[i];
        KeepSeries(ss[i], pk, ms, m);
      }
    }
  }

  /** The only file of a new patient carries its only series key. */
  lemma NewPatientKeys(ms: seq<Metadata>, m: Metadata)
    requires forall k :: 0 <= k < |ms| ==> PatientKey(ms[k]) != PatientKey(m)
    ensures forall k :: 0 <= k < |ms + [m]| && PatientKey((ms + [m])[k]) == PatientKey(m) ==>
                        Sorting.HasKey(AddToSeries([], m), SeriesIdOf, SeriesKey((ms + [m])[k]))
  {
    var ms' := ms + [m];
    forall k | 0 <= k < |ms'|
      ensures PatientKey(ms'[k]) == PatientKey(m) ==> Sorting.HasKey(AddToSeries([], m), SeriesIdOf, SeriesKey(ms'[k]))
    {
      if k < |ms| {
        assert ms'[k] == ms[k];
      }
    }
  }

  lemma StartPatient(ms: seq<Metadata>, m: Metadata)
    requires forall k :: 0 <= k < |ms| ==> PatientKey(ms[k]) != PatientKey(m)
    ensures PatientOK(NewPatient(m).(series := AddToSeries([], m)), ms + [m])
  {
    var pk := PatientKey(m);
    var ms' := ms + [m];
    var p := NewPatient(m).(series := AddToSeries([], m));
    OfPatientEmpty(ms, pk);
    MatchingEmpty(ms, pk, SeriesKey(m));
    StartSeries(ms, m);
    NewPatientKeys(ms, m);
    assert OfPatient(ms', pk) == [m] by {
      Unsnoc(ms, m, pk, "");
    }
    assert p.series == [Grow(NewSeries(m), m)];
  }

  lemma GroupStepFound(ps: seq<PatientGroup>, ms: seq<Metadata>, m: Metadata, i: nat)
    requires WellGrouped(ps, ms)
    requires i < |ps| && ps[i].id == PatientKey(m)
    ensures WellGrouped(ps[i := ps[i].(series := AddToSeries(ps[i].series, m))], ms + [m])
  {
    var p := ps[i].(series := AddToSeries(ps[i].series, m));
    var r := ps[i := p];
    var ms' := ms + [m];
    Sorting.SameKeysUpdate(ps, i, p, PatientIdOf);
    forall i' | 0 <= i' < |r| ensures PatientOK(r[i'], ms') {
      if i' == i {
        ExtendPatient(ps[i], ms, m);
      } else {
        assert PatientIdOf(ps[i']) != PatientIdOf(ps[i]);
        KeepPatient(ps[i'], ms, m);
      }
    }
    assert PatientIdOf(r[i]) == PatientKey(m);
    forall k | 0 <= k < |ms'| ensures Sorting.HasKey(r, PatientIdOf, PatientKey(ms'[k])) {
      if k < |ms| {
        assert ms'[k] == ms[k];
      }
    }
  }

  lemma GroupStepNew(ps: seq<PatientGroup>, ms: seq<Metadata>, m: Metadata)
    requires WellGrouped(ps, ms)
    requires !Sorting.HasKey(ps, PatientIdOf, PatientKey(m))
    ensures WellGrouped(ps + [NewPatient(m).(series := AddToSeries([], m))], ms + [m])
  {
    var p := NewPatient(m).(series := AddToSeries([], m));
    var r := ps + [p];
    var ms' := ms + [m];
    Sorting.HasKeyAppend(ps, p, PatientIdOf);
    Sorting.DistinctKeysAppend(ps, p, PatientIdOf);
    assert forall k :: 0 <= k < |ms| ==> PatientKey(ms[k]) != PatientKey(m) by {
      forall k | 0 <= k < |ms| ensures PatientKey(ms[k]) != PatientKey(m) {
        assert Sorting.HasKey(ps, PatientIdOf, PatientKey(ms[k]));
      }
    }
    StartPatient(ms, m);
    forall i' | 0 <= i' < |r| ensures PatientOK(r[i'], ms') {
      if i' < |ps| {
        assert r[i'] == ps[i'];
        assert Sorting.HasKey(ps, PatientIdOf, ps[i'].id);
        KeepPatient(ps[i'], ms, m);
      }
    }
    forall k | 0 <= k < |ms'| ensures Sorting.HasKey(r, PatientIdOf, PatientKey(ms'[k])) {
      if k < |ms| {
        assert ms'[k] == ms[k];
      }
    }
  }

  /** Adding a file keeps the grouping well formed. */
  lemma GroupStep(ps: seq<PatientGroup>, ms: seq<Metadata>, m: Metadata, grown: seq<Metadata>)
    requires WellGrouped(ps, ms) && grown == ms + [m]
    ensures WellGrouped(AddToPatients(ps, m), grown)
  {
    match Sorting.FirstIndex(ps, PatientIdOf, PatientKey(m))
    case Some(i) => GroupStepFound(ps, ms, m, i);
    case None => GroupStepNew(ps, ms, m);
  }

  /** Adding a file adds one instance. */
  lemma CountStep(ps: seq<PatientGroup>, m: Metadata)
    ensures TotalInstances(AddToPatients(ps, m)) == TotalInstances(ps) + 1
  {
    match Sorting.FirstIndex(ps, PatientIdOf, PatientKey(m))
    case Some(i) =>
      var p := ps[i].(series := AddToSeries(ps[i].series, m));
      Sorting.SumByUpdate(ps, i, p, PatientCount);
    case None =>
      var p := NewPatient(m).(series := AddToSeries([], m));
      Sorting.SumByAppend(ps, p, PatientCount);
  }

  /** The grouping is well formed. */
  lemma {:induction false} GroupIsWellFormed(ms: seq<Metadata>)
    ensures WellGrouped(Group(ms), ms)
  {
    if |ms| > 0 {
      var front, last := ms[..|ms| - 1], ms[|ms| - 1];
      assert front + [last] == ms;
      GroupIsWellFormed(front);
      GroupStep(Group(front), front, last, ms);
    }
  }

  /** The instance counts of the grouping add up to the number of parsed
      files. */
  lemma {:induction false} GroupCountsFiles(ms: seq<Metadata>)
    ensures TotalInstances(Group(ms)) == |ms|
  {
    if |ms| > 0 {
      var front, last := ms[..|ms| - 1], ms[|ms| - 1];
      GroupCountsFiles(front);
      CountStep(Group(front), last);
    }
  }

  // ---------------------------------------------------------------------
  // Reading the input back through the grouping

  /** The patient and series keys of a file together. */
  function KeysOf(m: Metadata): (string, string) {
    (PatientKey(m), SeriesKey(m))
  }

  /** `ms[k]` is the first file of its series, the one whose fields the
      series entry takes. */
  predicate StartsSeries(ms: seq<Metadata>, k: nat)
    requires k < |ms|
  {
    forall k' :: 0 <= k' < k ==> KeysOf(ms[k']) != KeysOf(ms[k])
  }

  lemma {:induction false} MatchingFirst(ms: seq<Metadata>, k: nat)
    requires k < |ms| && StartsSeries(ms, k)
    ensures var mt := Matching(ms, PatientKey(ms[k]), SeriesKey(ms[k])); |mt| > 0 && mt[0] == ms[k]
  {
    var front := ms[..|ms| - 1];
    var pk, sk := PatientKey(ms[k]), SeriesKey(ms[k]);
    if k == |ms| - 1 {
      forall k' | 0 <= k' < |front| ensures !(PatientKey(front[k']) == pk && SeriesKey(front[k']) == sk) {
        assert front[k'] == ms[k'] && KeysOf(ms[k']) != KeysOf(ms[k]);
      }
      MatchingEmpty(front, pk, sk);
    } else {
      assert front[k] == ms[k];
      assert StartsSeries(front, k) by {
        forall k' | 0 <= k' < k ensures KeysOf(front[k']) != KeysOf(front[k]) {
          assert front[k'] == ms[k'];
        }
      }
      MatchingFirst(front, k);
    }
  }

  lemma {:induction false} MatchingHasStart(ms: seq<Metadata>, pk: string, sk: string)
    requires |Matching(ms, pk, sk)| > 0
    ensures Sorting.HasKey(ms, KeysOf, (pk, sk))
  {
    var front := ms[..|ms| - 1];
    var m := ms[|ms| - 1];
    if KeysOf(m) != (pk, sk) {
      MatchingHasStart(front, pk, sk);
      var i :| 0 <= i < |front| && KeysOf(front[i]) == (pk, sk);
      assert ms[i] == front[i];
    }
  }

  /** The file a grouped series takes its fields from starts its series. */
  lemma SeriesStart(s: SeriesGroup, pk: string, ms: seq<Metadata>) returns (k: nat)
    requires SeriesOK(s, pk, ms)
    ensures k < |ms| && StartsSeries(ms, k) && ms[k] == s.files[0]
  {
    MatchingHasStart(ms, pk, s.id);
    var j := Sorting.FirstIndex(ms, KeysOf, (pk, s.id));
    k := j.value;
    MatchingFirst(ms, k);
  }

  // ---------------------------------------------------------------------
  // The two sorts (services.py:138-143)

  function NameOf(p: PatientGroup): string {
    p.name
  }

  /** `int(s.get('series_number', 0) or 0)` accepts the series number: it
      is empty, or a decimal integer. */
  predicate ValidNumber(n: string) {
    n == "" || Text.ParsePyInt(n).Ok?
  }

  /** The sort key of a series: an empty number counts as 0. */
  function NumberKey(s: SeriesGroup): int {
    if s.seriesNumber == "" then 0
    else match Text.ParsePyInt(s.seriesNumber)
      case Ok(n) => n
      case Err(_) => 0
  }

  predicate ValidSeries(s: SeriesGroup) {
    ValidNumber(s.seriesNumber)
  }

  /** Every series of `p` has a number `int()` accepts. */
  predicate NumbersValid(p: PatientGroup) {
    |Sorting.Reject(p.series, ValidSeries)| == 0
  }

  /** The series whose number `int()` rejects, patient after patient; the
      first of them is the one whose `ValueError` ends the sort. */
  function BadSeries(ps: seq<PatientGroup>): (r: seq<SeriesGroup>)
    ensures |r| == 0 <==> forall i :: 0 <= i < |ps| ==> NumbersValid(ps[i])
  {
    if |ps| == 0 then []
    else
      var rest := BadSeries(ps[1..]);
      assert forall i :: 1 <= i < |ps| ==> ps[i] == ps[1..][i - 1];
      Sorting.Reject(ps[0].series, ValidSeries) + rest
  }

  /** The series of a patient sorted by number: a stable sort, so series
      with equal numbers keep their order. */
  function SortSeries(p: PatientGroup): (r: PatientGroup)
    ensures r.(series := p.series) == p
    ensures multiset(r.series) == multiset(p.series)
    ensures Sorting.SortedBy(r.series, NumberKey, Sorting.IntLess())
    ensures forall n :: Sorting.WithKey(r.series, NumberKey, n) == Sorting.WithKey(p.series, NumberKey, n)
  {
    Sorting.IntLessIsTotal();
    Sorting.SortBySorted(p.series, NumberKey, Sorting.IntLess());
    forall n ensures Sorting.WithKey(Sorting.SortBy(p.series, NumberKey, Sorting.IntLess()), NumberKey, n) == Sorting.WithKey(p.series, NumberKey, n) {
      Sorting.SortByStable(p.series, NumberKey, Sorting.IntLess(), n);
    }
    p.(series := Sorting.SortBy(p.series, NumberKey, Sorting.IntLess()))
  }

  /** Why `group_by_patient_and_series` can fail: `int()` rejected the
      number of some series. */
  datatype GroupError = InvalidSeriesNumber(number: string)

  lemma SortSeriesKeeps(p: PatientGroup, ms: seq<Metadata>)
    requires PatientOK(p, ms)
    ensures PatientOK(SortSeries(p), ms)
    ensures PatientCount(SortSeries(p)) == PatientCount(p)
  {
    var r := SortSeries(p);
    Sorting.SortByKeepsDistinct(p.series, NumberKey, Sorting.IntLess(), SeriesIdOf);
    Sorting.SortByKeepsKeys(p.series, NumberKey, Sorting.IntLess(), SeriesIdOf);
    Sorting.SortByKeepsSum(p.series, NumberKey, Sorting.IntLess(), CountOf);
    forall j | 0 <= j < |r.series| ensures SeriesOK(r.series[j], p.id, ms) {
      assert r.series[j] in multiset(p.series);
    }
  }

  lemma SortPatientsKeeps(ps: seq<PatientGroup>, ms: seq<Metadata>)
    requires WellGrouped(ps, ms)
    ensures WellGrouped(Sorting.SortBy(ps, NameOf, Sorting.StringLess()), ms)
    ensures TotalInstances(Sorting.SortBy(ps, NameOf, Sorting.StringLess())) == TotalInstances(ps)
  {
    var r := Sorting.SortBy(ps, NameOf, Sorting.StringLess());
    Sorting.SortByKeepsDistinct(ps, NameOf, Sorting.StringLess(), PatientIdOf);
    Sorting.SortByKeepsKeys(ps, NameOf, Sorting.StringLess(), PatientIdOf);
    Sorting.SortByKeepsSum(ps, NameOf, Sorting.StringLess(), PatientCount);
    forall i | 0 <= i < |r| ensures PatientOK(r[i], ms) {
      assert r[i] in multiset(ps);
    }
  }

  /** The series sort applied to every patient, or the first number `int()`
      rejects. */
  function SortAllSeries(ps: seq<PatientGroup>): (r: Result<seq<PatientGroup>, GroupError>)
    ensures r.Ok? <==> |BadSeries(ps)| == 0
    ensures r.Err? ==> r.error == InvalidSeriesNumber(BadSeries(ps)[0].seriesNumber)
    ensures r.Ok? ==> |r.value| == |ps| && forall i :: 0 <= i < |ps| ==> r.value[i] == SortSeries(ps[i])
  {
    var bad := BadSeries(ps);
    if |bad| > 0 then Err(InvalidSeriesNumber(bad[0].seriesNumber))
    else Ok(seq(|ps|, i requires 0 <= i < |ps| => SortSeries(ps[i])))
  }

  lemma {:induction false} BadSeriesFirst(ps: seq<PatientGroup>) returns (i: nat, j: nat)
    requires |BadSeries(ps)| > 0
    ensures i < |ps| && j < |ps[i].series|
    ensures ps[i].series[j] == BadSeries(ps)[0] && !ValidSeries(ps[i].series[j])
  {
    var own := Sorting.Reject(ps[0].series, ValidSeries);
    if |own| > 0 {
      assert own[0] in ps[0].series;
      i := 0;
      j :| 0 <= j < |ps[0].series| && ps[0].series[j] == own[0];
    } else {
      var i', j' := BadSeriesFirst(ps[1..]);
      i, j := i' + 1, j';
    }
  }

  /** Every series number the sort reads is the number of the file that
      started its series. */
  ghost predicate InputNumbersValid(ms: seq<Metadata>) {
    forall k :: 0 <= k < |ms| && StartsSeries(ms, k) ==> ValidNumber(ms[k].seriesNumber)
  }

  lemma NumbersValidOf(p: PatientGroup)
    ensures NumbersValid(p) <==> forall j :: 0 <= j < |p.series| ==> ValidSeries(p.series[j])
  {
    var bad := Sorting.Reject(p.series, ValidSeries);
    if |bad| > 0 {
      assert !ValidSeries(bad[0]) && bad[0] in p.series;
    }
  }

  /** Where a file went: the patient and the series holding it. */
  lemma Placed(ps: seq<PatientGroup>, ms: seq<Metadata>, k: nat) returns (i: nat, j: nat)
    requires WellGrouped(ps, ms) && k < |ms|
    ensures i < |ps| && j < |ps[i].series|
    ensures ps[i].id == PatientKey(ms[k]) && ps[i].series[j].id == SeriesKey(ms[k])
    ensures SeriesOK(ps[i].series[j], ps[i].id, ms)
  {
    assert Sorting.HasKey(ps, PatientIdOf, PatientKey(ms[k]));
    i :| 0 <= i < |ps| && PatientIdOf(ps[i]) == PatientKey(ms[k]);
    assert PatientOK(ps[i], ms);
    assert Sorting.HasKey(ps[i].series, SeriesIdOf, SeriesKey(ms[k]));
    j :| 0 <= j < |ps[i].series| && SeriesIdOf(ps[i].series[j]) == SeriesKey(ms[k]);
  }

  lemma SeriesWellFormed(ps: seq<PatientGroup>, ms: seq<Metadata>, i: nat, j: nat)
    requires WellGrouped(ps, ms) && i < |ps| && j < |ps[i].series|
    ensures SeriesOK(ps[i].series[j], ps[i].id, ms)
  {
    assert PatientOK(ps[i], ms);
  }

  lemma ValidFromInput(ps: seq<PatientGroup>, ms: seq<Metadata>)
    requires WellGrouped(ps, ms) && InputNumbersValid(ms)
    ensures forall i :: 0 <= i < |ps| ==> NumbersValid(ps[i])
  {
    forall i | 0 <= i < |ps| ensures NumbersValid(ps[i]) {
      forall j | 0 <= j < |ps[i].series| ensures ValidSeries(ps[i].series[j]) {
        SeriesWellFormed(ps, ms, i, j);
        var k := SeriesStart(ps[i].series[j], ps[i].id, ms);
      }
      NumbersValidOf(ps[i]);
    }
  }

  lemma InputFromValid(ps: seq<PatientGroup>, ms: seq<Metadata>)
    requires WellGrouped(ps, ms) && forall i :: 0 <= i < |ps| ==> NumbersValid(ps[i])
    ensures InputNumbersValid(ms)
  {
    forall k | 0 <= k < |ms| && StartsSeries(ms, k) ensures ValidNumber(ms[k].seriesNumber) {
      var i, j := Placed(ps, ms, k);
      MatchingFirst(ms, k);
      NumbersValidOf(ps[i]);
      assert ValidSeries(ps[i].series[j]);
    }
  }

  lemma SortAllKeeps(ps: seq<PatientGroup>, ms: seq<Metadata>, r: seq<PatientGroup>)
    requires WellGrouped(ps, ms)
    requires |r| == |ps| && forall i :: 0 <= i < |ps| ==> r[i] == SortSeries(ps[i])
    ensures WellGrouped(r, ms)
    ensures TotalInstances(r) == TotalInstances(ps)
    ensures Sorting.SortedBy(ps, NameOf, Sorting.StringLess()) ==> Sorting.SortedBy(r, NameOf, Sorting.StringLess())
  {
    forall i | 0 <= i < |ps| ensures PatientOK(r[i], ms) && PatientCount(r[i]) == PatientCount(ps[i]) {
      SortSeriesKeeps(ps[i], ms);
    }
    assert forall i :: 0 <= i < |ps| ==> PatientIdOf(r[i]) == PatientIdOf(ps[i]) && NameOf(r[i]) == NameOf(ps[i]);
    Sorting.SumByPointwise(r, ps, PatientCount);
    forall k | 0 <= k < |ms| ensures Sorting.HasKey(r, PatientIdOf, PatientKey(ms[k])) {
      assert Sorting.HasKey(ps, PatientIdOf, PatientKey(ms[k]));
      var i :| 0 <= i < |ps| && PatientIdOf(ps[i]) == PatientKey(ms[k]);
      assert PatientIdOf(r[i]) == PatientKey(ms[k]);
    }
  }

  /** The number the sort rejects is that of a file starting a series. */
  lemma RejectedNumberIsInput(ps: seq<PatientGroup>, ms: seq<Metadata>)
    requires WellGrouped(ps, ms) && |BadSeries(ps)| > 0
    ensures !ValidNumber(BadSeries(ps)[0].seriesNumber)
    ensures exists k :: 0 <= k < |ms| && StartsSeries(ms, k) && ms[k].seriesNumber == BadSeries(ps)[0].seriesNumber
  {
    var i, j := BadSeriesFirst(ps);
    var k := SeriesStart(ps[i].series[j], ps[i].id, ms);
  }

  /** The patients of the grouping, sorted by name. */
  lemma SortedPatients(ms: seq<Metadata>)
    ensures var ps := Sorting.SortBy(Group(ms), NameOf, Sorting.StringLess());
            && WellGrouped(ps, ms) && TotalInstances(ps) == |ms|
            && Sorting.SortedBy(ps, NameOf, Sorting.StringLess())
  {
    var g := Group(ms);
    GroupIsWellFormed(ms);
    GroupCountsFiles(ms);
    SortPatientsKeeps(g, ms);
    Sorting.StringLessIsTotal();
    Sorting.SortBySorted(g, NameOf, Sorting.StringLess());
  }

  lemma SortAllOk(ps: seq<PatientGroup>, ms: seq<Metadata>)
    requires WellGrouped(ps, ms) && TotalInstances(ps) == |ms| && Sorting.SortedBy(ps, NameOf, Sorting.StringLess())
    requires SortAllSeries(ps).Ok?
    ensures var v := SortAllSeries(ps).value;
            && InputNumbersValid(ms)
            && WellGrouped(v, ms) && TotalInstances(v) == |ms|
            && Sorting.SortedBy(v, NameOf, Sorting.StringLess())
            && forall i :: 0 <= i < |v| ==> Sorting.SortedBy(v[i].series, NumberKey, Sorting.IntLess())
  {
    InputFromValid(ps, ms);
    SortAllKeeps(ps, ms, SortAllSeries(ps).value);
  }

  lemma SortAllErr(ps: seq<PatientGroup>, ms: seq<Metadata>)
    requires WellGrouped(ps, ms)
    requires SortAllSeries(ps).Err?
    ensures var e := SortAllSeries(ps).error;
            && !InputNumbersValid(ms)
            && !ValidNumber(e.number)
            && exists k :: 0 <= k < |ms| && StartsSeries(ms, k) && ms[k].seriesNumber == e.number
  {
    RejectedNumberIsInput(ps, ms);
    if InputNumbersValid(ms) {
      ValidFromInput(ps, ms);
      assert false;
    }
  }

  /** `group_by_patient_and_series` (services.py:82-145): the files grouped
      by patient and series, the patients sorted by name and each
      patient's series by number, both sorts stable. It fails, with the
      number `int()` rejected, exactly when some series starts with a file
      whose number is neither empty nor an integer. Otherwise the result
      holds one patient per patient key and one series per series key of
      the input, each with exactly its files in input order and its fields
      from its first file, and the instance counts add up to the number of
      files. */
  function GroupAndSort(ms: seq<Metadata>): (r: Result<seq<PatientGroup>, GroupError>)
    ensures r.Ok? <==> InputNumbersValid(ms)
    ensures r.Err? ==> !ValidNumber(r.error.number)
    ensures r.Err? ==> exists k :: 0 <= k < |ms| && StartsSeries(ms, k) && ms[k].seriesNumber == r.error.number
    ensures r.Ok? ==> WellGrouped(r.value, ms) && TotalInstances(r.value) == |ms|
    ensures r.Ok? ==> Sorting.SortedBy(r.value, NameOf, Sorting.StringLess())
    ensures r.Ok? ==> forall i :: 0 <= i < |r.value| ==> Sorting.SortedBy(r.value[i].series, NumberKey, Sorting.IntLess())
  {
    var ps := Sorting.SortBy(Group(ms), NameOf, Sorting.StringLess());
    SortedPatients(ms);
    var r := SortAllSeries(ps);
    if r.Ok? then
      SortAllOk(ps, ms);
      r
    else
      SortAllErr(ps, ms);
      r
  }
}

=== FILE: import_view.dfy ===
/** The import endpoint (`import_dicom_files`, backend/dicom_api/views.py:19-120):
    the uploaded files are saved into a fresh directory and parsed, the
    parsed ones are grouped, every series is registered in the series
    cache under an id scoped by the import session, and an audit log is
    written. Saving, the directory, the session id (a fresh UUID) and the
    clock are parameters; what became of each file is given. */
module ImportView {
  import opened Wrappers
  import opened JsonValue
  import Text
  import Sorting
  import DicomParser
  import TransferLog
  import opened ApiState

  /** What became of one uploaded file: it was saved and parsed to the given
      tags, it was saved but the parser gave nothing back, or saving it
      raised with the given message. */
  datatype FileOutcome = Parsed(tags: DicomParser.Metadata) | NotDicom | Raised(message: string)

  datatype Upload = Upload(name: string, outcome: FileOutcome)

  /** Where an upload is saved (views.py:53), for a plain file name. */
  function SavePath(tempDir: string, name: string): string {
    tempDir + "/" + name
  }

  /** The record kept for a parsed upload: the parser's dates formatted
      and the path it was saved at (views.py:63-66). */
  function Prepared(u: Upload, tempDir: string): (m: DicomParser.Metadata)
    requires u.outcome.Parsed?
    ensures m.filePath == SavePath(tempDir, u.name)
    ensures m.(filePath := u.outcome.tags.filePath) == DicomParser.ParseDates(u.outcome.tags)
  {
    DicomParser.ParseDates(u.outcome.tags).(filePath := SavePath(tempDir, u.name))
  }

  /** The error line an unparsed upload adds (views.py:68, 71). */
  function ErrorLine(u: Upload): (e: string)
    requires !u.outcome.Parsed?
    ensures u.outcome.NotDicom? ==> e == "Failed to parse DICOM file: " + u.name
    ensures u.outcome.Raised? ==> e == "Error processing " + u.name + ": " + u.outcome.message
  {
    if u.outcome.NotDicom? then "Failed to parse DICOM file: " + u.name
    else "Error processing " + u.name + ": " + u.outcome.message
  }

  predicate IsParsed(u: Upload) {
    u.outcome.Parsed?
  }

  /** `m` is the record of one of the parsed uploads. */
  predicate PreparedFrom(ups: seq<Upload>, tempDir: string, m: DicomParser.Metadata) {
    exists i :: 0 <= i < |ups| && IsParsed(ups[i]) && m == Prepared(ups[i], tempDir)
  }

  /** The records of the parsed uploads, in upload order. */
  function Processed(ups: seq<Upload>, tempDir: string): (r: seq<DicomParser.Metadata>)
    ensures |r| <= |ups|
    ensures |r| == 0 <==> forall i :: 0 <= i < |ups| ==> !IsParsed(ups[i])
    ensures forall k :: 0 <= k < |r| ==> PreparedFrom(ups, tempDir, r[k])
  {
    if |ups| == 0 then []
    else
      var rest := Processed(ups[1..], tempDir);
      assert forall i :: 1 <= i < |ups| ==> ups[i] == ups[1..][i - 1];
      if IsParsed(ups[0]) then [Prepared(ups[0], tempDir)] + rest else rest
  }

  /** The records are the prepared parsed uploads. */
  lemma {:induction false} ProcessedIsKeepMap(ups: seq<Upload>, tempDir: string, f: Upload --> DicomParser.Metadata)
    requires forall u :: IsParsed(u) ==> f.requires(u) && f(u) == Prepared(u, tempDir)
    ensures Processed(ups, tempDir) == Sorting.KeepMap(ups, IsParsed, f)
    decreases |ups|
  {
    if |ups| > 0 {
      ProcessedIsKeepMap(ups[1..], tempDir, f);
    }
  }

  /** The records are one per parsed upload, in upload order: record `k`
      is made from the `k`-th parsed upload. */
  lemma ProcessedInOrder(ups: seq<Upload>, tempDir: string)
    ensures var idx := Sorting.Positions(ups, IsParsed, 0);
            var r := Processed(ups, tempDir);
            |r| == |idx| && forall k :: 0 <= k < |r| ==> r[k] == Prepared(ups[idx[k]], tempDir)
  {
    var f := (u: Upload) requires IsParsed(u) => Prepared(u, tempDir);
    ProcessedIsKeepMap(ups, tempDir, f);
    Sorting.KeepMapInOrder(ups, IsParsed, f);
  }

  /** The error lines of the other uploads, in upload order. */
  function Errors(ups: seq<Upload>): (r: seq<string>)
    ensures |r| <= |ups|
    ensures |r| == 0 <==> forall i :: 0 <= i < |ups| ==> IsParsed(ups[i])
  {
    if |ups| == 0 then []
    else
      var rest := Errors(ups[1..]);
      assert forall i :: 1 <= i < |ups| ==> ups[i] == ups[1..][i - 1];
      if IsParsed(ups[0]) then rest else [ErrorLine(ups[0])] + rest
  }

  /** Every upload is either processed or reported, never both. */
  lemma {:induction false} ErrorsCount(ups: seq<Upload>, tempDir: string)
    ensures |Errors(ups)| + |Processed(ups, tempDir)| == |ups|
  {
    if |ups| > 0 {
      ErrorsCount(ups[1..], tempDir);
    }
  }

  // ---------------------------------------------------------------------
  // Registering the series (views.py:83-92)

  /** The id the client is given for a series: the session id and the
      series' group key. */
  function CacheKey(sessionId: string, s: DicomParser.SeriesGroup): string {
    sessionId + "_" + s.id
  }

  function Entry(sessionId: string, userId: int, s: DicomParser.SeriesGroup): CacheEntry {
    CacheEntry(s.files, userId, sessionId)
  }

  function Relabel(sessionId: string, s: DicomParser.SeriesGroup): DicomParser.SeriesGroup {
    s.(id := CacheKey(sessionId, s))
  }

  function SeriesCount(p: DicomParser.PatientGroup): int {
    |p.series|
  }

  /** The patients as the client receives them: every series carries its
      cache key as its id; nothing else changes. */
  function RelabelPatients(ps: seq<DicomParser.PatientGroup>, sessionId: string): (r: seq<DicomParser.PatientGroup>)
    ensures |r| == |ps|
    ensures forall i :: 0 <= i < |ps| ==> r[i].(series := ps[i].series) == ps[i] && |r[i].series| == |ps[i].series|
    ensures forall i, j :: 0 <= i < |ps| && 0 <= j < |ps[i].series| ==> r[i].series[j] == Relabel(sessionId, ps[i].series[j])
  {
    seq(|ps|, i requires 0 <= i < |ps| =>
      ps[i].(series := seq(|ps[i].series|, j requires 0 <= j < |ps[i].series| => Relabel(sessionId, ps[i].series[j]))))
  }

  /** `w` is the write of some series of `ps`. */
  predicate WriteOf(ps: seq<DicomParser.PatientGroup>, sessionId: string, userId: int, w: (string, CacheEntry)) {
    exists i, j :: 0 <= i < |ps| && 0 <= j < |ps[i].series|
                   && w == (CacheKey(sessionId, ps[i].series[j]), Entry(sessionId, userId, ps[i].series[j]))
  }

  /** The writes of one patient's series, in order. */
  function PatientWrites(ss: seq<DicomParser.SeriesGroup>, sessionId: string, userId: int): (r: seq<(string, CacheEntry)>)
    ensures |r| == |ss|
    ensures forall j :: 0 <= j < |ss| ==> r[j] == (CacheKey(sessionId, ss[j]), Entry(sessionId, userId, ss[j]))
  {
    seq(|ss|, j requires 0 <= j < |ss| => (CacheKey(sessionId, ss[j]), Entry(sessionId, userId, ss[j])))
  }

  /** The cache writes of the registration loop, in loop order: one per
      series, patient by patient. */
  function SeriesWrites(ps: seq<DicomParser.PatientGroup>, sessionId: string, userId: int): (r: seq<(string, CacheEntry)>)
    ensures |r| == Sorting.SumBy(ps, SeriesCount)
  {
    if |ps| == 0 then [] else PatientWrites(ps[0].series, sessionId, userId) + SeriesWrites(ps[1..], sessionId, userId)
  }

  /** Every series is written, under its key with its entry. */
  lemma {:induction false} SeriesWritesCover(ps: seq<DicomParser.PatientGroup>, sessionId: string, userId: int, i: nat, j: nat)
    requires i < |ps| && j < |ps[i].series|
    ensures (CacheKey(sessionId, ps[i].series[j]), Entry(sessionId, userId, ps[i].series[j])) in SeriesWrites(ps, sessionId, userId)
  {
    var head := PatientWrites(ps[0].series, sessionId, userId);
    var rest := SeriesWrites(ps[1..], sessionId, userId);
    if i == 0 {
      assert head[j] == (head + rest)[j];
    } else {
      assert ps[1..][i - 1] == ps[i];
      SeriesWritesCover(ps[1..], sessionId, userId, i - 1, j);
    }
  }

  /** Nothing else is written. */
  lemma {:induction false} SeriesWritesAreOf(ps: seq<DicomParser.PatientGroup>, sessionId: string, userId: int, k: nat)
    requires k < |SeriesWrites(ps, sessionId, userId)|
    ensures WriteOf(ps, sessionId, userId, SeriesWrites(ps, sessionId, userId)[k])
  {
    var head := PatientWrites(ps[0].series, sessionId, userId);
    var rest := SeriesWrites(ps[1..], sessionId, userId);
    if k < |head| {
      assert (head + rest)[k] == head[k];
      assert 0 <= 0 < |ps| && 0 <= k < |ps[0].series|;
    } else {
      assert (head + rest)[k] == rest[k - |head|];
      SeriesWritesAreOf(ps[1..], sessionId, userId, k - |head|);
      var i, j :| 0 <= i < |ps[1..]| && 0 <= j < |ps[1..][i].series|
                  && rest[k - |head|] == (CacheKey(sessionId, ps[1..][i].series[j]), Entry(sessionId, userId, ps[1..][i].series[j]));
      assert ps[1..][i] == ps[i + 1];
    }
  }

  /** Every key the registration writes carries the session prefix. */
  lemma WritesArePrefixed(ps: seq<DicomParser.PatientGroup>, sessionId: string, userId: int, k: string)
    requires Writes(SeriesWrites(ps, sessionId, userId), k)
    ensures sessionId + "_" <= k
  {
    var w := SeriesWrites(ps, sessionId, userId);
    var n :| 0 <= n < |w| && w[n].0 == k;
    SeriesWritesAreOf(ps, sessionId, userId, n);
  }

  /** Every key the registration writes belongs to the uploader and the
      session. */
  lemma WrittenEntryIsOwned(cache: Cache, ps: seq<DicomParser.PatientGroup>, sessionId: string, userId: int, k: string)
    requires Writes(SeriesWrites(ps, sessionId, userId), k)
    ensures var c := Store(cache, SeriesWrites(ps, sessionId, userId));
            k in c && c[k].userId == userId && c[k].sessionId == sessionId
  {
    var w := SeriesWrites(ps, sessionId, userId);
    StoreWritten(cache, w, k);
    var n :| 0 <= n < |w| && w[n].0 == k && Store(cache, w)[k] == w[n].1;
    SeriesWritesAreOf(ps, sessionId, userId, n);
  }

  // ---------------------------------------------------------------------
  // The endpoint

  const NoFilesUploaded: string := "No files uploaded"
  const NoFilesProvided: string := "No files provided"
  const NoValidFiles: string := "No valid DICOM files found"

  datatype Summary = Summary(filesProcessed: nat, patientsFound: nat, seriesFound: nat, errors: seq<string>)

  /** The response: a 400 with an error and the collected error lines, a
      500 because a series number is not an integer (the grouping's sort
      raised), or the grouped patients with a summary. */
  datatype ImportResponse =
    | BadRequest(error: string, errors: seq<string>)
    | ImportFailed(seriesNumber: string)
    | Imported(patients: seq<DicomParser.PatientGroup>, summary: Summary)

  datatype ImportOutcome = ImportOutcome(response: ImportResponse, cache: Cache, log: Option<TransferLog.Log>)

  /** The audit log of a successful import (views.py:95-105). */
  function ImportLog(logId: int, user: Requester, now: int, processed: nat, patients: nat, sessionId: string, tempDir: string): (l: TransferLog.Log)
    ensures l.action == "import" && l.status == "success" && l.userId == user.id && l.timestamp == Some(now)
    ensures l.details.Keys == {"files_processed", "patients_count", "session_id", "temp_dir"}
    ensures l.details["files_processed"] == JNum(processed) && l.details["session_id"] == JStr(sessionId)
  {
    var details := map["files_processed" := JNum(processed), "patients_count" := JNum(patients),
                       "session_id" := JStr(sessionId), "temp_dir" := JStr(tempDir)];
    TransferLog.Created(logId, user.id, user.username, "import", now).(status := "success", details := details)
  }

  /** The parser's grouping, seen through what the endpoint relies on. */
  function Grouping(ms: seq<DicomParser.Metadata>): (r: Result<seq<DicomParser.PatientGroup>, DicomParser.GroupError>)
    ensures r.Ok? <==> DicomParser.InputNumbersValid(ms)
    ensures r.Err? ==> !DicomParser.ValidNumber(r.error.number)
    ensures r.Ok? ==> DicomParser.TotalInstances(r.value) == |ms|
  {
    DicomParser.GroupAndSort(ms)
  }

  /** What a successful import promises: every upload is counted once,
      as processed or as an error line; the summary counts the patients and
      the series the client receives; their instance counts add up to the
      processed files; the audit log records the import; and every series
      id the client receives is a cache key under the session's prefix,
      owned by the uploader and the session. */
  predicate ImportedWell(o: ImportOutcome, ups: seq<Upload>, sessionId: string, user: Requester) {
    && o.response.Imported?
    && var s := o.response.summary;
    && s.filesProcessed + |s.errors| == |ups| && s.errors == Errors(ups)
    && s.patientsFound == |o.response.patients|
    && s.seriesFound == Sorting.SumBy(o.response.patients, SeriesCount)
    && DicomParser.TotalInstances(o.response.patients) == s.filesProcessed
    && o.log.Some? && o.log.value.action == "import" && o.log.value.status == "success"
    && "files_processed" in o.log.value.details
    && o.log.value.details["files_processed"] == JNum(s.filesProcessed)
    && forall i, j :: 0 <= i < |o.response.patients| && 0 <= j < |o.response.patients[i].series| ==>
         var id := o.response.patients[i].series[j].id;
         sessionId + "_" <= id && id in o.cache && o.cache[id].userId == user.id && o.cache[id].sessionId == sessionId
  }

  /** The success response of the import: the relabelled patients, the
      summary, the registered cache and the audit log. */
  function Accepted(ups: seq<Upload>, processed: nat, ps: seq<DicomParser.PatientGroup>, tempDir: string, sessionId: string,
                    user: Requester, cache: Cache, logId: int, now: int): (o: ImportOutcome)
    requires processed + |Errors(ups)| == |ups|
    requires DicomParser.TotalInstances(ps) == processed
    ensures ImportedWell(o, ups, sessionId, user) && o.response.summary.filesProcessed == processed
    ensures forall k :: k in cache && !(sessionId + "_" <= k) ==> k in o.cache && o.cache[k] == cache[k]
  {
    ImportedFacts(ps, processed, sessionId, user.id, cache);
    var summary := Summary(processed, |ps|, Sorting.SumBy(ps, SeriesCount), Errors(ups));
    var log := ImportLog(logId, user, now, processed, |ps|, sessionId, tempDir);
    ImportOutcome(Imported(RelabelPatients(ps, sessionId), summary), Store(cache, SeriesWrites(ps, sessionId, user.id)), Some(log))
  }

  /** The endpoint once the request has files: with none parsed a 400
      with their error lines, with a series number that is not an integer a
      500, otherwise the import is accepted. */
  function ImportUploads(ups: seq<Upload>, tempDir: string, sessionId: string, user: Requester,
                         cache: Cache, logId: int, now: int): (o: ImportOutcome)
    requires |ups| > 0
    ensures (forall i :: 0 <= i < |ups| ==> !IsParsed(ups[i])) ==>
              o.response == BadRequest(NoValidFiles, Errors(ups)) && |o.response.errors| == |ups|
    ensures o.response.Imported? <==>
              (exists i :: 0 <= i < |ups| && IsParsed(ups[i])) && DicomParser.InputNumbersValid(Processed(ups, tempDir))
    ensures o.response.ImportFailed? ==> !DicomParser.ValidNumber(o.response.seriesNumber)
    ensures !o.response.Imported? ==> o.cache == cache && o.log.None?
    ensures o.response.Imported? ==> ImportedWell(o, ups, sessionId, user)
    ensures forall k :: k in cache && !(sessionId + "_" <= k) ==> k in o.cache && o.cache[k] == cache[k]
  {
    var processed := Processed(ups, tempDir);
    ErrorsCount(ups, tempDir);
    if |processed| == 0 then ImportOutcome(BadRequest(NoValidFiles, Errors(ups)), cache, None)
    else
      var grouped := Grouping(processed);
      if grouped.Err? then ImportOutcome(ImportFailed(grouped.error.number), cache, None)
      else Accepted(ups, |processed|, grouped.value, tempDir, sessionId, user, cache, logId, now)
  }

  /** `import_dicom_files`. `files` is the multipart field, None when the
      request has none. */
  function ImportFiles(files: Option<seq<Upload>>, tempDir: string, sessionId: string, user: Requester,
                       cache: Cache, logId: int, now: int): (o: ImportOutcome)
    ensures files.None? ==> o.response == BadRequest(NoFilesUploaded, [])
    ensures files == Some([]) ==> o.response == BadRequest(NoFilesProvided, [])
    ensures files.Some? && |files.value| > 0 && (forall i :: 0 <= i < |files.value| ==> !IsParsed(files.value[i])) ==>
              o.response == BadRequest(NoValidFiles, Errors(files.value)) && |o.response.errors| == |files.value|
    ensures o.response.Imported? <==>
              files.Some? && (exists i :: 0 <= i < |files.value| && IsParsed(files.value[i]))
              && DicomParser.InputNumbersValid(Processed(files.value, tempDir))
    ensures o.response.ImportFailed? ==> !DicomParser.ValidNumber(o.response.seriesNumber)
    ensures !o.response.Imported? ==> o.cache == cache && o.log.None?
    ensures o.response.Imported? ==> ImportedWell(o, files.value, sessionId, user)
    ensures forall k :: k in cache && !(sessionId + "_" <= k) ==> k in o.cache && o.cache[k] == cache[k]
  {
    if files.None? then ImportOutcome(BadRequest(NoFilesUploaded, []), cache, None)
    else if |files.value| == 0 then ImportOutcome(BadRequest(NoFilesProvided, []), cache, None)
    else
      ErrorsCount(files.value, tempDir);
      ImportUploads(files.value, tempDir, sessionId, user, cache, logId, now)
  }

  /** What registering a grouping does to the cache and the counts. */
  lemma ImportedFacts(ps: seq<DicomParser.PatientGroup>, processed: nat, sessionId: string, userId: int, cache: Cache)
    requires DicomParser.TotalInstances(ps) == processed
    ensures var r := RelabelPatients(ps, sessionId);
            var c := Store(cache, SeriesWrites(ps, sessionId, userId));
            && Sorting.SumBy(r, SeriesCount) == Sorting.SumBy(ps, SeriesCount)
            && DicomParser.TotalInstances(r) == processed
            && (forall i, j :: 0 <= i < |r| && 0 <= j < |r[i].series| ==>
                  var id := r[i].series[j].id;
                  sessionId + "_" <= id && id in c && c[id].userId == userId && c[id].sessionId == sessionId)
            && (forall k :: k in cache && !(sessionId + "_" <= k) ==> k in c && c[k] == cache[k])
  {
    var r := RelabelPatients(ps, sessionId);
    var w := SeriesWrites(ps, sessionId, userId);
    Sorting.SumByPointwise(r, ps, SeriesCount);
    forall i | 0 <= i < |r| ensures DicomParser.PatientCount(r[i]) == DicomParser.PatientCount(ps[i]) {
      Sorting.SumByPointwise(r[i].series, ps[i].series, DicomParser.CountOf);
    }
    Sorting.SumByPointwise(r, ps, DicomParser.PatientCount);
    forall i, j | 0 <= i < |r| && 0 <= j < |r[i].series|
      ensures var id := r[i].series[j].id;
              sessionId + "_" <= id && id in Store(cache, w) && Store(cache, w)[id].userId == userId
              && Store(cache, w)[id].sessionId == sessionId
    {
      var s := ps[i].series[j];
      var wr := (CacheKey(sessionId, s), Entry(sessionId, userId, s));
      SeriesWritesCover(ps, sessionId, userId, i, j);
      var n :| 0 <= n < |w| && w[n] == wr;
      assert Writes(w, CacheKey(sessionId, s));
      WrittenEntryIsOwned(cache, ps, sessionId, userId, CacheKey(sessionId, s));
    }
    forall k | k in cache && !(sessionId + "_" <= k) ensures k in Store(cache, w) && Store(cache, w)[k] == cache[k] {
      if Writes(w, k) {
        WritesArePrefixed(ps, sessionId, userId, k);
      }
    }
  }

  // ---------------------------------------------------------------------
  // Reading a series back from the cache

  /** Series that share an id share their files. */
  predicate SharedIdsShareFiles(ps: seq<DicomParser.PatientGroup>) {
    forall i1, j1, i2, j2 ::
      0 <= i1 < |ps| && 0 <= j1 < |ps[i1].series| && 0 <= i2 < |ps| && 0 <= j2 < |ps[i2].series| && ps[i1].series[j1].id == ps[i2].series[j2].id
      ==> ps[i1].series[j1].files == ps[i2].series[j2].files
  }

  /** When no two series of an import share an id (or those that do share
      their files), the send endpoint finds each series' own files under
      the id the client was given. */
  lemma RegisteredSeriesReadBack(cache: Cache, ps: seq<DicomParser.PatientGroup>, sessionId: string, userId: int, i: nat, j: nat)
    requires SharedIdsShareFiles(ps)
    requires i < |ps| && j < |ps[i].series|
    ensures var c := Store(cache, SeriesWrites(ps, sessionId, userId));
            var k := RelabelPatients(ps, sessionId)[i].series[j].id;
            k in c && c[k] == CacheEntry(ps[i].series[j].files, userId, sessionId)
  {
    var w := SeriesWrites(ps, sessionId, userId);
    var k := CacheKey(sessionId, ps[i].series[j]);
    SeriesWritesCover(ps, sessionId, userId, i, j);
    var n :| 0 <= n < |w| && w[n] == (k, Entry(sessionId, userId, ps[i].series[j]));
    StoreWritten(cache, w, k);
    var m :| 0 <= m < |w| && w[m].0 == k && Store(cache, w)[k] == w[m].1;
    SeriesWritesAreOf(ps, sessionId, userId, m);
    var i2, j2 :| 0 <= i2 < |ps| && 0 <= j2 < |ps[i2].series|
                  && w[m] == (CacheKey(sessionId, ps[i2].series[j2]), Entry(sessionId, userId, ps[i2].series[j2]));
    assert ps[i2].series[j2].id == ps[i].series[j].id by {
      var pre := sessionId + "_";
      assert (pre + ps[i2].series[j2].id)[|pre|..] == ps[i2].series[j2].id;
      assert (pre + ps[i].series[j].id)[|pre|..] == ps[i].series[j].id;
    }
  }

  /** Two series of one import that share an id but not their files:
      the client receives one id for both, the cache keeps one entry under
      it, and some series the client receives reads back files that are not
      its own. */
  lemma SharedIdLosesFiles(cache: Cache, ps: seq<DicomParser.PatientGroup>, sessionId: string, userId: int,
                           i1: nat, j1: nat, i2: nat, j2: nat)
    requires i1 < |ps| && j1 < |ps[i1].series| && i2 < |ps| && j2 < |ps[i2].series|
    requires ps[i1].series[j1].id == ps[i2].series[j2].id && ps[i1].series[j1].files != ps[i2].series[j2].files
    ensures var c := Store(cache, SeriesWrites(ps, sessionId, userId));
            var r := RelabelPatients(ps, sessionId);
            exists i, j :: 0 <= i < |r| && 0 <= j < |r[i].series|
              && var id := r[i].series[j].id;
              && id in c && c[id].files != r[i].series[j].files
  {
    var w := SeriesWrites(ps, sessionId, userId);
    var c := Store(cache, w);
    var r := RelabelPatients(ps, sessionId);
    var s := ps[i1].series[j1];
    SeriesWritesCover(ps, sessionId, userId, i1, j1);
    var n :| 0 <= n < |w| && w[n] == (CacheKey(sessionId, s), Entry(sessionId, userId, s));
    assert Writes(w, CacheKey(sessionId, s));
    assert r[i1].series[j1].id == r[i2].series[j2].id == CacheKey(sessionId, s);
    if c[CacheKey(sessionId, s)].files == r[i1].series[j1].files {
      assert c[CacheKey(sessionId, s)].files != r[i2].series[j2].files;
    }
  }

  /** A parsed file of patient `patientId` with no other tag. */
  function Bare(patientId: string): DicomParser.Metadata {
    DicomParser.Metadata("", "", patientId, "", "", "", "", "", "", "", "", "", "", "")
  }

  /** Two uploads of patients `a` and `b`, neither with a series
      instance UID. */
  function BareUploads(a: string, b: string): seq<Upload> {
    [Upload("a.dcm", Parsed(Bare(a))), Upload("b.dcm", Parsed(Bare(b)))]
  }

  lemma BareProcessed(a: string, b: string, tempDir: string)
    requires a != "" && b != ""
    ensures var ups := BareUploads(a, b);
            var ms := Processed(ups, tempDir);
            && |ms| == 2 && |Errors(ups)| == 0
            && DicomParser.PatientKey(ms[0]) == a && DicomParser.PatientKey(ms[1]) == b
            && DicomParser.SeriesKey(ms[0]) == DicomParser.SeriesKey(ms[1])
            && DicomParser.InputNumbersValid(ms)
  {
    var ups := BareUploads(a, b);
    assert ups[1..][1..] == [];
    var ms := Processed(ups, tempDir);
    forall k | 0 <= k < |ms| && DicomParser.StartsSeries(ms, k) ensures DicomParser.ValidNumber(ms[k].seriesNumber) {
      assert ms[k].seriesNumber == "";
    }
  }

  /** The files of one series key of one patient, among two files. */
  lemma MatchingOfTwo(m1: DicomParser.Metadata, m2: DicomParser.Metadata, pk: string, sk: string)
    ensures DicomParser.Matching([m1, m2], pk, sk) ==
              (if DicomParser.PatientKey(m1) == pk && DicomParser.SeriesKey(m1) == sk then [m1] else [])
              + (if DicomParser.PatientKey(m2) == pk && DicomParser.SeriesKey(m2) == sk then [m2] else [])
  {
    assert [m1, m2][..1] == [m1] && [m1][..0] == [];
    assert DicomParser.Matching([m1], pk, sk) == DicomParser.Matching([], pk, sk)
             + (if DicomParser.PatientKey(m1) == pk && DicomParser.SeriesKey(m1) == sk then [m1] else []);
  }

  /** Any grouping of two files of different patients and one series key
      has two series with that key and different files. */
  lemma TwoPatientsOneKey(ms: seq<DicomParser.Metadata>, ps: seq<DicomParser.PatientGroup>) returns (i1: nat, j1: nat, i2: nat, j2: nat)
    requires |ms| == 2 && DicomParser.WellGrouped(ps, ms)
    requires DicomParser.PatientKey(ms[0]) != DicomParser.PatientKey(ms[1])
    requires DicomParser.SeriesKey(ms[0]) == DicomParser.SeriesKey(ms[1])
    ensures i1 < |ps| && j1 < |ps[i1].series| && i2 < |ps| && j2 < |ps[i2].series|
    ensures ps[i1].series[j1].id == ps[i2].series[j2].id && ps[i1].series[j1].files != ps[i2].series[j2].files
  {
    i1, j1 := DicomParser.Placed(ps, ms, 0);
    i2, j2 := DicomParser.Placed(ps, ms, 1);
    assert ms == [ms[0], ms[1]];
    MatchingOfTwo(ms[0], ms[1], ps[i1].id, ps[i1].series[j1].id);
    MatchingOfTwo(ms[0], ms[1], ps[i2].id, ps[i2].series[j2].id);
  }

  /** The import of files of two different patients that carry no series
      instance UID succeeds, both series are keyed "Unknown", and one of the
      two series the client receives is sent with the other patient's
      files. */
  lemma UnknownSeriesCollide(a: string, b: string, tempDir: string, sessionId: string, user: Requester, cache: Cache, logId: int, now: int)
    requires a != "" && b != "" && a != b
    ensures var o := ImportFiles(Some(BareUploads(a, b)), tempDir, sessionId, user, cache, logId, now);
            && o.response.Imported?
            && exists i, j :: 0 <= i < |o.response.patients| && 0 <= j < |o.response.patients[i].series|
                 && var id := o.response.patients[i].series[j].id;
                 && id in o.cache && o.cache[id].files != o.response.patients[i].series[j].files
  {
    var ups := BareUploads(a, b);
    var ms := Processed(ups, tempDir);
    BareProcessed(a, b, tempDir);
    var ps := DicomParser.GroupAndSort(ms).value;
    var i1, j1, i2, j2 := TwoPatientsOneKey(ms, ps);
    var o := ImportFiles(Some(ups), tempDir, sessionId, user, cache, logId, now);
    assert o == Accepted(ups, 2, ps, tempDir, sessionId, user, cache, logId, now) by {
      FilesAreUploads(ups, tempDir, sessionId, user, cache, logId, now);
      ErrorsCount(ups, tempDir);
      UploadsAccepted(ups, tempDir, sessionId, user, cache, logId, now);
    }
    assert o.response.Imported? && o.response.patients == RelabelPatients(ps, sessionId)
           && o.cache == Store(cache, SeriesWrites(ps, sessionId, user.id)) by {
      AcceptedShape(ups, 2, ps, tempDir, sessionId, user, cache, logId, now);
    }
    SharedIdLosesFiles(cache, ps, sessionId, user.id, i1, j1, i2, j2);
  }

  lemma AcceptedShape(ups: seq<Upload>, processed: nat, ps: seq<DicomParser.PatientGroup>, tempDir: string, sessionId: string,
                      user: Requester, cache: Cache, logId: int, now: int)
    requires processed + |Errors(ups)| == |ups|
    requires DicomParser.TotalInstances(ps) == processed
    ensures var o := Accepted(ups, processed, ps, tempDir, sessionId, user, cache, logId, now);
            o.response.Imported? && o.response.patients == RelabelPatients(ps, sessionId)
            && o.cache == Store(cache, SeriesWrites(ps, sessionId, user.id))
  {
  }

  lemma FilesAreUploads(ups: seq<Upload>, tempDir: string, sessionId: string, user: Requester, cache: Cache, logId: int, now: int)
    requires |ups| > 0
    ensures ImportFiles(Some(ups), tempDir, sessionId, user, cache, logId, now)
            == ImportUploads(ups, tempDir, sessionId, user, cache, logId, now)
  {
  }

  lemma UploadsAccepted(ups: seq<Upload>, tempDir: string, sessionId: string, user: Requester, cache: Cache, logId: int, now: int)
    requires |ups| > 0 && |Processed(ups, tempDir)| > 0 && DicomParser.InputNumbersValid(Processed(ups, tempDir))
    requires |Errors(ups)| + |Processed(ups, tempDir)| == |ups|
    ensures var ms := Processed(ups, tempDir);
            ImportUploads(ups, tempDir, sessionId, user, cache, logId, now)
            == Accepted(ups, |ms|, DicomParser.GroupAndSort(ms).value, tempDir, sessionId, user, cache, logId, now)
  {
    ErrorsCount(ups, tempDir);
  }

  // ---------------------------------------------------------------------
  // Registration under keys that cannot collide

  /** A cache key built from the session and the position of the series:
      its patient's index and its own index within the patient. */
  function IndexedKey(sessionId: string, i: nat, j: nat): string {
    sessionId + "_" + Text.IntToString(i) + "_" + Text.IntToString(j)
  }

  /** Different positions give different keys, since the printed indices
      hold only digits and the separator is not one. */
  lemma IndexedKeyInjective(sessionId: string, i: nat, j: nat, i2: nat, j2: nat)
    requires IndexedKey(sessionId, i, j) == IndexedKey(sessionId, i2, j2)
    ensures i == i2 && j == j2
  {
    var a, b := Text.IntToString(i), Text.IntToString(j);
    var a2, b2 := Text.IntToString(i2), Text.IntToString(j2);
    var pre := sessionId + "_";
    var t, t2 := a + "_" + b, a2 + "_" + b2;
    assert IndexedKey(sessionId, i, j) == pre + t;
    assert IndexedKey(sessionId, i2, j2) == pre + t2;
    assert t == (pre + t)[|pre|..] && t2 == (pre + t2)[|pre|..];
    assert Text.AllDigits(a) && Text.AllDigits(b) && Text.AllDigits(a2) && Text.AllDigits(b2);
    SplitPair(a, b, a2, b2);
    Text.ParsePyIntOfIntToString(i);
    Text.ParsePyIntOfIntToString(i2);
    Text.ParsePyIntOfIntToString(j);
    Text.ParsePyIntOfIntToString(j2);
  }

  /** Two digit strings joined by `_` determine both digit strings. */
  lemma SplitPair(a: string, b: string, a2: string, b2: string)
    requires Text.AllDigits(a) && Text.AllDigits(b) && Text.AllDigits(a2) && Text.AllDigits(b2)
    requires a + "_" + b == a2 + "_" + b2
    ensures a == a2 && b == b2
  {
    Text.JoinPair(a, b, '_');
    Text.JoinPair(a2, b2, '_');
    forall s | s in {a, b, a2, b2} ensures '_' !in s {
      assert Text.AllDigits(s);
    }
    Text.SplitJoin([a, b], '_');
    Text.SplitJoin([a2, b2], '_');
  }

  /** The writes of patient `i`'s series under indexed keys. */
  function IndexedPatientWrites(ss: seq<DicomParser.SeriesGroup>, sessionId: string, userId: int, i: nat): (r: seq<(string, CacheEntry)>)
    ensures |r| == |ss|
    ensures forall j :: 0 <= j < |ss| ==> r[j] == (IndexedKey(sessionId, i, j), Entry(sessionId, userId, ss[j]))
  {
    seq(|ss|, j requires 0 <= j < |ss| => (IndexedKey(sessionId, i, j), Entry(sessionId, userId, ss[j])))
  }

  /** The indexed writes of patients `base`, `base + 1`, ... */
  function IndexedWrites(ps: seq<DicomParser.PatientGroup>, sessionId: string, userId: int, base: nat): (r: seq<(string, CacheEntry)>)
  {
    if |ps| == 0 then []
    else IndexedPatientWrites(ps[0].series, sessionId, userId, base) + IndexedWrites(ps[1..], sessionId, userId, base + 1)
  }

  /** `w` is the indexed write of series `j` of patient `i`, counted from `base`. */
  predicate IndexedWriteOf(ps: seq<DicomParser.PatientGroup>, sessionId: string, userId: int, base: nat, w: (string, CacheEntry)) {
    exists i, j :: 0 <= i < |ps| && 0 <= j < |ps[i].series|
                   && w == (IndexedKey(sessionId, base + i, j), Entry(sessionId, userId, ps[i].series[j]))
  }

  lemma {:induction false} IndexedWritesCover(ps: seq<DicomParser.PatientGroup>, sessionId: string, userId: int, base: nat, i: nat, j: nat)
    requires i < |ps| && j < |ps[i].series|
    ensures (IndexedKey(sessionId, base + i, j), Entry(sessionId, userId, ps[i].series[j])) in IndexedWrites(ps, sessionId, userId, base)
  {
    var head := IndexedPatientWrites(ps[0].series, sessionId, userId, base);
    var rest := IndexedWrites(ps[1..], sessionId, userId, base + 1);
    if i == 0 {
      assert head[j] == (head + rest)[j];
    } else {
      assert ps[1..][i - 1] == ps[i];
      IndexedWritesCover(ps[1..], sessionId, userId, base + 1, i - 1, j);
    }
  }

  lemma IndexedWritesAreOf(ps: seq<DicomParser.PatientGroup>, sessionId: string, userId: int, base: nat, k: nat)
    requires k < |IndexedWrites(ps, sessionId, userId, base)|
    ensures IndexedWriteOf(ps, sessionId, userId, base, IndexedWrites(ps, sessionId, userId, base)[k])
  {
    var i, j := IndexedWriteSource(ps, sessionId, userId, base, k);
    IndexedWriteAt(ps, sessionId, userId, base, i, j, IndexedWrites(ps, sessionId, userId, base)[k]);
  }

  /** The patient `i` and series `j` whose write is the `k`-th one. */
  lemma {:induction false} IndexedWriteSource(ps: seq<DicomParser.PatientGroup>, sessionId: string, userId: int, base: nat, k: nat)
    returns (i: nat, j: nat)
    requires k < |IndexedWrites(ps, sessionId, userId, base)|
    ensures i < |ps| && j < |ps[i].series|
    ensures IndexedWrites(ps, sessionId, userId, base)[k] == (IndexedKey(sessionId, base + i, j), Entry(sessionId, userId, ps[i].series[j]))
  {
    var n := |ps[0].series|;
    IndexedWritesSplit(ps, sessionId, userId, base, k);
    if k < n {
      i, j := 0, k;
    } else {
      var i', j' := IndexedWriteSource(ps[1..], sessionId, userId, base + 1, k - n);
      assert ps[1..][i'] == ps[i' + 1];
      i, j := i' + 1, j';
    }
  }

  /** The `k`-th indexed write is one of the first patient's, or one of
      the rest's. */
  lemma IndexedWritesSplit(ps: seq<DicomParser.PatientGroup>, sessionId: string, userId: int, base: nat, k: nat)
    requires k < |IndexedWrites(ps, sessionId, userId, base)|
    ensures |ps| > 0
    ensures var n := |ps[0].series|;
            && |IndexedWrites(ps, sessionId, userId, base)| == n + |IndexedWrites(ps[1..], sessionId, userId, base + 1)|
            && IndexedWrites(ps, sessionId, userId, base)[k]
               == if k < n then (IndexedKey(sessionId, base, k), Entry(sessionId, userId, ps[0].series[k]))
                  else IndexedWrites(ps[1..], sessionId, userId, base + 1)[k - n]
  {
    var head := IndexedPatientWrites(ps[0].series, sessionId, userId, base);
    var rest := IndexedWrites(ps[1..], sessionId, userId, base + 1);
    assert IndexedWrites(ps, sessionId, userId, base) == head + rest;
  }

  /** The write of series `j` of patient `i` is one of the indexed writes. */
  lemma IndexedWriteAt(ps: seq<DicomParser.PatientGroup>, sessionId: string, userId: int, base: nat,
                       i: nat, j: nat, w: (string, CacheEntry))
    requires i < |ps| && j < |ps[i].series|
    requires w == (IndexedKey(sessionId, base + i, j), Entry(sessionId, userId, ps[i].series[j]))
    ensures IndexedWriteOf(ps, sessionId, userId, base, w)
  {
  }

  /** The patients as the client would receive them: series `j` of
      patient `i` carries its indexed key. */
  function IndexPatients(ps: seq<DicomParser.PatientGroup>, sessionId: string): (r: seq<DicomParser.PatientGroup>)
    ensures |r| == |ps|
    ensures forall i :: 0 <= i < |ps| ==> r[i].(series := ps[i].series) == ps[i] && |r[i].series| == |ps[i].series|
    ensures forall i, j :: 0 <= i < |ps| && 0 <= j < |ps[i].series| ==>
              r[i].series[j] == ps[i].series[j].(id := IndexedKey(sessionId, i, j))
  {
    seq(|ps|, i requires 0 <= i < |ps| =>
      ps[i].(series := seq(|ps[i].series|, j requires 0 <= j < |ps[i].series| => ps[i].series[j].(id := IndexedKey(sessionId, i, j)))))
  }

  /** The registration with indexed keys: every series the client receives
      reads back its own files, uploader and session, whatever the series
      keys; entries outside the session's prefix are untouched. */
  function RegisterIndexed(ps: seq<DicomParser.PatientGroup>, sessionId: string, userId: int, cache: Cache): (r: (seq<DicomParser.PatientGroup>, Cache))
    ensures r.0 == IndexPatients(ps, sessionId)
    ensures forall i, j :: 0 <= i < |r.0| && 0 <= j < |r.0[i].series| ==>
              var id := r.0[i].series[j].id;
              id in r.1 && r.1[id] == CacheEntry(ps[i].series[j].files, userId, sessionId)
    ensures forall k :: k in cache && !(sessionId + "_" <= k) ==> k in r.1 && r.1[k] == cache[k]
  {
    var w := IndexedWrites(ps, sessionId, userId, 0);
    IndexedReadBack(ps, sessionId, userId, cache);
    IndexedKeepsOthers(ps, sessionId, userId, cache);
    (IndexPatients(ps, sessionId), Store(cache, w))
  }

  /** Every series reads back its own entry under its indexed key. */
  lemma IndexedReadBack(ps: seq<DicomParser.PatientGroup>, sessionId: string, userId: int, cache: Cache)
    ensures var c := Store(cache, IndexedWrites(ps, sessionId, userId, 0));
            forall i, j :: 0 <= i < |ps| && 0 <= j < |ps[i].series| ==>
              IndexedKey(sessionId, i, j) in c && c[IndexedKey(sessionId, i, j)] == CacheEntry(ps[i].series[j].files, userId, sessionId)
  {
    var w := IndexedWrites(ps, sessionId, userId, 0);
    IndexedConsistent(ps, sessionId, userId);
    var c := Store(cache, w);
    forall i, j | 0 <= i < |ps| && 0 <= j < |ps[i].series|
      ensures IndexedKey(sessionId, i, j) in c && c[IndexedKey(sessionId, i, j)] == CacheEntry(ps[i].series[j].files, userId, sessionId)
    {
      IndexedWritesCover(ps, sessionId, userId, 0, i, j);
      var n :| 0 <= n < |w| && w[n] == (IndexedKey(sessionId, 0 + i, j), Entry(sessionId, userId, ps[i].series[j]));
      StoreReadsBack(cache, w, n);
    }
  }

  /** Entries outside the session's prefix are not written. */
  lemma IndexedKeepsOthers(ps: seq<DicomParser.PatientGroup>, sessionId: string, userId: int, cache: Cache)
    ensures var c := Store(cache, IndexedWrites(ps, sessionId, userId, 0));
            forall k :: k in cache && !(sessionId + "_" <= k) ==> k in c && c[k] == cache[k]
  {
    var w := IndexedWrites(ps, sessionId, userId, 0);
    forall k | k in cache && !(sessionId + "_" <= k) ensures !Writes(w, k) {
      if Writes(w, k) {
        var n :| 0 <= n < |w| && w[n].0 == k;
        IndexedWritesAreOf(ps, sessionId, userId, 0, n);
      }
    }
  }

  /** No indexed key is written with two different entries. */
  lemma IndexedConsistent(ps: seq<DicomParser.PatientGroup>, sessionId: string, userId: int)
    ensures Consistent(IndexedWrites(ps, sessionId, userId, 0))
  {
    var w := IndexedWrites(ps, sessionId, userId, 0);
    forall a, b | 0 <= a < |w| && 0 <= b < |w| && w[a].0 == w[b].0 ensures w[a].1 == w[b].1 {
      IndexedWritesAreOf(ps, sessionId, userId, 0, a);
      IndexedWritesAreOf(ps, sessionId, userId, 0, b);
      var i, j :| 0 <= i < |ps| && 0 <= j < |ps[i].series| && w[a] == (IndexedKey(sessionId, 0 + i, j), Entry(sessionId, userId, ps[i].series[j]));
      var i2, j2 :| 0 <= i2 < |ps| && 0 <= j2 < |ps[i2].series| && w[b] == (IndexedKey(sessionId, 0 + i2, j2), Entry(sessionId, userId, ps[i2].series[j2]));
      IndexedKeyInjective(sessionId, i, j, i2, j2);
    }
  }
}

=== FILE: json_value.dfy ===
/** A JSON value as it travels between the browser client and the API,
    with the two truthiness rules the code base relies on: JavaScript's
    (client) and Python's (server). */
module JsonValue {
  import opened Wrappers

  datatype Json =
    | JNull
    | JBool(b: bool)
    | JNum(n: int)
    | JStr(s: string)
    | JArr(items: seq<Json>)
    | JObj(fields: map<string, Json>)

  /** JavaScript truthiness: `null`, `false`, `0` and `""` are falsy; arrays
      and objects are truthy even when empty. */
  predicate JsTruthy(j: Json) {
    match j
    case JNull => false
    case JBool(b) => b
    case JNum(n) => n != 0
    case JStr(s) => s != ""
    case JArr(_) => true
    case JObj(_) => true
  }

  /** Python truthiness: as JavaScript, except that an empty list or dict
      is falsy too. */
  predicate PyTruthy(j: Json) {
    match j
    case JArr(xs) => |xs| > 0
    case JObj(m) => |m| > 0
    case _ => JsTruthy(j)
  }

  /** Reading a key of an object: `obj.k` in JavaScript, `d.get('k')` in
      Python. A missing key and a non-object both give None. */
  function Field(j: Json, k: string): (r: Option<Json>)
    ensures r.Some? <==> j.JObj? && k in j.fields
  {
    if j.JObj? && k in j.fields then Some(j.fields[k]) else None
  }

  /** Python's truthiness of `d.get(k)`: a missing key reads as None. */
  predicate PyTruthyField(j: Json, k: string) {
    var v := Field(j, k);
    v.Some? && PyTruthy(v.value)
  }

  /** JavaScript's truthiness of `obj.k`: a missing key reads as undefined. */
  predicate JsTruthyField(j: Json, k: string) {
    var v := Field(j, k);
    v.Some? && JsTruthy(v.value)
  }

  /** Every value Python treats as true JavaScript treats as true as well;
      the two rules differ only on empty arrays and objects. */
  lemma PyTruthyImpliesJsTruthy(j: Json)
    ensures PyTruthy(j) ==> JsTruthy(j)
    ensures JsTruthy(j) && !PyTruthy(j) <==> j == JArr([]) || j == JObj(map[])
  {
    match j
    case JArr(xs) => {
      if |xs| == 0 { assert xs == []; }
    }
    case JObj(m) => {
      if |m| == 0 { assert m == map[]; }
    }
    case _ => {}
  }
}

=== FILE: log_query.dfy ===
/** The audit-log listing (`TransferLogViewSet`, backend/dicom_api/views.py:283-330):
    which logs a user may see, the query-parameter filters, the default
    newest-first order, and which serializer (and so which keys) a row
    gets. Parsing a date parameter and taking the calendar day of a
    timestamp depend on Django's settings and are parameters. */
module LogQuery {
  import opened Wrappers
  import Text
  import Sorting
  import TransferLog
  import ApiState

  /** The query parameters the listing reads; None when absent. */
  datatype LogParams = LogParams(
    status: Option<string>,
    action: Option<string>,
    user: Option<string>,
    startDate: Option<string>,
    endDate: Option<string>)

  const NoParams: LogParams := LogParams(None, None, None, None, None)

  /** A query parameter that is present and not empty, as `if value:` reads it. */
  predicate Given(p: Option<string>) {
    p.Some? && p.value != ""
  }

  /** Admins see every log; anyone else sees only their own (views.py:300-301). */
  predicate Visible(l: TransferLog.Log, u: ApiState.Requester) {
    ApiState.IsAdmin(u) || l.userId == u.id
  }

  /** The log's calendar day is on or after (`after`) or on or before the
      day `d`; a log without a timestamp matches neither, as a null column
      matches no comparison. */
  predicate DayBound(l: TransferLog.Log, dayOf: int -> int, d: int, after: bool) {
    l.timestamp.Some? && if after then dayOf(l.timestamp.value) >= d else dayOf(l.timestamp.value) <= d
  }

  /** The days the two date parameters name, once both parsed. */
  datatype Days = Days(start: Option<int>, end: Option<int>)

  /** A date parameter: absent or empty applies no bound; otherwise it must
      parse. */
  function DayParam(p: Option<string>, parseDay: string -> Option<int>): (r: Result<Option<int>, string>)
    ensures r.Err? <==> Given(p) && parseDay(p.value).None?
    ensures r.Ok? && r.value.Some? <==> Given(p) && parseDay(p.value).Some?
    ensures r.Ok? && r.value.Some? ==> Some(r.value.value) == parseDay(p.value)
  {
    if !Given(p) then Ok(None)
    else match parseDay(p.value)
      case None => Err("invalid date")
      case Some(d) => Ok(Some(d))
  }

  /** The filters of views.py:300-322 that a log passes. */
  predicate Passes(l: TransferLog.Log, u: ApiState.Requester, p: LogParams, days: Days, dayOf: int -> int) {
    && Visible(l, u)
    && (Given(p.status) ==> l.status == p.status.value)
    && (Given(p.action) ==> l.action == p.action.value)
    && (Given(p.user) && ApiState.IsAdmin(u) ==> Text.IContains(l.username, p.user.value))
    && (days.start.Some? ==> DayBound(l, dayOf, days.start.value, true))
    && (days.end.Some? ==> DayBound(l, dayOf, days.end.value, false))
  }

  /** The passing logs, in table order. */
  function Filtered(logs: seq<TransferLog.Log>, u: ApiState.Requester, p: LogParams, days: Days, dayOf: int -> int): (r: seq<TransferLog.Log>)
    ensures forall l :: l in r <==> l in logs && Passes(l, u, p, days, dayOf)
    ensures forall l :: multiset(r)[l] == if Passes(l, u, p, days, dayOf) then multiset(logs)[l] else 0
  {
    var r := Sorting.Reject(logs, (l: TransferLog.Log) => !Passes(l, u, p, days, dayOf));
    Sorting.RejectCounts(logs, (l: TransferLog.Log) => !Passes(l, u, p, days, dayOf));
    forall l | l in logs && Passes(l, u, p, days, dayOf) ensures l in r {
      Sorting.RejectKeeps(logs, (l: TransferLog.Log) => !Passes(l, u, p, days, dayOf), l);
    }
    r
  }

  /** `get_queryset` under the default ordering `-timestamp`: a date
      parameter that does not parse fails the request; otherwise the result
      is exactly the passing logs, each once per row, newest first. */
  function ListLogs(logs: seq<TransferLog.Log>, u: ApiState.Requester, p: LogParams,
                    parseDay: string -> Option<int>, dayOf: int -> int): (r: Result<seq<TransferLog.Log>, string>)
    ensures r.Err? <==> DayParam(p.startDate, parseDay).Err? || DayParam(p.endDate, parseDay).Err?
    ensures r.Ok? ==>
              var days := Days(DayParam(p.startDate, parseDay).value, DayParam(p.endDate, parseDay).value);
              && multiset(r.value) == multiset(Filtered(logs, u, p, days, dayOf))
              && (forall l :: l in r.value <==> l in logs && Passes(l, u, p, days, dayOf))
              && (forall l :: multiset(r.value)[l] == if Passes(l, u, p, days, dayOf) then multiset(logs)[l] else 0)
    ensures r.Ok? ==> Sorting.SortedBy(r.value, TransferLog.TimeOf, Sorting.IntGreater())
  {
    var start := DayParam(p.startDate, parseDay);
    var end := DayParam(p.endDate, parseDay);
    if start.Err? || end.Err? then Err("invalid date")
    else
      var f := Filtered(logs, u, p, Days(start.value, end.value), dayOf);
      Sorting.IntGreaterIsTotal();
      Sorting.SortBySorted(f, TransferLog.TimeOf, Sorting.IntGreater());
      var r := Sorting.SortBy(f, TransferLog.TimeOf, Sorting.IntGreater());
      assert forall l :: l in r <==> l in multiset(r);
      Ok(r)
  }

  /** A user who is not an admin sees only their own logs, whatever the
      parameters. */
  lemma OwnLogsOnly(logs: seq<TransferLog.Log>, u: ApiState.Requester, p: LogParams,
                    parseDay: string -> Option<int>, dayOf: int -> int, k: nat)
    requires !ApiState.IsAdmin(u)
    requires ListLogs(logs, u, p, parseDay, dayOf).Ok? && k < |ListLogs(logs, u, p, parseDay, dayOf).value|
    ensures ListLogs(logs, u, p, parseDay, dayOf).value[k].userId == u.id
  {
    var r := ListLogs(logs, u, p, parseDay, dayOf).value;
    assert r[k] in r;
  }

  /** The `user` parameter filters only for admins: for anyone else the
      listing is the same without it (views.py:313-315). */
  lemma UserFilterOnlyForAdmins(logs: seq<TransferLog.Log>, u: ApiState.Requester, p: LogParams,
                                parseDay: string -> Option<int>, dayOf: int -> int)
    requires !ApiState.IsAdmin(u)
    ensures ListLogs(logs, u, p, parseDay, dayOf) == ListLogs(logs, u, p.(user := None), parseDay, dayOf)
  {
    var p' := p.(user := None);
    var start := DayParam(p.startDate, parseDay);
    var end := DayParam(p.endDate, parseDay);
    if start.Ok? && end.Ok? {
      var days := Days(start.value, end.value);
      Sorting.RejectAgree(logs, (l: TransferLog.Log) => !Passes(l, u, p, days, dayOf),
                          (l: TransferLog.Log) => !Passes(l, u, p', days, dayOf));
    }
  }

  /** A status filter narrows the listing to the rows of that status and
      keeps all of them. */
  lemma StatusFilterNarrows(logs: seq<TransferLog.Log>, u: ApiState.Requester, p: LogParams, s: string,
                            parseDay: string -> Option<int>, dayOf: int -> int)
    requires s != ""
    requires ListLogs(logs, u, p.(status := None), parseDay, dayOf).Ok?
    ensures ListLogs(logs, u, p.(status := Some(s)), parseDay, dayOf).Ok?
    ensures forall l :: l in ListLogs(logs, u, p.(status := Some(s)), parseDay, dayOf).value <==>
                        l in ListLogs(logs, u, p.(status := None), parseDay, dayOf).value && l.status == s
  {
  }

  /** With no parameters an admin sees every log, newest first. */
  lemma AdminSeesAll(logs: seq<TransferLog.Log>, u: ApiState.Requester, parseDay: string -> Option<int>, dayOf: int -> int)
    requires ApiState.IsAdmin(u)
    ensures ListLogs(logs, u, NoParams, parseDay, dayOf).Ok?
    ensures multiset(ListLogs(logs, u, NoParams, parseDay, dayOf).value) == multiset(logs)
  {
    var days := Days(None, None);
    Sorting.RejectNone(logs, (l: TransferLog.Log) => !Passes(l, u, NoParams, days, dayOf));
  }

  // ---------------------------------------------------------------------
  // The rows

  /** The keys of the detailed serializer (serializers.py:17-23). */
  const DetailedFields: seq<string> := [
    "id", "user", "username", "action", "action_display",
    "timestamp", "completed_at", "status", "status_display",
    "patient_name", "patient_id", "study_instance_uid",
    "series_instance_uid", "series_description", "modality",
    "instance_count", "destination", "destination_name",
    "error_message", "details", "duration"]

  /** The keys of the list serializer (serializers.py:45-49). */
  const ListFields: seq<string> := [
    "id", "username", "action_display", "timestamp",
    "status", "status_display", "patient_name",
    "series_description", "destination_name", "error_message"]

  /** `get_serializer_class` (views.py:326-330): the detailed fields for a
      single log, the light ones for every other action. */
  function FieldsFor(action: string): (r: seq<string>)
    ensures action == "retrieve" ==> "details" in r && "duration" in r
    ensures action != "retrieve" ==> "details" !in r && "duration" !in r
    ensures forall f :: f in r ==> f in DetailedFields
  {
    if action == "retrieve" then DetailedFields else ListFields
  }

  /** The keys a row carries: the serializer's fields, except that
      `destination_name` is skipped when the log has no destination, since
      reading its source attribute fails and a read-only field whose source
      is missing is left out of the output. */
  function RowKeys(l: TransferLog.Log, action: string): (r: set<string>)
    ensures "destination_name" in r <==> l.destination.Some?
    ensures forall f :: f in r <==> f in FieldsFor(action) && (f == "destination_name" ==> l.destination.Some?)
  {
    set f | f in FieldsFor(action) && (f != "destination_name" || l.destination.Some?)
  }
}

=== FILE: patient_list.dfy ===
/** The patient list (frontend/src/components/PatientList.jsx): which
    patients are expanded, the per-patient and global select-all boxes, the
    global destination picker and the send button. Every change to a series
    is an update call applied by `SeriesModel.Apply`. */
module PatientList {
  import opened Wrappers
  import opened SeriesModel

  /** `togglePatient` (PatientList.jsx:7-15): flips one id in the set of
      expanded patients. */
  function TogglePatient(expanded: set<string>, id: string): (r: set<string>)
    ensures id in r <==> id !in expanded
    ensures r - {id} == expanded - {id}
  {
    if id in expanded then expanded - {id} else expanded + {id}
  }

  /** Clicking the same patient twice restores the expanded set. */
  lemma ToggleTwice(expanded: set<string>, id: string)
    ensures TogglePatient(TogglePatient(expanded, id), id) == expanded
  {
  }

  /** `patients.find(p => p.id === pid)`: the index of the first match. */
  function FindPatient(ps: seq<Patient>, pid: string): (r: Option<nat>)
    ensures r.Some? ==> r.value < |ps| && ps[r.value].id == pid
    ensures r.Some? ==> forall k :: 0 <= k < r.value ==> ps[k].id != pid
    ensures r.None? <==> forall k :: 0 <= k < |ps| ==> ps[k].id != pid
    decreases |ps|
  {
    if |ps| == 0 then None
    else if ps[0].id == pid then Some(0)
    else match FindPatient(ps[1..], pid)
      case None =>
        assert forall k :: 1 <= k < |ps| ==> ps[k] == ps[1..][k - 1];
        None
      case Some(k) => Some(k + 1)
  }

  /** `toggleAllSeries(patientId, selected)` (PatientList.jsx:17-24): one
      selection update for every series of the first patient with that id;
      none for an unknown id. */
  function ToggleAllSeries(ps: seq<Patient>, pid: string, selected: bool): (r: seq<UpdateCall>)
    ensures FindPatient(ps, pid).None? ==> r == []
    ensures FindPatient(ps, pid).Some? ==> |r| == |ps[FindPatient(ps, pid).value].series|
    ensures forall k :: 0 <= k < |r| ==> r[k].patientId == pid && r[k].update == SelectUpdate(selected)
    ensures FindPatient(ps, pid).Some? ==>
              forall k :: 0 <= k < |r| ==> r[k].seriesId == ps[FindPatient(ps, pid).value].series[k].id
  {
    match FindPatient(ps, pid)
    case None => []
    case Some(i) => SeriesCallsAll(pid, ps[i].series, SelectUpdate(selected))
  }

  /** One call per series, in order. */
  function SeriesCallsAll(pid: string, ss: seq<Series>, u: SeriesUpdate): (r: seq<UpdateCall>)
    ensures |r| == |ss|
    ensures forall k :: 0 <= k < |ss| ==> r[k] == UpdateCall(pid, ss[k].id, u)
  {
    seq(|ss|, k requires 0 <= k < |ss| => UpdateCall(pid, ss[k].id, u))
  }

  /** After a per-patient select-all on a list with unique ids, every series
      of that patient carries the new selection and nothing else changed. */
  lemma ToggleAllSeriesEffect(ps: seq<Patient>, pid: string, selected: bool)
    requires UniqueIds(ps)
    ensures var r := Apply(ps, ToggleAllSeries(ps, pid, selected));
            forall i, j :: 0 <= i < |ps| && 0 <= j < |ps[i].series| ==>
              r[i].series[j] == if ps[i].id == pid then ps[i].series[j].(selectedForSend := selected) else ps[i].series[j]
    ensures var r := Apply(ps, ToggleAllSeries(ps, pid, selected));
            forall i :: 0 <= i < |ps| && ps[i].id == pid ==> PatientChecked(r[i]) == selected || |ps[i].series| == 0
  {
    var calls := ToggleAllSeries(ps, pid, selected);
    var u := SelectUpdate(selected);
    ApplyUniform(ps, calls, u);
    var r := Apply(ps, calls);
    forall i, j | 0 <= i < |ps| && 0 <= j < |ps[i].series|
      ensures Addressed(calls, ps[i].id, ps[i].series[j].id) <==> ps[i].id == pid
    {
      if ps[i].id == pid {
        var f := FindPatient(ps, pid);
        assert f == Some(i);
        assert calls[j] == UpdateCall(pid, ps[i].series[j].id, u);
      }
    }
    forall i | 0 <= i < |ps| && ps[i].id == pid && |ps[i].series| > 0
      ensures PatientChecked(r[i]) == selected
    {
      assert r[i].series[0].selectedForSend == selected;
    }
  }

  /** The number of series ticked for sending, in one patient. */
  function SelectedIn(ss: seq<Series>): (n: nat)
    ensures n <= |ss|
    ensures n == 0 <==> forall j :: 0 <= j < |ss| ==> !ss[j].selectedForSend
    ensures n == |ss| <==> forall j :: 0 <= j < |ss| ==> ss[j].selectedForSend
  {
    if |ss| == 0 then 0
    else
      var n := (if ss[0].selectedForSend then 1 else 0) + SelectedIn(ss[1..]);
      assert forall j :: 1 <= j < |ss| ==> ss[j] == ss[1..][j - 1];
      n
  }

  /** `getSelectedSeriesCount` (PatientList.jsx:26-30). */
  function SelectedCount(ps: seq<Patient>): (n: nat)
    ensures n <= TotalSeries(ps)
    ensures n == 0 <==> forall i, j :: 0 <= i < |ps| && 0 <= j < |ps[i].series| ==> !ps[i].series[j].selectedForSend
    ensures n == TotalSeries(ps) <==> forall i, j :: 0 <= i < |ps| && 0 <= j < |ps[i].series| ==> ps[i].series[j].selectedForSend
  {
    if |ps| == 0 then 0
    else
      var n := SelectedIn(ps[0].series) + SelectedCount(ps[1..]);
      assert forall i :: 1 <= i < |ps| ==> ps[i] == ps[1..][i - 1];
      n
  }

  /** The send button is disabled exactly when nothing is ticked, whatever
      the destinations (PatientList.jsx:93). */
  predicate SendDisabled(ps: seq<Patient>) {
    SelectedCount(ps) == 0
  }

  /** The per-patient select-all box (PatientList.jsx:144): `every` over the
      series, so a patient without series shows it checked. */
  predicate PatientChecked(p: Patient) {
    forall j :: 0 <= j < |p.series| ==> p.series[j].selectedForSend
  }

  /** The global select-all box (PatientList.jsx:58): checked when every
      series of a non-empty list is ticked. */
  predicate AllChecked(ps: seq<Patient>) {
    |ps| > 0 && forall i :: 0 <= i < |ps| ==> PatientChecked(ps[i])
  }

  /** Clicking the global select-all (PatientList.jsx:59-63): one selection
      update per series, whatever its status. */
  function SelectAllCalls(ps: seq<Patient>, checked: bool): seq<UpdateCall> {
    AllCalls(ps, (_: Series) => true, SelectUpdate(checked))
  }

  /** Ticking the global box ticks every series, so the box then shows
      checked and the count is the number of series; clearing it clears
      them all. Sending series are ticked too: the row's lock is not
      consulted. */
  lemma SelectAllEffect(ps: seq<Patient>, checked: bool)
    requires UniqueIds(ps)
    ensures var r := Apply(ps, SelectAllCalls(ps, checked));
            && (forall i, j :: 0 <= i < |ps| && 0 <= j < |ps[i].series| ==> r[i].series[j] == ps[i].series[j].(selectedForSend := checked))
            && (checked ==> AllChecked(r) == (|ps| > 0) && SelectedCount(r) == TotalSeries(r))
            && (!checked ==> SendDisabled(r))
  {
    var r := Apply(ps, SelectAllCalls(ps, checked));
    AllCallsEffect(ps, (_: Series) => true, SelectUpdate(checked));
    assert forall i, j :: 0 <= i < |r| && 0 <= j < |r[i].series| ==> r[i].series[j].selectedForSend == checked;
  }

  /** Choosing a destination in the global picker (PatientList.jsx:73-79):
      applied to the ticked series, or to every series when the empty choice
      is picked. */
  function GlobalDestinationCalls(ps: seq<Patient>, dest: string): seq<UpdateCall> {
    AllCalls(ps, (s: Series) => s.selectedForSend || dest == "", DestinationUpdate(dest))
  }

  lemma GlobalDestinationEffect(ps: seq<Patient>, dest: string)
    requires UniqueIds(ps)
    ensures var r := Apply(ps, GlobalDestinationCalls(ps, dest));
            forall i, j :: 0 <= i < |ps| && 0 <= j < |ps[i].series| ==>
              r[i].series[j] == if ps[i].series[j].selectedForSend || dest == ""
                                then ps[i].series[j].(selectedDestination := dest)
                                else ps[i].series[j]
  {
    AllCallsEffect(ps, (s: Series) => s.selectedForSend || dest == "", DestinationUpdate(dest));
  }
}

=== FILE: send_request.dfy ===
/** The validation of a send request (`DICOMSendRequestSerializer`,
    backend/dicom_api/serializers.py:58-79): the field checks of a list of
    dictionaries, then `validate_seriesToSend`. The send view
    (views.py:122-221) reads the request body directly and never runs this
    serializer; the lemmas at the end relate the two readings. */
module SendRequest {
  import opened Wrappers
  import opened JsonValue
  import Destinations
  import ApiState
  import SendView

  const NoSeries: string := "At least one series must be specified"
  const NoSeriesId: string := "Each series must have a seriesId"
  const NoDestination: string := "Each series must have a destination"

  /** Why a request fails validation: the field is missing, is not a list,
      or holds a non-dictionary at some position (the field checks of
      `ListField(child=DictField())`), or `validate_seriesToSend` rejects it
      with one of its messages. */
  datatype Problem = Required | NotAList | NotADict(index: nat) | Rejected(message: string)

  /** The entry carries both keys; their values are not looked at. */
  predicate Complete(e: Json) {
    e.JObj? && "seriesId" in e.fields && "destination" in e.fields
  }

  /** The message for an incomplete entry: the series id is checked first. */
  function MissingMessage(e: Json): string
    requires e.JObj?
  {
    if "seriesId" !in e.fields then NoSeriesId else NoDestination
  }

  /** The first position at or after `i` that is not a dictionary. */
  function FirstNonObject(items: seq<Json>, i: nat): (r: Option<nat>)
    requires i <= |items|
    ensures r.None? <==> forall k :: i <= k < |items| ==> items[k].JObj?
    ensures r.Some? ==> i <= r.value < |items| && !items[r.value].JObj?
                        && forall k :: i <= k < r.value ==> items[k].JObj?
    decreases |items| - i
  {
    if i == |items| then None
    else if !items[i].JObj? then Some(i)
    else FirstNonObject(items, i + 1)
  }

  /** The first position at or after `i` whose entry is incomplete. */
  function FirstIncomplete(items: seq<Json>, i: nat): (r: Option<nat>)
    requires i <= |items|
    ensures r.None? <==> forall k :: i <= k < |items| ==> Complete(items[k]) || !items[k].JObj?
    ensures r.Some? ==> i <= r.value < |items| && items[r.value].JObj? && !Complete(items[r.value])
                        && forall k :: i <= k < r.value ==> Complete(items[k]) || !items[k].JObj?
    decreases |items| - i
  {
    if i == |items| then None
    else if items[i].JObj? && !Complete(items[i]) then Some(i)
    else FirstIncomplete(items, i + 1)
  }

  /** `validate_seriesToSend` on a list of dictionaries (serializers.py:68-79):
      an empty list is refused; otherwise the entries are checked in order
      and the first incomplete one is reported; a list of complete entries
      is returned unchanged. */
  function ValidateSeries(items: seq<Json>): (r: Result<seq<Json>, string>)
    requires forall k :: 0 <= k < |items| ==> items[k].JObj?
    ensures r.Ok? <==> |items| > 0 && forall k :: 0 <= k < |items| ==> Complete(items[k])
    ensures r.Ok? ==> r.value == items
    ensures |items| == 0 ==> r == Err(NoSeries)
    ensures r.Err? && |items| > 0 ==>
              exists i :: && 0 <= i < |items| && !Complete(items[i])
                          && (forall k :: 0 <= k < i ==> Complete(items[k]))
                          && r.error == MissingMessage(items[i])
  {
    if |items| == 0 then Err(NoSeries)
    else match FirstIncomplete(items, 0)
      case None => Ok(items)
      case Some(i) => Err(MissingMessage(items[i]))
  }

  /** The whole `seriesToSend` field: required, a list, of dictionaries, and
      then accepted by `validate_seriesToSend`. */
  function Validate(seriesToSend: Option<Json>): (r: Result<seq<Json>, Problem>)
    ensures r.Ok? <==> && seriesToSend.Some? && seriesToSend.value.JArr?
                       && var items := seriesToSend.value.items;
                       && |items| > 0 && forall k :: 0 <= k < |items| ==> Complete(items[k])
    ensures r.Ok? ==> r.value == seriesToSend.value.items
    ensures seriesToSend.None? ==> r == Err(Required)
    ensures r.Err? && r.error.NotADict? ==>
              && seriesToSend.Some? && seriesToSend.value.JArr?
              && r.error.index < |seriesToSend.value.items|
              && !seriesToSend.value.items[r.error.index].JObj?
  {
    match seriesToSend
    case None => Err(Required)
    case Some(v) =>
      if !v.JArr? then Err(NotAList)
      else match FirstNonObject(v.items, 0)
        case Some(i) => Err(NotADict(i))
        case None =>
          match ValidateSeries(v.items)
          case Ok(items) => Ok(items)
          case Err(m) => Err(Rejected(m))
  }

  /** Validation looks at the keys only: an entry with an empty series id
      passes it, yet the send view passes over that entry without raising
      or sending. */
  lemma ValidButSkipped(cache: ApiState.Cache, table: seq<Destinations.Destination>, user: ApiState.Requester)
    ensures var e := JObj(map["seriesId" := JStr(""), "destination" := JNum(1)]);
            && Validate(Some(JArr([e]))) == Ok([e])
            && SendView.Decide(e, cache, table, user) == SendView.Skip
  {
    var e := JObj(map["seriesId" := JStr(""), "destination" := JNum(1)]);
    assert Complete(e);
    assert !PyTruthyField(e, "seriesId");
  }

  /** Every entry the send view would act on passes the key checks: an
      eligible entry is complete, so on a non-empty list of eligible
      entries the two readings agree. */
  lemma EligibleIsValid(items: seq<Json>, cache: ApiState.Cache, table: seq<Destinations.Destination>, user: ApiState.Requester)
    requires |items| > 0
    requires forall k :: 0 <= k < |items| ==> SendView.Eligible(items[k], cache, table, user)
    ensures Validate(Some(JArr(items))) == Ok(items)
  {
    assert forall k :: 0 <= k < |items| ==> Complete(items[k]) by {
      forall k | 0 <= k < |items| ensures Complete(items[k]) {
        assert SendView.Eligible(items[k], cache, table, user);
      }
    }
  }
}

=== FILE: send_view.dfy ===
/** The send endpoint (`send_dicom_series`, backend/dicom_api/views.py:122-221):
    which requested `(seriesId, destination)` pairs become transfer tasks,
    the pending log each task gets, and the response. The request body is
    a JSON value, the series cache and the destination table are values,
    the log ids come from a counter and the clock is a parameter. Running
    the tasks is the transfer service's `TransferSeries`. */
module SendView {
  import opened Wrappers
  import opened JsonValue
  import Text
  import Sorting
  import DicomParser
  import TransferLog
  import Destinations
  import opened ApiState

  // ---------------------------------------------------------------------
  // One requested pair

  /** The row `Destination.objects.get(id=n, enabled=True)` finds. */
  predicate EnabledRow(table: seq<Destinations.Destination>, n: int) {
    exists i :: 0 <= i < |table| && table[i].id == n && table[i].enabled
  }

  /** The first enabled row with id `n`; ids are the table's primary key,
      so it is the only one. */
  function FindEnabled(table: seq<Destinations.Destination>, n: int): (r: Option<Destinations.Destination>)
    ensures r.Some? <==> EnabledRow(table, n)
    ensures r.Some? ==> r.value in table && r.value.id == n && r.value.enabled
  {
    if |table| == 0 then None
    else if table[0].id == n && table[0].enabled then Some(table[0])
    else
      assert forall i :: 1 <= i < |table| ==> table[i] == table[1..][i - 1];
      FindEnabled(table[1..], n)
  }

  /** The integer the ORM makes of a destination value for an integer
      primary key: a number as it is, a boolean as 0 or 1, a string as
      Python's `int()` reads it. None when the conversion raises. */
  function DestinationKey(j: Json): (r: Option<int>)
    ensures j.JNum? ==> r == Some(j.n)
    ensures j.JStr? ==> (r.Some? <==> Text.ParsePyInt(j.s).Ok?)
    ensures j.JArr? || j.JObj? || j.JNull? ==> r.None?
  {
    match j
    case JNum(n) => Some(n)
    case JBool(b) => Some(if b then 1 else 0)
    case JStr(s) => (match Text.ParsePyInt(s) case Ok(n) => Some(n) case Err(_) => None)
    case _ => None
  }

  /** A pair survives every check: both values are truthy, the series id is
      a string naming a cached series of this user with files, and the
      destination value names an enabled row. */
  predicate Eligible(e: Json, cache: Cache, table: seq<Destinations.Destination>, user: Requester) {
    && e.JObj? && PyTruthyField(e, "seriesId") && PyTruthyField(e, "destination")
    && e.fields["seriesId"].JStr?
    && var s := e.fields["seriesId"].s;
    && s in cache && cache[s].userId == user.id && |cache[s].files| > 0
    && var n := DestinationKey(e.fields["destination"]);
    && n.Some? && EnabledRow(table, n.value)
  }

  /** A pair on which the loop raises: an entry that is not an object has
      no `get`; an array or object series id cannot be hashed for the cache
      lookup; the destination value of an owned cached series may not
      convert to an integer. */
  predicate Raises(e: Json, cache: Cache, user: Requester) {
    || !e.JObj?
    || (&& PyTruthyField(e, "seriesId") && PyTruthyField(e, "destination")
        && var sid := e.fields["seriesId"];
        || sid.JArr? || sid.JObj?
        || (sid.JStr? && sid.s in cache && cache[sid.s].userId == user.id
            && DestinationKey(e.fields["destination"]).None?))
  }

  /** What the loop does with one pair. */
  datatype Step = Skip | Raise | Take(seriesId: string, destination: Destinations.Destination, entry: CacheEntry)

  /** The checks after the cache lookup of a string series id `s`. */
  function Lookup(s: string, dest: Json, cache: Cache, table: seq<Destinations.Destination>, user: Requester): Step {
    if s !in cache then Skip
    else if cache[s].userId != user.id then Skip
    else
      match DestinationKey(dest)
      case None => Raise
      case Some(n) =>
        match FindEnabled(table, n)
        case None => Skip
        case Some(d) => if |cache[s].files| == 0 then Skip else Take(s, d, cache[s])
  }

  /** One iteration of the loop (views.py:142-167): the checks in the
      source's order. A pair raises or survives as the two predicates say,
      and a surviving pair carries its cached entry and the enabled row its
      destination value names. */
  function Decide(e: Json, cache: Cache, table: seq<Destinations.Destination>, user: Requester): (r: Step)
    ensures r.Raise? <==> Raises(e, cache, user)
    ensures r.Take? <==> Eligible(e, cache, table, user)
    ensures r.Take? ==> && r.seriesId == e.fields["seriesId"].s && r.entry == cache[r.seriesId]
                        && r.destination in table && r.destination.enabled
                        && Some(r.destination.id) == DestinationKey(e.fields["destination"])
                        && Some(r.destination) == FindEnabled(table, r.destination.id)
  {
    if !e.JObj? then Raise
    else if !PyTruthyField(e, "seriesId") || !PyTruthyField(e, "destination") then Skip
    else
      match e.fields["seriesId"]
      case JArr(_) => Raise
      case JObj(_) => Raise
      case JStr(s) => Lookup(s, e.fields["destination"], cache, table, user)
      case _ => Skip
  }

  // ---------------------------------------------------------------------
  // Tasks and their logs

  /** The paths of a cached series' files (views.py:187, 195). */
  function Paths(files: seq<DicomParser.Metadata>): (r: seq<string>)
    ensures |r| == |files| && forall k :: 0 <= k < |files| ==> r[k] == files[k].filePath
  {
    seq(|files|, k requires 0 <= k < |files| => files[k].filePath)
  }

  function JsonPaths(files: seq<DicomParser.Metadata>): (r: seq<Json>)
    ensures |r| == |files| && forall k :: 0 <= k < |files| ==> r[k] == JStr(files[k].filePath)
  {
    seq(|files|, k requires 0 <= k < |files| => JStr(files[k].filePath))
  }

  /** The work handed to the transfer service for one pair. */
  datatype Task = Task(logId: int, seriesId: string, destination: Destinations.Destination, files: seq<string>)

  /** The log created for a surviving pair (views.py:173-189): a pending
      send by the user to the destination, described by the series' first
      file, counting its files, and naming the series and the file paths in
      its details. */
  function SendLog(id: int, user: Requester, now: int, seriesId: string, d: Destinations.Destination,
                   files: seq<DicomParser.Metadata>): (l: TransferLog.Log)
    requires |files| > 0
    ensures l.id == id && l.userId == user.id && l.action == "send" && l.status == "pending" && l.timestamp == Some(now)
    ensures !TransferLog.IsCompleted(l) && l.errorMessage == ""
    ensures l.destination == Some(TransferLog.DestinationRef(d.id, d.name))
    ensures l.patientName == files[0].patientName && l.patientId == files[0].patientId
    ensures l.seriesInstanceUid == files[0].seriesInstanceUid && l.modality == files[0].modality
    ensures l.studyInstanceUid == files[0].studyInstanceUid && l.seriesDescription == files[0].seriesDescription
    ensures l.instanceCount == Some(|files|)
    ensures "series_id" in l.details && l.details["series_id"] == JStr(seriesId)
    ensures "files" in l.details && l.details["files"] == JArr(JsonPaths(files))
  {
    var first := files[0];
    var details := map["series_id" := JStr(seriesId), "files" := JArr(JsonPaths(files))];
    assert "series_id" in details && "files" in details;
    TransferLog.Created(id, user.id, user.username, "send", now).(
      destination := Some(TransferLog.DestinationRef(d.id, d.name)),
      patientName := first.patientName,
      patientId := first.patientId,
      studyInstanceUid := first.studyInstanceUid,
      seriesInstanceUid := first.seriesInstanceUid,
      seriesDescription := first.seriesDescription,
      modality := first.modality,
      instanceCount := Some(|files|),
      details := details)
  }

  /** A task and its log belong together: same id, same series, same
      destination, and the log lists the task's files. */
  predicate Matches(t: Task, l: TransferLog.Log) {
    && t.logId == l.id
    && "series_id" in l.details && l.details["series_id"] == JStr(t.seriesId)
    && l.destination == Some(TransferLog.DestinationRef(t.destination.id, t.destination.name))
    && l.instanceCount == Some(|t.files|)
  }

  /** The task of an eligible pair whose log gets id `id`. */
  function TaskFor(e: Json, cache: Cache, table: seq<Destinations.Destination>, user: Requester, id: int): Task
    requires Eligible(e, cache, table, user)
  {
    var s := e.fields["seriesId"].s;
    Task(id, s, FindEnabled(table, DestinationKey(e.fields["destination"]).value).value, Paths(cache[s].files))
  }

  /** Where the loop got to: whether it raised, and the tasks and logs of
      the pairs taken before that. */
  datatype Batch = Batch(raised: bool, tasks: seq<Task>, logs: seq<TransferLog.Log>)

  /** The loop (views.py:142-196), with log ids `nextId`, `nextId + 1`, ...
      Every task has its own log, numbered in order. */
  function SendAll(entries: seq<Json>, cache: Cache, table: seq<Destinations.Destination>, user: Requester,
                   nextId: int, now: int): (b: Batch)
    ensures |b.tasks| == |b.logs|
    ensures forall k :: 0 <= k < |b.tasks| ==> b.logs[k].id == nextId + k && Matches(b.tasks[k], b.logs[k])
    ensures forall k :: 0 <= k < |b.logs| ==>
              b.logs[k].action == "send" && b.logs[k].status == "pending" && b.logs[k].userId == user.id
              && b.logs[k].timestamp == Some(now)
    decreases |entries|
  {
    if |entries| == 0 then Batch(false, [], [])
    else
      match Decide(entries[0], cache, table, user)
      case Raise => Batch(true, [], [])
      case Skip => SendAll(entries[1..], cache, table, user, nextId, now)
      case Take(s, d, c) =>
        var rest := SendAll(entries[1..], cache, table, user, nextId + 1, now);
        var t := Task(nextId, s, d, Paths(c.files));
        var l := SendLog(nextId, user, now, s, d, c.files);
        ConsNumbered(t, l, rest, nextId, user, now);
        Batch(rest.raised, [t] + rest.tasks, [l] + rest.logs)
  }

  /** A task and its log numbered `nextId`, put in front of a batch
      numbered from `nextId + 1`, give a batch numbered from `nextId`. */
  lemma ConsNumbered(t: Task, l: TransferLog.Log, rest: Batch, nextId: int, user: Requester, now: int)
    requires l.id == nextId && Matches(t, l)
    requires l.action == "send" && l.status == "pending" && l.userId == user.id && l.timestamp == Some(now)
    requires |rest.tasks| == |rest.logs|
    requires forall k :: 0 <= k < |rest.tasks| ==> rest.logs[k].id == nextId + 1 + k && Matches(rest.tasks[k], rest.logs[k])
    requires forall k :: 0 <= k < |rest.logs| ==>
               rest.logs[k].action == "send" && rest.logs[k].status == "pending" && rest.logs[k].userId == user.id
               && rest.logs[k].timestamp == Some(now)
    ensures var tasks, logs := [t] + rest.tasks, [l] + rest.logs;
            && |tasks| == |logs|
            && (forall k :: 0 <= k < |tasks| ==> logs[k].id == nextId + k && Matches(tasks[k], logs[k]))
            && (forall k :: 0 <= k < |logs| ==>
                  logs[k].action == "send" && logs[k].status == "pending" && logs[k].userId == user.id
                  && logs[k].timestamp == Some(now))
  {
    var tasks, logs := [t] + rest.tasks, [l] + rest.logs;
    assert forall k :: 1 <= k < |logs| ==> logs[k] == rest.logs[k - 1] && tasks[k] == rest.tasks[k - 1];
  }

  /** The eligible pairs, in request order. */
  function Wanted(entries: seq<Json>, cache: Cache, table: seq<Destinations.Destination>, user: Requester): seq<Json> {
    Sorting.Reject(entries, (e: Json) => !Eligible(e, cache, table, user))
  }

  /** The eligible pairs of a non-empty request: the first pair when it is
      eligible, then those of the rest. */
  lemma WantedStep(entries: seq<Json>, cache: Cache, table: seq<Destinations.Destination>, user: Requester)
    requires |entries| > 0
    ensures Wanted(entries, cache, table, user)
            == (if Eligible(entries[0], cache, table, user) then [entries[0]] else []) + Wanted(entries[1..], cache, table, user)
  {
  }

  /** The loop raises exactly when some pair raises. */
  lemma {:induction false} SendAllRaises(entries: seq<Json>, cache: Cache, table: seq<Destinations.Destination>,
                                         user: Requester, nextId: int, now: int)
    ensures SendAll(entries, cache, table, user, nextId, now).raised <==> exists i :: 0 <= i < |entries| && Raises(entries[i], cache, user)
    decreases |entries|
  {
    if |entries| > 0 {
      var tail := entries[1..];
      assert forall i :: 1 <= i < |entries| ==> entries[i] == tail[i - 1];
      assert forall i :: 0 <= i < |tail| ==> tail[i] == entries[i + 1];
      match Decide(entries[0], cache, table, user)
      case Raise => {}
      case Skip => SendAllRaises(tail, cache, table, user, nextId, now);
      case Take(_, _, _) => SendAllRaises(tail, cache, table, user, nextId + 1, now);
    }
  }

  predicate AllEligible(w: seq<Json>, cache: Cache, table: seq<Destinations.Destination>, user: Requester) {
    forall k :: 0 <= k < |w| ==> Eligible(w[k], cache, table, user)
  }

  /** The tasks of eligible pairs whose logs get ids `base`, `base + 1`, ... */
  function TasksFor(w: seq<Json>, cache: Cache, table: seq<Destinations.Destination>, user: Requester, base: int): (r: seq<Task>)
    requires AllEligible(w, cache, table, user)
    ensures |r| == |w| && forall k :: 0 <= k < |w| ==> r[k] == TaskFor(w[k], cache, table, user, base + k)
  {
    seq(|w|, k requires 0 <= k < |w| => TaskFor(w[k], cache, table, user, base + k))
  }

  lemma TasksForCons(e: Json, w: seq<Json>, cache: Cache, table: seq<Destinations.Destination>, user: Requester, base: int)
    requires Eligible(e, cache, table, user) && AllEligible(w, cache, table, user)
    ensures AllEligible([e] + w, cache, table, user)
    ensures TasksFor([e] + w, cache, table, user, base) == [TaskFor(e, cache, table, user, base)] + TasksFor(w, cache, table, user, base + 1)
  {
    var v := [e] + w;
    forall k | 0 <= k < |v| ensures Eligible(v[k], cache, table, user) {
      if k > 0 {
        assert v[k] == w[k - 1];
      }
    }
    var a := TasksFor(v, cache, table, user, base);
    var rest := TasksFor(w, cache, table, user, base + 1);
    var b := [TaskFor(e, cache, table, user, base)] + rest;
    forall k | 0 <= k < |a| ensures a[k] == b[k] {
      if k > 0 {
        assert v[k] == w[k - 1];
        assert b[k] == rest[k - 1];
      }
    }
    assert a == b;
  }

  lemma WantedEligible(entries: seq<Json>, cache: Cache, table: seq<Destinations.Destination>, user: Requester)
    ensures AllEligible(Wanted(entries, cache, table, user), cache, table, user)
  {
  }

  /** When no pair raises, the loop's tasks are those of the eligible
      pairs, in request order, with consecutive log ids. */
  lemma {:induction false} SendAllTasks(entries: seq<Json>, cache: Cache, table: seq<Destinations.Destination>,
                                        user: Requester, nextId: int, now: int)
    requires forall i :: 0 <= i < |entries| ==> !Raises(entries[i], cache, user)
    ensures AllEligible(Wanted(entries, cache, table, user), cache, table, user)
    ensures SendAll(entries, cache, table, user, nextId, now).tasks == TasksFor(Wanted(entries, cache, table, user), cache, table, user, nextId)
    decreases |entries|
  {
    WantedEligible(entries, cache, table, user);
    if |entries| > 0 {
      var e := entries[0];
      var tail := entries[1..];
      assert forall i :: 0 <= i < |tail| ==> tail[i] == entries[i + 1];
      WantedStep(entries, cache, table, user);
      var wt := Wanted(tail, cache, table, user);
      WantedEligible(tail, cache, table, user);
      match Decide(e, cache, table, user)
      case Skip => SendAllTasks(tail, cache, table, user, nextId, now);
      case Take(s, d, c) => {
        SendAllTasks(tail, cache, table, user, nextId + 1, now);
        assert Task(nextId, s, d, Paths(c.files)) == TaskFor(e, cache, table, user, nextId);
        TasksForCons(e, wt, cache, table, user, nextId);
      }
    }
  }

  /** When the loop raises, the logs already made stay in the table: they
      are those of the pairs before the first raising one. */
  lemma {:induction false} RaisedKeepsEarlierLogs(entries: seq<Json>, cache: Cache, table: seq<Destinations.Destination>,
                                                  user: Requester, nextId: int, now: int) returns (i: nat)
    requires SendAll(entries, cache, table, user, nextId, now).raised
    ensures i < |entries| && Raises(entries[i], cache, user)
    ensures forall j :: 0 <= j < i ==> !Raises(entries[j], cache, user)
    ensures SendAll(entries, cache, table, user, nextId, now).logs == SendAll(entries[..i], cache, table, user, nextId, now).logs
    decreases |entries|
  {
    var tail := entries[1..];
    match Decide(entries[0], cache, table, user)
    case Raise => {
      i := 0;
    }
    case Skip => {
      var i' := RaisedKeepsEarlierLogs(tail, cache, table, user, nextId, now);
      i := i' + 1;
      var pre := entries[..i];
      assert pre[0] == entries[0] && pre[1..] == tail[..i'];
      assert SendAll(pre, cache, table, user, nextId, now) == SendAll(tail[..i'], cache, table, user, nextId, now);
      EarlierDoNotRaise(entries, i', cache, user);
    }
    case Take(s, d, c) => {
      var i' := RaisedKeepsEarlierLogs(tail, cache, table, user, nextId + 1, now);
      i := i' + 1;
      var pre := entries[..i];
      assert pre[0] == entries[0] && pre[1..] == tail[..i'];
      var l := SendLog(nextId, user, now, s, d, c.files);
      assert SendAll(pre, cache, table, user, nextId, now).logs == [l] + SendAll(tail[..i'], cache, table, user, nextId + 1, now).logs;
      assert SendAll(entries, cache, table, user, nextId, now).logs == [l] + SendAll(tail, cache, table, user, nextId + 1, now).logs;
      EarlierDoNotRaise(entries, i', cache, user);
    }
  }

  /** The first pair does not raise and none of the next `n` do. */
  lemma EarlierDoNotRaise(entries: seq<Json>, n: nat, cache: Cache, user: Requester)
    requires 0 < |entries| && n < |entries| && !Raises(entries[0], cache, user)
    requires forall j :: 0 <= j < n ==> !Raises(entries[1..][j], cache, user)
    ensures forall j :: 0 <= j < n + 1 ==> !Raises(entries[j], cache, user)
  {
    forall j | 0 < j < n + 1 ensures !Raises(entries[j], cache, user) {
      assert entries[j] == entries[1..][j - 1];
    }
  }

  // ---------------------------------------------------------------------
  // The endpoint

  datatype SendResponse =
    | NoSeriesSpecified
    | NoValidSeries
    | Initiated(message: string, transferCount: nat)
    | InitiationFailed

  /** The response, the tasks handed to the transfer service, and the logs
      the request added to the log table. */
  datatype SendOutcome = SendOutcome(response: SendResponse, tasks: seq<Task>, logs: seq<TransferLog.Log>)

  /** `send_dicom_series`. `seriesToSend` is the request field, None when
      it is missing (it then reads as an empty list). A falsy value is a
      400; a truthy value that is not a list makes the loop raise at once;
      a raising pair ends the request with a 500 and no task started; with
      no surviving pair a 400; otherwise one task per surviving pair. */
  function SendSeries(seriesToSend: Option<Json>, cache: Cache, table: seq<Destinations.Destination>, user: Requester,
                      nextId: int, now: int): (o: SendOutcome)
    ensures var v := seriesToSend.GetOr(JArr([]));
            && (o.response == NoSeriesSpecified <==> !PyTruthy(v))
            && (PyTruthy(v) && !v.JArr? ==> o == SendOutcome(InitiationFailed, [], []))
            && (v.JArr? ==>
                  (o.response == InitiationFailed <==> exists i :: 0 <= i < |v.items| && Raises(v.items[i], cache, user)))
    ensures o.response.NoValidSeries? ==> o.tasks == [] && o.logs == []
    ensures o.response.InitiationFailed? ==> o.tasks == []
    ensures o.response.Initiated? ==>
              && o.response.transferCount == |o.tasks| > 0
              && o.response.message == "Transfer initiated for " + Text.IntToString(|o.tasks|) + " series"
    ensures |o.tasks| == 0 || |o.tasks| == |o.logs|
    ensures forall k :: 0 <= k < |o.tasks| ==> o.logs[k].id == nextId + k && Matches(o.tasks[k], o.logs[k])
  {
    var v := seriesToSend.GetOr(JArr([]));
    if !PyTruthy(v) then SendOutcome(NoSeriesSpecified, [], [])
    else if !v.JArr? then SendOutcome(InitiationFailed, [], [])
    else
      var b := SendAll(v.items, cache, table, user, nextId, now);
      SendAllRaises(v.items, cache, table, user, nextId, now);
      if b.raised then SendOutcome(InitiationFailed, [], b.logs)
      else if |b.tasks| == 0 then SendOutcome(NoValidSeries, [], [])
      else
        var n := |b.tasks|;
        SendOutcome(Initiated("Transfer initiated for " + Text.IntToString(n) + " series", n), b.tasks, b.logs)
  }

  /** With no raising pair, the request starts one task per eligible pair,
      in request order, and is refused with a 400 exactly when no pair is
      eligible. */
  lemma SendStartsWanted(items: seq<Json>, cache: Cache, table: seq<Destinations.Destination>, user: Requester,
                         nextId: int, now: int)
    requires |items| > 0
    requires forall i :: 0 <= i < |items| ==> !Raises(items[i], cache, user)
    ensures var o := SendSeries(Some(JArr(items)), cache, table, user, nextId, now);
            var w := Wanted(items, cache, table, user);
            && AllEligible(w, cache, table, user)
            && (o.response.NoValidSeries? <==> |w| == 0)
            && (o.response.Initiated? <==> |w| > 0)
            && (|w| > 0 ==> o.tasks == TasksFor(w, cache, table, user, nextId))
  {
    SendAllTasks(items, cache, table, user, nextId, now);
    SendAllRaises(items, cache, table, user, nextId, now);
  }

  /** Nobody can send another user's series: every task names a series
      cached for the requesting user, with its files, to an enabled
      destination. */
  lemma TasksAreOwned(items: seq<Json>, cache: Cache, table: seq<Destinations.Destination>, user: Requester,
                      nextId: int, now: int, k: nat)
    requires k < |SendSeries(Some(JArr(items)), cache, table, user, nextId, now).tasks|
    ensures var t := SendSeries(Some(JArr(items)), cache, table, user, nextId, now).tasks[k];
            && t.seriesId in cache && cache[t.seriesId].userId == user.id
            && t.files == Paths(cache[t.seriesId].files) && |t.files| > 0
            && t.destination in table && t.destination.enabled
  {
    var o := SendSeries(Some(JArr(items)), cache, table, user, nextId, now);
    assert forall i :: 0 <= i < |items| ==> !Raises(items[i], cache, user);
    SendAllTasks(items, cache, table, user, nextId, now);
    var w := Wanted(items, cache, table, user);
    assert o.tasks == TasksFor(w, cache, table, user, nextId);
  }
}

=== FILE: series_item.dfy ===
/** One series row (frontend/src/components/SeriesItem.jsx): how a status
    is shown, when the row's controls are disabled, and the updates the row
    issues. */
module SeriesItem {
  import opened Wrappers
  import opened SeriesModel
  import Text

  const Ready := "ready"
  const Sending := "sending"
  const Success := "success"
  const Failed := "failed"

  /** The statuses the row has a case for. */
  predicate Known(status: string) {
    status == Ready || status == Sending || status == Success || status == Failed
  }

  /** `getStatusColor` (SeriesItem.jsx:2-10). */
  function StatusColor(status: string): string {
    if status == Sending then "text-blue-400"
    else if status == Success then "text-green-400"
    else if status == Failed then "text-red-400"
    else "text-gray-400"
  }

  /** `getStatusText` (SeriesItem.jsx:38-46). */
  function StatusText(status: string): string {
    if status == Sending then "Sending..."
    else if status == Success then "Sent Successfully"
    else if status == Failed then "Transfer Failed"
    else "Ready"
  }

  /** Both renderings are total, an unknown status (the server's `pending`,
      say) looks exactly like `ready`, and among the known statuses the text
      tells every one apart. */
  lemma StatusRendering(a: string, b: string)
    ensures !Known(a) ==> StatusText(a) == StatusText(Ready) && StatusColor(a) == StatusColor(Ready)
    ensures StatusText(a) == "Ready" <==> a == Ready || !Known(a)
    ensures StatusColor(a) == "text-gray-400" <==> a == Ready || !Known(a)
    ensures Known(a) && Known(b) && StatusText(a) == StatusText(b) ==> a == b
    ensures |StatusText(a)| > 0
  {
  }

  /** The selection checkbox is disabled while sending (SeriesItem.jsx:58). */
  predicate CheckboxDisabled(s: Series) {
    s.status == Sending
  }

  /** The destination select is disabled while sending and after success
      (SeriesItem.jsx:92). */
  predicate DestinationLocked(s: Series) {
    s.status == Sending || s.status == Success
  }

  /** The update the checkbox issues when clicked; a disabled control
      issues none. */
  function OnCheck(s: Series, checked: bool): (r: Option<SeriesUpdate>)
    ensures r.Some? <==> !CheckboxDisabled(s)
  {
    if CheckboxDisabled(s) then None else Some(SelectUpdate(checked))
  }

  /** The update the destination select issues; a disabled control issues
      none. */
  function OnSelectDestination(s: Series, dest: string): (r: Option<SeriesUpdate>)
    ensures r.Some? <==> !DestinationLocked(s)
  {
    if DestinationLocked(s) then None else Some(DestinationUpdate(dest))
  }

  /** The series after a user interaction, if the control let it through. */
  function AfterInput(s: Series, u: Option<SeriesUpdate>): Series {
    if u.Some? then Merge(s, u.value) else s
  }

  /** The lock rules as the user meets them: a ready or failed series can be
      re-selected and re-routed; a sending series can be neither; a sent
      series can still be ticked for another send but keeps its destination.
      Nothing but the touched field ever changes. */
  lemma InputRules(s: Series, checked: bool, dest: string)
    ensures var c := AfterInput(s, OnCheck(s, checked));
            c.selectedForSend == (if s.status == Sending then s.selectedForSend else checked)
            && c == s.(selectedForSend := c.selectedForSend)
    ensures var d := AfterInput(s, OnSelectDestination(s, dest));
            d.selectedDestination == (if s.status == Sending || s.status == Success then s.selectedDestination else dest)
            && d == s.(selectedDestination := d.selectedDestination)
    ensures CheckboxDisabled(s) ==> DestinationLocked(s)
    ensures s.status == Ready || s.status == Failed ==> !CheckboxDisabled(s) && !DestinationLocked(s)
  {
  }

  /** The error box is shown for a failed series with a message
      (SeriesItem.jsx:125). */
  predicate ShowsError(s: Series) {
    s.status == Failed && s.errorMessage != ""
  }

  /** The row's title (SeriesItem.jsx:63): the description, or a name made
      from the modality and series number when it is empty. */
  function Title(s: Series): (r: string)
    ensures |r| > 0
    ensures r == s.description <==> s.description != ""
    ensures s.description == "" ==> Text.Contains(r, " Series ")
    ensures s.description == "" ==>
              && |r| == |s.modality| + 8 + |s.seriesNumber|
              && r[..|s.modality|] == s.modality
              && r[|s.modality|..|s.modality| + 8] == " Series "
              && r[|s.modality| + 8..] == s.seriesNumber
  {
    if s.description != "" then s.description
    else
      var r := s.modality + " Series " + s.seriesNumber;
      assert Text.SliceAt(r, " Series ", |s.modality|);
      assert r[..|s.modality|] == s.modality;
      assert r[|s.modality|..|s.modality| + 8] == " Series ";
      assert r[|s.modality| + 8..] == s.seriesNumber;
      r
  }
}

=== FILE: series_model.dfy ===
/** The client's patient/series tree: the objects the import component
    builds from the server's reply, the dashboard keeps as state and the
    list components render, together with `handleSeriesUpdate`
    (frontend/src/pages/DashboardPage.jsx:40-53), the only way the tree
    changes once imported. Every component that changes a series does so by
    issuing update calls; `Apply` runs a batch of them in order. */
module SeriesModel {
  import opened Wrappers

  /** A series as the client holds it: the descriptive fields the server
      sent, and the four fields the client owns. */
  datatype Series = Series(
    id: string,
    description: string,
    modality: string,
    seriesNumber: string,
    instanceCount: nat,
    bodyPart: string,
    studyDescription: string,
    studyDate: string,
    selectedForSend: bool,
    selectedDestination: string,
    status: string,
    errorMessage: string)

  datatype Patient = Patient(id: string, name: string, patientId: string, birthDate: string, sex: string, series: seq<Series>)

  /** The object spread into a series by `{ ...series, ...updates }`. The
      client only ever sends these four keys; None is an absent key. */
  datatype SeriesUpdate = SeriesUpdate(
    selectedForSend: Option<bool>,
    selectedDestination: Option<string>,
    status: Option<string>,
    errorMessage: Option<string>)

  function SelectUpdate(selected: bool): SeriesUpdate {
    SeriesUpdate(Some(selected), None, None, None)
  }

  function DestinationUpdate(dest: string): SeriesUpdate {
    SeriesUpdate(None, Some(dest), None, None)
  }

  function StatusUpdate(status: string): SeriesUpdate {
    SeriesUpdate(None, None, Some(status), None)
  }

  function ReportUpdate(status: string, message: string): SeriesUpdate {
    SeriesUpdate(None, None, Some(status), Some(message))
  }

  /** The descriptive part of a series: everything the client does not own. */
  function Info(s: Series): Series {
    s.(selectedForSend := false, selectedDestination := "", status := "", errorMessage := "")
  }

  /** `{ ...series, ...updates }`: a key present in the update wins. */
  function Merge(s: Series, u: SeriesUpdate): (r: Series)
    ensures Info(r) == Info(s) && r.id == s.id
    ensures u == SeriesUpdate(None, None, None, None) ==> r == s
  {
    s.(selectedForSend := if u.selectedForSend.Some? then u.selectedForSend.value else s.selectedForSend,
       selectedDestination := if u.selectedDestination.Some? then u.selectedDestination.value else s.selectedDestination,
       status := if u.status.Some? then u.status.value else s.status,
       errorMessage := if u.errorMessage.Some? then u.errorMessage.value else s.errorMessage)
  }

  /** Two spreads in a row, as one: the later object's keys win. */
  function Then(u: SeriesUpdate, v: SeriesUpdate): SeriesUpdate {
    SeriesUpdate(
      if v.selectedForSend.Some? then v.selectedForSend else u.selectedForSend,
      if v.selectedDestination.Some? then v.selectedDestination else u.selectedDestination,
      if v.status.Some? then v.status else u.status,
      if v.errorMessage.Some? then v.errorMessage else u.errorMessage)
  }

  /** Spreading the same object twice is spreading it once, and two spreads
      compose into the spread of their union with the later keys winning. */
  lemma MergeIdempotent(s: Series, u: SeriesUpdate)
    ensures Merge(Merge(s, u), u) == Merge(s, u)
    ensures forall v :: Merge(Merge(s, u), v) == Merge(s, Then(u, v))
  {
  }

  /** `b` has the tree shape of `a`: the same patients, with the same
      fields, holding series with the same descriptive fields, position by
      position. Only the four client-owned fields may differ. */
  ghost predicate SameShape(a: seq<Patient>, b: seq<Patient>) {
    && |a| == |b|
    && (forall i :: 0 <= i < |a| ==> a[i].(series := []) == b[i].(series := []) && |a[i].series| == |b[i].series|)
    && (forall i, j :: 0 <= i < |a| && 0 <= j < |a[i].series| && j < |b[i].series| ==> Info(a[i].series[j]) == Info(b[i].series[j]))
  }

  lemma SameShapeTransitive(a: seq<Patient>, b: seq<Patient>, c: seq<Patient>)
    requires SameShape(a, b) && SameShape(b, c)
    ensures SameShape(a, c)
  {
    forall i, j | 0 <= i < |a| && 0 <= j < |a[i].series| && j < |c[i].series|
      ensures Info(a[i].series[j]) == Info(c[i].series[j])
    {
      assert Info(a[i].series[j]) == Info(b[i].series[j]);
    }
  }

  /** `handleSeriesUpdate(patientId, seriesId, updates)`: the update is
      merged into every series with id `sid` under a patient with id `pid`;
      every other patient and series is kept as it is. */
  function UpdateSeries(ps: seq<Patient>, pid: string, sid: string, u: SeriesUpdate): (r: seq<Patient>)
    ensures SameShape(ps, r)
    ensures forall i :: 0 <= i < |ps| && ps[i].id != pid ==> r[i] == ps[i]
    ensures forall i, j :: 0 <= i < |ps| && 0 <= j < |ps[i].series| ==>
              r[i].series[j] == (if ps[i].id == pid && ps[i].series[j].id == sid then Merge(ps[i].series[j], u) else ps[i].series[j])
  {
    seq(|ps|, i requires 0 <= i < |ps| =>
      if ps[i].id == pid then
        ps[i].(series := seq(|ps[i].series|, j requires 0 <= j < |ps[i].series| =>
          if ps[i].series[j].id == sid then Merge(ps[i].series[j], u) else ps[i].series[j]))
      else ps[i])
  }

  /** One `onSeriesUpdate(patientId, seriesId, updates)` call. */
  datatype UpdateCall = UpdateCall(patientId: string, seriesId: string, update: SeriesUpdate)

  /** A batch of calls, each applied to the state the previous one left, as
      React applies queued functional state updates. */
  function Apply(ps: seq<Patient>, calls: seq<UpdateCall>): (r: seq<Patient>)
    ensures SameShape(ps, r)
    decreases |calls|
  {
    if |calls| == 0 then ps
    else
      var next := UpdateSeries(ps, calls[0].patientId, calls[0].seriesId, calls[0].update);
      var r := Apply(next, calls[1..]);
      SameShapeTransitive(ps, next, r);
      r
  }

  /** The updates addressed to series `sid` of patient `pid`, in call order. */
  function UpdatesFor(calls: seq<UpdateCall>, pid: string, sid: string): (r: seq<SeriesUpdate>)
    ensures |r| <= |calls|
    decreases |calls|
  {
    if |calls| == 0 then []
    else
      (if calls[0].patientId == pid && calls[0].seriesId == sid then [calls[0].update] else [])
      + UpdatesFor(calls[1..], pid, sid)
  }

  /** The series after a list of spreads, left to right. */
  function MergeAll(s: Series, us: seq<SeriesUpdate>): (r: Series)
    ensures Info(r) == Info(s) && r.id == s.id
    decreases |us|
  {
    if |us| == 0 then s else MergeAll(Merge(s, us[0]), us[1..])
  }

  /** Applying a batch of calls to a tree changes each series exactly by
      the updates addressed to it, in the order they were issued, and by
      nothing else. */
  lemma {:induction false} ApplyPointwise(ps: seq<Patient>, calls: seq<UpdateCall>)
    ensures forall i, j :: 0 <= i < |ps| && 0 <= j < |ps[i].series| ==>
              Apply(ps, calls)[i].series[j] == MergeAll(ps[i].series[j], UpdatesFor(calls, ps[i].id, ps[i].series[j].id))
    decreases |calls|
  {
    if |calls| > 0 {
      var c := calls[0];
      var next := UpdateSeries(ps, c.patientId, c.seriesId, c.update);
      ApplyPointwise(next, calls[1..]);
      forall i, j | 0 <= i < |ps| && 0 <= j < |ps[i].series|
        ensures Apply(ps, calls)[i].series[j] == MergeAll(ps[i].series[j], UpdatesFor(calls, ps[i].id, ps[i].series[j].id))
      {
        var s := ps[i].series[j];
        assert next[i].id == ps[i].id;
        assert next[i].series[j].id == s.id;
        var rest := UpdatesFor(calls[1..], ps[i].id, s.id);
        assert Apply(ps, calls)[i].series[j] == MergeAll(next[i].series[j], rest);
        if c.patientId == ps[i].id && c.seriesId == s.id {
          assert UpdatesFor(calls, ps[i].id, s.id) == [c.update] + rest;
          assert ([c.update] + rest)[1..] == rest;
        } else {
          assert UpdatesFor(calls, ps[i].id, s.id) == rest;
        }
      }
    }
  }

  /** Some call is addressed to series `sid` of patient `pid`. */
  predicate Addressed(calls: seq<UpdateCall>, pid: string, sid: string) {
    exists k :: 0 <= k < |calls| && calls[k].patientId == pid && calls[k].seriesId == sid
  }

  lemma {:induction false} UpdatesForUniform(calls: seq<UpdateCall>, pid: string, sid: string, u: SeriesUpdate)
    requires forall k :: 0 <= k < |calls| ==> calls[k].update == u
    ensures forall k :: 0 <= k < |UpdatesFor(calls, pid, sid)| ==> UpdatesFor(calls, pid, sid)[k] == u
    ensures |UpdatesFor(calls, pid, sid)| > 0 <==> Addressed(calls, pid, sid)
    decreases |calls|
  {
    if |calls| > 0 {
      UpdatesForUniform(calls[1..], pid, sid, u);
      if Addressed(calls[1..], pid, sid) {
        var k :| 0 <= k < |calls[1..]| && calls[1..][k].patientId == pid && calls[1..][k].seriesId == sid;
        assert calls[k + 1] == calls[1..][k];
      }
      if Addressed(calls, pid, sid) && !(calls[0].patientId == pid && calls[0].seriesId == sid) {
        var k :| 0 <= k < |calls| && calls[k].patientId == pid && calls[k].seriesId == sid;
        assert calls[1..][k - 1] == calls[k];
      }
    }
  }

  lemma {:induction false} MergeAllUniform(s: Series, us: seq<SeriesUpdate>, u: SeriesUpdate)
    requires forall k :: 0 <= k < |us| ==> us[k] == u
    ensures MergeAll(s, us) == if |us| == 0 then s else Merge(s, u)
    decreases |us|
  {
    if |us| > 1 {
      MergeAllUniform(Merge(s, u), us[1..], u);
      MergeIdempotent(s, u);
    }
  }

  /** A batch in which every call carries the same update leaves each
      series merged with it once if some call addresses the series, and
      untouched otherwise. */
  lemma ApplyUniform(ps: seq<Patient>, calls: seq<UpdateCall>, u: SeriesUpdate)
    requires forall k :: 0 <= k < |calls| ==> calls[k].update == u
    ensures forall i, j :: 0 <= i < |ps| && 0 <= j < |ps[i].series| ==>
              Apply(ps, calls)[i].series[j]
              == if Addressed(calls, ps[i].id, ps[i].series[j].id) then Merge(ps[i].series[j], u) else ps[i].series[j]
  {
    ApplyPointwise(ps, calls);
    forall i, j | 0 <= i < |ps| && 0 <= j < |ps[i].series|
      ensures Apply(ps, calls)[i].series[j]
              == if Addressed(calls, ps[i].id, ps[i].series[j].id) then Merge(ps[i].series[j], u) else ps[i].series[j]
    {
      var s := ps[i].series[j];
      UpdatesForUniform(calls, ps[i].id, s.id, u);
      MergeAllUniform(s, UpdatesFor(calls, ps[i].id, s.id), u);
    }
  }

  /** The status a series ends with after a list of spreads, read from the
      end: the last update that names a status decides, and with none the
      status is unchanged. */
  function LastStatus(status: string, us: seq<SeriesUpdate>): string
    decreases |us|
  {
    if |us| == 0 then status
    else if us[|us| - 1].status.Some? then us[|us| - 1].status.value
    else LastStatus(status, us[..|us| - 1])
  }

  lemma {:induction false} MergeAllLastWins(s: Series, us: seq<SeriesUpdate>)
    ensures MergeAll(s, us).status == LastStatus(s.status, us)
    decreases |us|
  {
    if |us| > 0 {
      MergeAllLastWins(Merge(s, us[0]), us[1..]);
      LastStatusOfCons(s.status, us);
    }
  }

  lemma {:induction false} LastStatusOfCons(status: string, us: seq<SeriesUpdate>)
    requires |us| > 0
    ensures LastStatus(status, us) == LastStatus(if us[0].status.Some? then us[0].status.value else status, us[1..])
    decreases |us|
  {
    if |us| > 1 {
      assert us[..|us| - 1][0] == us[0];
      assert us[..|us| - 1][1..] == us[1..][..|us[1..]| - 1];
      LastStatusOfCons(status, us[..|us| - 1]);
    }
  }

  /** Ids are unique where the server guarantees it: patient ids across the
      list, series ids within a patient. */
  predicate UniqueIds(ps: seq<Patient>) {
    && (forall i, k :: 0 <= i < k < |ps| ==> ps[i].id != ps[k].id)
    && (forall i, j, k :: 0 <= i < |ps| && 0 <= j < k < |ps[i].series| ==> ps[i].series[j].id != ps[i].series[k].id)
  }

  /** The number of series, over all patients. */
  function TotalSeries(ps: seq<Patient>): nat {
    if |ps| == 0 then 0 else |ps[0].series| + TotalSeries(ps[1..])
  }
  // ---------------------------------------------------------------------
  // Calls issued by walking the tree

  /** Some kept series of `ss` has id `sid`. */
  predicate KeptIn(ss: seq<Series>, keep: Series -> bool, sid: string) {
    exists j :: 0 <= j < |ss| && ss[j].id == sid && keep(ss[j])
  }

  /** Some call goes to a series with id `sid`. */
  predicate CallsSeries(calls: seq<UpdateCall>, sid: string) {
    exists k :: 0 <= k < |calls| && calls[k].seriesId == sid
  }

  /** `ss.forEach(s => { if (keep(s)) onSeriesUpdate(pid, s.id, u) })`. */
  function SeriesCalls(pid: string, ss: seq<Series>, keep: Series -> bool, u: SeriesUpdate): (r: seq<UpdateCall>)
    ensures forall k :: 0 <= k < |r| ==> r[k].patientId == pid && r[k].update == u && KeptIn(ss, keep, r[k].seriesId)
    ensures forall j :: 0 <= j < |ss| && keep(ss[j]) ==> CallsSeries(r, ss[j].id)
    decreases |ss|
  {
    if |ss| == 0 then []
    else
      var rest := SeriesCalls(pid, ss[1..], keep, u);
      var head := if keep(ss[0]) then [UpdateCall(pid, ss[0].id, u)] else [];
      SeriesCallsStep(pid, ss, keep, u, head, rest);
      head + rest
  }

  lemma SeriesCallsStep(pid: string, ss: seq<Series>, keep: Series -> bool, u: SeriesUpdate, head: seq<UpdateCall>, rest: seq<UpdateCall>)
    requires |ss| > 0
    requires head == if keep(ss[0]) then [UpdateCall(pid, ss[0].id, u)] else []
    requires forall k :: 0 <= k < |rest| ==> rest[k].patientId == pid && rest[k].update == u && KeptIn(ss[1..], keep, rest[k].seriesId)
    requires forall j :: 0 <= j < |ss[1..]| && keep(ss[1..][j]) ==> CallsSeries(rest, ss[1..][j].id)
    ensures forall k :: 0 <= k < |head + rest| ==>
              (head + rest)[k].patientId == pid && (head + rest)[k].update == u && KeptIn(ss, keep, (head + rest)[k].seriesId)
    ensures forall j :: 0 <= j < |ss| && keep(ss[j]) ==> CallsSeries(head + rest, ss[j].id)
  {
    var r := head + rest;
    forall k | 0 <= k < |r|
      ensures r[k].patientId == pid && r[k].update == u && KeptIn(ss, keep, r[k].seriesId)
    {
      if k < |head| {
        assert r[k].seriesId == ss[0].id;
      } else {
        assert r[k] == rest[k - |head|];
        var j :| 0 <= j < |ss[1..]| && ss[1..][j].id == r[k].seriesId && keep(ss[1..][j]);
        assert ss[j + 1] == ss[1..][j];
      }
    }
    forall j | 0 <= j < |ss| && keep(ss[j])
      ensures CallsSeries(r, ss[j].id)
    {
      if j == 0 {
        assert r[0].seriesId == ss[0].id;
      } else {
        assert ss[1..][j - 1] == ss[j];
        var k :| 0 <= k < |rest| && rest[k].seriesId == ss[j].id;
        assert r[k + |head|] == rest[k];
      }
    }
  }

  /** Some kept series of the tree has id `sid` under a patient with id `pid`. */
  predicate KeptInTree(ps: seq<Patient>, keep: Series -> bool, pid: string, sid: string) {
    exists i :: 0 <= i < |ps| && ps[i].id == pid && KeptIn(ps[i].series, keep, sid)
  }

  /** `patients.forEach(p => p.series.forEach(s => { if (keep(s)) onSeriesUpdate(p.id, s.id, u) }))`:
      every call goes to a kept series under its own patient, and every
      kept series gets one. */
  function AllCalls(ps: seq<Patient>, keep: Series -> bool, u: SeriesUpdate): (r: seq<UpdateCall>)
    ensures forall k :: 0 <= k < |r| ==> r[k].update == u && KeptInTree(ps, keep, r[k].patientId, r[k].seriesId)
    ensures forall i, j :: 0 <= i < |ps| && 0 <= j < |ps[i].series| && keep(ps[i].series[j]) ==> Addressed(r, ps[i].id, ps[i].series[j].id)
    decreases |ps|
  {
    if |ps| == 0 then []
    else
      var head := SeriesCalls(ps[0].id, ps[0].series, keep, u);
      var rest := AllCalls(ps[1..], keep, u);
      AllCallsStepKept(ps, keep, u, head, rest);
      AllCallsStepAddressed(ps, keep, u, head, rest);
      head + rest
  }

  /** Each call of the combined walk updates a kept series of the tree. */
  lemma AllCallsStepKept(ps: seq<Patient>, keep: Series -> bool, u: SeriesUpdate, head: seq<UpdateCall>, rest: seq<UpdateCall>)
    requires |ps| > 0
    requires head == SeriesCalls(ps[0].id, ps[0].series, keep, u)
    requires forall k :: 0 <= k < |rest| ==> rest[k].update == u && KeptInTree(ps[1..], keep, rest[k].patientId, rest[k].seriesId)
    ensures forall k :: 0 <= k < |head + rest| ==> (head + rest)[k].update == u && KeptInTree(ps, keep, (head + rest)[k].patientId, (head + rest)[k].seriesId)
  {
    var r := head + rest;
    forall k | 0 <= k < |r|
      ensures r[k].update == u && KeptInTree(ps, keep, r[k].patientId, r[k].seriesId)
    {
      if k < |head| {
        assert r[k] == head[k];
        assert KeptIn(ps[0].series, keep, r[k].seriesId);
      } else {
        assert r[k] == rest[k - |head|];
        var i :| 0 <= i < |ps[1..]| && ps[1..][i].id == r[k].patientId && KeptIn(ps[1..][i].series, keep, r[k].seriesId);
        assert ps[i + 1] == ps[1..][i];
      }
    }
  }

  /** Every kept series of the tree is addressed by the combined walk. */
  lemma AllCallsStepAddressed(ps: seq<Patient>, keep: Series -> bool, u: SeriesUpdate, head: seq<UpdateCall>, rest: seq<UpdateCall>)
    requires |ps| > 0
    requires head == SeriesCalls(ps[0].id, ps[0].series, keep, u)
    requires forall i, j :: 0 <= i < |ps[1..]| && 0 <= j < |ps[1..][i].series| && keep(ps[1..][i].series[j]) ==> Addressed(rest, ps[1..][i].id, ps[1..][i].series[j].id)
    ensures forall i, j :: 0 <= i < |ps| && 0 <= j < |ps[i].series| && keep(ps[i].series[j]) ==> Addressed(head + rest, ps[i].id, ps[i].series[j].id)
  {
    var r := head + rest;
    forall i, j | 0 <= i < |ps| && 0 <= j < |ps[i].series| && keep(ps[i].series[j])
      ensures Addressed(r, ps[i].id, ps[i].series[j].id)
    {
      if i == 0 {
        var k :| 0 <= k < |head| && head[k].seriesId == ps[0].series[j].id;
        assert r[k] == head[k];
      } else {
        assert ps[1..][i - 1] == ps[i];
        var k :| 0 <= k < |rest| && rest[k].patientId == ps[i].id && rest[k].seriesId == ps[i].series[j].id;
        assert r[k + |head|] == rest[k];
      }
    }
  }

  /** Walking a tree with unique ids and updating the kept series changes
      exactly the kept series, each by one merge. */
  lemma AllCallsEffect(ps: seq<Patient>, keep: Series -> bool, u: SeriesUpdate)
    requires UniqueIds(ps)
    ensures var r := Apply(ps, AllCalls(ps, keep, u));
            forall i, j :: 0 <= i < |ps| && 0 <= j < |ps[i].series| ==>
              r[i].series[j] == if keep(ps[i].series[j]) then Merge(ps[i].series[j], u) else ps[i].series[j]
  {
    var calls := AllCalls(ps, keep, u);
    ApplyUniform(ps, calls, u);
    AddressedAreKept(ps, keep, u);
  }

  /** With unique ids, a series addressed by the calls is one that is kept. */
  lemma AddressedAreKept(ps: seq<Patient>, keep: Series -> bool, u: SeriesUpdate)
    requires UniqueIds(ps)
    ensures forall i, j :: 0 <= i < |ps| && 0 <= j < |ps[i].series| && Addressed(AllCalls(ps, keep, u), ps[i].id, ps[i].series[j].id)
              ==> keep(ps[i].series[j])
  {
    var calls := AllCalls(ps, keep, u);
    forall i, j | 0 <= i < |ps| && 0 <= j < |ps[i].series| && Addressed(calls, ps[i].id, ps[i].series[j].id)
      ensures keep(ps[i].series[j])
    {
      var k :| 0 <= k < |calls| && calls[k].patientId == ps[i].id && calls[k].seriesId == ps[i].series[j].id;
      assert KeptInTree(ps, keep, calls[k].patientId, calls[k].seriesId);
      var i' :| 0 <= i' < |ps| && ps[i'].id == ps[i].id && KeptIn(ps[i'].series, keep, ps[i].series[j].id);
      assert i' == i;
      var j' :| 0 <= j' < |ps[i].series| && ps[i].series[j'].id == ps[i].series[j].id && keep(ps[i].series[j']);
      assert j' == j;
    }
  }
}

=== FILE: sorting.dfy ===
/** A stable sort by key, as Python's `list.sort(key=...)` and Django's
    `order_by` (on a sequence already in primary-key order) perform it.
    The order on keys is a parameter; the lemmas need it to be a strict
    total order. */
module Sorting {
  import opened Wrappers
  import Text

  ghost predicate StrictTotalOrder<K(!new)>(lt: (K, K) -> bool) {
    && (forall a :: !lt(a, a))
    && (forall a, b, c :: lt(a, b) && lt(b, c) ==> lt(a, c))
    && (forall a, b :: a != b ==> lt(a, b) || lt(b, a))
  }

  /** No element is strictly less than one before it. */
  ghost predicate SortedBy<T, K>(xs: seq<T>, key: T -> K, lt: (K, K) -> bool) {
    forall i, j :: 0 <= i < j < |xs| ==> !lt(key(xs[j]), key(xs[i]))
  }

  lemma SortedTail<T, K>(xs: seq<T>, key: T -> K, lt: (K, K) -> bool)
    requires |xs| > 0 && SortedBy(xs, key, lt)
    ensures SortedBy(xs[1..], key, lt)
  {
    forall i, j | 0 <= i < j < |xs[1..]| ensures !lt(key(xs[1..][j]), key(xs[1..][i])) {
      assert xs[1..][j] == xs[j + 1] && xs[1..][i] == xs[i + 1];
    }
  }

  /** A sorted sequence stays sorted behind an element no later one is
      less than. */
  lemma SortedCons<T, K>(x: T, ys: seq<T>, key: T -> K, lt: (K, K) -> bool)
    requires SortedBy(ys, key, lt)
    requires forall j :: 0 <= j < |ys| ==> !lt(key(ys[j]), key(x))
    ensures SortedBy([x] + ys, key, lt)
  {
    var r := [x] + ys;
    forall i, j | 0 <= i < j < |r| ensures !lt(key(r[j]), key(r[i])) {
      assert r[j] == ys[j - 1];
      if i > 0 {
        assert r[i] == ys[i - 1];
      }
    }
  }

  /** The elements of `xs` whose key is `k`, in their order in `xs`. */
  function WithKey<T, K(==)>(xs: seq<T>, key: T -> K, k: K): (r: seq<T>)
    ensures |r| <= |xs|
  {
    if |xs| == 0 then []
    else (if key(xs[0]) == k then [xs[0]] else []) + WithKey(xs[1..], key, k)
  }

  /** Inserts `x` in front of the first element whose key is not smaller,
      so that `x` stays ahead of the elements with an equal key. */
  function Insert<T, K>(x: T, ys: seq<T>, key: T -> K, lt: (K, K) -> bool): (r: seq<T>)
    ensures multiset(r) == multiset(ys) + multiset{x}
    ensures |r| == |ys| + 1
  {
    if |ys| == 0 then [x]
    else if lt(key(ys[0]), key(x)) then
      assert ys == [ys[0]] + ys[1..];
      [ys[0]] + Insert(x, ys[1..], key, lt)
    else [x] + ys
  }

  function SortBy<T, K>(xs: seq<T>, key: T -> K, lt: (K, K) -> bool): (r: seq<T>)
    ensures multiset(r) == multiset(xs)
    ensures |r| == |xs|
  {
    if |xs| == 0 then []
    else
      assert xs == [xs[0]] + xs[1..];
      Insert(xs[0], SortBy(xs[1..], key, lt), key, lt)
  }

  lemma {:induction false} InsertSorted<T, K(!new)>(x: T, ys: seq<T>, key: T -> K, lt: (K, K) -> bool)
    requires StrictTotalOrder(lt)
    requires SortedBy(ys, key, lt)
    ensures SortedBy(Insert(x, ys, key, lt), key, lt)
    decreases |ys|
  {
    if |ys| > 0 {
      if lt(key(ys[0]), key(x)) {
        var rest := Insert(x, ys[1..], key, lt);
        InsertSorted(x, ys[1..], key, lt);
        assert !lt(key(x), key(ys[0]));
        InsertAbove(x, ys[1..], key, lt, key(ys[0]));
        var r := [ys[0]] + rest;
        forall i, j | 0 <= i < j < |r|
          ensures !lt(key(r[j]), key(r[i]))
        {
          if i == 0 {
            assert r[j] == rest[j - 1];
          } else {
            assert r[i] == rest[i - 1] && r[j] == rest[j - 1];
          }
        }
      } else {
        var r := [x] + ys;
        forall i, j | 0 <= i < j < |r|
          ensures !lt(key(r[j]), key(r[i]))
        {
          if i == 0 && j > 1 {
            assert !lt(key(ys[j - 1]), key(ys[0]));
            assert key(ys[0]) == key(x) || lt(key(x), key(ys[0]));
          }
        }
      }
    }
  }

  /** The result is in order. */
  lemma {:induction false} SortBySorted<T, K(!new)>(xs: seq<T>, key: T -> K, lt: (K, K) -> bool)
    requires StrictTotalOrder(lt)
    ensures SortedBy(SortBy(xs, key, lt), key, lt)
    decreases |xs|
  {
    if |xs| > 0 {
      SortBySorted(xs[1..], key, lt);
      InsertSorted(xs[0], SortBy(xs[1..], key, lt), key, lt);
    }
  }

  /** Inserting an element no smaller than a bound into elements no
      smaller than it keeps every element no smaller than it. */
  lemma {:induction false} InsertAbove<T, K>(x: T, ys: seq<T>, key: T -> K, lt: (K, K) -> bool, b: K)
    requires forall i :: 0 <= i < |ys| ==> !lt(key(ys[i]), b)
    requires !lt(key(x), b)
    ensures forall i :: 0 <= i < |Insert(x, ys, key, lt)| ==> !lt(key(Insert(x, ys, key, lt)[i]), b)
    decreases |ys|
  {
    if |ys| > 0 {
      var r := Insert(x, ys, key, lt);
      if lt(key(ys[0]), key(x)) {
        var rest := Insert(x, ys[1..], key, lt);
        InsertAbove(x, ys[1..], key, lt, b);
        assert r == [ys[0]] + rest;
        forall i | 0 < i < |r| ensures !lt(key(r[i]), b) {
          assert r[i] == rest[i - 1];
        }
      } else {
        assert r == [x] + ys;
        forall i | 0 < i < |r| ensures !lt(key(r[i]), b) {
          assert r[i] == ys[i - 1];
        }
      }
    }
  }

  lemma {:induction false} WithKeyInsert<T, K>(x: T, ys: seq<T>, key: T -> K, lt: (K, K) -> bool, k: K)
    requires forall a :: !lt(a, a)
    ensures WithKey(Insert(x, ys, key, lt), key, k)
         == (if key(x) == k then [x] else []) + WithKey(ys, key, k)
    decreases |ys|
  {
    if |ys| > 0 {
      if lt(key(ys[0]), key(x)) {
        var rest := Insert(x, ys[1..], key, lt);
        var own := if key(x) == k then [x] else [];
        var head := if key(ys[0]) == k then [ys[0]] else [];
        var tail := WithKey(ys[1..], key, k);
        assert Insert(x, ys, key, lt) == [ys[0]] + rest;
        WithKeyCons(ys[0], rest, key, k);
        WithKeyInsert(x, ys[1..], key, lt, k);
        assert WithKey(ys, key, k) == head + tail;
        // `ys[0]` sorts strictly before `x`, so at most one of them has key `k`
        assert own == [] || head == [] by {
          if key(x) == k && key(ys[0]) == k {
            assert false;
          }
        }
        SwapEmpty(head, own, tail);
      } else {
        WithKeyCons(x, ys, key, k);
      }
    }
  }

  /** Two pieces of which one is empty can be put in either order. */
  lemma SwapEmpty<T>(a: seq<T>, b: seq<T>, c: seq<T>)
    requires a == [] || b == []
    ensures a + (b + c) == b + (a + c)
  {
    if a == [] {
      assert a + (b + c) == b + c;
    } else {
      assert b + (a + c) == a + c;
    }
  }

  /** Filtering by key distributes over putting one element in front. */
  lemma WithKeyCons<T, K>(y: T, ys: seq<T>, key: T -> K, k: K)
    ensures WithKey([y] + ys, key, k) == (if key(y) == k then [y] else []) + WithKey(ys, key, k)
  {
    assert ([y] + ys)[1..] == ys;
  }

  /** Stability: among the elements that share a key, the sort keeps
      the input order. */
  lemma {:induction false} SortByStable<T, K>(xs: seq<T>, key: T -> K, lt: (K, K) -> bool, k: K)
    requires forall a :: !lt(a, a)
    ensures WithKey(SortBy(xs, key, lt), key, k) == WithKey(xs, key, k)
    decreases |xs|
  {
    if |xs| > 0 {
      SortByStable(xs[1..], key, lt, k);
      WithKeyInsert(xs[0], SortBy(xs[1..], key, lt), key, lt, k);
    }
  }

  // ---------------------------------------------------------------------
  // What a sort keeps: the identities, their distinctness, and sums

  /** Some element has identity `k`. */
  predicate HasKey<T, I(==)>(xs: seq<T>, id: T -> I, k: I) {
    exists i :: 0 <= i < |xs| && id(xs[i]) == k
  }

  /** No two elements share an identity. */
  predicate DistinctKeys<T, I(==)>(xs: seq<T>, id: T -> I) {
    forall i, j :: 0 <= i < j < |xs| ==> id(xs[i]) != id(xs[j])
  }

  function SumBy<T>(xs: seq<T>, f: T -> int): int {
    if |xs| == 0 then 0 else f(xs[0]) + SumBy(xs[1..], f)
  }

  lemma {:induction false} SumByPointwise<T>(xs: seq<T>, ys: seq<T>, f: T -> int)
    requires |xs| == |ys| && forall i :: 0 <= i < |xs| ==> f(xs[i]) == f(ys[i])
    ensures SumBy(xs, f) == SumBy(ys, f)
  {
    if |xs| > 0 {
      assert forall i :: 0 <= i < |xs| - 1 ==> xs[1..][i] == xs[i + 1] && ys[1..][i] == ys[i + 1];
      SumByPointwise(xs[1..], ys[1..], f);
    }
  }

  /** The elements that fail `ok`, in order. */
  function Reject<T>(xs: seq<T>, ok: T -> bool): (r: seq<T>)
    ensures |r| == 0 <==> forall j :: 0 <= j < |xs| ==> ok(xs[j])
    ensures forall i :: 0 <= i < |r| ==> !ok(r[i]) && r[i] in xs
  {
    if |xs| == 0 then []
    else
      var rest := Reject(xs[1..], ok);
      assert forall j :: 1 <= j < |xs| ==> xs[j] == xs[1..][j - 1];
      if ok(xs[0]) then rest else [xs[0]] + rest
  }

  /** `Reject` keeps every failing element as often as it occurs and
      drops every passing one. */
  lemma {:induction false} RejectCounts<T>(xs: seq<T>, ok: T -> bool)
    ensures forall x :: multiset(Reject(xs, ok))[x] == if ok(x) then 0 else multiset(xs)[x]
    decreases |xs|
  {
    if |xs| > 0 {
      RejectCounts(xs[1..], ok);
      assert xs == [xs[0]] + xs[1..];
      assert multiset(xs) == multiset{xs[0]} + multiset(xs[1..]);
    }
  }

  /** The positions at or after `i` of the elements that pass `ok`, in
      increasing order: each passes, and none that passes is missing. */
  function Positions<T>(xs: seq<T>, ok: T -> bool, i: nat): (r: seq<nat>)
    requires i <= |xs|
    ensures forall k :: 0 <= k < |r| ==> i <= r[k] < |xs| && ok(xs[r[k]])
    ensures forall k, l :: 0 <= k < l < |r| ==> r[k] < r[l]
    ensures forall j :: i <= j < |xs| && ok(xs[j]) ==> j in r
    decreases |xs| - i
  {
    if i == |xs| then []
    else if ok(xs[i]) then [i] + Positions(xs, ok, i + 1)
    else Positions(xs, ok, i + 1)
  }

  /** `f` of each element that passes `ok`, in order; `f` need only be
      defined on those. */
  function KeepMap<T(!new), U>(xs: seq<T>, ok: T -> bool, f: T --> U): seq<U>
    requires forall x :: ok(x) ==> f.requires(x)
  {
    if |xs| == 0 then []
    else (if ok(xs[0]) then [f(xs[0])] else []) + KeepMap(xs[1..], ok, f)
  }

  /** From position `i` on, `KeepMap` gives one result per passing
      element, in order: result `k` is `f` of the `k`-th passing element. */
  lemma {:induction false} KeepMapFrom<T(!new), U>(xs: seq<T>, ok: T -> bool, f: T --> U, i: nat)
    requires forall x :: ok(x) ==> f.requires(x)
    requires i <= |xs|
    ensures var idx := Positions(xs, ok, i);
            var r := KeepMap(xs[i..], ok, f);
            |r| == |idx| && forall k :: 0 <= k < |r| ==> r[k] == f(xs[idx[k]])
    decreases |xs| - i
  {
    if i < |xs| {
      KeepMapFrom(xs, ok, f, i + 1);
      var idx := Positions(xs, ok, i + 1);
      var rest := KeepMap(xs[i + 1..], ok, f);
      assert xs[i..][0] == xs[i] && xs[i..][1..] == xs[i + 1..];
      var all := Positions(xs, ok, i);
      var r := KeepMap(xs[i..], ok, f);
      if ok(xs[i]) {
        assert all == [i] + idx;
        assert r == [f(xs[i])] + rest;
        forall k | 0 <= k < |r| ensures r[k] == f(xs[all[k]]) {
          if k > 0 {
            assert r[k] == rest[k - 1] && all[k] == idx[k - 1];
          }
        }
      } else {
        assert all == idx;
        assert r == rest;
      }
    }
  }

  /** `KeepMap` of a concatenation is that of each part, in turn. */
  lemma {:induction false} KeepMapAppend<T(!new), U>(a: seq<T>, b: seq<T>, ok: T -> bool, f: T --> U)
    requires forall x :: ok(x) ==> f.requires(x)
    ensures KeepMap(a + b, ok, f) == KeepMap(a, ok, f) + KeepMap(b, ok, f)
    decreases |a|
  {
    if |a| == 0 {
      assert a + b == b;
    } else {
      var h := if ok(a[0]) then [f(a[0])] else [];
      assert (a + b)[0] == a[0] && (a + b)[1..] == a[1..] + b;
      assert KeepMap(a + b, ok, f) == h + KeepMap(a[1..] + b, ok, f);
      KeepMapAppend(a[1..], b, ok, f);
      assert KeepMap(a, ok, f) == h + KeepMap(a[1..], ok, f);
      assert h + (KeepMap(a[1..], ok, f) + KeepMap(b, ok, f))
          == (h + KeepMap(a[1..], ok, f)) + KeepMap(b, ok, f);
    }
  }

  /** `KeepMap` gives one result per passing element, in order. */
  lemma KeepMapInOrder<T(!new), U>(xs: seq<T>, ok: T -> bool, f: T --> U)
    requires forall x :: ok(x) ==> f.requires(x)
    ensures var idx := Positions(xs, ok, 0);
            var r := KeepMap(xs, ok, f);
            |r| == |idx| && forall k :: 0 <= k < |r| ==> r[k] == f(xs[idx[k]])
  {
    KeepMapFrom(xs, ok, f, 0);
    assert xs[0..] == xs;
  }

  /** Every element the test rejects is kept. */
  lemma {:induction false} RejectKeeps<T>(xs: seq<T>, ok: T -> bool, x: T)
    requires x in xs && !ok(x)
    ensures x in Reject(xs, ok)
    decreases |xs|
  {
    if xs[0] != x {
      assert x in xs[1..];
      RejectKeeps(xs[1..], ok, x);
    }
  }

  /** A test that rejects nothing keeps the sequence whole. */
  lemma {:induction false} RejectNone<T>(xs: seq<T>, ok: T -> bool)
    requires forall i :: 0 <= i < |xs| ==> !ok(xs[i])
    ensures Reject(xs, ok) == xs
    decreases |xs|
  {
    if |xs| > 0 {
      RejectNone(xs[1..], ok);
      assert [xs[0]] + xs[1..] == xs;
    }
  }

  /** Two tests that agree on every element reject the same ones. */
  lemma {:induction false} RejectAgree<T>(xs: seq<T>, ok1: T -> bool, ok2: T -> bool)
    requires forall i :: 0 <= i < |xs| ==> ok1(xs[i]) == ok2(xs[i])
    ensures Reject(xs, ok1) == Reject(xs, ok2)
    decreases |xs|
  {
    if |xs| > 0 {
      RejectAgree(xs[1..], ok1, ok2);
    }
  }

  /** The position of the first element with identity `k`. */
  function FirstIndex<T, I(==)>(xs: seq<T>, id: T -> I, k: I): (r: Option<nat>)
    ensures r.Some? ==> r.value < |xs| && id(xs[r.value]) == k
    ensures r.Some? ==> forall i :: 0 <= i < r.value ==> id(xs[i]) != k
    ensures r.None? <==> !HasKey(xs, id, k)
    decreases |xs|
  {
    if |xs| == 0 then None
    else if id(xs[0]) == k then Some(0)
    else match FirstIndex(xs[1..], id, k)
      case None =>
        assert forall i :: 1 <= i < |xs| ==> xs[i] == xs[1..][i - 1];
        None
      case Some(i) => Some(i + 1)
  }

  lemma {:induction false} SumByAppend<T>(xs: seq<T>, x: T, f: T -> int)
    ensures SumBy(xs + [x], f) == SumBy(xs, f) + f(x)
    decreases |xs|
  {
    if |xs| == 0 {
      assert [x][1..] == [];
    } else {
      assert (xs + [x])[1..] == xs[1..] + [x];
      SumByAppend(xs[1..], x, f);
    }
  }

  lemma {:induction false} SumByUpdate<T>(xs: seq<T>, j: nat, x: T, f: T -> int)
    requires j < |xs|
    ensures SumBy(xs[j := x], f) == SumBy(xs, f) - f(xs[j]) + f(x)
    decreases |xs|
  {
    if j == 0 {
      assert xs[j := x][1..] == xs[1..];
    } else {
      assert xs[j := x][1..] == xs[1..][j - 1 := x];
      SumByUpdate(xs[1..], j - 1, x, f);
    }
  }

  lemma HasKeyAppend<T, I>(xs: seq<T>, x: T, id: T -> I)
    ensures forall k :: HasKey(xs + [x], id, k) <==> HasKey(xs, id, k) || k == id(x)
  {
    var r := xs + [x];
    assert forall i :: 0 <= i < |xs| ==> r[i] == xs[i];
    assert r[|xs|] == x;
    forall k | HasKey(r, id, k) && k != id(x) ensures HasKey(xs, id, k) {
      var i :| 0 <= i < |r| && id(r[i]) == k;
    }
    forall k | HasKey(xs, id, k) ensures HasKey(r, id, k) {
      var i :| 0 <= i < |xs| && id(xs[i]) == k;
      assert id(r[i]) == k;
    }
  }

  /** Appending an element with a new identity keeps identities distinct. */
  lemma DistinctKeysAppend<T, I>(xs: seq<T>, x: T, id: T -> I)
    requires DistinctKeys(xs, id) && !HasKey(xs, id, id(x))
    ensures DistinctKeys(xs + [x], id)
  {
    var r := xs + [x];
    assert forall i :: 0 <= i < |xs| ==> r[i] == xs[i];
    forall i | 0 <= i < |xs| ensures id(r[i]) != id(x) {
      assert HasKey(xs, id, id(xs[i]));
    }
  }

  /** Replacing an element by one with the same identity keeps the
      identities. */
  lemma SameKeysUpdate<T, I>(xs: seq<T>, j: nat, x: T, id: T -> I)
    requires j < |xs| && id(x) == id(xs[j])
    ensures DistinctKeys(xs, id) ==> DistinctKeys(xs[j := x], id)
    ensures forall k :: HasKey(xs[j := x], id, k) <==> HasKey(xs, id, k)
  {
    var r := xs[j := x];
    assert forall i :: 0 <= i < |xs| ==> id(r[i]) == id(xs[i]);
    forall k | HasKey(r, id, k) ensures HasKey(xs, id, k) {
      var i :| 0 <= i < |r| && id(r[i]) == k;
    }
    forall k | HasKey(xs, id, k) ensures HasKey(r, id, k) {
      var i :| 0 <= i < |xs| && id(xs[i]) == k;
    }
  }

  lemma {:induction false} HasKeyCons<T, I>(x: T, ys: seq<T>, id: T -> I)
    ensures forall k :: HasKey([x] + ys, id, k) <==> k == id(x) || HasKey(ys, id, k)
  {
    var r := [x] + ys;
    forall k ensures HasKey(r, id, k) <==> k == id(x) || HasKey(ys, id, k) {
      if HasKey(ys, id, k) {
        var i :| 0 <= i < |ys| && id(ys[i]) == k;
        assert r[i + 1] == ys[i];
      }
      if HasKey(r, id, k) && k != id(x) {
        var i :| 0 <= i < |r| && id(r[i]) == k;
        assert ys[i - 1] == r[i];
      }
      assert r[0] == x;
    }
  }

  lemma DistinctKeysCons<T, I>(x: T, ys: seq<T>, id: T -> I)
    ensures DistinctKeys([x] + ys, id) <==> !HasKey(ys, id, id(x)) && DistinctKeys(ys, id)
  {
    var r := [x] + ys;
    assert forall i :: 0 <= i < |ys| ==> r[i + 1] == ys[i];
    if DistinctKeys(r, id) {
      forall i | 0 <= i < |ys| ensures id(ys[i]) != id(x) {
        assert id(r[0]) != id(r[i + 1]);
      }
      forall i, j | 0 <= i < j < |ys| ensures id(ys[i]) != id(ys[j]) {
        assert id(r[i + 1]) != id(r[j + 1]);
      }
    }
    if !HasKey(ys, id, id(x)) && DistinctKeys(ys, id) {
      forall i, j | 0 <= i < j < |r| ensures id(r[i]) != id(r[j]) {
        if i == 0 {
          assert r[j] == ys[j - 1];
        } else {
          assert r[i] == ys[i - 1] && r[j] == ys[j - 1];
        }
      }
    }
  }

  lemma {:induction false} InsertKeepsSum<T, K>(x: T, ys: seq<T>, key: T -> K, lt: (K, K) -> bool, f: T -> int)
    ensures SumBy(Insert(x, ys, key, lt), f) == f(x) + SumBy(ys, f)
    decreases |ys|
  {
    if |ys| > 0 && lt(key(ys[0]), key(x)) {
      var rest := Insert(x, ys[1..], key, lt);
      var r := [ys[0]] + rest;
      assert r[1..] == rest;
      InsertKeepsSum(x, ys[1..], key, lt, f);
    } else if |ys| > 0 {
      var r := [x] + ys;
      assert r[1..] == ys;
    }
  }

  lemma {:induction false} InsertKeepsKeys<T, K, I>(x: T, ys: seq<T>, key: T -> K, lt: (K, K) -> bool, id: T -> I)
    ensures forall k :: HasKey(Insert(x, ys, key, lt), id, k) <==> HasKey(ys, id, k) || k == id(x)
    decreases |ys|
  {
    if |ys| > 0 && lt(key(ys[0]), key(x)) {
      var rest := Insert(x, ys[1..], key, lt);
      assert ys == [ys[0]] + ys[1..];
      InsertKeepsKeys(x, ys[1..], key, lt, id);
      HasKeyCons(ys[0], rest, id);
      HasKeyCons(ys[0], ys[1..], id);
    } else {
      HasKeyCons(x, ys, id);
    }
  }

  lemma {:induction false} InsertKeepsDistinct<T, K, I>(x: T, ys: seq<T>, key: T -> K, lt: (K, K) -> bool, id: T -> I)
    requires DistinctKeys(ys, id) && !HasKey(ys, id, id(x))
    ensures DistinctKeys(Insert(x, ys, key, lt), id)
    decreases |ys|
  {
    if |ys| > 0 && lt(key(ys[0]), key(x)) {
      var rest := Insert(x, ys[1..], key, lt);
      assert Insert(x, ys, key, lt) == [ys[0]] + rest;
      assert ys == [ys[0]] + ys[1..];
      HasKeyCons(ys[0], ys[1..], id);
      DistinctKeysCons(ys[0], ys[1..], id);
      InsertKeepsDistinct(x, ys[1..], key, lt, id);
      InsertKeepsKeys(x, ys[1..], key, lt, id);
      assert id(ys[0]) != id(x) by { assert HasKey(ys, id, id(ys[0])); }
      assert !HasKey(rest, id, id(ys[0]));
      DistinctKeysCons(ys[0], rest, id);
    } else {
      DistinctKeysCons(x, ys, id);
    }
  }

  /** Sorting keeps every sum over the elements, */
  lemma {:induction false} SortByKeepsSum<T, K>(xs: seq<T>, key: T -> K, lt: (K, K) -> bool, f: T -> int)
    ensures SumBy(SortBy(xs, key, lt), f) == SumBy(xs, f)
    decreases |xs|
  {
    if |xs| > 0 {
      var tail := SortBy(xs[1..], key, lt);
      assert SortBy(xs, key, lt) == Insert(xs[0], tail, key, lt);
      SortByKeepsSum(xs[1..], key, lt, f);
      InsertKeepsSum(xs[0], tail, key, lt, f);
    }
  }

  /** the identities present, */
  lemma {:induction false} SortByKeepsKeys<T, K, I>(xs: seq<T>, key: T -> K, lt: (K, K) -> bool, id: T -> I)
    ensures forall k :: HasKey(SortBy(xs, key, lt), id, k) <==> HasKey(xs, id, k)
    decreases |xs|
  {
    if |xs| > 0 {
      var tail := SortBy(xs[1..], key, lt);
      assert SortBy(xs, key, lt) == Insert(xs[0], tail, key, lt);
      SortByKeepsKeys(xs[1..], key, lt, id);
      InsertKeepsKeys(xs[0], tail, key, lt, id);
      assert xs == [xs[0]] + xs[1..];
      HasKeyCons(xs[0], xs[1..], id);
    }
  }

  /** and their distinctness. */
  lemma {:induction false} SortByKeepsDistinct<T, K, I>(xs: seq<T>, key: T -> K, lt: (K, K) -> bool, id: T -> I)
    requires DistinctKeys(xs, id)
    ensures DistinctKeys(SortBy(xs, key, lt), id)
    decreases |xs|
  {
    if |xs| > 0 {
      var tail := SortBy(xs[1..], key, lt);
      assert SortBy(xs, key, lt) == Insert(xs[0], tail, key, lt);
      assert xs == [xs[0]] + xs[1..];
      DistinctKeysCons(xs[0], xs[1..], id);
      SortByKeepsDistinct(xs[1..], key, lt, id);
      SortByKeepsKeys(xs[1..], key, lt, id);
      assert !HasKey(xs[1..], id, id(xs[0]));
      assert !HasKey(tail, id, id(xs[0]));
      InsertKeepsDistinct(xs[0], tail, key, lt, id);
    }
  }

  /** The order on Python integers. */
  function IntLess(): (int, int) -> bool {
    (a: int, b: int) => a < b
  }

  lemma IntLessIsTotal()
    ensures StrictTotalOrder(IntLess())
  {
  }

  /** The reverse order on integers, for `order_by('-field')`. */
  function IntGreater(): (int, int) -> bool {
    (a: int, b: int) => a > b
  }

  lemma IntGreaterIsTotal()
    ensures StrictTotalOrder(IntGreater())
  {
  }

  /** The order on Python strings (code point by code point). */
  function StringLess(): (string, string) -> bool {
    (a: string, b: string) => Text.Less(a, b)
  }

  lemma StringLessIsTotal()
    ensures StrictTotalOrder(StringLess())
  {
    var lt := StringLess();
    forall a | true ensures !lt(a, a) {
      Text.LessIrreflexive(a);
    }
    forall a, b, c | lt(a, b) && lt(b, c) ensures lt(a, c) {
      Text.LessTransitive(a, b, c);
    }
    forall a, b | a != b ensures lt(a, b) || lt(b, a) {
      Text.LessConnected(a, b);
    }
  }
}

=== FILE: status_view.dfy ===
/** The status endpoint (`get_transfer_status`, backend/dicom_api/views.py:223-281):
    the comma-separated series ids of the query string, the user's send
    logs it selects, newest first and at most fifty, and the status entry
    reported for each log that names a series. The log table is a sequence
    and the clock is a parameter; times are microseconds. */
module StatusView {
  import opened Wrappers
  import opened JsonValue
  import Text
  import Sorting
  import TransferLog
  import ApiState

  /** Twenty-four hours (views.py:249). */
  const DayMicros: int := 86_400_000_000

  /** The result limit (views.py:253). */
  const Limit: nat := 50

  // ---------------------------------------------------------------------
  // The ids of the query string

  /** An id as the query keeps it: not blank, and already stripped. */
  predicate Clean(s: string) {
    s != "" && Text.Strip(s) == s
  }

  /** The stripped pieces that are not blank, in order. */
  function Kept(parts: seq<string>): (r: seq<string>)
    ensures |r| <= |parts|
  {
    if |parts| == 0 then []
    else
      var p := Text.Strip(parts[0]);
      var rest := Kept(parts[1..]);
      if p != "" then [p] + rest else rest
  }

  /** Every piece kept is clean. */
  lemma {:induction false} KeptIsClean(parts: seq<string>)
    ensures forall k :: 0 <= k < |Kept(parts)| ==> Clean(Kept(parts)[k])
    decreases |parts|
  {
    if |parts| > 0 {
      var p := Text.Strip(parts[0]);
      var rest := Kept(parts[1..]);
      KeptIsClean(parts[1..]);
      if p != "" {
        Text.StripIdempotent(parts[0]);
        var r := [p] + rest;
        assert Kept(parts) == r;
        forall k | 0 <= k < |r| ensures Clean(r[k]) {
          if k > 0 {
            assert r[k] == rest[k - 1];
          }
        }
      }
    }
  }

  /** No string of `xs` holds a comma. */
  predicate CommaFree(xs: seq<string>) {
    forall k :: 0 <= k < |xs| ==> ',' !in xs[k]
  }

  /** Stripping adds no character, so pieces free of commas stay so. */
  lemma {:induction false} KeptCommaFree(parts: seq<string>)
    requires CommaFree(parts)
    ensures CommaFree(Kept(parts))
    decreases |parts|
  {
    if |parts| > 0 {
      assert CommaFree(parts[1..]) by {
        assert forall k :: 0 <= k < |parts[1..]| ==> parts[1..][k] == parts[k + 1];
      }
      KeptCommaFree(parts[1..]);
      var p := Text.Strip(parts[0]);
      assert ',' !in p by { Text.StripKeeps(parts[0]); }
      if p != "" {
        assert Kept(parts) == [p] + Kept(parts[1..]);
      }
    }
  }

  /** `[sid.strip() for sid in param.split(',') if sid.strip()]`
      (views.py:231-232): every id is non-empty, stripped and free of
      commas. */
  function ParseIds(param: string): (r: seq<string>)
    ensures forall k :: 0 <= k < |r| ==> Clean(r[k]) && ',' !in r[k]
  {
    KeptCommaFree(Text.Split(param, ','));
    KeptIsClean(Text.Split(param, ','));
    assert CommaFree(Kept(Text.Split(param, ',')));
    Kept(Text.Split(param, ','))
  }

  /** Clean pieces are kept as they are. */
  lemma {:induction false} KeptClean(parts: seq<string>)
    requires forall k :: 0 <= k < |parts| ==> Clean(parts[k])
    ensures Kept(parts) == parts
    decreases |parts|
  {
    if |parts| > 0 {
      var p := parts[0];
      var tail := parts[1..];
      HeadAndTail(parts);
      forall k | 0 <= k < |tail| ensures Clean(tail[k]) {
        assert tail[k] == parts[k + 1];
      }
      KeptClean(tail);
      KeptCons(parts);
      assert Clean(parts[0]);
      assert Kept(parts) == [p] + tail;
    }
  }

  /** A non-empty list is its head followed by its tail. */
  lemma HeadAndTail<T>(xs: seq<T>)
    requires |xs| > 0
    ensures [xs[0]] + xs[1..] == xs
  {
  }

  /** The pieces kept from a non-empty list: the first one stripped, if not
      blank, then those of the rest. */
  lemma KeptCons(parts: seq<string>)
    requires |parts| > 0
    ensures Kept(parts) == (if Text.Strip(parts[0]) != "" then [Text.Strip(parts[0])] else []) + Kept(parts[1..])
  {
  }

  /** The ids the client's poll joins with commas are read back as they
      were, provided each is non-empty, stripped and free of commas; an
      empty list reads back as empty. */
  lemma ParseIdsJoin(ids: seq<string>)
    requires forall k :: 0 <= k < |ids| ==> Clean(ids[k]) && ',' !in ids[k]
    ensures ParseIds(Text.Join(ids, ',')) == ids
  {
    if |ids| == 0 {
      assert Text.Split("", ',') == [""];
      assert Text.Strip("") == "";
    } else {
      Text.SplitJoin(ids, ',');
      KeptClean(ids);
    }
  }

  // ---------------------------------------------------------------------
  // The logs selected

  /** The log's `series_id` detail is one of `ids`, as the JSON lookup
      `details__series_id__in` compares it. */
  predicate SeriesIn(l: TransferLog.Log, ids: seq<string>) {
    "series_id" in l.details && l.details["series_id"].JStr? && l.details["series_id"].s in ids
  }

  /** A send log of the user that the query keeps: one of the asked series
      when ids are given, else one from the last twenty-four hours. */
  predicate Selected(l: TransferLog.Log, userId: int, ids: seq<string>, now: int) {
    && l.userId == userId && l.action == "send"
    && if |ids| > 0 then SeriesIn(l, ids) else TransferLog.TimeOf(l) >= now - DayMicros
  }

  /** The selected logs, in table order. */
  function Matching(logs: seq<TransferLog.Log>, userId: int, ids: seq<string>, now: int): seq<TransferLog.Log> {
    Sorting.Reject(logs, (l: TransferLog.Log) => !Selected(l, userId, ids, now))
  }

  /** The selected logs, newest first. */
  function Newest(logs: seq<TransferLog.Log>, userId: int, ids: seq<string>, now: int): (r: seq<TransferLog.Log>)
    ensures multiset(r) == multiset(Matching(logs, userId, ids, now))
    ensures Sorting.SortedBy(r, TransferLog.TimeOf, Sorting.IntGreater())
  {
    Sorting.IntGreaterIsTotal();
    Sorting.SortBySorted(Matching(logs, userId, ids, now), TransferLog.TimeOf, Sorting.IntGreater());
    Sorting.SortBy(Matching(logs, userId, ids, now), TransferLog.TimeOf, Sorting.IntGreater())
  }

  /** The first `n` of `xs`, or all of them when there are fewer. */
  function Take<T>(xs: seq<T>, n: nat): (r: seq<T>)
    ensures |r| == if |xs| < n then |xs| else n
    ensures forall k :: 0 <= k < |r| ==> r[k] == xs[k]
  {
    if |xs| <= n then xs else xs[..n]
  }

  /** A prefix of a sorted sequence is sorted. */
  lemma TakeSorted(xs: seq<TransferLog.Log>, n: nat)
    requires Sorting.SortedBy(xs, TransferLog.TimeOf, Sorting.IntGreater())
    ensures Sorting.SortedBy(Take(xs, n), TransferLog.TimeOf, Sorting.IntGreater())
  {
  }

  /** Every log of the selection is one the query selects. */
  lemma TakeSelected(logs: seq<TransferLog.Log>, userId: int, ids: seq<string>, now: int, k: nat)
    requires k < |Take(Newest(logs, userId, ids, now), Limit)|
    ensures var l := Take(Newest(logs, userId, ids, now), Limit)[k];
            Selected(l, userId, ids, now) && l in logs
  {
    var sorted := Newest(logs, userId, ids, now);
    assert sorted[k] in multiset(sorted);
    assert sorted[k] in Matching(logs, userId, ids, now);
  }

  /** A selected log left out of the cut is no newer than the last kept. */
  lemma TakeNewest(logs: seq<TransferLog.Log>, userId: int, ids: seq<string>, now: int, l: TransferLog.Log)
    requires l in logs && Selected(l, userId, ids, now)
    ensures var r := Take(Newest(logs, userId, ids, now), Limit);
            l in r || (|r| == Limit && TransferLog.TimeOf(l) <= TransferLog.TimeOf(r[Limit - 1]))
  {
    var sorted := Newest(logs, userId, ids, now);
    Sorting.RejectKeeps(logs, (l: TransferLog.Log) => !Selected(l, userId, ids, now), l);
    assert l in multiset(sorted);
    var i :| 0 <= i < |sorted| && sorted[i] == l;
    if i >= Limit {
      assert !Sorting.IntGreater()(TransferLog.TimeOf(sorted[i]), TransferLog.TimeOf(sorted[Limit - 1]));
    } else {
      assert Take(sorted, Limit)[i] == l;
    }
  }

  /** The query of views.py:235-253: the user's send logs, filtered by the
      ids or the last day, newest first, cut at fifty. Every log returned
      is selected; none of them is older than one left out; fewer than
      fifty are returned only when no selected log is left out. */
  function Selection(logs: seq<TransferLog.Log>, userId: int, ids: seq<string>, now: int): (r: seq<TransferLog.Log>)
    ensures |r| <= Limit
    ensures forall k :: 0 <= k < |r| ==> Selected(r[k], userId, ids, now) && r[k] in logs
    ensures Sorting.SortedBy(r, TransferLog.TimeOf, Sorting.IntGreater())
    ensures |r| == if |Matching(logs, userId, ids, now)| < Limit then |Matching(logs, userId, ids, now)| else Limit
    ensures forall l :: l in logs && Selected(l, userId, ids, now) ==>
              l in r || (|r| == Limit && TransferLog.TimeOf(l) <= TransferLog.TimeOf(r[Limit - 1]))
  {
    var sorted := Newest(logs, userId, ids, now);
    var r := Take(sorted, Limit);
    assert |sorted| == |Matching(logs, userId, ids, now)| by {
      assert |multiset(sorted)| == |multiset(Matching(logs, userId, ids, now))|;
    }
    TakeSorted(sorted, Limit);
    forall k | 0 <= k < |r| ensures Selected(r[k], userId, ids, now) && r[k] in logs {
      TakeSelected(logs, userId, ids, now, k);
    }
    forall l | l in logs && Selected(l, userId, ids, now)
      ensures l in r || (|r| == Limit && TransferLog.TimeOf(l) <= TransferLog.TimeOf(r[Limit - 1]))
    {
      TakeNewest(logs, userId, ids, now, l);
    }
    r
  }

  // ---------------------------------------------------------------------
  // The report

  /** One entry of the response (views.py:263-272). `destination` is the
      destination's name, empty when the log has none. */
  datatype StatusEntry = StatusEntry(
    id: Json,
    status: string,
    message: string,
    timestamp: Option<int>,
    completedAt: Option<int>,
    destination: string,
    patientName: string,
    seriesDescription: string)

  /** The log names a series: its `series_id` detail is truthy. */
  predicate NamesSeries(l: TransferLog.Log) {
    "series_id" in l.details && PyTruthy(l.details["series_id"])
  }

  function EntryOf(l: TransferLog.Log): (e: StatusEntry)
    requires NamesSeries(l)
  {
    StatusEntry(l.details["series_id"], l.status, l.errorMessage, l.timestamp, l.completedAt,
                match l.destination case Some(d) => d.name case None => "",
                l.patientName, l.seriesDescription)
  }

  /** The entries of the logs that name a series, in order. */
  function Report(logs: seq<TransferLog.Log>): (r: seq<StatusEntry>)
    ensures |r| <= |logs|
    ensures |r| == |Sorting.Reject(logs, (l: TransferLog.Log) => !NamesSeries(l))|
    ensures forall k :: 0 <= k < |r| ==> exists i :: 0 <= i < |logs| && NamesSeries(logs[i]) && r[k] == EntryOf(logs[i])
  {
    if |logs| == 0 then []
    else
      var rest := Report(logs[1..]);
      assert forall i :: 1 <= i < |logs| ==> logs[i] == logs[1..][i - 1];
      if NamesSeries(logs[0]) then [EntryOf(logs[0])] + rest else rest
  }

  /** The entries are those of the logs that name a series. */
  lemma {:induction false} ReportIsKeepMap(logs: seq<TransferLog.Log>)
    ensures Report(logs) == Sorting.KeepMap(logs, NamesSeries, EntryOf)
    decreases |logs|
  {
    if |logs| > 0 {
      ReportIsKeepMap(logs[1..]);
    }
  }

  /** The entries are one per log that names a series, in log order: entry
      `k` is that of the `k`-th such log. */
  lemma ReportInOrder(logs: seq<TransferLog.Log>)
    ensures var idx := Sorting.Positions(logs, NamesSeries, 0);
            var r := Report(logs);
            |r| == |idx| && forall k :: 0 <= k < |r| ==> r[k] == EntryOf(logs[idx[k]])
  {
    ReportIsKeepMap(logs);
    Sorting.KeepMapInOrder(logs, NamesSeries, EntryOf);
  }

  /** `get_transfer_status`. `param` is the `series_ids` query parameter,
      None when absent. At most fifty entries; each is the entry of a
      selected send log of the user that names a series. */
  function TransferStatus(param: Option<string>, logs: seq<TransferLog.Log>, user: ApiState.Requester, now: int): (r: seq<StatusEntry>)
    ensures |r| <= Limit
    ensures var ids := ParseIds(param.GetOr(""));
            forall k :: 0 <= k < |r| ==>
              exists l :: l in logs && Selected(l, user.id, ids, now) && NamesSeries(l) && r[k] == EntryOf(l)
  {
    var ids := ParseIds(param.GetOr(""));
    var sel := Selection(logs, user.id, ids, now);
    ReportOfSelected(sel, logs, user.id, ids, now);
    Report(sel)
  }

  /** Each entry reported from selected logs is the entry of one of them. */
  lemma ReportOfSelected(sel: seq<TransferLog.Log>, logs: seq<TransferLog.Log>, userId: int, ids: seq<string>, now: int)
    requires forall k :: 0 <= k < |sel| ==> Selected(sel[k], userId, ids, now) && sel[k] in logs
    ensures forall k :: 0 <= k < |Report(sel)| ==>
              exists l :: l in logs && Selected(l, userId, ids, now) && NamesSeries(l) && Report(sel)[k] == EntryOf(l)
  {
    var r := Report(sel);
    forall k | 0 <= k < |r|
      ensures exists l :: l in logs && Selected(l, userId, ids, now) && NamesSeries(l) && r[k] == EntryOf(l)
    {
      var i :| 0 <= i < |sel| && NamesSeries(sel[i]) && r[k] == EntryOf(sel[i]);
      assert sel[i] in logs && Selected(sel[i], userId, ids, now);
    }
  }

  /** Asked for ids, the endpoint reports only those series: every entry's
      id is one of them, as a string. */
  lemma ReportsAskedSeries(param: string, logs: seq<TransferLog.Log>, user: ApiState.Requester, now: int, k: nat)
    requires |ParseIds(param)| > 0
    requires k < |TransferStatus(Some(param), logs, user, now)|
    ensures var e := TransferStatus(Some(param), logs, user, now)[k];
            e.id.JStr? && e.id.s in ParseIds(param)
  {
  }

  /** Without ids, the endpoint reports only sends of the last day. */
  lemma ReportsLastDay(logs: seq<TransferLog.Log>, user: ApiState.Requester, now: int, k: nat)
    requires k < |TransferStatus(None, logs, user, now)|
    ensures var e := TransferStatus(None, logs, user, now)[k];
            e.timestamp.GetOr(0) >= now - DayMicros
  {
    assert Text.Split("", ',') == [""];
    assert Text.Strip("") == "";
  }
}

=== FILE: text.dfy ===
/** String helpers with the semantics of the JavaScript and Python
    built-ins the code base calls: decimal printing, Python's `int()` on a
    string, `str.strip()`, `split`/`join` on one separator character, and
    the code-point order Python's `<` and `sorted` use on strings. */
module Text {
  import opened Wrappers

  // ---------------------------------------------------------------------
  // Decimal digits

  predicate IsDigit(c: char) {
    '0' <= c <= '9'
  }

  predicate AllDigits(s: string) {
    forall i :: 0 <= i < |s| ==> IsDigit(s[i])
  }

  function DigitChar(d: nat): (c: char)
    requires d < 10
    ensures IsDigit(c)
  {
    (48 + d) as char
  }

  function DigitValue(c: char): (d: nat)
    requires IsDigit(c)
    ensures d < 10
    ensures DigitChar(d) == c
  {
    (c as int - 48) as nat
  }

  /** The decimal representation of `n`, as `String(n)` and `str(n)` print it. */
  function NatToString(n: nat): (r: string)
    ensures |r| >= 1 && AllDigits(r)
    ensures n >= 10 ==> r[0] != '0'
    decreases n
  {
    if n < 10 then [DigitChar(n)] else NatToString(n / 10) + [DigitChar(n % 10)]
  }

  /** The value of a string of decimal digits. */
  function DigitsValue(s: string): nat
    requires AllDigits(s)
    decreases |s|
  {
    if |s| == 0 then 0 else DigitsValue(s[..|s| - 1]) * 10 + DigitValue(s[|s| - 1])
  }

  /** Printing a number and reading it back gives the number. */
  lemma {:induction false} DigitsValueOfNatToString(n: nat)
    ensures DigitsValue(NatToString(n)) == n
    decreases n
  {
    if n >= 10 {
      var s := NatToString(n);
      var p := NatToString(n / 10);
      assert s == p + [DigitChar(n % 10)];
      assert s[..|s| - 1] == p;
      DigitsValueOfNatToString(n / 10);
    }
  }

  // ---------------------------------------------------------------------
  // Python whitespace and str.strip()

  /** The ASCII characters for which Python's `str.isspace()` holds. */
  predicate IsSpace(c: char) {
    c == ' ' || c == '\t' || c == '\n' || c == '\r' || c == '\U{000B}' || c == '\U{000C}'
    || ('\U{001C}' <= c <= '\U{001F}')
  }

  function StripLeft(s: string): (r: string)
    ensures |r| <= |s| && r == s[|s| - |r|..]
    ensures |r| > 0 ==> !IsSpace(r[0])
    ensures forall i :: 0 <= i < |s| - |r| ==> IsSpace(s[i])
    decreases |s|
  {
    if |s| > 0 && IsSpace(s[0]) then StripLeft(s[1..]) else s
  }

  function StripRight(s: string): (r: string)
    ensures |r| <= |s| && r == s[..|r|]
    ensures |r| > 0 ==> !IsSpace(r[|r| - 1])
    ensures forall i :: |r| <= i < |s| ==> IsSpace(s[i])
    decreases |s|
  {
    if |s| > 0 && IsSpace(s[|s| - 1]) then StripRight(s[..|s| - 1]) else s
  }

  /** `r` occurs in `s` starting at index `i`. */
  predicate SliceAt(s: string, r: string, i: int) {
    0 <= i <= |s| - |r| && r == s[i..i + |r|]
  }

  /** Python's `str.strip()` with no argument: the slice of `s` left after
      removing leading and trailing whitespace. */
  function Strip(s: string): (r: string)
    ensures |r| <= |s|
    ensures |r| > 0 ==> !IsSpace(r[0]) && !IsSpace(r[|r| - 1])
  {
    StripRight(StripLeft(s))
  }

  /** The stripped text is a slice of the input. */
  lemma StripIsSlice(s: string)
    ensures exists i :: SliceAt(s, Strip(s), i)
  {
    var l := StripLeft(s);
    var r := StripRight(l);
    assert r == s[|s| - |l|..][..|r|] == s[|s| - |l|..|s| - |l| + |r|];
    assert Strip(s) == r;
    assert SliceAt(s, r, |s| - |l|);
  }

  /** Where the stripped text starts in `s`. */
  function StripOffset(s: string): nat {
    |s| - |StripLeft(s)|
  }

  /** The stripped text is the slice of `s` at `StripOffset(s)`. */
  lemma StripSlice(s: string, i: nat)
    requires i < |Strip(s)|
    ensures StripOffset(s) + |Strip(s)| <= |s|
    ensures Strip(s)[i] == s[StripOffset(s) + i]
  {
    var l := StripLeft(s);
    var r := StripRight(l);
    var off := StripOffset(s);
    assert Strip(s) == r;
    assert r[i] == l[i];
    assert l[i] == s[off + i];
  }

  /** A character of `s` that is not whitespace lies inside the stripped
      text. */
  lemma StripInside(s: string, k: nat)
    requires k < |s| && !IsSpace(s[k])
    ensures StripOffset(s) <= k < StripOffset(s) + |Strip(s)|
  {
    var l := StripLeft(s);
    var r := StripRight(l);
    var off := StripOffset(s);
    assert Strip(s) == r;
    assert off <= k;
    assert l == s[off..];
    assert s[k] == l[k - off];
  }

  lemma {:induction false} StripLeftBlank(s: string)
    requires forall i :: 0 <= i < |s| ==> IsSpace(s[i])
    ensures StripLeft(s) == ""
    decreases |s|
  {
    if |s| > 0 {
      assert IsSpace(s[0]);
      assert forall i :: 0 <= i < |s[1..]| ==> s[1..][i] == s[i + 1];
      StripLeftBlank(s[1..]);
    }
  }

  /** The stripped text is empty exactly when `s` is all whitespace. */
  lemma StripBlank(s: string)
    ensures (forall i :: 0 <= i < |s| ==> IsSpace(s[i])) <==> Strip(s) == ""
  {
    if forall i :: 0 <= i < |s| ==> IsSpace(s[i]) {
      StripLeftBlank(s);
    } else {
      var k :| 0 <= k < |s| && !IsSpace(s[k]);
      StripInside(s, k);
    }
  }

  /** Stripping removes only whitespace, and keeps every other character. */
  lemma StripKeeps(s: string)
    ensures forall c :: c in Strip(s) ==> c in s
    ensures forall k :: 0 <= k < |s| && !IsSpace(s[k]) ==> s[k] in Strip(s)
  {
    var off := StripOffset(s);
    var r := Strip(s);
    forall c | c in r ensures c in s {
      var i :| 0 <= i < |r| && r[i] == c;
      StripSlice(s, i);
    }
    forall k | 0 <= k < |s| && !IsSpace(s[k]) ensures s[k] in r {
      StripInside(s, k);
      StripSlice(s, k - off);
    }
  }

  /** Stripping twice is stripping once. */
  lemma StripIdempotent(s: string)
    ensures Strip(Strip(s)) == Strip(s)
  {
    var r := Strip(s);
    assert StripLeft(r) == r;
    assert StripRight(r) == r;
  }

  // ---------------------------------------------------------------------
  // Python int() on a string

  /** Python's `int(s)` for a string argument: surrounding whitespace is
      ignored, an optional sign may lead, and at least one decimal digit
      must follow. Anything else raises `ValueError`, modelled as Err. */
  function ParsePyInt(s: string): (r: Result<int, string>)
    ensures r.Ok? ==> Strip(s) != ""
  {
    var t := Strip(s);
    if |t| == 0 then Err("invalid literal for int()")
    else if t[0] == '+' || t[0] == '-' then
      var digits := t[1..];
      if |digits| > 0 && AllDigits(digits) then
        Ok(if t[0] == '-' then -(DigitsValue(digits) as int) else DigitsValue(digits) as int)
      else Err("invalid literal for int()")
    else if AllDigits(t) then Ok(DigitsValue(t))
    else Err("invalid literal for int()")
  }

  /** Python's `str(n)` of an integer, read back by `int()`. */
  function IntToString(n: int): (r: string)
  {
    if n < 0 then "-" + NatToString(-n) else NatToString(n)
  }

  lemma StripOfTrimmed(s: string)
    requires |s| > 0 && !IsSpace(s[0]) && !IsSpace(s[|s| - 1])
    ensures Strip(s) == s
  {
  }

  lemma ParsePyIntOfIntToString(n: int)
    ensures ParsePyInt(IntToString(n)) == Ok(n)
  {
    var s := IntToString(n);
    if n < 0 {
      var d := NatToString(-n);
      assert s == "-" + d;
      assert IsDigit(d[|d| - 1]);
      assert s[|s| - 1] == d[|d| - 1];
      StripOfTrimmed(s);
      assert s[1..] == d;
      DigitsValueOfNatToString(-n);
    } else {
      assert IsDigit(s[0]) && IsDigit(s[|s| - 1]);
      StripOfTrimmed(s);
      DigitsValueOfNatToString(n);
    }
  }

  // ---------------------------------------------------------------------
  // split / join on one separator character

  /** Python's `s.split(sep)` (and JavaScript's) for a one-character separator:
      always at least one piece, none containing the separator. */
  function Split(s: string, sep: char): (r: seq<string>)
    ensures |r| >= 1
    ensures forall i :: 0 <= i < |r| ==> sep !in r[i]
    decreases |s|
  {
    if |s| == 0 then [""]
    else
      var rest := Split(s[1..], sep);
      if s[0] == sep then [""] + rest else [[s[0]] + rest[0]] + rest[1..]
  }

  /** JavaScript's `parts.join(sep)`. */
  function Join(parts: seq<string>, sep: char): string
    decreases |parts|
  {
    if |parts| == 0 then ""
    else if |parts| == 1 then parts[0]
    else parts[0] + [sep] + Join(parts[1..], sep)
  }

  /** Two pieces are joined by one separator. */
  lemma JoinPair(a: string, b: string, sep: char)
    ensures Join([a, b], sep) == a + [sep] + b
  {
    assert [a, b][1..] == [b];
  }

  /** Joining the pieces of a split gives back the original string. */
  lemma {:induction false} JoinSplit(s: string, sep: char)
    ensures Join(Split(s, sep), sep) == s
    decreases |s|
  {
    if |s| > 0 {
      var rest := Split(s[1..], sep);
      JoinSplit(s[1..], sep);
      if s[0] == sep {
        assert Split(s, sep) == [""] + rest;
        assert s == [sep] + s[1..];
      } else {
        var r := Split(s, sep);
        assert r == [[s[0]] + rest[0]] + rest[1..];
        if |rest| == 1 {
          assert Join(r, sep) == [s[0]] + rest[0];
        } else {
          assert r[1..] == rest[1..];
          assert Join(r, sep) == [s[0]] + rest[0] + [sep] + Join(rest[1..], sep);
        }
      }
    }
  }

  lemma {:induction false} SplitPrefix(p: string, sep: char, rest: string)
    requires sep !in p
    ensures Split(p + [sep] + rest, sep) == [p] + Split(rest, sep)
    decreases |p|
  {
    if |p| == 0 {
      assert p + [sep] + rest == [sep] + rest;
    } else {
      var s := p + [sep] + rest;
      assert s[1..] == p[1..] + [sep] + rest;
      SplitPrefix(p[1..], sep, rest);
      assert [p[0]] + p[1..] == p;
    }
  }

  lemma {:induction false} SplitNoSeparator(p: string, sep: char)
    requires sep !in p
    ensures Split(p, sep) == [p]
    decreases |p|
  {
    if |p| > 0 {
      SplitNoSeparator(p[1..], sep);
      assert [p[0]] + p[1..] == p;
    }
  }

  /** Splitting the join of separator-free pieces gives back the pieces. */
  lemma {:induction false} SplitJoin(parts: seq<string>, sep: char)
    requires |parts| >= 1
    requires forall i :: 0 <= i < |parts| ==> sep !in parts[i]
    ensures Split(Join(parts, sep), sep) == parts
    decreases |parts|
  {
    if |parts| == 1 {
      SplitNoSeparator(parts[0], sep);
    } else {
      SplitJoin(parts[1..], sep);
      SplitPrefix(parts[0], sep, Join(parts[1..], sep));
      assert [parts[0]] + parts[1..] == parts;
    }
  }

  // ---------------------------------------------------------------------
  // Code-point order on strings

  /** Python's `a < b` on strings, and JavaScript's `localeCompare` on the
      ASCII day keys it is used for: lexicographic by code point. */
  predicate Less(a: string, b: string)
    decreases |a|
  {
    if |a| == 0 then |b| > 0
    else if |b| == 0 then false
    else if a[0] == b[0] then Less(a[1..], b[1..])
    else a[0] < b[0]
  }

  lemma {:induction false} LessIrreflexive(a: string)
    ensures !Less(a, a)
    decreases |a|
  {
    if |a| > 0 {
      LessIrreflexive(a[1..]);
    }
  }

  lemma {:induction false} LessTransitive(a: string, b: string, c: string)
    requires Less(a, b) && Less(b, c)
    ensures Less(a, c)
    decreases |a|
  {
    if |a| > 0 && |b| > 0 && |c| > 0 && a[0] == b[0] && b[0] == c[0] {
      LessTransitive(a[1..], b[1..], c[1..]);
    }
  }

  lemma {:induction false} LessConnected(a: string, b: string)
    requires a != b
    ensures Less(a, b) || Less(b, a)
    decreases |a|
  {
    if |a| > 0 && |b| > 0 && a[0] == b[0] {
      assert a == [a[0]] + a[1..];
      assert b == [b[0]] + b[1..];
      LessConnected(a[1..], b[1..]);
    }
  }

  // ---------------------------------------------------------------------
  // Character classes and case folding

  predicate IsAsciiLetter(c: char) {
    ('a' <= c <= 'z') || ('A' <= c <= 'Z')
  }

  /** Python's `str.isalnum()` on one ASCII character. */
  predicate IsAlnum(c: char) {
    IsAsciiLetter(c) || IsDigit(c)
  }

  function LowerChar(c: char): char {
    if 'A' <= c <= 'Z' then (c as int + 32) as char else c
  }

  function Lower(s: string): (r: string)
    ensures |r| == |s|
    ensures forall i :: 0 <= i < |s| ==> r[i] == LowerChar(s[i])
  {
    seq(|s|, i requires 0 <= i < |s| => LowerChar(s[i]))
  }

  /** `needle` occurs in `hay` as a contiguous piece. */
  predicate Contains(hay: string, needle: string) {
    exists i | 0 <= i <= |hay| :: SliceAt(hay, needle, i)
  }

  /** Django's `icontains` lookup: case-insensitive containment. */
  predicate IContains(hay: string, needle: string) {
    Contains(Lower(hay), Lower(needle))
  }
}

=== FILE: token_store.dfy ===
/** The client's credential store (`frontend/src/api.js`, module scope):
    the access/refresh token pair held in memory and mirrored into the
    browser's durable `localStorage`. */
module TokenStore {

  /** `localStorage`: string keys to string values. */
  type Storage = map<string, string>

  const AccessKey := "access"
  const RefreshKey := "refresh"

  /** The in-memory pair and the durable storage it is mirrored into.
      The empty string is JavaScript's falsy "no token". */
  datatype Tokens = Tokens(access: string, refresh: string, storage: Storage)

  /** `localStorage.getItem(k) || ""`. */
  function StoredOr(st: Storage, k: string): string {
    if k in st then st[k] else ""
  }

  /** The pair as the module reads it when the page (re)loads. */
  function Load(st: Storage): (t: Tokens)
    ensures t.storage == st
    ensures AccessKey !in st ==> t.access == ""
    ensures AccessKey in st ==> t.access == st[AccessKey]
    ensures RefreshKey !in st ==> t.refresh == ""
    ensures RefreshKey in st ==> t.refresh == st[RefreshKey]
  {
    Tokens(StoredOr(st, AccessKey), StoredOr(st, RefreshKey), st)
  }

  /** A reload of the page would see the same pair: memory and storage agree. */
  predicate Persisted(t: Tokens) {
    Load(t.storage) == t
  }

  /** `setTokens({access, refresh})`: each token is replaced, in memory and in
      storage, only when a non-empty value is supplied for it. */
  function SetTokens(t: Tokens, access: string, refresh: string): (r: Tokens)
    ensures access != "" ==> r.access == access && AccessKey in r.storage && r.storage[AccessKey] == access
    ensures access == "" ==> r.access == t.access
    ensures refresh != "" ==> r.refresh == refresh && RefreshKey in r.storage && r.storage[RefreshKey] == refresh
    ensures refresh == "" ==> r.refresh == t.refresh
    ensures access == "" && refresh == "" ==> r == t
    ensures forall k :: k in t.storage && k != AccessKey && k != RefreshKey ==> k in r.storage && r.storage[k] == t.storage[k]
    ensures r.storage.Keys <= t.storage.Keys + {AccessKey, RefreshKey}
  {
    var t1 := if access != "" then t.(access := access, storage := t.storage[AccessKey := access]) else t;
    if refresh != "" then t1.(refresh := refresh, storage := t1.storage[RefreshKey := refresh]) else t1
  }

  /** `clearTokens()`: both tokens emptied and both stored copies removed;
      every other stored key is kept. */
  function ClearTokens(t: Tokens): (r: Tokens)
    ensures r.access == "" && r.refresh == ""
    ensures AccessKey !in r.storage && RefreshKey !in r.storage
    ensures forall k :: k in t.storage && k != AccessKey && k != RefreshKey ==> k in r.storage && r.storage[k] == t.storage[k]
    ensures r.storage.Keys <= t.storage.Keys
  {
    Tokens("", "", t.storage - {AccessKey, RefreshKey})
  }

  /** Every mutation writes through to storage, so the pair survives a page
      reload after any sequence of `setTokens` and `clearTokens`. */
  lemma MutationsArePersisted(t: Tokens, access: string, refresh: string)
    requires Persisted(t)
    ensures Persisted(SetTokens(t, access, refresh))
    ensures Persisted(ClearTokens(t))
  {
  }

  /** Clearing forgets everything that was set. */
  lemma ClearAfterSet(t: Tokens, access: string, refresh: string)
    ensures ClearTokens(SetTokens(t, access, refresh)) == ClearTokens(t)
  {
    var a := ClearTokens(SetTokens(t, access, refresh));
    var b := ClearTokens(t);
    assert a.storage == b.storage;
  }
}

=== FILE: transfer_log.dfy ===
/** The audit record of one transfer or import (backend/dicom_api/models.py,
    `TransferLog`), its completion step, and the duration the detailed
    serializer reports (backend/dicom_api/serializers.py). Times are
    microseconds since an arbitrary origin; the clock is a parameter. */
module TransferLog {
  import opened Wrappers
  import opened JsonValue

  /** The stored values of the status field (models.py:13-18). */
  const StatusChoices: seq<string> := ["pending", "sending", "success", "failed"]

  /** The stored values of the action field (models.py:20-24). */
  const ActionChoices: seq<string> := ["import", "send", "test_connection"]

  /** The destination a log points at, or nothing once it is deleted. */
  datatype DestinationRef = DestinationRef(id: int, name: string)

  datatype Log = Log(
    id: int,
    userId: int,
    username: string,
    action: string,
    timestamp: Option<int>,
    completedAt: Option<int>,
    status: string,
    patientName: string,
    patientId: string,
    studyInstanceUid: string,
    seriesInstanceUid: string,
    seriesDescription: string,
    modality: string,
    instanceCount: Option<nat>,
    bytesTransferred: Option<int>,
    destination: Option<DestinationRef>,
    errorMessage: string,
    details: map<string, Json>)

  /** The creation time used to order logs; every stored log has one, as
      the field is filled on creation (models.py:36). */
  function TimeOf(l: Log): int {
    l.timestamp.GetOr(0)
  }

  /** A row as `TransferLog.objects.create` makes it when the caller sets
      only the user, the action and the clock: every default of the model
      (models.py:26-117) applies. */
  function Created(id: int, userId: int, username: string, action: string, now: int): (l: Log)
    ensures l.status == "pending" && l.status in StatusChoices
    ensures l.completedAt.None? && l.timestamp == Some(now)
    ensures l.errorMessage == "" && l.details == map[]
    ensures !IsCompleted(l)
  {
    Log(id, userId, username, action, Some(now), None, "pending", "", "", "", "", "", "", None, None, None, "", map[])
  }

  /** `mark_completed` (models.py:138-148): the status and completion time
      are set, the error message only when a non-empty one is given, and
      the extra details are merged over the stored ones. */
  function MarkCompleted(l: Log, status: string, errorMessage: Option<string>, extra: map<string, Json>, now: int): (r: Log)
    ensures r.status == status && r.completedAt == Some(now)
    ensures errorMessage.Some? && errorMessage.value != "" ==> r.errorMessage == errorMessage.value
    ensures errorMessage.None? || errorMessage.value == "" ==> r.errorMessage == l.errorMessage
    ensures forall k :: k in r.details <==> k in l.details || k in extra
    ensures forall k :: k in extra ==> r.details[k] == extra[k]
    ensures forall k :: k in l.details && k !in extra ==> r.details[k] == l.details[k]
    ensures r.(status := l.status, completedAt := l.completedAt, errorMessage := l.errorMessage, details := l.details) == l
  {
    var message := if errorMessage.Some? && errorMessage.value != "" then errorMessage.value else l.errorMessage;
    l.(status := status, completedAt := Some(now), errorMessage := message, details := l.details + extra)
  }

  /** `is_completed` (models.py:156-158). */
  predicate IsCompleted(l: Log) {
    l.status == "success" || l.status == "failed"
  }

  /** Completing with a final status completes the log; completing again
      with the same arguments at a later time only moves the completion
      time. */
  lemma MarkCompletedSettles(l: Log, status: string, errorMessage: Option<string>, extra: map<string, Json>, t1: int, t2: int)
    ensures IsCompleted(MarkCompleted(l, status, errorMessage, extra, t1)) <==> status in ["success", "failed"]
    ensures MarkCompleted(MarkCompleted(l, status, errorMessage, extra, t1), status, errorMessage, extra, t2)
            == MarkCompleted(l, status, errorMessage, extra, t2)
  {
    var a := MarkCompleted(MarkCompleted(l, status, errorMessage, extra, t1), status, errorMessage, extra, t2);
    var b := MarkCompleted(l, status, errorMessage, extra, t2);
    assert a.details == b.details;
  }

  /** `get_duration` (models.py:150-154): the time between creation and
      completion, when both are recorded. */
  function Duration(l: Log): (r: Option<int>)
    ensures r.Some? <==> l.timestamp.Some? && l.completedAt.Some?
    ensures r.Some? ==> l.timestamp.value + r.value == l.completedAt.value
  {
    if l.completedAt.Some? && l.timestamp.Some? then Some(l.completedAt.value - l.timestamp.value) else None
  }

  /** `TransferLogSerializer.get_duration` (serializers.py:27-32): the
      duration in seconds; a zero duration is falsy and reported as None
      like a missing one. */
  function DurationSeconds(l: Log): (r: Option<real>)
    ensures r.Some? <==> Duration(l).Some? && Duration(l).value != 0
    ensures r.Some? ==> r.value * 1000000.0 == Duration(l).value as real
    ensures r.Some? ==> r.value != 0.0
  {
    match Duration(l)
    case Some(d) => if d != 0 then Some(d as real / 1000000.0) else None
    case None => None
  }

  /** Completing a created log gives a duration exactly when the clock
      moved, and then the elapsed time. */
  lemma CompletedDuration(l: Log, status: string, errorMessage: Option<string>, extra: map<string, Json>, now: int)
    requires l.timestamp.Some?
    ensures var d := DurationSeconds(MarkCompleted(l, status, errorMessage, extra, now));
            && (d.Some? <==> now != l.timestamp.value)
            && (d.Some? ==> d.value * 1000000.0 == (now - l.timestamp.value) as real)
  {
  }

  /** `get_action_display`: the label of a known action, the stored value
      itself otherwise. */
  function ActionDisplay(action: string): (r: string)
    ensures action !in ActionChoices ==> r == action
    ensures action in ActionChoices ==> r != action && r != ""
  {
    if action == "import" then "Import DICOM Files"
    else if action == "send" then "Send DICOM Series"
    else if action == "test_connection" then "Test Destination Connection"
    else action
  }

  /** The upper-case form of a lower-case ASCII letter; other characters
      are kept. */
  function Capital(c: char): char {
    if 'a' <= c <= 'z' then (c as int - 32) as char else c
  }

  /** The label of a known status, capitalised; the stored value itself
      otherwise. */
  function StatusDisplay(status: string): (r: string)
    ensures status !in StatusChoices ==> r == status
    ensures status in StatusChoices ==> |r| == |status| && r[0] == Capital(status[0]) && r[0] != status[0] && r[1..] == status[1..]
  {
    if status == "pending" then "Pending"
    else if status == "sending" then "Sending"
    else if status == "success" then "Success"
    else if status == "failed" then "Failed"
    else status
  }

  /** What a log is about: its series, else its patient, else the user
      who made it. */
  function Subject(l: Log): string {
    if l.seriesDescription != "" then ": " + l.seriesDescription
    else if l.patientName != "" then ": " + l.patientName
    else " by " + l.username
  }

  /** `__str__` (models.py:129-136): the action's label, what the log is
      about, and the status in parentheses. */
  function Describe(l: Log): (r: string)
    ensures var a := ActionDisplay(l.action);
            && |r| >= |a| + |l.status| + 3 && r[..|a|] == a && r[|r| - |l.status| - 3..] == " (" + l.status + ")"
            && r[|a|..|r| - |l.status| - 3] == Subject(l)
    ensures l.seriesDescription != "" ==> Subject(l) == ": " + l.seriesDescription
    ensures l.seriesDescription == "" && l.patientName != "" ==> Subject(l) == ": " + l.patientName
    ensures l.seriesDescription == "" && l.patientName == "" ==> Subject(l) == " by " + l.username
  {
    var a := ActionDisplay(l.action);
    var tail := " (" + l.status + ")";
    var r := a + Subject(l) + tail;
    assert r[..|a|] == a;
    assert r[|r| - |tail|..] == tail;
    assert r[|a|..|r| - |tail|] == Subject(l);
    r
  }
}

=== FILE: transfer_service.dfy ===
/** The transfer service (backend/dicom_api/services.py,
    `DICOMTransferService`): how the outcome of a storescu run is recorded
    on the series' transfer log, and how an echoscu run becomes a
    connection-test result. Running the tools, the file system and the
    clock are parameters: the set of paths that exist, what the run came
    to, and the completion time. */
module TransferService {
  import opened Wrappers
  import opened JsonValue
  import Text
  import TransferLog
  import Destinations

  /** The calling AE title both tools present (services.py:193, 280). */
  const CallingAe: string := "TELEPOST"

  /** What running a DCMTK tool came to: it exited with a code and its
      captured output, it ran past its timeout, or starting it raised. */
  datatype RunResult = Exited(code: int, stdout: string, stderr: string) | TimedOut | Raised(message: string)

  /** The paths of `paths` that exist, in order (services.py:176-181). */
  function Existing(paths: seq<string>, present: set<string>): (r: seq<string>)
    ensures forall p :: p in r <==> p in paths && p in present
    ensures |r| <= |paths|
    ensures (forall k :: 0 <= k < |paths| ==> paths[k] in present) ==> r == paths
  {
    if |paths| == 0 then []
    else
      var rest := Existing(paths[1..], present);
      assert forall p :: p in paths <==> p == paths[0] || p in paths[1..];
      assert forall k :: 1 <= k < |paths| ==> paths[k] == paths[1..][k - 1];
      if paths[0] in present then [paths[0]] + rest else rest
  }

  /** The options and peer of the storescu command line: the tool, the
      calling and called AE titles, JPEG baseline proposed, host and port. */
  function StoreHead(tool: string, d: Destinations.Destination): (h: seq<string>)
    ensures |h| == 8 && h[0] == tool && h[2] == CallingAe && h[4] == d.aeTitle
    ensures h[6] == d.host && h[7] == Text.IntToString(d.port)
  {
    [tool, "-aet", CallingAe, "-aec", d.aeTitle, "--propose-jpeg8", d.host, Text.IntToString(d.port)]
  }

  /** The storescu command line (services.py:191-201): the options and the
      peer, then every file. */
  function StoreCommand(tool: string, d: Destinations.Destination, files: seq<string>): (cmd: seq<string>)
    ensures |cmd| == 8 + |files| && cmd[8..] == files
    ensures cmd[0] == tool && cmd[2] == CallingAe && cmd[4] == d.aeTitle
    ensures cmd[6] == d.host && Text.ParsePyInt(cmd[7]) == Ok(d.port)
  {
    var head := StoreHead(tool, d);
    Text.ParsePyIntOfIntToString(d.port);
    assert (head + files)[8..] == files;
    head + files
  }

  datatype TransferOutcome = TransferOutcome(log: TransferLog.Log, returned: bool, command: Option<seq<string>>)

  const NoFiles: string := "No valid files found for transfer"
  const UnknownError: string := "Unknown storescu error"
  const TimeoutMessage: string := "Transfer timed out after 5 minutes"

  /** The log is first saved as `sending` (services.py:171-173). */
  function Started(log: TransferLog.Log): (r: TransferLog.Log)
    ensures r.status == "sending" && !TransferLog.IsCompleted(r)
    ensures r.(status := log.status) == log
  {
    log.(status := "sending")
  }

  /** `transfer_series` (services.py:155-244), for a log that exists: the
      missing files are dropped; with none left the log fails without a
      run; otherwise storescu is run on the rest and its outcome recorded.
      The call returns true exactly when the log ends as `success`. */
  function TransferSeries(log: TransferLog.Log, paths: seq<string>, present: set<string>, d: Destinations.Destination,
                          tool: string, run: RunResult, now: int): (o: TransferOutcome)
    ensures TransferLog.IsCompleted(o.log) && o.log.completedAt == Some(now)
    ensures o.returned <==> o.log.status == "success"
    ensures var files := Existing(paths, present);
            && (files == [] ==> o.command.None? && o.log.status == "failed" && o.log.errorMessage == NoFiles)
            && (files != [] ==> o.command == Some(StoreCommand(tool, d, files)))
            && (o.returned <==> files != [] && run.Exited? && run.code == 0)
            && (o.returned ==> o.log.errorMessage == log.errorMessage
                               && "files_transferred" in o.log.details && "storescu_output" in o.log.details
                               && o.log.details["files_transferred"] == JNum(|files|)
                               && o.log.details["storescu_output"] == JStr(run.stdout))
    ensures Existing(paths, present) != [] && run.Exited? && run.code != 0 ==>
              o.log.errorMessage == (if run.stderr != "" then run.stderr else UnknownError)
              && "storescu_error" in o.log.details && o.log.details["storescu_error"] == JStr(run.stderr)
    ensures Existing(paths, present) != [] && run.TimedOut? ==> o.log.errorMessage == TimeoutMessage
    ensures Existing(paths, present) != [] && run.Raised? ==> o.log.errorMessage == "Transfer error: " + run.message
    ensures o.log.(status := log.status, completedAt := log.completedAt, errorMessage := log.errorMessage, details := log.details) == log
  {
    var started := Started(log);
    var files := Existing(paths, present);
    if files == [] then
      TransferOutcome(TransferLog.MarkCompleted(started, "failed", Some(NoFiles), map[], now), false, None)
    else
      var cmd := StoreCommand(tool, d, files);
      match run
      case Exited(code, out, err) =>
        if code == 0 then
          var extra := map["files_transferred" := JNum(|files|), "storescu_output" := JStr(out)];
          assert "files_transferred" in extra && "storescu_output" in extra;
          TransferOutcome(TransferLog.MarkCompleted(started, "success", None, extra, now), true, Some(cmd))
        else
          var message := if err != "" then err else UnknownError;
          var extra := map["storescu_output" := JStr(out), "storescu_error" := JStr(err)];
          assert "storescu_error" in extra;
          TransferOutcome(TransferLog.MarkCompleted(started, "failed", Some(message), extra, now), false, Some(cmd))
      case TimedOut =>
        TransferOutcome(TransferLog.MarkCompleted(started, "failed", Some(TimeoutMessage), map[], now), false, Some(cmd))
      case Raised(m) =>
        TransferOutcome(TransferLog.MarkCompleted(started, "failed", Some("Transfer error: " + m), map[], now), false, Some(cmd))
  }

  /** A failed transfer always says why: its error message is never empty. */
  lemma FailureIsExplained(log: TransferLog.Log, paths: seq<string>, present: set<string>, d: Destinations.Destination,
                           tool: string, run: RunResult, now: int)
    ensures var o := TransferSeries(log, paths, present, d, tool, run, now);
            !o.returned ==> o.log.status == "failed" && o.log.errorMessage != ""
  {
    var o := TransferSeries(log, paths, present, d, tool, run, now);
    if !o.returned && Existing(paths, present) != [] && run.Raised? {
      assert |"Transfer error: " + run.message| > 0;
    }
  }

  /** The result of a connection test (services.py:295-300). */
  datatype TestResult = TestResult(success: bool, message: string, details: string, responseTime: Option<int>)

  /** The words of the echoscu command line. */
  function EchoLine(d: Destinations.Destination): (cmd: seq<string>)
    ensures |cmd| == 7 && cmd[0] == "echoscu" && cmd[2] == CallingAe && cmd[4] == d.aeTitle && cmd[5] == d.host
    ensures cmd[6] == Text.IntToString(d.port)
  {
    ["echoscu", "-aet", CallingAe, "-aec", d.aeTitle, d.host, Text.IntToString(d.port)]
  }

  /** The echoscu command line (services.py:278-284). */
  function EchoCommand(d: Destinations.Destination): (cmd: seq<string>)
    ensures |cmd| == 7 && cmd[0] == "echoscu" && cmd[2] == CallingAe && cmd[4] == d.aeTitle && cmd[5] == d.host
    ensures Text.ParsePyInt(cmd[6]) == Ok(d.port)
  {
    var cmd := EchoLine(d);
    Text.ParsePyIntOfIntToString(d.port);
    cmd
  }

  /** `test_destination` (services.py:266-315): success exactly when
      echoscu exits with 0, with its standard output as details, or its
      error output on failure; a timeout and a raised error have fixed
      texts; no response time is ever measured. */
  function TestDestination(run: RunResult): (r: TestResult)
    ensures r.success <==> run.Exited? && run.code == 0
    ensures r.responseTime.None?
    ensures run.Exited? ==> r.details == (if run.code == 0 then run.stdout else run.stderr)
    ensures run.Exited? ==> r.message == (if r.success then "Connection successful" else "Connection failed")
    ensures run.TimedOut? ==> r == TestResult(false, "Connection timed out", "No response after 30 seconds", None)
    ensures run.Raised? ==> r == TestResult(false, "Test failed: " + run.message, "", None)
  {
    match run
    case Exited(code, out, err) =>
      var ok := code == 0;
      TestResult(ok, if ok then "Connection successful" else "Connection failed", if ok then out else err, None)
    case TimedOut => TestResult(false, "Connection timed out", "No response after 30 seconds", None)
    case Raised(m) => TestResult(false, "Test failed: " + m, "", None)
  }
}

=== FILE: upload_channel.dfy ===
/** `api.importDicom` (frontend/src/api.js:179-269): the multipart upload
    over a cancelable transport. The transport's events and the refresh
    endpoint are two oracles consumed in order; progress reporting is left
    out. */
module UploadChannel {
  import opened Wrappers
  import opened JsonValue
  import opened Text
  import opened TokenStore
  import AuthClient

  /** How one upload attempt ends: the `load` event with the status and the
      response text parsed as JSON (None when it does not parse), the
      `error` event, or the `abort` event. */
  datatype XhrEvent = Load(status: nat, payload: Option<Json>) | XhrError | XhrAbort

  /** The ways the upload promise rejects. */
  datatype UploadError =
    | ParseFailed                 // 2xx whose body is not JSON
    | Rejected(payload: Json)     // other status with a JSON body
    | StatusFailed(status: nat)   // other status, body not JSON
    | AuthFailed                  // refresh refused or failed
    | NetworkFailed               // `error` event
    | Cancelled                   // `abort` event

  function Message(e: UploadError): string
    requires !e.Rejected?
  {
    match e
    case ParseFailed => "Failed to parse response"
    case StatusFailed(status) => "Upload failed with status " + NatToString(status)
    case AuthFailed => "Authentication failed"
    case NetworkFailed => "Network error during upload"
    case Cancelled => "Upload cancelled"
  }

  /** What goes on the wire: an upload attempt with the `Authorization`
      header it carried, and a refresh call with whether it succeeded. */
  datatype UploadEvent = Upload(authorization: Option<string>) | Refresh(token: string, succeeded: bool)

  datatype UploadOutcome = UploadOutcome(result: Result<Json, UploadError>, tokens: Tokens, log: seq<UploadEvent>)

  function AuthHeader(t: Tokens): Option<string> {
    if t.access != "" then Some("Bearer " + t.access) else None
  }

  /** The refresh exchange of the upload path: it succeeds only with a 2xx
      reply whose body parses to something other than `null`; a failed
      connection, an unparseable body, or reading `data.access` of `null`
      (which throws) is caught by the same handler as a refusal. */
  function RefreshResult(reply: AuthClient.Reply): (r: Option<Json>)
    ensures r.Some? <==> reply.Response? && AuthClient.IsOk(reply.status) && reply.payload.Some? && reply.payload.value != JNull
    ensures r.Some? ==> r == reply.payload
  {
    match reply
    case Response(status, Some(data)) => if AuthClient.IsOk(status) && data != JNull then Some(data) else None
    case _ => None
  }

  /** The outcome of a finished attempt that is not a retried 401. */
  function Settle(status: nat, payload: Option<Json>): (r: Result<Json, UploadError>)
    ensures 200 <= status < 300 ==> (r.Ok? <==> payload.Some?) && (payload.None? ==> r == Err(ParseFailed))
    ensures !(200 <= status < 300) ==> r.Err?
    ensures !(200 <= status < 300) && payload.Some? ==> r == Err(Rejected(payload.value))
    ensures !(200 <= status < 300) && payload.None? ==> r == Err(StatusFailed(status))
  {
    if 200 <= status < 300 then
      (if payload.Some? then Ok(payload.value) else Err(ParseFailed))
    else if payload.Some? then Err(Rejected(payload.value))
    else Err(StatusFailed(status))
  }

  /** `api.importDicom` as written: after every successful refresh the whole
      upload is started again by a granted call, with no retry limit. An
      exhausted transport oracle ends as a network error. */
  function ImportDicom(t: Tokens, xhrs: seq<XhrEvent>, refreshes: seq<AuthClient.Reply>): (o: UploadOutcome)
    ensures |o.log| >= 1 && o.log[0] == Upload(AuthHeader(t))
    ensures |xhrs| > 0 && xhrs[0].XhrAbort? ==> o.result == Err(Cancelled) && o.tokens == t
    ensures |xhrs| > 0 && xhrs[0].XhrError? ==> o.result == Err(NetworkFailed) && o.tokens == t
    ensures |xhrs| > 0 && xhrs[0].Load? && !(xhrs[0].status == 401 && t.refresh != "")
            ==> o == UploadOutcome(Settle(xhrs[0].status, xhrs[0].payload), t, [Upload(AuthHeader(t))])
    ensures o.result == Err(AuthFailed) ==> o.tokens.access == "" && o.tokens.refresh == ""
    // a 401 with a refresh token in hand: a refresh that fails or is
    // refused ends the upload, clearing the store ...
    ensures |xhrs| > 0 && xhrs[0].Load? && xhrs[0].status == 401 && t.refresh != ""
            && (|refreshes| == 0 || RefreshResult(refreshes[0]).None?)
            ==> o == UploadOutcome(Err(AuthFailed), ClearTokens(t), [Upload(AuthHeader(t)), Refresh(t.refresh, false)])
    // ... and a granted one is followed by the upload again, carrying the
    // new access token
    ensures |xhrs| > 0 && xhrs[0].Load? && xhrs[0].status == 401 && t.refresh != ""
            && |refreshes| > 0 && RefreshResult(refreshes[0]).Some?
            ==> && |o.log| >= 3
                && o.log[1] == Refresh(t.refresh, true)
                && o.log[2] == Upload(AuthHeader(SetTokens(t, AuthClient.AccessOf(RefreshResult(refreshes[0]).value), "")))
    decreases |xhrs|
  {
    var sent := Upload(AuthHeader(t));
    if |xhrs| == 0 then UploadOutcome(Err(NetworkFailed), t, [sent])
    else match xhrs[0]
      case XhrAbort => UploadOutcome(Err(Cancelled), t, [sent])
      case XhrError => UploadOutcome(Err(NetworkFailed), t, [sent])
      case Load(status, payload) =>
        if status == 401 && t.refresh != "" then
          var refreshed := if |refreshes| == 0 then None else RefreshResult(refreshes[0]);
          match refreshed
          case None => UploadOutcome(Err(AuthFailed), ClearTokens(t), [sent, Refresh(t.refresh, false)])
          case Some(data) =>
            var again := ImportDicom(SetTokens(t, AuthClient.AccessOf(data), ""), xhrs[1..], refreshes[1..]);
            again.(log := [sent, Refresh(t.refresh, true)] + again.log)
        else UploadOutcome(Settle(status, payload), t, [sent])
  }

  /** Every upload attempt after the first is immediately preceded by
      exactly one successful refresh. */
  ghost predicate RetriesFollowRefreshes(log: seq<UploadEvent>) {
    && |log| >= 1 && log[0].Upload?
    && (forall i :: 0 < i < |log| && log[i].Upload? ==> log[i - 1].Refresh? && log[i - 1].succeeded)
    && (forall i :: 0 <= i < |log| && log[i].Refresh? ==> i > 0 && log[i - 1].Upload?)
  }

  function CountUploads(log: seq<UploadEvent>): nat {
    if |log| == 0 then 0 else (if log[0].Upload? then 1 else 0) + CountUploads(log[1..])
  }

  function CountRefreshes(log: seq<UploadEvent>): nat {
    if |log| == 0 then 0 else (if log[0].Refresh? then 1 else 0) + CountRefreshes(log[1..])
  }

  lemma {:induction false} CountsOfConcat(a: seq<UploadEvent>, b: seq<UploadEvent>)
    ensures CountUploads(a + b) == CountUploads(a) + CountUploads(b)
    ensures CountRefreshes(a + b) == CountRefreshes(a) + CountRefreshes(b)
    decreases |a|
  {
    if |a| == 0 {
      assert a + b == b;
    } else {
      assert (a + b)[1..] == a[1..] + b;
      CountsOfConcat(a[1..], b);
    }
  }

  lemma CountsOfPrefix(a: UploadEvent, b: UploadEvent, rest: seq<UploadEvent>)
    ensures CountUploads([a, b] + rest) == CountUploads([a, b]) + CountUploads(rest)
    ensures CountRefreshes([a, b] + rest) == CountRefreshes([a, b]) + CountRefreshes(rest)
  {
    CountsOfConcat([a, b], rest);
  }

  /** The protocol as written: the upload is retried once per successful
      refresh, with no bound other than the server's patience. Every
      attempt but the first follows one successful refresh, the number of
      attempts is one more than the number of successful refreshes, and the
      number of refreshes equals the number of refused attempts that found a
      refresh token. */
  lemma {:induction false} ImportDicomRetries(t: Tokens, xhrs: seq<XhrEvent>, refreshes: seq<AuthClient.Reply>)
    ensures var o := ImportDicom(t, xhrs, refreshes);
            && RetriesFollowRefreshes(o.log)
            && CountUploads(o.log) <= |xhrs| + 1
            && CountRefreshes(o.log) <= CountUploads(o.log)
            && (o.result.Ok? ==> CountUploads(o.log) == CountRefreshes(o.log) + 1)
    decreases |xhrs|
  {
    var o := ImportDicom(t, xhrs, refreshes);
    var sent := Upload(AuthHeader(t));
    if |xhrs| > 0 && xhrs[0].Load? && xhrs[0].status == 401 && t.refresh != "" {
      var refreshed := if |refreshes| == 0 then None else RefreshResult(refreshes[0]);
      if refreshed.Some? {
        var t2 := SetTokens(t, AuthClient.AccessOf(refreshed.value), "");
        var again := ImportDicom(t2, xhrs[1..], refreshes[1..]);
        ImportDicomRetries(t2, xhrs[1..], refreshes[1..]);
        var head := [sent, Refresh(t.refresh, true)];
        assert o.log == head + again.log;
        CountsOfPrefix(sent, Refresh(t.refresh, true), again.log);
        assert head[1..][1..] == [];
        forall i | 0 < i < |o.log| && o.log[i].Upload?
          ensures o.log[i - 1].Refresh? && o.log[i - 1].succeeded
        {
          if i > 2 {
            assert o.log[i] == again.log[i - 2];
          }
        }
        forall i | 0 <= i < |o.log| && o.log[i].Refresh?
          ensures i > 0 && o.log[i - 1].Upload?
        {
          if i >= 2 {
            assert o.log[i] == again.log[i - 2];
          }
        }
      } else {
        assert o.log == [sent] + [Refresh(t.refresh, false)];
        CountsOfConcat([sent], [Refresh(t.refresh, false)]);
        assert [sent][1..] == [] && [Refresh(t.refresh, false)][1..] == [];
      }
    } else {
      assert o.log == [sent];
    }
  }

  /** The loop is unbounded: a server that refuses every attempt while the
      refresh endpoint keeps succeeding gets `n + 1` full uploads for `n`
      refreshes, whatever `n` is. */
  lemma {:induction false} EveryRefusalIsReuploaded(t: Tokens, n: nat, granted: Json, last: XhrEvent)
    requires t.refresh != ""
    requires AuthClient.AccessOf(granted) != ""
    requires last.Load? && last.status != 401
    ensures var xhrs := seq(n, _ => Load(401, None)) + [last];
            var refreshes := seq(n, _ => AuthClient.Response(200, Some(granted)));
            var o := ImportDicom(t, xhrs, refreshes);
            CountUploads(o.log) == n + 1 && CountRefreshes(o.log) == n
    decreases n
  {
    var xhrs := seq(n, _ => Load(401, None)) + [last];
    var refreshes := seq(n, _ => AuthClient.Response(200, Some(granted)));
    var o := ImportDicom(t, xhrs, refreshes);
    if n == 0 {
      assert xhrs == [last];
      assert o.log == [Upload(AuthHeader(t))];
    } else {
      var t2 := SetTokens(t, AuthClient.AccessOf(granted), "");
      assert t2.refresh == t.refresh;
      assert xhrs[1..] == seq(n - 1, _ => Load(401, None)) + [last];
      assert refreshes[1..] == seq(n - 1, _ => AuthClient.Response(200, Some(granted)));
      RefusedThenGranted(t, xhrs, refreshes, granted);
      GrantedCounts(o.log, Upload(AuthHeader(t)), Refresh(t.refresh, true), ImportDicom(t2, xhrs[1..], refreshes[1..]).log);
      EveryRefusalIsReuploaded(t2, n - 1, granted, last);
    }
  }

  /** An attempt and a refresh ahead of a log add one of each. */
  lemma GrantedCounts(log: seq<UploadEvent>, first: UploadEvent, refresh: UploadEvent, rest: seq<UploadEvent>)
    requires first.Upload? && refresh.Refresh? && log == [first, refresh] + rest
    ensures CountUploads(log) == CountUploads(rest) + 1 && CountRefreshes(log) == CountRefreshes(rest) + 1
  {
    CountsOfPrefix(first, refresh, rest);
    assert [first, refresh][1..][1..] == [];
  }

  /** A refused attempt followed by a granted refresh is the attempt, the
      refresh, and then the whole upload again with the new access token. */
  lemma RefusedThenGranted(t: Tokens, xhrs: seq<XhrEvent>, refreshes: seq<AuthClient.Reply>, granted: Json)
    requires |xhrs| > 0 && xhrs[0] == Load(401, None) && t.refresh != ""
    requires |refreshes| > 0 && refreshes[0] == AuthClient.Response(200, Some(granted)) && granted != JNull
    ensures ImportDicom(t, xhrs, refreshes).log
            == [Upload(AuthHeader(t)), Refresh(t.refresh, true)]
               + ImportDicom(SetTokens(t, AuthClient.AccessOf(granted), ""), xhrs[1..], refreshes[1..]).log
  {
    assert RefreshResult(refreshes[0]) == Some(granted);
  }

  /** A refused attempt whose refresh succeeds with a `null` body is not
      retried: reading the token of `null` throws, the tokens are cleared
      and the upload rejects as an authentication failure. */
  lemma NullRefreshRejects(t: Tokens, xhrs: seq<XhrEvent>, refreshes: seq<AuthClient.Reply>)
    requires |xhrs| > 0 && xhrs[0].Load? && xhrs[0].status == 401 && t.refresh != ""
    requires |refreshes| > 0 && refreshes[0].Response? && AuthClient.IsOk(refreshes[0].status)
    requires refreshes[0].payload == Some(JNull)
    ensures ImportDicom(t, xhrs, refreshes) == UploadOutcome(Err(AuthFailed), ClearTokens(t), [Upload(AuthHeader(t)), Refresh(t.refresh, false)])
  {
  }

  /** The upload with the one-shot contract the request client keeps: a
      refused attempt is retried once after a successful refresh, and a
      second refusal settles as any other status. */
  function ImportDicomOnce(t: Tokens, retry: bool, xhrs: seq<XhrEvent>, refreshes: seq<AuthClient.Reply>): (o: UploadOutcome)
    ensures |o.log| >= 1 && o.log[0] == Upload(AuthHeader(t))
    ensures !retry ==> |o.log| == 1
    decreases if retry then 1 else 0
  {
    var sent := Upload(AuthHeader(t));
    if |xhrs| == 0 then UploadOutcome(Err(NetworkFailed), t, [sent])
    else match xhrs[0]
      case XhrAbort => UploadOutcome(Err(Cancelled), t, [sent])
      case XhrError => UploadOutcome(Err(NetworkFailed), t, [sent])
      case Load(status, payload) =>
        if status == 401 && t.refresh != "" && retry then
          var refreshed := if |refreshes| == 0 then None else RefreshResult(refreshes[0]);
          match refreshed
          case None => UploadOutcome(Err(AuthFailed), ClearTokens(t), [sent, Refresh(t.refresh, false)])
          case Some(data) =>
            var again := ImportDicomOnce(SetTokens(t, AuthClient.AccessOf(data), ""), false, xhrs[1..], refreshes[1..]);
            again.(log := [sent, Refresh(t.refresh, true)] + again.log)
        else UploadOutcome(Settle(status, payload), t, [sent])
  }

  /** With the retry flag, at most one refresh and two attempts per upload,
      whatever the server answers. */
  lemma ImportDicomOnceIsBounded(t: Tokens, xhrs: seq<XhrEvent>, refreshes: seq<AuthClient.Reply>)
    ensures var o := ImportDicomOnce(t, true, xhrs, refreshes);
            RetriesFollowRefreshes(o.log) && CountRefreshes(o.log) <= 1 && CountUploads(o.log) <= 2
  {
    var o := ImportDicomOnce(t, true, xhrs, refreshes);
    var sent := Upload(AuthHeader(t));
    if |xhrs| > 0 && xhrs[0].Load? && xhrs[0].status == 401 && t.refresh != "" {
      var refreshed := if |refreshes| == 0 then None else RefreshResult(refreshes[0]);
      if refreshed.Some? {
        var t2 := SetTokens(t, AuthClient.AccessOf(refreshed.value), "");
        var again := ImportDicomOnce(t2, false, xhrs[1..], refreshes[1..]);
        assert |again.log| == 1 && again.log[0].Upload?;
        assert o.log == [sent] + [Refresh(t.refresh, true)] + [again.log[0]];
        CountsOfConcat([sent] + [Refresh(t.refresh, true)], [again.log[0]]);
        CountsOfConcat([sent], [Refresh(t.refresh, true)]);
        assert [sent][1..] == [] && [Refresh(t.refresh, true)][1..] == [] && [again.log[0]][1..] == [];
      } else {
        assert o.log == [sent] + [Refresh(t.refresh, false)];
        CountsOfConcat([sent], [Refresh(t.refresh, false)]);
        assert [sent][1..] == [] && [Refresh(t.refresh, false)][1..] == [];
      }
    } else {
      assert o.log == [sent];
    }
  }
}

=== FILE: volume_chart.dfy ===
/** The transfer-volume chart (frontend/src/components/TransferVolumeChart.jsx):
    the bytes of the transfer logs summed per day and listed by day. The
    day a log falls on is taken as given. */
module VolumeChart {
  import opened Wrappers
  import Text
  import Sorting

  /** A log as the chart reads it: its day (`YYYY-MM-DD`) and
      `bytes_transferred`, `None` when null or missing. */
  datatype Log = Log(day: string, bytes: Option<int>)

  /** One point of the chart. */
  datatype Point = Point(date: string, bytes: int)

  function DateOf(p: Point): string {
    p.date
  }

  /** `!l.bytes_transferred` skips null, missing and zero byte counts
      (TransferVolumeChart.jsx:19). */
  predicate Counted(l: Log) {
    l.bytes.Some? && l.bytes.value != 0
  }

  // ---------------------------------------------------------------------
  // The reference: what the chart should show, read off the logs

  /** Some counted log falls on day `d`. */
  predicate HasDay(logs: seq<Log>, d: string) {
    exists k :: 0 <= k < |logs| && Counted(logs[k]) && logs[k].day == d
  }

  /** The bytes of the counted logs of day `d`. */
  function DaySum(logs: seq<Log>, d: string): int {
    if |logs| == 0 then 0
    else
      var l := logs[|logs| - 1];
      DaySum(logs[..|logs| - 1], d) + (if Counted(l) && l.day == d then l.bytes.value else 0)
  }

  /** The bytes of all counted logs. */
  function Total(logs: seq<Log>): int {
    if |logs| == 0 then 0
    else
      var l := logs[|logs| - 1];
      Total(logs[..|logs| - 1]) + (if Counted(l) then l.bytes.value else 0)
  }

  /** Some log is counted, so the chart has something to show. */
  predicate AnyCounted(logs: seq<Log>) {
    exists k :: 0 <= k < |logs| && Counted(logs[k])
  }

  // ---------------------------------------------------------------------
  // Reading a list of points

  function BytesOf(p: Point): int {
    p.bytes
  }

  predicate HasDate(ps: seq<Point>, d: string) {
    Sorting.HasKey(ps, DateOf, d)
  }

  predicate DistinctDates(ps: seq<Point>) {
    Sorting.DistinctKeys(ps, DateOf)
  }

  /** The bytes shown for day `d`; 0 when the day has no point. */
  function Lookup(ps: seq<Point>, d: string): int {
    if |ps| == 0 then 0
    else if ps[0].date == d then ps[0].bytes
    else Lookup(ps[1..], d)
  }

  function SumPoints(ps: seq<Point>): int {
    Sorting.SumBy(ps, BytesOf)
  }

  /** Two lists with the same day at every position show the same days. */
  lemma SameDates(a: seq<Point>, b: seq<Point>)
    requires |a| == |b| && forall k :: 0 <= k < |a| ==> a[k].date == b[k].date
    ensures forall d :: HasDate(a, d) <==> HasDate(b, d)
    ensures DistinctDates(a) <==> DistinctDates(b)
  {
    assert forall k :: 0 <= k < |a| ==> DateOf(a[k]) == DateOf(b[k]);
    forall d | HasDate(a, d) ensures HasDate(b, d) {
      var k :| 0 <= k < |a| && DateOf(a[k]) == d;
    }
    forall d | HasDate(b, d) ensures HasDate(a, d) {
      var k :| 0 <= k < |b| && DateOf(b[k]) == d;
    }
  }

  // ---------------------------------------------------------------------
  // The aggregation

  /** `map[day] = (map[day] || 0) + bytes` on the entries of `map` in
      insertion order: the day's entry grows, or a new one is appended. */
  function AddTo(acc: seq<Point>, day: string, b: int): (r: seq<Point>)
    ensures forall d :: HasDate(r, d) <==> HasDate(acc, d) || d == day
    ensures DistinctDates(acc) ==> DistinctDates(r)
    ensures forall d :: Lookup(r, d) == Lookup(acc, d) + (if d == day then b else 0)
    ensures SumPoints(r) == SumPoints(acc) + b
    decreases |acc|
  {
    if |acc| == 0 then
      var r := [Point(day, b)];
      assert DateOf(r[0]) == day;
      Sorting.HasKeyCons(r[0], [], DateOf);
      Sorting.DistinctKeysCons(r[0], [], DateOf);
      assert r == [r[0]] + [];
      r
    else if acc[0].date == day then
      var r := [acc[0].(bytes := acc[0].bytes + b)] + acc[1..];
      assert r[1..] == acc[1..];
      SameDates(acc, r);
      r
    else
      var tail := AddTo(acc[1..], day, b);
      AddToBehindDates(acc, tail, day);
      AddToBehindBytes(acc, tail, day, b);
      [acc[0]] + tail
  }

  /** Adding behind a first point of another day keeps that point, so the
      days shown and their distinctness follow from the rest. */
  lemma AddToBehindDates(acc: seq<Point>, tail: seq<Point>, day: string)
    requires |acc| > 0 && acc[0].date != day
    requires forall d :: HasDate(tail, d) <==> HasDate(acc[1..], d) || d == day
    requires DistinctDates(acc[1..]) ==> DistinctDates(tail)
    ensures forall d :: HasDate([acc[0]] + tail, d) <==> HasDate(acc, d) || d == day
    ensures DistinctDates(acc) ==> DistinctDates([acc[0]] + tail)
  {
    var x, rest := acc[0], acc[1..];
    var r := [x] + tail;
    assert acc == [x] + rest;
    assert DateOf(x) == x.date;
    Sorting.HasKeyCons(x, tail, DateOf);
    Sorting.HasKeyCons(x, rest, DateOf);
    Sorting.DistinctKeysCons(x, tail, DateOf);
    Sorting.DistinctKeysCons(x, rest, DateOf);
    forall d ensures HasDate(r, d) <==> HasDate(acc, d) || d == day {
      assert HasDate(r, d) <==> d == x.date || HasDate(tail, d);
      assert HasDate(acc, d) <==> d == x.date || HasDate(rest, d);
    }
    if DistinctDates(acc) {
      assert !HasDate(rest, x.date) && DistinctDates(rest);
      assert !HasDate(tail, x.date);
    }
  }

  /** ... and so do the bytes per day and their sum. */
  lemma AddToBehindBytes(acc: seq<Point>, tail: seq<Point>, day: string, b: int)
    requires |acc| > 0 && acc[0].date != day
    requires forall d :: Lookup(tail, d) == Lookup(acc[1..], d) + (if d == day then b else 0)
    requires SumPoints(tail) == SumPoints(acc[1..]) + b
    ensures forall d :: Lookup([acc[0]] + tail, d) == Lookup(acc, d) + (if d == day then b else 0)
    ensures SumPoints([acc[0]] + tail) == SumPoints(acc) + b
  {
    var r := [acc[0]] + tail;
    assert r[0] == acc[0] && r[1..] == tail;
  }

  /** The `forEach` over the logs (TransferVolumeChart.jsx:18-22), in
      order: one entry per day that has a counted log, holding that day's
      total, the entries adding up to the total of the counted logs. */
  function Aggregate(logs: seq<Log>): (r: seq<Point>)
    ensures DistinctDates(r)
    ensures forall d :: HasDate(r, d) <==> HasDay(logs, d)
    ensures forall d :: Lookup(r, d) == DaySum(logs, d)
    ensures SumPoints(r) == Total(logs)
  {
    if |logs| == 0 then []
    else
      var front := logs[..|logs| - 1];
      var l := logs[|logs| - 1];
      var acc := Aggregate(front);
      assert forall k :: 0 <= k < |front| ==> front[k] == logs[k];
      assert forall d :: HasDay(front, d) ==> HasDay(logs, d) by {
        forall d | HasDay(front, d) ensures HasDay(logs, d) {
          var k :| 0 <= k < |front| && Counted(front[k]) && front[k].day == d;
          assert logs[k] == front[k];
        }
      }
      assert forall d :: HasDay(logs, d) ==> HasDay(front, d) || (Counted(l) && l.day == d) by {
        forall d | HasDay(logs, d) && !(Counted(l) && l.day == d) ensures HasDay(front, d) {
          var k :| 0 <= k < |logs| && Counted(logs[k]) && logs[k].day == d;
          assert k < |front|;
        }
      }
      if Counted(l) then
        assert HasDay(logs, l.day) by { assert logs[|logs| - 1] == l; }
        AddTo(acc, l.day, l.bytes.value)
      else acc
  }

  // ---------------------------------------------------------------------
  // The sort by day

  lemma {:induction false} InsertLookup(x: Point, ys: seq<Point>, lt: (string, string) -> bool)
    requires !HasDate(ys, x.date)
    ensures forall d :: Lookup(Sorting.Insert(x, ys, DateOf, lt), d) == if d == x.date then x.bytes else Lookup(ys, d)
    decreases |ys|
  {
    if |ys| > 0 && lt(DateOf(ys[0]), DateOf(x)) {
      var rest := Sorting.Insert(x, ys[1..], DateOf, lt);
      var r := [ys[0]] + rest;
      assert r[1..] == rest;
      assert ys == [ys[0]] + ys[1..];
      Sorting.HasKeyCons(ys[0], ys[1..], DateOf);
      InsertLookup(x, ys[1..], lt);
    } else if |ys| > 0 {
      var r := [x] + ys;
      assert r[1..] == ys;
    }
  }

  /** Sorting distinct days keeps each day's total. */
  lemma {:induction false} SortKeepsTotals(xs: seq<Point>, lt: (string, string) -> bool)
    requires DistinctDates(xs)
    ensures forall d :: Lookup(Sorting.SortBy(xs, DateOf, lt), d) == Lookup(xs, d)
    decreases |xs|
  {
    if |xs| > 0 {
      var tail := Sorting.SortBy(xs[1..], DateOf, lt);
      assert Sorting.SortBy(xs, DateOf, lt) == Sorting.Insert(xs[0], tail, DateOf, lt);
      assert xs == [xs[0]] + xs[1..];
      Sorting.DistinctKeysCons(xs[0], xs[1..], DateOf);
      SortKeepsTotals(xs[1..], lt);
      Sorting.SortByKeepsKeys(xs[1..], DateOf, lt, DateOf);
      assert !HasDate(tail, xs[0].date);
      InsertLookup(xs[0], tail, lt);
    }
  }

  /** In order and without a repeated day is strictly increasing. */
  lemma StrictlyByDate(r: seq<Point>)
    requires Sorting.SortedBy(r, DateOf, Sorting.StringLess())
    requires DistinctDates(r)
    ensures forall i, j :: 0 <= i < j < |r| ==> Text.Less(r[i].date, r[j].date)
  {
    Sorting.StringLessIsTotal();
    forall i, j | 0 <= i < j < |r| ensures Text.Less(r[i].date, r[j].date) {
      assert !Sorting.StringLess()(DateOf(r[j]), DateOf(r[i]));
      assert DateOf(r[i]) != DateOf(r[j]);
    }
  }

  /** The chart's data (TransferVolumeChart.jsx:16-26): the per-day totals
      sorted by day. Each day appears once, in strictly increasing order;
      a day is shown exactly when a counted log falls on it, with that
      day's total; the points add up to the bytes of all counted logs; and
      the list is empty, so the chart renders nothing, exactly when no log
      is counted. */
  function Chart(logs: seq<Log>): (r: seq<Point>)
    ensures forall i, j :: 0 <= i < j < |r| ==> Text.Less(r[i].date, r[j].date)
    ensures forall d :: HasDate(r, d) <==> HasDay(logs, d)
    ensures forall d :: Lookup(r, d) == DaySum(logs, d)
    ensures SumPoints(r) == Total(logs)
    ensures |r| > 0 <==> AnyCounted(logs)
  {
    var acc := Aggregate(logs);
    var r := Sorting.SortBy(acc, DateOf, Sorting.StringLess());
    Sorting.SortByKeepsSum(acc, DateOf, Sorting.StringLess(), BytesOf);
    Sorting.SortByKeepsKeys(acc, DateOf, Sorting.StringLess(), DateOf);
    Sorting.SortByKeepsDistinct(acc, DateOf, Sorting.StringLess(), DateOf);
    SortKeepsTotals(acc, Sorting.StringLess());
    Sorting.StringLessIsTotal();
    Sorting.SortBySorted(acc, DateOf, Sorting.StringLess());
    StrictlyByDate(r);
    assert |r| > 0 <==> AnyCounted(logs) by {
      if AnyCounted(logs) {
        var k :| 0 <= k < |logs| && Counted(logs[k]);
        assert HasDay(logs, logs[k].day);
        assert HasDate(r, logs[k].day);
        var i :| 0 <= i < |r| && DateOf(r[i]) == logs[k].day;
      }
      if |r| > 0 {
        assert DateOf(r[0]) == r[0].date;
        assert HasDate(r, r[0].date);
        assert HasDay(logs, r[0].date);
        var k :| 0 <= k < |logs| && Counted(logs[k]) && logs[k].day == r[0].date;
      }
    }
    r
  }
}

=== FILE: wrappers.dfy ===
/** Failure-carrying values shared by every module of the model. */
module Wrappers {

  /** A value that may be absent (JavaScript `undefined`/`null`, Python `None`). */
  datatype Option<+T> = None | Some(value: T) {
    function GetOr(default: T): T {
      match this
      case Some(v) => v
      case None => default
    }
  }

  /** The outcome of an operation that can raise or reject. */
  datatype Result<+R, +E> = Ok(value: R) | Err(error: E) {
    predicate IsFailure() {
      Err?
    }

    function PropagateFailure<U>(): Result<U, E>
      requires Err?
    {
      Err(error)
    }

    function Extract(): R
      requires Ok?
    {
      value
    }
  }
}
